=== FILE: README.md ===
# MuPhFInCE case preparation and post-processing, modelled in Dafny

MuPhFInCE is a collection of Python 2 scripts around OpenFOAM studies of thin liquid films, rivulets and droplets on plates. The scripts build case directories from templates, generate `blockMeshDict` topologies, write initial and inlet conditions, watch solver logs and collect post-processed results. This project models the deterministic core of those scripts. Every file is a `seq<string>` of lines, and the model proves properties of the pure transformations applied to those lines:

- **Template patching** (`Patch`, `CaseFreiberg`, `CaseFilm`, `CaseMapped`, `CaseDroplet`, `CaseCommon`).
  - The base operation finds a marker, keeps the text before its first occurrence and appends marker, separator, value and terminator.
  - Variants:
    - occurrence-indexed values;
    - a patch active only inside a `PIMPLE` block;
    - whole-line replacement;
    - replacement that drops the marker;
    - matching only at column 0;
    - truncation at the first match;
    - splicing generated lines after a keyword line.
  - The case constructors use these for every dictionary and script they touch.
- **Lookup tables with fallbacks** (`FluidData`, the server table in `LogMonitor`, the mesh-size selector in `CaseFreiberg`).
- **blockMeshDict generators** (`MeshCommon`, `MeshFreiberg`, `MeshPerforated`, `MeshFilm`, `MeshTextured`).
  - Vertex lists are built by appending and offsetting.
  - Label groups are consecutive index ranges that partition the vertex labels.
  - Hex blocks are 8-label tuples.
  - There are per-direction cell-count and grading vectors.
- **Initial and inlet conditions** (`Geometry`, `InitialCondition`, `InletBC`).
  - The circle-segment cylinder and the boxes of `setFieldsDict`.
  - The regions splice.
  - The sampled inlet film profile, its trapezoid cross-section and the truncate-and-append rewrite of the boundary-condition files.
- **Log scanning** (`LogReader`, `LogMonitor`).
  - Backward and forward marker scans, with the clock-time polling loop as a fold over log snapshots.
  - Header and series extraction, execution-time vectors, tail extraction by the `PIMPLE: iteration 1` marker, and residual parsing.
- **Result lists** (`ExtractVec`, `RivuletVecs`, `SaveData`, `TexturedPost`).
  - The filter-and-stable-sort of exported CSV rows.
  - Pairwise width sums, ratios and grouping.
  - Case-name parsing, the scalar-file row update, and the output tables.

Where the source fails at run time (an index error, an unbound name, a failed tuple unpack), the model returns `None` from `Wrappers.Option`. Floating-point rendering and parsing (`repr`, `%5.5e`, `float`) are function parameters. Transcendental functions (`sqrt`, `cosh`, `sinh`, `tan`, `round`) are function parameters too. Where a property needs something of them, such as `cosh` being even, that is a precondition. Where a source script divides by a quantity that may be zero, the model either requires it to be nonzero or, where the script's outcome is an error, returns `None`.

## Model

| member | source | states |
|---|---|---|
| Patch.PatchLine | 05_freibergExpSetUp/00_Scripts/caseConstructorV9.py:290-294 | A line without the marker is unchanged. A line with it becomes the text before the marker's first occurrence, then the marker, then the tail. |
| Patch.FirstOccurrenceKept | 05_freibergExpSetUp/00_Scripts/caseConstructorV9.py:290-294 | After patching, the marker's first occurrence is still at the same column, and the text before it is the original text. |
| Patch.PatchLineIdempotent | 05_freibergExpSetUp/00_Scripts/caseConstructorV9.py:290-294 | Patching a line twice with the same marker and value gives the same line as patching it once. |
| Patch.PatchLineAtColumn0 | freadLogRPFF.py:89-98 | A line that starts with the marker becomes exactly marker + tail. |
| Patch.PatchAll | 05_freibergExpSetUp/00_Scripts/caseConstructorV9.py:290-294 | The line count is unchanged. Each line is patched independently. Lines without the marker are unchanged, and lines with it keep their prefix and get marker + tail. |
| Patch.PatchAllIdempotent | 05_freibergExpSetUp/00_Scripts/caseConstructorV9.py:290-294 | Re-applying the single-marker patch with the same value changes nothing. |
| Patch.PatchEach | 05_freibergExpSetUp/00_Scripts/caseConstructorV9.py:351-355 | Patching marker after marker keeps the line count. It leaves every line that mentions none of the markers unchanged. |
| Patch.PatchEachOnlyMarker | 05_freibergExpSetUp/00_Scripts/caseConstructorV9.py:351-355 | If a line mentions only marker k (before and after that patch), the multi-marker pass gives the single patch for marker k. |
| Patch.PatchEachKeepsPrefix | 05_freibergExpSetUp/00_Scripts/caseConstructorV9.py:351-355 | A line holding marker k and no earlier marker keeps its text before the marker. The marker then follows, carrying edit k's tail, provided that result holds no later marker. |
| Patch.PatchEachValues | 05_freibergExpSetUp/00_Scripts/caseConstructorV9.py:351-355 | A line that edit k decides (no earlier marker in it, and no later marker once edit k has run) comes out as the single patch of marker k. The line count is kept. |
| Patch.PatchIndexed | 05_freibergExpSetUp/00_Scripts/caseConstructorV9.py:380-386 | Fails exactly when more lines match than there are values. Otherwise the k-th matching line in file order gets the k-th value, and non-matching lines are unchanged. |
| Patch.IndexedStep | 05_freibergExpSetUp/00_Scripts/caseConstructorV9.py:380-386 | One more line extends the occurrence-indexed result by exactly that line's patch. The counter increases only on a match. |
| Patch.CountMatchesBound | 05_freibergExpSetUp/00_Scripts/caseConstructorV9.py:380-386 | The number of matching lines is at most the number of lines, and it is zero when no line matches. |
| Patch.PatchIndexedEach | 05_freibergExpSetUp/00_Scripts/caseConstructor_rPFF.py:266-272 | The line count is kept and lines holding none of the markers are unchanged. If the first marker matches more lines than it has values, the whole patch fails. PatchIndexedEachFails and PatchIndexedEachSeparated state the failure condition and the values for every marker. |
| Patch.PatchIndexedEachFails | 05_freibergExpSetUp/00_Scripts/caseConstructor_rPFF.py:266-272 | On a template whose markers do not interfere, the whole patch fails exactly when some marker matches more lines than it has values. |
| Patch.PatchIndexedEachSeparated | 05_freibergExpSetUp/00_Scripts/caseConstructor_rPFF.py:266-272 | On such a template, when the patch succeeds, the c-th line holding marker a gets marker a's c-th value. The counter c starts at 0 for each marker. |
| Patch.ScopedPass | 05_freibergExpSetUp/00_Scripts/caseConstructorV9.py:503-513 | The PIMPLE-scoped pass keeps the number of lines. |
| Patch.ScopedPassWindow | 05_freibergExpSetUp/00_Scripts/caseConstructorV9.py:503-513 | Line i is patched exactly when it lies in the window from a line containing `PIMPLE` through the next line starting with `}`. Every other line is unchanged. |
| Patch.ScopedPassWindowFrom | 05_freibergExpSetUp/00_Scripts/caseConstructorV9.py:503-513 | The same window characterisation for a pass started with the scope already open or closed. |
| Patch.ScopedEach | 05_freibergExpSetUp/00_Scripts/caseConstructorV9.py:503-513 | The loop over the PIMPLE markers keeps the line count. ScopedEachWindow states what each line becomes. |
| Patch.ScopedEachWindow | 05_freibergExpSetUp/00_Scripts/caseConstructorV9.py:503-513 | On a template whose marker lines hold no other marker and no `PIMPLE`, before or after their edit: a line inside a PIMPLE block holding marker k gets marker k's value. Every line outside the block, or holding no marker, is unchanged. |
| Patch.ScopedEachKeepsAbove | 05_freibergExpSetUp/00_Scripts/caseConstructorV9.py:503-513 | Lines above the first `PIMPLE` line are never changed by the scoped passes. |
| Patch.ReplaceWhole | 05_freibergExpSetUp/00_Scripts/caseConstructor_rPFF.py:225-230 | Each line containing the marker is replaced by the new line, losing its prefix. All other lines are unchanged. |
| Patch.RewriteLine | 04_perforatedPlate/10_noTextureUniformPerforation/00_Scripts/caseConstructorMappedV1.py:200-204 | The marker-dropping rewrite keeps the text before the marker, writes the replacement instead of the marker, and leaves lines without the marker unchanged. |
| Patch.PatchIsRewrite | 05_freibergExpSetUp/00_Scripts/caseConstructorV9.py:290-294 | The ordinary patch is the marker-dropping rewrite whose replacement starts with the marker itself. |
| Patch.RewriteAll | 04_perforatedPlate/10_noTextureUniformPerforation/00_Scripts/caseConstructorMappedV1.py:200-204 | Lines are rewritten one by one and the line count is kept. |
| Patch.PatchAtColumn0 | freadLogRPFF.py:89-98 | Only lines starting with the marker change, each to exactly marker + tail. |
| Patch.TruncateAtFirst | 05_freibergExpSetUp/00_Scripts/finletBCWriter_rPFF.py:107-111 | The result is the longest prefix of the file in which no line contains the marker. When it is shorter than the file, the next line holds the marker. |
| Patch.FirstLine | 05_freibergExpSetUp/00_Scripts/fprepIC_noGravityV4.py:185-196 | Returns the index of the first line containing the keyword, or nothing exactly when no line contains it. |
| Patch.FirstLineAt | 05_freibergExpSetUp/00_Scripts/fprepIC_noGravityV4.py:185-196 | A line holding the keyword with no earlier holder is the one FirstLine returns. |
| Patch.FirstLineTruncates | 05_freibergExpSetUp/00_Scripts/finletBCWriter_rPFF.py:107-111 | Truncation at the first match keeps exactly the lines before the first matching line. |
| Patch.SpliceAfter | 05_freibergExpSetUp/00_Scripts/fprepIC_noGravityV4.py:233 | Fails exactly when no line holds the keyword. Otherwise the block is inserted after the line following the first keyword line, and the rest of the file is kept. |
| Patch.SpliceAfterRoundTrip | 05_freibergExpSetUp/00_Scripts/fprepIC_noGravityV4.py:233 | Removing the spliced block from the output gives back the original file. |
| CaseCommon.CaseName | 04_perforatedPlate/10_noTextureUniformPerforation/00_Scripts/caseConstructorMappedV1.py:441 | Defined exactly when the path has a `/`. The name it yields holds no `/`. |
| CaseCommon.CaseNameIsLastDirectory | 04_perforatedPlate/10_noTextureUniformPerforation/00_Scripts/caseConstructorMappedV1.py:441 | For a directory path ending in `/`, the name is the last directory's own name. |
| CaseMapped.MappedCaseName | 04_perforatedPlate/10_noTextureUniformPerforation/00_Scripts/caseConstructorMappedV1.py:91-94 | The generated case directory's name is the `iF_Re…` directory built from Re, angle and liquid. |
| CaseMapped.MappedOfShDefined | 04_perforatedPlate/10_noTextureUniformPerforation/00_Scripts/caseConstructorMappedV1.py:441 | The job-script patch of the mapped case never fails, since its case directory always has a last directory. |
| CaseMapped.InletVelocity | 04_perforatedPlate/10_noTextureUniformPerforation/00_Scripts/caseConstructorMappedV1.py:142 | u0 * (rho * hIn) == Re * mu, and u0 is positive for positive data. |
| CaseMapped.ReynoldsRoundTrip | 04_perforatedPlate/10_noTextureUniformPerforation/00_Scripts/caseConstructorMappedV1.py:142 | Recomputing Re from u0 gives back Re. |
| CaseMapped.PatchUMapped | 04_perforatedPlate/10_noTextureUniformPerforation/00_Scripts/caseConstructorMappedV1.py:186-205 | Lines without the `uniform (0.01 0 0)` value are unchanged. Matching lines keep their prefix and carry the new velocity with the old marker dropped. |
| CaseMapped.PatchCreatePatch | 04_perforatedPlate/10_noTextureUniformPerforation/00_Scripts/caseConstructorMappedV1.py:376-392 | Every `offset` line becomes prefix + `offset\t\t\t(0 0 -hG);`. |
| CaseMapped.CreatePatchIdempotent | 04_perforatedPlate/10_noTextureUniformPerforation/00_Scripts/caseConstructorMappedV1.py:376-392 | Applying the offset patch twice equals applying it once. |
| CaseDroplet.NDims | 01_dropletSpreading/00_Scripts/caseConstructor.py:95-98 | The case is 3D exactly when aG/dA exceeds 1, and 2D otherwise. |
| CaseDroplet.DropShape | 01_dropletSpreading/00_Scripts/caseConstructor.py:296-302 | The radius is the cap circle's radius. Both points share x = lG/2 and z = -d. In 2D they differ only in y (0 and aG); in 3D there is one centre at aG/2. |
| CaseDroplet.DropFitsCap | 01_dropletSpreading/00_Scripts/caseConstructor.py:296-297 | The circle's apex is at h0 above the plate, and it meets the plate at distance r0 from the axis. |
| CaseDroplet.SetFieldsEdits | 01_dropletSpreading/00_Scripts/caseConstructor.py:299-313 | The marker and value lists match: p1, p2 and radius in 2D; centre and radius in 3D. The last value is the radius. |
| CaseDroplet.WriteSetFields | 01_dropletSpreading/00_Scripts/caseConstructor.py:316-326 | Fails exactly when the 2D or 3D template is missing. It writes `system/setFieldsDict`, leaves the template and every other file unchanged, and adds only the output file. |
| CaseDroplet.SetFieldsNoSeparator | 01_dropletSpreading/00_Scripts/caseConstructor.py:320-324 | A line holding marker k, and no earlier marker, keeps its text before the marker; the marker follows with its value and no separator. The line must not then hold a later marker. |
| FluidData.Dfluid | 04_perforatedPlate/10_noTextureUniformPerforation/00_Scripts/dfluidData.py:40-48 | A record is found exactly for the six known names. Any other name yields the plain text `DC10`. Every record has thetaR <= theta0 <= thetaA and positive density and viscosity. |
| FluidData.Unpack | 04_perforatedPlate/10_noTextureUniformPerforation/00_Scripts/dfluidData.py:48 | Unpacking the six properties succeeds exactly for a found record. |
| FluidData.UnknownLiquidFails | 04_perforatedPlate/10_noTextureUniformPerforation/00_Scripts/dfluidData.py:48 | For an unknown name the unpack fails, and the answer is not DC10's record. |
| FluidData.DfluidIntended | 04_perforatedPlate/10_noTextureUniformPerforation/00_Scripts/dfluidData.py:48 | The corrected lookup agrees with the table on the six known names and returns DC10's record otherwise. |
| FluidData.TableFacts | 04_perforatedPlate/10_noTextureUniformPerforation/00_Scripts/dfluidData.py:42-47 | DC05 and DC10 share contact angles 5, 10 and 0. AIR has zero surface tension and zero contact angles. The known names are exactly the table's keys. |
| CaseFreiberg.MeshSizePars | 05_freibergExpSetUp/00_Scripts/caseConstructorV9.py:59-82 | The dense width aD is always below the total width aT. Silicone oils pick one of three triples at 0.5 and 2.0 mL/s. Every other liquid gets aD = 20e-3 and aT = 40e-3, with hC stepping at 3.5 and 5.8. |
| CaseFreiberg.MeshSizeMonotone | 05_freibergExpSetUp/00_Scripts/caseConstructorV9.py:59-82 | hC, aD and aT do not decrease as the flow rate grows. |
| CaseFreiberg.MeshCellCounts | 05_freibergExpSetUp/00_Scripts/caseConstructorV9.py:234-243 | The sparse counts are the dense counts floor-divided by 5 (x, y) and by 3 (z). The dense counts are kept. |
| CaseFreiberg.LiquidPhases | 05_freibergExpSetUp/00_Scripts/caseConstructorV9.py:186-200 | nu and rho have two entries and sigma has one. Each nu times its rho is the phase's viscosity. |
| CaseFreiberg.PatchU | 05_freibergExpSetUp/00_Scripts/caseConstructorV9.py:283-294 | The massFlowRate line gets `\t<mDot>;` after its marker, and every other line is unchanged. |
| CaseFreiberg.PatchUIdempotent | 05_freibergExpSetUp/00_Scripts/caseConstructorV9.py:283-294 | Writing the same mass flow rate twice equals writing it once. |
| CaseFreiberg.PatchAlphaLiquid | 05_freibergExpSetUp/00_Scripts/caseConstructorV9.py:310-321 | A line decided by one of the markers `theta0`, `thetaA` and `thetaR` becomes the single patch of that marker with its contact angle. Lines with none of the markers are unchanged, and the line count is kept. |
| CaseFreiberg.PatchGravity | 05_freibergExpSetUp/00_Scripts/caseConstructorV9.py:338-356 | Every `value` line becomes prefix + `value\t\t\t(gx\t0.0\tgz);`, so gy is always 0. |
| CaseFreiberg.PatchTransport | 05_freibergExpSetUp/00_Scripts/caseConstructorV9.py:369-386 | Fails if there are more `nu` lines than nu values. Otherwise the line count is kept and lines without a transport marker are unchanged. PatchTransportFails and PatchTransportValues state the rho and sigma lines too. |
| CaseFreiberg.PatchTransportFails | 05_freibergExpSetUp/00_Scripts/caseConstructorV9.py:369-386 | On a template whose markers do not interfere, the patch fails exactly when there are more `nu`, `rho` or `sigma` lines than values of that kind. |
| CaseFreiberg.PatchTransportValues | 05_freibergExpSetUp/00_Scripts/caseConstructorV9.py:369-386 | On such a template, the c-th `nu`, `rho` or `sigma` line gets a tab and the c-th formatted value of that kind, then `;`. |
| CaseFreiberg.TransportTooManyNu | 05_freibergExpSetUp/00_Scripts/caseConstructorV9.py:380-386 | A template with a third `nu` line makes the transportProperties patch fail. |
| CaseFreiberg.PatchDecomposePar | 05_freibergExpSetUp/00_Scripts/caseConstructorV9.py:420-433 | The `numberOfSubdomains` line gets the core count. |
| CaseFreiberg.PatchControlDict | 05_freibergExpSetUp/00_Scripts/caseConstructorV9.py:446-459 | A line decided by the `startTime `, `endTime ` or `writeInterval ` marker becomes the single patch of that marker with its time. Lines with none of them are unchanged. |
| CaseFreiberg.PatchFvSolution | 05_freibergExpSetUp/00_Scripts/caseConstructorV9.py:479-513 | The line count is kept. PatchFvSolutionValues states what each line becomes. |
| CaseFreiberg.PatchFvSolutionValues | 05_freibergExpSetUp/00_Scripts/caseConstructorV9.py:479-513 | On a template whose marker lines do not interfere, every `nCellsInCoarsestLevel` line gets the coarsest level. A line inside a PIMPLE block holding the k-th corrector marker gets the k-th count. Every other line is unchanged, including corrector settings outside the block. |
| CaseFreiberg.PimpleEdits | 05_freibergExpSetUp/00_Scripts/caseConstructorV9.py:489-502 | The three PIMPLE markers, in order, are non-empty. |
| CaseFreiberg.FvSolutionKeepsAbovePimple | 05_freibergExpSetUp/00_Scripts/caseConstructorV9.py:489-513 | No line above the solver block, or above the first `PIMPLE` line, is changed by the fvSolution patch. |
| CaseFreiberg.PatchAllrunParallel | 05_freibergExpSetUp/00_Scripts/caseConstructorV9.py:531-544 | The `runParallel` line gets a space and the core count, ending in a newline. |
| CaseFreiberg.PatchAllrunPre | 05_freibergExpSetUp/00_Scripts/caseConstructorV9.py:553-576 | A parent case leaves Allrun.pre unchanged. For a child, only lines with the parent or mapFields markers change, each replaced wholesale. |
| CaseFreiberg.PatchOfSh | 05_freibergExpSetUp/00_Scripts/caseConstructorV9.py:588-609 | Fails exactly when the case name cannot be taken from the directory. Otherwise a line decided by one of the five job-script markers becomes the single patch of that marker with its value. Lines without any of the markers are unchanged. |
| CaseFreiberg.OfShEdits | 05_freibergExpSetUp/00_Scripts/caseConstructorV9.py:596-609 | Five edits, one per job-script marker in order. Their values are `<case>.pbs`, the queue, the core count, the wall time and the quoted case name, each ending in a newline. |
| CaseFreiberg.PatchCaseDescription | 05_freibergExpSetUp/00_Scripts/caseConstructorV9.py:627-653 | A line decided by one of the five case-description markers becomes the single patch of that marker, with a tab before the value. Lines with none of them are unchanged. |
| CaseFreiberg.PostProcEdits | 05_freibergExpSetUp/00_Scripts/caseConstructorV9.py:627-640 | Five edits: nu0, gamma0, rho0, Q0 and alpha0, each value written after a tab and ending in a newline. |
| CaseFreiberg.PostProcScriptsAsWritten | 05_freibergExpSetUp/00_Scripts/caseConstructorV9.py:664-690 | As written, the case copy of rivuletPostProcSaveData.py stays unpatched, and every file other than rivuletPostProc.py is kept. |
| CaseFreiberg.PostProcWrongTarget | 05_freibergExpSetUp/00_Scripts/caseConstructorV9.py:678-690 | The patched SaveData content lands in rivuletPostProc.py. That file's earlier content, including its own patch, is lost. |
| CaseFreiberg.PostProcScripts | 05_freibergExpSetUp/00_Scripts/caseConstructorV9.py:628-690 | The corrected step patches each of the two scripts in place and leaves every other file unchanged. |
| CaseFreiberg.PostProcScriptsDiffer | 05_freibergExpSetUp/00_Scripts/caseConstructorV9.py:678-690 | Whenever the patch changes the SaveData script, the as-written and corrected outcomes differ. |
| CaseFreiberg.PatchBlenderExport | 05_freibergExpSetUp/00_Scripts/caseConstructorV9.py:700-714 | The `with open(` line of the exporter is made to open the prepared Blender script. |
| CaseFreiberg.BlenderPrepEdits | 05_freibergExpSetUp/00_Scripts/caseConstructorV9.py:729-742 | Six edits: plate inclination, mass flow, liquid name, start time, end time and time step, each value ending in a newline. |
| CaseFreiberg.PatchBlenderPrep | 05_freibergExpSetUp/00_Scripts/caseConstructorV9.py:729-756 | A line decided by one of the six blenderPrep markers becomes the single patch of that marker. Lines with none of them are unchanged. |
| CaseFilm.PatchAdditionalControls | 05_freibergExpSetUp/00_Scripts/caseConstructor_rPFF.py:225-230 | Each `solvePrimaryRegion` line becomes exactly `solvePrimaryRegion\tfalse;` plus a blank line. Other lines are unchanged. |
| CaseFilm.AdditionalControlsIdempotent | 05_freibergExpSetUp/00_Scripts/caseConstructor_rPFF.py:225-230 | Applying that replacement twice equals applying it once. |
| CaseFilm.FilmEdits | 05_freibergExpSetUp/00_Scripts/caseConstructor_rPFF.py:243-265 | There are nine markers, each with a tab separator and `;` terminator. minValue and maxValue take two values and the others one. None of them is `beta`. |
| CaseFilm.PatchSurfaceFilm | 05_freibergExpSetUp/00_Scripts/caseConstructor_rPFF.py:243-272 | Lines without the nine markers are unchanged. A second `specieName` line makes the patch fail. PatchSurfaceFilmFails and PatchSurfaceFilmValues state the failure condition and the value of every marker line. |
| CaseFilm.PatchSurfaceFilmFails | 05_freibergExpSetUp/00_Scripts/caseConstructor_rPFF.py:243-272 | On a template whose markers do not interfere, the patch fails exactly when some marker has more lines than values: two for minValue and maxValue, one for the others. |
| CaseFilm.PatchSurfaceFilmValues | 05_freibergExpSetUp/00_Scripts/caseConstructor_rPFF.py:243-272 | On such a template, the c-th line holding marker k gets a tab, the c-th value of marker k, then `;`. |
| CaseFilm.PatchSurfaceFilmRanges | 05_freibergExpSetUp/00_Scripts/caseConstructor_rPFF.py:250-272 | The first `minValue` line gets thetaR and the second lCTenth. The first `maxValue` line gets thetaA and the second lCFive. |
| CaseFilm.SurfaceFilmIgnoresBeta | 05_freibergExpSetUp/00_Scripts/caseConstructor_rPFF.py:250-259 | The prepared beta value has no effect on the written file. |
| CaseFilm.DecomposeCrossCopy | 05_freibergExpSetUp/00_Scripts/caseConstructor_rPFF.py:357-386 | Both decomposeParDict files end up equal to the film-region template patched once. Every other file is unchanged. |
| CaseFilm.DecomposeDiscardsSystemTemplate | 05_freibergExpSetUp/00_Scripts/caseConstructor_rPFF.py:362-386 | The result does not depend on the original system/decomposeParDict. |
| CaseFilm.FilmCaseName | 05_freibergExpSetUp/00_Scripts/caseConstructor_rPFF.py:458-462 | The case name starts with `rPFF_` and has the length of its three fields plus the prefix and separators. |
| CaseFilm.FilmCaseNameFields | 05_freibergExpSetUp/00_Scripts/caseConstructor_rPFF.py:458-462 | For underscore-free fields, splitting the name on `_` gives back `rPFF` and the three fields. |
| CaseFilm.FilmOfShEdits | 05_freibergExpSetUp/00_Scripts/caseConstructor_rPFF.py:446-466 | Four edits, one per marker. The job name is `<case>.pbs` and the case directory the quoted case name. The queue and nodes lines both get the core count. |
| CaseFilm.PatchFilmOfSh | 05_freibergExpSetUp/00_Scripts/caseConstructor_rPFF.py:446-475 | A line decided by one of the four job-script markers becomes the single patch of that marker: the marker followed directly by the value. Lines without the markers are unchanged. |
| MeshCommon.Range | 05_freibergExpSetUp/00_Scripts/fblockMeshGen.py:267-280 | A range of n consecutive labels starting at a. |
| MeshCommon.Groups | 05_freibergExpSetUp/00_Scripts/fblockMeshGen.py:267-280 | Group g is the consecutive range that starts after the sizes of all earlier groups. |
| MeshCommon.GroupsPartition | 05_freibergExpSetUp/00_Scripts/fblockMeshGen.py:267-280 | Concatenated, the groups are exactly the labels start .. start+total-1. |
| MeshCommon.GroupOfLabel | 05_freibergExpSetUp/00_Scripts/fblockMeshGen.py:267-280 | Every label in range lies in exactly one group. |
| MeshFreiberg.Scaled | 05_freibergExpSetUp/00_Scripts/fblockMeshGen.py:61-70 | Every length is divided by d0. The inlet width is sqrt(3)/3 of the tail length. |
| MeshFreiberg.StripOffsets | 05_freibergExpSetUp/00_Scripts/fblockMeshGen.py:126-136 | There are seven strip offsets in y. |
| MeshFreiberg.CentreStrip | 05_freibergExpSetUp/00_Scripts/fblockMeshGen.py:105-123 | The nine centre vertices have x from the centre line and z from the three floors (basement, plate, top), with y = 0. |
| MeshFreiberg.Strips | 05_freibergExpSetUp/00_Scripts/fblockMeshGen.py:161-189 | Strip s is the centre strip shifted only in y by its offset. |
| MeshFreiberg.Vertices | 05_freibergExpSetUp/00_Scripts/fblockMeshGen.py:58-257 | There are 81 vertices, with the strips laid out as stated. The origin arguments are ignored: vertex 31 is (0, 0, 0). The auxiliary vertex sets come in identical duplicate pairs. |
| MeshFreiberg.StripsLaidOut | 05_freibergExpSetUp/00_Scripts/fblockMeshGen.py:161-189 | Vertex 9s+3f+x has the x of column x, the y offset of strip s and the z of floor f. |
| MeshFreiberg.LabelsOf | 05_freibergExpSetUp/00_Scripts/fblockMeshGen.py:267-280 | Seven groups of nine, two of three and two of six consecutive labels together partition 0..80. |
| MeshFreiberg.SparseBlocks | 05_freibergExpSetUp/00_Scripts/fblockMeshGen.py:325-349 | The four sparse blocks are the 8-label hexes of strips 0 and 5 at columns 3 and 4. |
| MeshFreiberg.SparseNames | 05_freibergExpSetUp/00_Scripts/fblockMeshGen.py:325-349 | Block names pair `left` or `right`, chosen by i/5, with `top` or `cell`. |
| MeshFreiberg.SparseBlocksOnPlate | 05_freibergExpSetUp/00_Scripts/fblockMeshGen.py:325-349 | Every sparse block has its four lower corners on the plate and its upper corners directly above them at the channel height. |
| MeshFreiberg.BlockOnPlate | 05_freibergExpSetUp/00_Scripts/fblockMeshGen.py:325-349 | Any single block at rows 0..5, columns 3 or 4 sits on the plate in that way. |
| MeshFreiberg.ColumnOnPlate | 05_freibergExpSetUp/00_Scripts/fblockMeshGen.py:105-123 | The plate vertex of a column has z = 0, and the top vertex is it shifted by the channel height. |
| MeshPerforated.AddHoleX | 04_perforatedPlate/20_noTextureZigZagPerforationV1/00_Scripts/fblockMeshGenV10.py:34-41 | Exactly two vertices are appended, at distHX and distHX+diamHEff beyond the last one in x. Earlier vertices are untouched. |
| MeshPerforated.MoreHoles | 04_perforatedPlate/20_noTextureZigZagPerforationV1/00_Scripts/fblockMeshGenV10.py:50-51 | Each further hole adds two vertices at the same y and z. |
| MeshPerforated.AddRow | 04_perforatedPlate/20_noTextureZigZagPerforationV1/00_Scripts/fblockMeshGenV10.py:42-61 | A row adds 2*nHolesX+2 vertices, all at the row's y and z, starting at the given point. |
| MeshPerforated.AddHolesCol | 04_perforatedPlate/20_noTextureZigZagPerforationV1/00_Scripts/fblockMeshGenV10.py:42-61 | Two rows are appended, both starting at vert[0].x, at y = lastY+distHY and that plus diamHEff. Earlier vertices are untouched. |
| MeshPerforated.ColsLengthClosed | 04_perforatedPlate/20_noTextureZigZagPerforationV1/00_Scripts/fblockMeshGenV10.py:175-183 | The hole-column rows add 2*w*(nHolesY-1) vertices. |
| MeshPerforated.MoreCols | 04_perforatedPlate/20_noTextureZigZagPerforationV1/00_Scripts/fblockMeshGenV10.py:175-183 | All appended hole-column vertices stay in the layer's z plane. |
| MeshPerforated.HoleColumns | 04_perforatedPlate/20_noTextureZigZagPerforationV1/00_Scripts/fblockMeshGenV10.py:175-183 | The count of appended vertices, and all of them keep the layer's z. |
| MeshPerforated.AddLayer | 04_perforatedPlate/20_noTextureZigZagPerforationV1/00_Scripts/fblockMeshGenV10.py:170-189 | One layer adds nVertX*nVertY vertices, all at that layer's z. |
| MeshPerforated.LayerLength | 04_perforatedPlate/20_noTextureZigZagPerforationV1/00_Scripts/fblockMeshGenV10.py:143-144 | The rows of one layer add up to nVertX * nVertY. |
| MeshPerforated.AllVertices | 04_perforatedPlate/20_noTextureZigZagPerforationV1/00_Scripts/fblockMeshGenV10.py:170-189 | Vertex k lies in layer k / nVert and has that layer's z coordinate. |
| MeshPerforated.CellsVec | 04_perforatedPlate/20_noTextureZigZagPerforationV1/00_Scripts/fblockMeshGenV10.py:151-156 | Defined exactly when there is at least one hole. The length is 2n+1 = nVertX-1. The ends are the margin count, odd positions the hole count and interior even positions the bridge count. |
| MeshPerforated.CellsVecPalindrome | 04_perforatedPlate/20_noTextureZigZagPerforationV1/00_Scripts/fblockMeshGenV10.py:151-156 | The cell-count vector reads the same backwards. |
| MeshPerforated.NCellsZVec | 04_perforatedPlate/20_noTextureZigZagPerforationV1/00_Scripts/fblockMeshGenV10.py:164-165 | The z cell counts [Z, 2Z, S, S, 2Z, Z] are a palindrome. |
| MeshPerforated.ZGradVec | 04_perforatedPlate/20_noTextureZigZagPerforationV1/00_Scripts/fblockMeshGenV10.py:167 | Mirrored gradings are reciprocal, and the third is the given grading. |
| MeshPerforated.ZCoordVec | 04_perforatedPlate/20_noTextureZigZagPerforationV1/00_Scripts/fblockMeshGenV10.py:120-131 | The seven levels run from 0 to the full height. They are symmetric about the mid-plane (z_k + z_{6-k} = full height) and increasing when the layers fit. |
| MeshPerforated.LablsV | 04_perforatedPlate/20_noTextureZigZagPerforationV1/00_Scripts/fblockMeshGenV10.py:191-193 | Row j of layer i is the range of nVertX labels from i*nVert + j*nVertX. |
| MeshPerforated.LablsVPartition | 04_perforatedPlate/20_noTextureZigZagPerforationV1/00_Scripts/fblockMeshGenV10.py:191-193 | All rows of all layers, concatenated, are exactly the labels 0 .. nLrs*nVert-1. |
| MeshPerforated.BlockAt | 04_perforatedPlate/20_noTextureZigZagPerforationV1/00_Scripts/fblockMeshGenV10.py:257-275 | The hex between layers i and i+1 at (j, k) has the grid corners and the x, y and z cell counts and grading of its position. |
| MeshPerforated.Blocks | 04_perforatedPlate/20_noTextureZigZagPerforationV1/00_Scripts/fblockMeshGenV10.py:257-275 | There are nLrs-1 layers of (nVertY-1) x (nVertX-1) hexes, each given by BlockAt. |
| MeshPerforated.BlockCount | 04_perforatedPlate/20_noTextureZigZagPerforationV1/00_Scripts/fblockMeshGenV10.py:257-275 | With nHoles >= 1 the block list holds (nLrs-1)*(nVertY-1)*(nVertX-1) hexes. |
| MeshPerforated.WriteArcs | 04_perforatedPlate/20_noTextureZigZagPerforationV1/00_Scripts/fblockMeshGenV10.py:62-83 | There are four arcs, (i,i+1), (i+1,j+1), (j+1,j) and (j,i), forming a closed cycle. |
| MeshPerforated.ArcsOnHoleCircle | 04_perforatedPlate/20_noTextureZigZagPerforationV1/00_Scripts/fblockMeshGenV10.py:62-83 | Every arc's via-point lies on the hole's circle, in the plane of its corners. |
| MeshPerforated.FootprintOnHoleCircle | 04_perforatedPlate/20_noTextureZigZagPerforationV1/00_Scripts/fblockMeshGenV10.py:62-83 | When diamH^2 == 2*diamHEff^2, the four corner vertices themselves lie on that circle. |
| MeshFilm.NonDim | 05_freibergExpSetUp/00_Scripts/fblockMeshGen_rPFF.py:86-87 | With L = 1 the non-dimensionalised geometry equals the input. |
| MeshFilm.WidthLevels | 05_freibergExpSetUp/00_Scripts/fblockMeshGen_rPFF.py:90-92 | The four width levels are symmetric about y = 0, and increasing when 0 < a0 < cellW. |
| MeshFilm.WidthRow | 05_freibergExpSetUp/00_Scripts/fblockMeshGen_rPFF.py:99-103 | Row w holds the four (length, height) corners at width level w. |
| MeshFilm.Vertices | 05_freibergExpSetUp/00_Scripts/fblockMeshGen_rPFF.py:99-103 | There are 16 vertices. Vertex k has length index k%2, height index (k/2)%2 and width index k/4. |
| MeshFilm.LablsV | 05_freibergExpSetUp/00_Scripts/fblockMeshGen_rPFF.py:106-109 | Label row i is [4i, 4i+1, 4i+2, 4i+3]. |
| MeshFilm.LablsVPartition | 05_freibergExpSetUp/00_Scripts/fblockMeshGen_rPFF.py:106-109 | The rows partition 0..15. |
| MeshFilm.NCellsIn | 05_freibergExpSetUp/00_Scripts/fblockMeshGen_rPFF.py:95 | The inlet cell count is odd and lies within two of round(r). |
| MeshFilm.NCellsWVec | 05_freibergExpSetUp/00_Scripts/fblockMeshGen_rPFF.py:96 | The width counts are [(W-I)//2, I, (W-I)//2 - 1]. |
| MeshFilm.WidthCellsTotal | 05_freibergExpSetUp/00_Scripts/fblockMeshGen_rPFF.py:96 | For even W the three width counts sum to W - 2. |
| MeshFilm.Blocks | 05_freibergExpSetUp/00_Scripts/fblockMeshGen_rPFF.py:152-177 | There are three hexes, one per adjacent pair of width levels. |
| MeshFilm.BlocksOf | 05_freibergExpSetUp/00_Scripts/fblockMeshGen_rPFF.py:152-177 | Hex i has the eight corners 4i..4i+7 in blockMesh order. |
| MeshFilm.BlocksOnPlate | 05_freibergExpSetUp/00_Scripts/fblockMeshGen_rPFF.py:152-177 | Each hex has its lower face on the plate and its upper face at the gas height. |
| MeshFilm.HexOnPlate | 05_freibergExpSetUp/00_Scripts/fblockMeshGen_rPFF.py:152-177 | The lower corners have z = 0, and each upper corner is the lower corner shifted by hG. |
| MeshFilm.Boundary | 05_freibergExpSetUp/00_Scripts/fblockMeshGen_rPFF.py:182-267 | The inlet is the single front face of the middle strip. The top side faces include the outer strips' front faces but not the inlet strip's. |
| MeshFilm.BoundaryOf | 05_freibergExpSetUp/00_Scripts/fblockMeshGen_rPFF.py:182-267 | The face lists are built from the label rows: inlet on strip 1, side faces on strips 0 and 2. |
| MeshFilm.InletPlacement | 05_freibergExpSetUp/00_Scripts/fblockMeshGen_rPFF.py:182-196 | The inlet face lies at x = 0 between the width levels -a0/2 and a0/2, spanning plate and top. |
| MeshTextured.ZCoordVec | 03_texturedPlate/02_transTexture/00_Scripts/fblockMeshGenV2.py:75-77 | There are four levels: 0, hI, 3hI and hG, increasing when 3hI < hG. |
| MeshTextured.Vertices | 03_texturedPlate/02_transTexture/00_Scripts/fblockMeshGenV2.py:99-103 | Each level adds the rectangle (0,0), (lG,0), (lG,aG), (0,aG) at its z. |
| MeshTextured.LablsV | 03_texturedPlate/02_transTexture/00_Scripts/fblockMeshGenV2.py:105-107 | Label row i is [4i..4i+3]. |
| MeshTextured.LablsVPartition | 03_texturedPlate/02_transTexture/00_Scripts/fblockMeshGenV2.py:105-107 | The rows partition 0..4*nLrs-1. |
| MeshTextured.NCellsZVec | 03_texturedPlate/02_transTexture/00_Scripts/fblockMeshGenV2.py:91-93 | The z cell counts are [Z, 2Z, S]. |
| MeshTextured.ZGradVec | 03_texturedPlate/02_transTexture/00_Scripts/fblockMeshGenV2.py:91-93 | The z gradings are [1, 1, spGrad]. |
| MeshTextured.Blocks | 03_texturedPlate/02_transTexture/00_Scripts/fblockMeshGenV2.py:202-214 | There are nLrs-1 hexes, hex i being labels 4i..4i+7. |
| MeshTextured.BlocksOf | 03_texturedPlate/02_transTexture/00_Scripts/fblockMeshGenV2.py:202-214 | Each hex is lablsV[i] followed by lablsV[i+1]. |
| MeshTextured.HexLabels | 03_texturedPlate/02_transTexture/00_Scripts/fblockMeshGenV2.py:202-214 | Two consecutive label rows concatenate to the 8-label range of one hex. |
| MeshTextured.BlocksStack | 03_texturedPlate/02_transTexture/00_Scripts/fblockMeshGenV2.py:202-214 | A hex's lower four corners are the rectangle at level i and its upper four the same rectangle at level i+1. |
| MeshTextured.PolyLine | 03_texturedPlate/02_transTexture/00_Scripts/fblockMeshGenV2.py:150-173 | The texture line has 1 + 2(n-1) points, alternating height 0 at element boundaries and hT at half-element positions. |
| MeshTextured.PolyLinesParallel | 03_texturedPlate/02_transTexture/00_Scripts/fblockMeshGenV2.py:150-197 | The `3 2` line equals the `0 1` line point for point, except that y = aG. |
| MeshTextured.InletFaces | 03_texturedPlate/02_transTexture/00_Scripts/fblockMeshGenV2.py:220-253 | The inlet has the single front face of layers 0-1. overInlet has the faces of layers 1..nLrs-2. |
| MeshTextured.InletFacesOf | 03_texturedPlate/02_transTexture/00_Scripts/fblockMeshGenV2.py:220-253 | Those faces are built from the label rows and agree with the closed forms. |
| MeshTextured.InletFacesAtFront | 03_texturedPlate/02_transTexture/00_Scripts/fblockMeshGenV2.py:220-235 | Every inlet face corner lies at x = 0. |
| Geometry.Shift | 05_freibergExpSetUp/00_Scripts/fblockMeshGen.py:105-123 | A shifted point differs from the original by exactly the offsets. |
| Geometry.CircleCap | 01_dropletSpreading/00_Scripts/caseConstructor.py:296-297 | With R = h/2 + a^2/(2h) and d = R - h: R - d == h and d^2 + a^2 == R^2. |
| InitialCondition.WriteCylinder | 05_freibergExpSetUp/00_Scripts/fprepIC_noGravityV4.py:81-100 | The axis endpoints differ only in x, by deltaX. The first is at (x, 0, -d). Radius and depth satisfy the circle-cap relations. |
| InitialCondition.WriteBox | 05_freibergExpSetUp/00_Scripts/fprepIC_noGravityV4.py:102-117 | The box spans (x, -a, h) to (x+deltaX, a, h+deltah) and carries the given velocity and pressure. |
| InitialCondition.WriteBoxAlpha | 05_freibergExpSetUp/00_Scripts/fprepIC_noGravityV4.py:119-133 | The same box, carrying the given phase fraction. |
| InitialCondition.BoxOrdered | 05_freibergExpSetUp/00_Scripts/fprepIC_noGravityV4.py:109 | For non-negative a, deltaX and deltah, the lower corner is componentwise at most the upper. |
| InitialCondition.WriteRotBoxAlpha | 05_freibergExpSetUp/00_Scripts/fprepIC_noGravityV4.py:135-152 | The rotated box carries exactly its origin, edge vectors and phase fraction. |
| InitialCondition.InletBox | 05_freibergExpSetUp/00_Scripts/fprepIC_noGravityV4.py:203 | The inlet box is filled with liquid, anchored at (-h, -10, 0), with pairwise orthogonal edge vectors. |
| InitialCondition.Ceil | 05_freibergExpSetUp/00_Scripts/fprepIC_noGravityV4.py:223 | ceil(v) is the least integer not below v. |
| InitialCondition.BoxCount | 05_freibergExpSetUp/00_Scripts/fprepIC_noGravityV4.py:223 | A column has max(0, ceil(nCellsZ*h0/H) - 1) boxes. |
| InitialCondition.BoxAt | 05_freibergExpSetUp/00_Scripts/fprepIC_noGravityV4.py:224-228 | Every box in a column has the same p_rgh, a velocity with only an x component, and the layer's z range. |
| InitialCondition.Column | 05_freibergExpSetUp/00_Scripts/fprepIC_noGravityV4.py:217-230 | A column is its cylinder followed by exactly BoxCount boxes. |
| InitialCondition.Regions | 05_freibergExpSetUp/00_Scripts/fprepIC_noGravityV4.py:203-230 | The block has ColumnStart(nCellsX) regions, the first being the inlet box. RegionsLayout states where each column lies. |
| InitialCondition.RegionsLayout | 05_freibergExpSetUp/00_Scripts/fprepIC_noGravityV4.py:203-230 | Column i starts at ColumnStart(i) with the cylinder of station i, followed by its boxes j = 1 .. BoxCount at heights j deltaZ. |
| InitialCondition.RegionsStructure | 05_freibergExpSetUp/00_Scripts/fprepIC_noGravityV4.py:203-230 | The block starts with one rotated box and holds exactly nCellsX cylinders. |
| InitialCondition.CylindersPerColumn | 05_freibergExpSetUp/00_Scripts/fprepIC_noGravityV4.py:217-230 | Columns that each open with one cylinder and then hold only boxes contribute one cylinder each. |
| InitialCondition.Render | 05_freibergExpSetUp/00_Scripts/fprepIC_noGravityV4.py:89-150 | Every emitted entry opens with its primitive keyword line and closes with `\t\t}`. |
| InitialCondition.PrepIC | 05_freibergExpSetUp/00_Scripts/fprepIC_noGravityV4.py:185-237 | Fails exactly when no line contains `regions`. Otherwise the generated block is spliced after the line following the first `regions` line. |
| InitialCondition.SplicedBelowRegions | 05_freibergExpSetUp/00_Scripts/fprepIC_noGravityV4.py:233 | The file above the splice point is kept unchanged. |
| InletBC.NCellsIn | 05_freibergExpSetUp/00_Scripts/finletBCWriter_rPFF.py:57 | The inlet cell count is even and lies within one of round(r). It is zero exactly when round(r) is 0 or -1. |
| InletBC.ContactAngle | 05_freibergExpSetUp/00_Scripts/finletBCWriter_rPFF.py:46-47 | The contact angle is the mean of the three table angles in radians; for ordered angles it lies between the receding and the advancing angle. |
| InletBC.ProfileConstants | 05_freibergExpSetUp/00_Scripts/finletBCWriter_rPFF.py:66-67 | The amplitude and decay constants exist exactly when the square root's argument and divisors allow them. |
| InletBC.DzetaSymmetric | 05_freibergExpSetUp/00_Scripts/finletBCWriter_rPFF.py:76-78 | dzeta_{n-i} == -dzeta_i, with dzeta_0 = -1 and dzeta_n = 1. |
| InletBC.Profile | 05_freibergExpSetUp/00_Scripts/finletBCWriter_rPFF.py:76-78 | Fails exactly when n = 0 (division by zero). Otherwise it holds n+1 samples, sample i being the height at dzeta_i. |
| InletBC.ProfileSymmetric | 05_freibergExpSetUp/00_Scripts/finletBCWriter_rPFF.py:76-78 | For an even cosh the sampled profile is symmetric: h_i == h_{n-i}. |
| InletBC.HeightMirror | 05_freibergExpSetUp/00_Scripts/finletBCWriter_rPFF.py:76-78 | For an even cosh, the heights at i and n-i are equal. |
| InletBC.HeightAtEdge | 05_freibergExpSetUp/00_Scripts/finletBCWriter_rPFF.py:76-78 | The profile vanishes at the far edge. |
| InletBC.PairSum | 05_freibergExpSetUp/00_Scripts/finletBCWriter_rPFF.py:81-85 | The sum of h_i + h_{i+1} over adjacent samples is twice the total minus the two end samples. |
| InletBC.CrossSection | 05_freibergExpSetUp/00_Scripts/finletBCWriter_rPFF.py:81-85 | The trapezoid loop computes step * (sum of samples - (first + last)/2). |
| InletBC.TrapezoidOfClosedProfile | 05_freibergExpSetUp/00_Scripts/finletBCWriter_rPFF.py:81-85 | For a profile that is zero at both ends, the cross-section is step times the sum of samples. |
| InletBC.InletVelocity | 05_freibergExpSetUp/00_Scripts/finletBCWriter_rPFF.py:88 | u0 * rho * cSec == mDot, defined exactly when rho and cSec are nonzero. |
| InletBC.Solve | 05_freibergExpSetUp/00_Scripts/finletBCWriter_rPFF.py:46-88 | A solution exists exactly when the cell width is nonzero, the profile constants exist, the inlet cell count is positive, the density is nonzero and the trapezoid cross-section is nonzero. Its profile, cross-section and velocity satisfy the relations above. |
| InletBC.UfEntry | 05_freibergExpSetUp/00_Scripts/finletBCWriter_rPFF.py:117-150 | The velocity entry starts with the `inlet` line and ends with the fixed closing lines. |
| InletBC.DeltafEntry | 05_freibergExpSetUp/00_Scripts/finletBCWriter_rPFF.py:167-191 | The film-thickness entry lists one line per sample between `(` and `);`. |
| InletBC.DeltafCountMatches | 05_freibergExpSetUp/00_Scripts/finletBCWriter_rPFF.py:172-174 | The declared list length is nCellsIn+1, which is the number of values written. |
| InletBC.WriteInletBC | 05_freibergExpSetUp/00_Scripts/finletBCWriter_rPFF.py:103-191 | Writing succeeds exactly when the inlet profile can be solved. |
| InletBC.RewriteReplacesEntry | 05_freibergExpSetUp/00_Scripts/finletBCWriter_rPFF.py:103-114 | After the rewrite, the first `inlet` line is where the old file's first `inlet` line was, and everything above it is unchanged. |
| InletBC.RewriteAppendsWhenAbsent | 05_freibergExpSetUp/00_Scripts/finletBCWriter_rPFF.py:153-164 | A file with no `inlet` line just gets the entry appended. |
| InletBC.RewriteIdempotent | 05_freibergExpSetUp/00_Scripts/finletBCWriter_rPFF.py:103-114 | Rewriting a file twice with the same entry equals rewriting it once. |
| LogReader.LastHit | freadLogRPFF.py:68-72 | Returns the last line at index >= 1 holding the marker (at column 0 when asked). Line 0 is never inspected. |
| LogReader.IsLastHitUnique | freadLogRPFF.py:68-72 | The last-hit relation determines its answer. |
| LogReader.ScanBackward | freadLogRPFF.py:68-72 | The backward loop from the last line down to index 1 finds exactly the last hit. |
| LogReader.FirstLineIgnored | freadLogRPFF.py:82 | Replacing line 0 does not change the result of the scan. |
| LogReader.ParseInt | freadLogRPFF.py:72 | A digit string parses to its decimal value. A successful parse means the trimmed text is digits, possibly signed. |
| LogReader.SignedDigits | freadLogRPFF.py:72 | An optionally signed digit string parses to its value, and nothing else parses. |
| LogReader.ClockTextRoundTrip | freadLogRPFF.py:68-72 | For a line `...ClockTime = <n> s`, the text after the marker minus three characters parses back to n. |
| LogReader.PollWithoutClock | freadLogRPFF.py:61-72 | With no ClockTime line after line 0, a poll keeps the clock it had. |
| LogReader.PollReadsClock | freadLogRPFF.py:61-72 | When the last ClockTime line reads `...ClockTime = <n> s`, a poll sets the clock to n, whatever the previous clock. |
| LogReader.PollLoop | freadLogRPFF.py:61-72 | The loop stops only with a clock >= the limit, on the snapshot that produced it. |
| LogReader.Watch | freadLogRPFF.py:47-72 | Polling from clock 0 stops only at a clock >= the limit, on the snapshot that produced it; with a non-positive limit the loop body never runs and the log data stays unbound (an error). |
| LogReader.NoClockNeverStops | freadLogRPFF.py:64 | If no later snapshot holds a ClockTime line, the loop never exits. |
| LogReader.SimTime | freadLogRPFF.py:80-86 | Defined exactly when some line after line 0 starts with `Time = `. It is that last line's remainder without its final character. |
| LogReader.SetEndTime | freadLogRPFF.py:89-98 | Only lines starting with `endTime ` change, each to `endTime \t\t<sTime>;`. |
| LogReader.FreadLog | freadLogRPFF.py:47-98 | The controlDict is patched exactly when the watch stops and a simulation time is found. It is then patched with that time. |
| LogMonitor.AvServers | 00_utilities/procLogOnline.py:55-72 | A record is found exactly for Altix and Poctar. Any other name yields the text `Altix`. |
| LogMonitor.UnpackServer | 00_utilities/procLogOnline.py:109 | The four-way unpack succeeds exactly for a record. |
| LogMonitor.UnknownServerFails | 00_utilities/procLogOnline.py:109 | For an unknown server the unpack fails. |
| LogMonitor.AvServersIntended | 00_utilities/procLogOnline.py:72 | The corrected lookup agrees on the two servers and returns Altix's record otherwise. |
| LogMonitor.RemoteCaseDir | 00_utilities/procLogOnline.py:110 | The remote case directory is dirParts[0] + user + dirParts[1] + case + `/`. |
| LogMonitor.FirstAtColumn0 | 00_utilities/procLogOnline.py:166-189 | Returns the first line from `from` on that starts with the marker, or nothing when none does. |
| LogMonitor.HeaderFields | 00_utilities/procLogOnline.py:166-189 | One field per marker exactly when every marker starts some line. Marker j followed by field j is the first line starting with marker j, so the field keeps that line's newline. |
| LogMonitor.MachineTitle | 00_utilities/procLogLocalSS.py:111-113 | The title is the machine description without its last character, so a text ending in a newline loses exactly that newline. |
| LogMonitor.MachineTitleOf | 00_utilities/procLogLocalSS.py:111-113 | A description `name` followed by a newline gives back name. |
| LogMonitor.ReadHeader | 00_utilities/procLogOnline.py:166-189 | The header is read only when every header marker starts some line. Case is the last `/` field of its line. |
| LogMonitor.CellCountText | 00_utilities/procLogLocalSS.py:141-148 | The text `float()` is applied to is found exactly when some line mentions `nCells: `. CellCountTextOf states the text, and CellCount converts it. |
| LogMonitor.CellCount | 00_utilities/procLogLocalSS.py:141-148 | The cell count exists exactly when the text is found and `float()` accepts it. A missing line or a rejected text leaves the script without a count. |
| LogMonitor.CellCountOf | 00_utilities/procLogLocalSS.py:141-148 | When line i is the first line mentioning `nCells: ` and t follows the marker, the count is round(float(t)/1e6, 1). When `float()` rejects t, there is no count. |
| LogMonitor.CellCountTextOf | 00_utilities/procLogLocalSS.py:141-148 | When line i is the first line mentioning `nCells: `, the text is what follows the first occurrence of the marker in it. |
| LogMonitor.FirstMention | 00_utilities/procLogLocalSS.py:212-222 | Returns the first line at or after `from` mentioning the pattern, and nothing exactly when there is none. |
| LogMonitor.Col0Lines | 00_utilities/procLogOnline.py:197-207 | Returns exactly the lines starting with the marker, in increasing order. |
| LogMonitor.Series | 00_utilities/procLogOnline.py:197-207 | The texts handed to `float()`: one per line that starts with the marker, in file order, each the line without the marker. |
| LogMonitor.Floats | 00_utilities/procLogOnline.py:203-207 | Converting a list of texts succeeds exactly when `float()` accepts every one. Entry i is then `float()` of text i. |
| LogMonitor.FloatLists | 00_utilities/procLogOnline.py:316-322 | Converting several lists succeeds exactly when every text of every list is accepted. List j is then list j converted. |
| LogMonitor.SeriesValues | 00_utilities/procLogOnline.py:197-207 | The deltaT or Time series exists exactly when `float()` accepts the rest of every line starting with the marker. Entry k is then `float()` of the k-th such line's rest. |
| LogMonitor.ThirdField | 00_utilities/procLogOnline.py:224-238 | Defined exactly when the line has more than two space-separated fields. The field holds no space. ThirdFieldOf states which field it is. |
| LogMonitor.ThirdFieldOf | 00_utilities/procLogOnline.py:224-238 | For space-free a, b and f, the lines `a b f` and `a b f rest` both give f. |
| LogMonitor.ExecTimes | 00_utilities/procLogOnline.py:224-238 | One time per `ExecutionTime = ` line. Fails exactly when such a line lacks a third field or `float()` rejects that field. ExecTimesValues states the values. |
| LogMonitor.ExecTimesValues | 00_utilities/procLogOnline.py:224-238 | Entry k is what `float()` gives for the third field of the k-th `ExecutionTime = ` line. |
| LogMonitor.ExecutionTimeVectors | 00_utilities/procLogOnline.py:228-238 | The three vectors have equal length, with vec[2][k] = k and vec[1][k] = vec[0][k] - vec[0][k-1]. So vec[1] sums to the last entry of vec[0]. |
| LogMonitor.Telescope | 00_utilities/procLogLocalSS.py:245-255 | Consecutive differences of a list starting at 0 sum to its last element. |
| LogMonitor.Keep | 00_utilities/procLogOnline.py:298-309 | Dropping marker lines leaves none, and the kept count plus the dropped count is the total. |
| LogMonitor.LastSteps | 00_utilities/procLogOnline.py:298-309 | The tail starts after the nRezSt-th-from-last `PIMPLE: iteration 1` line, or after line 0 when there are fewer. Marker lines are excluded. |
| LogMonitor.UpToComma | 00_utilities/procLogOnline.py:320-322 | The value is the longest comma-free prefix. |
| LogMonitor.ResidualText | 00_utilities/procLogOnline.py:320-322 | The which-th `residual = ` value of a line, up to the next comma. It exists exactly when the line has that many. |
| LogMonitor.Pieces | 00_utilities/procLogOnline.py:320-322 | Joined with `residual = `, the pieces rebuild the line from its first mention on. |
| LogMonitor.LineValues | 00_utilities/procLogOnline.py:320-322 | A matching residual line yields exactly two values, and any other line none. LineValuesOf states the two texts. |
| LogMonitor.LineValuesOf | 00_utilities/procLogOnline.py:320-322 | A line `pre pat mid residual = a, … residual = b…`, with pat first at the end of pre and comma-free a and b, yields exactly [a, b]. |
| LogMonitor.PerVariable | 00_utilities/procLogOnline.py:320-322 | Each variable's series has two values per matching line. PerVariableValues states which. |
| LogMonitor.PerVariableValues | 00_utilities/procLogOnline.py:320-322 | Values 2k and 2k+1 of a variable's series are the two values of the k-th line matching it. |
| LogMonitor.AliasedSeries | 00_utilities/procLogOnline.py:312-322 | The residual texts, before `float()`, exist exactly when every matching line has both `residual = ` fields for every variable. With the shared list, every variable's series has two values per matching (line, variable) pair, and all the series are the same list. |
| LogMonitor.AliasedValues | 00_utilities/procLogOnline.py:312-322 | The converted series exist exactly when every line has its residual texts and `float()` accepts every text of the shared list. Every variable's series is then that converted list. |
| LogMonitor.AliasedHoldsAll | 00_utilities/procLogOnline.py:312-322 | As a multiset, every aliased series is the union of all variables' own residual series. |
| LogMonitor.SharedListLength | 00_utilities/procLogOnline.py:312-322 | The shared list holds two values per matching (line, variable) pair. |
| LogMonitor.DistinctSeries | 00_utilities/procLogLocalSS.py:199-201 | The residual texts, before `float()`, exist exactly when every matching line has both `residual = ` fields for every variable. With distinct lists, series j has two values per line matching variable j. |
| LogMonitor.DistinctSeriesValues | 00_utilities/procLogLocalSS.py:199-201 | Values 2k and 2k+1 of series j are the two values of the k-th line matching variable j. |
| LogMonitor.DistinctValues | 00_utilities/procLogOnline.py:312-322 | With one list per variable, the converted series exist exactly when every variable's texts exist and convert. Series j is then variable j's texts converted. |
| LogMonitor.DistinctValuesAt | 00_utilities/procLogOnline.py:312-322 | Values 2k and 2k+1 of converted series j are `float()` of the two residual texts of the k-th line matching variable j. |
| LogMonitor.AliasingMixesVariables | 00_utilities/procLogOnline.py:314 | Once a second variable has a residual line, the first variable's aliased series is longer than its own residuals. |
| LogMonitor.SingleVariableAgrees | 00_utilities/procLogOnline.py:314 | With one variable, aliasing makes no difference. |
| LogMonitor.ConvergedIn | 00_utilities/procLogOnline.py:354-362 | The iteration count is the first digit run after `PIMPLE: converged in`. It is absent when there is none. |
| LogMonitor.ConvergedRoundTrip | 00_utilities/procLogOnline.py:354-362 | A line `...PIMPLE: converged in <n> iterations` gives back n. |
| LogMonitor.PimpleCounts | 00_utilities/procLogOnline.py:341-362 | One count per converged line. PimpleCountsFail and PimpleCountsValues state when it fails and the counts. |
| LogMonitor.PimpleCountsFail | 00_utilities/procLogOnline.py:341-362 | The counts exist exactly when every converged line has an iteration count. |
| LogMonitor.PimpleCountsValues | 00_utilities/procLogOnline.py:341-362 | Entry k is the iteration count of the k-th converged line. |
| LogMonitor.ResidualIndex | 00_utilities/procLogLocalSS.py:216-220 | finRes selects the second residual, and otherwise the first. |
| LogMonitor.IterValue | 00_utilities/procLogLocalSS.py:212-222 | A value exists only if the variable is mentioned at or after the `Time = ` line, and never when it is absent to end of file. |
| LogMonitor.AbsentTakesLater | 00_utilities/procLogLocalSS.py:212-222 | A variable absent from one iteration takes the value of its next mention, possibly from a later iteration. |
| LogMonitor.CollectIteration | 00_utilities/procLogLocalSS.py:205-223 | For one `Time = ` line, one residual text per variable, each from that variable's first matching line. Fails only when some variable has no text. CollectIterationValues adds `float()`. |
| LogMonitor.IterFloat | 00_utilities/procLogLocalSS.py:212-222 | The value appended for an iteration exists exactly when the variable's residual text exists and `float()` accepts it, and it is that conversion. |
| LogMonitor.CollectIterationValues | 00_utilities/procLogLocalSS.py:205-223 | The iteration's values exist exactly when every variable's text exists and converts. Variable j then receives its converted text. |
| LogMonitor.ScanLine | 00_utilities/procLogLocalSS.py:212-222 | One scanned line keeps the collection invariant, or reports a variable whose value is missing. |
| LogMonitor.SteadySeries | 00_utilities/procLogLocalSS.py:199-223 | The texts before `float()`: one list per variable, each with one text per `Time = ` line. The text comes from the variable's first mention at or after that line. |
| LogMonitor.SteadyValues | 00_utilities/procLogLocalSS.py:199-223 | The steady lists exist exactly when every variable's value converts for every `Time = ` line. Entry m of list j is then the converted value for the m-th such line. |
| ExtractVec.IndexOf | 05_freibergExpSetUp/00_Scripts/rivuletPostProcSaveData.py:143-144 | The first index of the title, and nothing exactly when it is absent (`index` raises). |
| ExtractVec.IndicesOf | 05_freibergExpSetUp/00_Scripts/rivuletPostProcSaveData.py:143-144 | Defined exactly when every requested column exists, giving each one's first index. |
| ExtractVec.Reduce | 05_freibergExpSetUp/00_Scripts/rivuletPostProcSaveData.py:150 | Keeps, in order, exactly the rows whose sort value lies on the 1e-3 grid. It fails when some value cannot be parsed. |
| ExtractVec.ReduceConcat | 05_freibergExpSetUp/00_Scripts/rivuletPostProcSaveData.py:150 | Filtering distributes over concatenation. |
| ExtractVec.Insert | 05_freibergExpSetUp/00_Scripts/rivuletPostProcSaveData.py:153 | Insertion adds exactly one row, as a permutation. |
| ExtractVec.InsertSorted | 05_freibergExpSetUp/00_Scripts/rivuletPostProcSaveData.py:153 | Inserting into a sorted list keeps it sorted by the raw string key. |
| ExtractVec.StrLessTransitive | 05_freibergExpSetUp/00_Scripts/rivuletPostProcSaveData.py:153 | String order is transitive. |
| ExtractVec.StrLessTotal | 05_freibergExpSetUp/00_Scripts/rivuletPostProcSaveData.py:153 | Distinct strings are ordered one way or the other. |
| ExtractVec.Sort | 05_freibergExpSetUp/00_Scripts/rivuletPostProcSaveData.py:153 | The sort is a permutation of the rows. |
| ExtractVec.SortIsStable | 05_freibergExpSetUp/00_Scripts/rivuletPostProcSaveData.py:153 | The result is sorted by the string key. Rows with equal keys keep their original order. |
| ExtractVec.Prepared | 05_freibergExpSetUp/00_Scripts/rivuletPostProcSaveData.py:150-153 | Defined exactly when every sort value parses. The prepared rows are sorted, on the 1e-3 grid, drawn from the input, and, as a multiset, exactly the rows the grid filter keeps. Rows with equal keys keep the order the filter left them in. |
| ExtractVec.Outs | 05_freibergExpSetUp/00_Scripts/rivuletPostProcSaveData.py:156-160 | outs[0] is the sort column and outs[1+k] the k-th requested column. All have the same length and order. |
| ExtractVec.ExtractVec | 05_freibergExpSetUp/00_Scripts/rivuletPostProcSaveData.py:111-164 | Succeeds exactly when the sort column and every requested column exist, every sort value parses, and every prepared row is long enough for every requested column. The first output is the sort column of the prepared rows, sorted and on the grid. Output 1+j is requested column j of the same rows. |
| RivuletVecs.PairSums | 05_freibergExpSetUp/00_Scripts/rivuletPostProcSaveData.py:647 | aLaRVec[k] = a[2k] + a[2k+1], with length n/2 rounded down. |
| RivuletVecs.PairSumsTotal | 05_freibergExpSetUp/00_Scripts/rivuletPostProcSaveData.py:647 | For an even number of edges, the widths sum to the total of the edges. |
| RivuletVecs.Ratios | 05_freibergExpSetUp/00_Scripts/rivuletPostProcSaveData.py:650-653 | Each eps[i] times width[i] is h0[i], defined exactly when the used widths are nonzero. |
| RivuletVecs.EpsAsWritten | 05_freibergExpSetUp/00_Scripts/rivuletPostProcSaveData.py:645-653 | nData = min(ceil(n/2), m), and eps[i] * aLaR[i] == h0[i]. It fails when a used width is missing or zero. |
| RivuletVecs.OddEdgesFail | 05_freibergExpSetUp/00_Scripts/rivuletPostProcSaveData.py:645-653 | With an odd number of edges and enough heights, the as-written computation indexes past aLaRVec. |
| RivuletVecs.EpsVec | 05_freibergExpSetUp/00_Scripts/rivuletPostProcSaveData.py:645-653 | The corrected count min(n/2, m) keeps eps[i] * aLaR[i] == h0[i], without an index error. |
| RivuletVecs.EpsAgreeOnEven | 05_freibergExpSetUp/00_Scripts/rivuletPostProcSaveData.py:645-653 | For an even number of edges the two agree. |
| RivuletVecs.BetaAsWritten | 05_freibergExpSetUp/00_Scripts/rivuletPostProcSaveData.py:720-727 | Defined exactly when there is at least one row, with one sum per key change, so the final group is never emitted. BetaAsWrittenByRuns states each entry. |
| RivuletVecs.BetaDropsLastGroup | 05_freibergExpSetUp/00_Scripts/rivuletPostProcSaveData.py:720-727 | The as-written list is always one group shorter than the group sums. |
| RivuletVecs.BetaLosesSecondGroup | 05_freibergExpSetUp/00_Scripts/rivuletPostProcSaveData.py:720-727 | On keys 1,1,2,2 with unit values, the as-written list is [2] while the group sums are [2, 2]. |
| RivuletVecs.GroupSums | 05_freibergExpSetUp/00_Scripts/rivuletPostProcSaveData.py:720-727 | The corrected grouping has one sum per run of equal keys, and the sums total all values. GroupSumsByRuns states each entry. |
| RivuletVecs.Bounds | 05_freibergExpSetUp/00_Scripts/rivuletPostProcSaveData.py:720-727 | The run boundaries start at 0, end at the row count, and increase strictly. |
| RivuletVecs.BoundsAreRuns | 05_freibergExpSetUp/00_Scripts/rivuletPostProcSaveData.py:720-727 | Row j+1 is a boundary exactly when the key changes between rows j and j+1. |
| RivuletVecs.GroupSumsByRuns | 05_freibergExpSetUp/00_Scripts/rivuletPostProcSaveData.py:720-727 | Entry k of the corrected grouping is the sum of the values from boundary k up to boundary k+1. |
| RivuletVecs.BetaAsWrittenByRuns | 05_freibergExpSetUp/00_Scripts/rivuletPostProcSaveData.py:720-727 | The as-written list has one entry fewer than the groups. Its first entry is the first group's sum, and entry k > 0 is group k's sum minus the group's first value. |
| SaveData.RivuletColumns | 05_freibergExpSetUp/00_Scripts/rivuletPostProcSaveData.py:645-727 | The corrected table, with nData = min(n/2, m) and one full sum per group. It exists exactly when the corrected eps can be computed, and its columns are x, the widths, h0, eps with eps times width equal to h0, and the group sums. |
| SaveData.RivuletColumnsAsWritten | 05_freibergExpSetUp/00_Scripts/rivuletPostProcSaveData.py:645-745 | The script's own table exists exactly when its eps step succeeds and there is at least one row. Its columns have ceil(n/2) or m entries, eps times width is h0, and the beta column is the as-written list. |
| SaveData.ColumnsAsWrittenVsCorrected | 05_freibergExpSetUp/00_Scripts/rivuletPostProcSaveData.py:645-745 | When the script's table exists: for an even edge count the corrected table exists with the same first four columns, for an odd count there are fewer heights than ceil(n/2), and the script's beta column is one group short. |
| SaveData.MinLen | 05_freibergExpSetUp/00_Scripts/rivuletPostProcSaveData.py:745-754 | The table length is at most every column's length. |
| SaveData.MinLenAttained | 05_freibergExpSetUp/00_Scripts/rivuletPostProcSaveData.py:745-754 | The table length equals some column's length. |
| SaveData.VecsTable | 05_freibergExpSetUp/00_Scripts/rivuletPostProcSaveData.py:745-754 | A header row of the six names is followed by one row per index of the shortest column. |
| SaveData.TableRow | 05_freibergExpSetUp/00_Scripts/rivuletPostProcSaveData.py:745-754 | Row i holds the i-th rendered value of every column. |
| SaveData.TableReadBack | 05_freibergExpSetUp/00_Scripts/rivuletPostProcSaveData.py:745-754 | Splitting a written row on tabs gives back the rendered values. |
| SaveData.RowReadBack | 05_freibergExpSetUp/00_Scripts/rivuletPostProcSaveData.py:745-754 | Tab-joined cells split back into the cells. |
| SaveData.CaseNameRoundTrip | 05_freibergExpSetUp/00_Scripts/rivuletPostProcSaveData.py:766 | The glob match `./<name>.OpenFOAM` gives back name. |
| SaveData.RivuletId | 05_freibergExpSetUp/00_Scripts/rivuletPostProcSaveData.py:766-772 | Succeeds exactly when the name splits into four fields and the flow field converts. idStr is liquid, inclination and flow joined by tabs. |
| SaveData.RivuletIdRoundTrip | 05_freibergExpSetUp/00_Scripts/rivuletPostProcSaveData.py:766-772 | A name built from four underscore-free fields is parsed back into them. |
| SaveData.TexturedId | 03_texturedPlate/01_longTexture/00_Scripts/postProcSaveData.py:118-125 | Takes the first four fields (extra fields allowed). The Reynolds field drops its leading `Re` before conversion. |
| SaveData.ExtraFieldOnlyTextured | 03_texturedPlate/01_longTexture/00_Scripts/postProcSaveData.py:118-125 | A name with a fifth field parses in the textured script but fails in the rivulet script. |
| SaveData.UpdateScalars | 05_freibergExpSetUp/00_Scripts/rivuletPostProcSaveData.py:783-787 | Lines without idStr are unchanged. Each line with it becomes the text before the match + idStr + tab + value, dropping anything after. |
| SaveData.UpdateOverwrites | 03_texturedPlate/01_longTexture/00_Scripts/postProcSaveData.py:136-140 | Updating twice leaves only the second value. |
| TexturedPost.TotalArea | 03_texturedPlate/01_longTexture/00_Scripts/postProcSaveData.py:111-112 | The total area (xMax-xMin)*(yMax-yMin) is non-negative for ordered bounds. |
| TexturedPost.AreaRatio | 03_texturedPlate/01_longTexture/00_Scripts/postProcSaveData.py:115 | aW/aT times aT is aW, and the ratio is absent exactly when aT = 0. |
| TexturedPost.RatioWithinOne | 03_texturedPlate/01_longTexture/00_Scripts/postProcSaveData.py:115 | A wetted area within the total gives a ratio in [0, 1]. |
| TexturedPost.Visited | 03_texturedPlate/01_longTexture/00_Scripts/postProcSaveData.py:217-231 | The frames visited are exactly the leading frames with time below the end time. |
| TexturedPost.AWaTTable | 03_texturedPlate/01_longTexture/00_Scripts/postProcSaveData.py:210-231 | The table starts with `time\taWaT` and gains exactly one row per visited frame. |
| TexturedPost.OneRowPerFrameBelowEnd | 03_texturedPlate/01_longTexture/00_Scripts/postProcSaveData.py:217-231 | For increasing frame times, the row count is the number of frames below the end time. |

## Left out

- Filesystem effects are not modelled: copytree, rmtree, README appends, script copies, `rsync` via `os.system`, and the temporary CSV files. Files are values passed in and returned.
- `time.sleep`, the waiting between polls, and all matplotlib plotting are effects with no bearing on the computed values. The polling loop is a fold over a sequence of log snapshots.
- The ParaView pipeline is calls into a visualisation API. This covers the rivuletPostProc scripts, the two Blender exporters, postProcMinimalV2.py, postProcMinimal_gCC.py, and the filter and fetch parts of the two SaveData scripts. The frames, bounds and CSV rows they produce are inputs. blenderPrepV2.py is Blender scene scripting and is left out too.
- The spreading-profile ODE solve in fprepIC_noGravityV4.py (lines 165-213) is floating-point numerics through scipy. The per-column stations (x, a, h0, tan beta) are inputs.
- The spline smoothing of betaVec uses scipy. The smoothed column is an input to `SaveData.RivuletColumns`.
- Exact float formatting and parsing (`repr`, `%5.5e`, `float()`, `round(..., 1)`) are function parameters. `float()` is `toFloat`, which gives `None` where `float()` raises, and `round(..., 1)` is `round1`. The `1e3*x % 1 == 0` grid test is stated on exact reals, without floating-point rounding.
- Transcendental functions (sqrt, tan, sinh, cosh, arctan) and pi are parameters. Counts derived from real quotients are `nat` inputs: nHolesX, nHolesY, nTextElems, and `round` of a real ratio.
- InletBC.ProfileSymmetric: assumes `cosh` is even as a precondition, rather than deriving it, because `cosh` is a parameter.
- InletBC.WriteInletBC: its contract states only when the computation fails. The rewritten file contents are stated about `InletBC.Rewrite` by RewriteReplacesEntry, RewriteAppendsWhenAbsent and RewriteIdempotent.
- Divisions by zero that the scripts would raise are preconditions (nonzero) rather than error results. They cover: rho*hIn (caseConstructorMappedV1.py:142), dA (caseConstructor.py:95), h0 in the droplet cap, the phase densities in transportProperties, d0 and nCellsXDS in fblockMeshGen.py, the channel height H in fprepIC_noGravityV4.py, and aT in postProcSaveData.py (stated as an Option in AreaRatio).
- The viscosity mu in fprepIC_noGravityV4.py (lines 177 and 224) is required to be nonzero. Dividing by it there is numpy float arithmetic, which gives inf or nan rather than raising. The precondition holds because mu comes from the fluid table, where every record's viscosity is positive (FluidData.Dfluid).
- MeshPerforated.CellsVec: with no holes, the script's earlier division by zero (`lG/nHolesX`, fblockMeshGenV10.py:140) is reported as `None`. Block and label functions then require at least one hole.
- The dense blocks (lines 350-437), the inlet blocks (lines 439-495) and the boundary-patch face lists (lines 497-850) of fblockMeshGen.py are not modelled. They pick vertex labels from the groups of `MeshFreiberg.LabelsOf` in the same way as `MeshFreiberg.SparseBlocks`, and are only written to the file.
- FluidData.Table: every entry is held as a real. In the script the H2O and H2OCk contact angles and the AIR surface tension are Python ints (dfluidData.py:44-47), so `repr` writes them without a decimal point (`60`, not `60.0`). The model does not keep that difference. Rendering is a function parameter, so the text written for those entries is not modelled. The Python 2 integer divisions on those angles (caseConstructor_rPFF.py:125 and 254) are exact for the H2O and H2OCk entries, so the computed values agree.
- The mergePatchPairs block of fblockMeshGen.py (lines 851-857) is three fixed text lines with no computation.
- The remaining boundary-patch face lists of fblockMeshGenV10.py, and the arc calls at lines 239-250, repeat the label arithmetic stated by `MeshPerforated.LablsV` and `MeshPerforated.WriteArcs`.
- The outlet, plate, sides and atmosphere face lists of fblockMeshGenV2.py (lines 255-321) are not modelled. They pick labels from the rows of `MeshTextured.LablsV` in the same way as the inlet faces of `MeshTextured.InletFaces`, and are only written to the file.
- PatchIndexedEach: the exact failure condition and the value of every marker line (PatchIndexedEachFails, PatchIndexedEachSeparated) are proved only for templates whose markers do not interfere. There, a line holding one marker holds no other, and none of its written values brings in another marker. On other templates a later pass reads text an earlier pass wrote. The model computes that case, but no lemma describes it.
- PatchTransport: its rho and sigma values, and the failure on too many rho or sigma lines, carry the same non-interference hypothesis (PatchTransportFails, PatchTransportValues).
- PatchSurfaceFilm: its per-marker values and exact failure condition carry the same hypothesis (PatchSurfaceFilmFails, PatchSurfaceFilmValues).
- ScopedEach: the window behaviour (ScopedEachWindow) is proved for templates with non-empty markers, where a marker line holds no other marker and no `PIMPLE`, before or after its edit.
- PatchFvSolution: its written values (PatchFvSolutionValues) carry that hypothesis too, plus the same condition for the `nCellsInCoarsestLevel` lines.
- PatchAlphaLiquid: the written value is stated only on lines that one marker decides. A line holding two of the markers goes through both passes; the model computes that, but the contract does not state it.
- PatchControlDict: the same as PatchAlphaLiquid, for the three time markers.
- PatchOfSh: the same as PatchAlphaLiquid, for the five job-script markers.
- PatchFilmOfSh: the same as PatchAlphaLiquid, for the four job-script markers.
- PatchCaseDescription: the same as PatchAlphaLiquid, for the five case-description markers.
- PatchBlenderPrep: the same as PatchAlphaLiquid, for the six blenderPrep markers.
- RivuletColumns: this is the corrected output table. The table the script itself builds, with ceil(n/2) rows and the as-written beta column, is `SaveData.RivuletColumnsAsWritten`.
- The courant-number series and the plot layout of procLogOnline.py are plotting only.
- The `postProcVecs_` output file name is a path effect. The file contents are `SaveData.VecsTable`.
- Lines appended to a file with no trailing newline are treated as whole lines. Joining a final line without a newline with the next write is not modelled.
- `glob` is left out. The matched case file name is an input.
- Three places where the code does something a reader may not expect:
  - Both backward log scans stop at line 1.
  - `nCellsWVec` sums to nCellsW - 2, not nCellsW.
  - `int()` accepts surrounding whitespace and a sign (`LogReader.ParseInt`).

## Findings

| source | as written | input that shows it | evidently intended | confidence | as-written member | corrected member |
|---|---|---|---|---|---|---|
| 04_perforatedPlate/10_noTextureUniformPerforation/00_Scripts/dfluidData.py:48 | an unknown liquid returns the string `'DC10'`, so callers unpacking six values fail | `dfluidData('GLYCEROL')` | fall back to DC10's property list | not executed | FluidData.UnknownLiquidFails | FluidData.DfluidIntended |
| 00_utilities/procLogOnline.py:72 | an unknown server returns the string `'Altix'`, so the four-way unpack at line 109 fails | `avServers('Hydra')` | fall back to Altix's record | not executed | LogMonitor.UnknownServerFails | LogMonitor.AvServersIntended |
| 00_utilities/procLogOnline.py:314 | `[[]]*len(varInt)` makes every series one shared list | two variables, each with one residual line | one list per variable | not executed | LogMonitor.AliasingMixesVariables | LogMonitor.DistinctSeries |
| 05_freibergExpSetUp/00_Scripts/caseConstructorV9.py:688 | the patched rivuletPostProcSaveData.py is written over rivuletPostProc.py | any run of the case constructor | write the patched text back to rivuletPostProcSaveData.py | not executed | CaseFreiberg.PostProcWrongTarget | CaseFreiberg.PostProcScripts |
| 05_freibergExpSetUp/00_Scripts/rivuletPostProcSaveData.py:645-653 | nData uses ceil(n/2) while aLaRVec has n/2 rounded down entries | 3 edges and 2 heights | nData = min(n/2 rounded down, m) | not executed | RivuletVecs.OddEdgesFail | RivuletVecs.EpsVec |
| 05_freibergExpSetUp/00_Scripts/rivuletPostProcSaveData.py:720-727 | the last group is never emitted, and each later group loses its first value | keys 1,1,2,2 with values 1,1,1,1 give [2] | one full sum per group, [2, 2] | not executed | RivuletVecs.BetaAsWrittenByRuns | RivuletVecs.GroupSumsByRuns |

=== FILE: case_common.dfy ===
/** Pieces shared by the case constructors: a case directory as a map from
    relative file names to their lines, and the case name derived from the
    case directory path. */
module CaseCommon {
  import opened Text
  import opened Wrappers
  import opened Patch

  /** The files of a case directory that a constructor reads or writes. */
  type Files = map<string, Lines>

  /** `caseDir.split('/')[-2]`: since the case directory path ends with
      '/', the second-to-last field is the directory's own name. */
  function CaseName(caseDir: string): (r: Option<string>)
    ensures r.Some? <==> Contains(caseDir, "/")
    ensures r.Some? ==> !Contains(r.value, "/")
  {
    SecondLastField(caseDir, "/")
  }

  /** For a path `<parent>/<name>/` the case name is `<name>`. */
  lemma {:induction false} CaseNameIsLastDirectory(parent: string, name: string)
    requires !Contains(name, "/")
    ensures CaseName(parent + "/" + name + "/") == Some(name)
  {
    var dir := parent + "/" + name + "/";
    var tail := name + "/";
    assert "/" == ['/'];
    SplitWhole(name, "/");
    SplitWhole("", "/");
    assert tail == name + ['/'] + "";
    SplitConcat(name, '/', "");
    assert Split(tail, "/") == [name, ""];
    assert dir == parent + ['/'] + tail;
    SplitConcat(parent, '/', tail);
    var parts := Split(dir, "/");
    assert parts == Split(parent, "/") + [name, ""];
  }
}

=== FILE: case_droplet.dfy ===
/** The case constructor of the droplet-spreading cases: the choice
    between a 2D and a 3D set-up, the initial drop as a circular cap, and
    the setFieldsDict patch that places it. */
module CaseDroplet {
  import opened Text
  import opened Wrappers
  import opened Patch
  import opened CaseCommon
  import opened Geometry

  /** `3 if aG/dA > 1 else 2`: the case is 3D when the geometry is wider
      than one cell. A zero cell width is a ZeroDivisionError. */
  function NDims(aG: real, dA: real): (r: nat)
    requires dA != 0.0
    ensures r == 2 || r == 3
    ensures dA > 0.0 ==> (r == 3 <==> aG > dA)
    ensures dA < 0.0 ==> (r == 3 <==> aG < dA)
  {
    if aG / dA > 1.0 then 3 else 2
  }

  /** A drop of height h0 and foot radius r0 is the part above the plate of
      a circle (2D: a cylinder along y; 3D: a sphere) of radius R centred d
      below the plate. */
  datatype Drop = Drop(p1: Vec3, p2: Vec3, radius: real)

  /** The drop's cylinder axis (2D: from y = 0 to y = aG) or, in 3D, its
      centre (p1 == p2) in the middle of the plate. */
  function DropShape(nDims: nat, lG: real, aG: real, h0: real, r0: real): (r: Drop)
    requires h0 != 0.0
    ensures r.radius == CapRadius(h0, r0)
    ensures r.p1.x == r.p2.x == lG / 2.0 && r.p1.z == r.p2.z == -CapDepth(h0, r0)
    ensures nDims == 2 ==> r.p1.y == 0.0 && r.p2.y == aG
    ensures nDims != 2 ==> r.p1 == r.p2 && r.p1.y == aG / 2.0
  {
    var d := CapDepth(h0, r0);
    if nDims == 2 then Drop(Vec3(lG / 2.0, 0.0, -d), Vec3(lG / 2.0, aG, -d), CapRadius(h0, r0))
    else Drop(Vec3(lG / 2.0, aG / 2.0, -d), Vec3(lG / 2.0, aG / 2.0, -d), CapRadius(h0, r0))
  }

  /** The drop reaches exactly h0 above the plate and wets the plate out to
      distance r0 from its axis. */
  lemma {:induction false} DropFitsCap(nDims: nat, lG: real, aG: real, h0: real, r0: real)
    requires h0 != 0.0
    ensures var s := DropShape(nDims, lG, aG, h0, r0);
            s.p1.z + s.radius == h0 && s.p1.z * s.p1.z + r0 * r0 == s.radius * s.radius
  {
    CircleCap(h0, r0);
  }

  /** The markers of the setFieldsDict template and their rendered values,
      `fmt` standing for `'%5.5f'`. In 2D the first point's y is the
      literal `0`. */
  function SetFieldsEdits(nDims: nat, s: Drop, fmt: real -> string): (r: seq<Edit>)
    ensures |r| == (if nDims == 2 then 3 else 2)
    ensures nDims == 2 ==> r[0].marker == "p1 " && r[1].marker == "p2 " && r[2].marker == "radius "
    ensures nDims != 2 ==> r[0].marker == "centre " && r[1].marker == "radius "
    ensures r[|r| - 1].tail == fmt(s.radius) + ";\n"
  {
    if nDims == 2 then
      [Edit("p1 ", "(" + fmt(s.p1.x) + " 0 " + fmt(s.p1.z) + ")" + ";\n"),
       Edit("p2 ", "(" + fmt(s.p2.x) + " " + fmt(s.p2.y) + " " + fmt(s.p2.z) + ")" + ";\n"),
       Edit("radius ", fmt(s.radius) + ";\n")]
    else
      [Edit("centre ", "(" + fmt(s.p1.x) + " " + fmt(s.p1.y) + " " + fmt(s.p1.z) + ")" + ";\n"),
       Edit("radius ", fmt(s.radius) + ";\n")]
  }

  const SetFieldsOut := "system/setFieldsDict"

  function SetFieldsTemplate(nDims: nat): string {
    if nDims == 2 then "system/setFieldsDict2D" else "system/setFieldsDict3D"
  }

  /** Reads the 2D or 3D template and writes the patched lines to
      system/setFieldsDict. A missing template is an IOError. */
  function WriteSetFields(files: Files, nDims: nat, s: Drop, fmt: real -> string): (r: Option<Files>)
    ensures r.Some? <==> SetFieldsTemplate(nDims) in files
    ensures r.Some? ==> r.value.Keys == files.Keys + {SetFieldsOut}
    ensures r.Some? ==> r.value[SetFieldsTemplate(nDims)] == files[SetFieldsTemplate(nDims)]
    ensures r.Some? ==> forall f :: f in files && f != SetFieldsOut ==> r.value[f] == files[f]
    ensures r.Some? ==>
              var tpl := files[SetFieldsTemplate(nDims)];
              |r.value[SetFieldsOut]| == |tpl| &&
              forall i :: 0 <= i < |tpl| && Unmarked(tpl[i], SetFieldsEdits(nDims, s, fmt)) ==>
                r.value[SetFieldsOut][i] == tpl[i]
  {
    var t := SetFieldsTemplate(nDims);
    if t !in files then None
    else
      assert t != SetFieldsOut;
      Some(files[SetFieldsOut := PatchEach(files[t], SetFieldsEdits(nDims, s, fmt))])
  }

  /** The value follows its marker without a separator: a template line
      holding the k-th marker (and no earlier one) keeps its text before
      the marker, which then carries the value and ";\n", provided the new
      line holds none of the later markers. */
  lemma {:induction false} SetFieldsNoSeparator(files: Files, nDims: nat, s: Drop, fmt: real -> string, i: int, k: int)
    requires SetFieldsTemplate(nDims) in files
    requires 0 <= i < |files[SetFieldsTemplate(nDims)]|
    requires 0 <= k < |SetFieldsEdits(nDims, s, fmt)|
    requires var e := SetFieldsEdits(nDims, s, fmt);
             var line := files[SetFieldsTemplate(nDims)][i];
             Find(line, e[k].marker) >= 0 && Unmarked(line, e[..k]) &&
             Unmarked(line[..Find(line, e[k].marker)] + e[k].marker + e[k].tail, e[k + 1..])
    ensures var e := SetFieldsEdits(nDims, s, fmt);
            var line := files[SetFieldsTemplate(nDims)][i];
            WriteSetFields(files, nDims, s, fmt).value[SetFieldsOut][i] ==
              line[..Find(line, e[k].marker)] + e[k].marker + e[k].tail
  {
    var e := SetFieldsEdits(nDims, s, fmt);
    var tpl := files[SetFieldsTemplate(nDims)];
    assert WriteSetFields(files, nDims, s, fmt).value[SetFieldsOut] == PatchEach(tpl, e);
    PatchEachKeepsPrefix(tpl, e, i, k);
  }
}

=== FILE: case_film.dfy ===
/** The case constructor of the film (surface film region) variant of the
    Freiberg set-up: additional controls, the surface film properties with
    occurrence-indexed values, the decomposition dictionary shared by the
    two regions, and the job script. Files it patches the same way as the
    rivulet constructor (g, controlDict, Allrun-parallel) are modelled there. */
module CaseFilm {
  import opened Text
  import opened Wrappers
  import opened Patch
  import opened CaseCommon
  import CaseFreiberg

  const SolveMarker := "solvePrimaryRegion"
  const SolveLine := "solvePrimaryRegion\tfalse;\n\n"

  /** constant/additionalControls: every line naming solvePrimaryRegion is
      replaced as a whole (any text before the name is dropped). */
  function PatchAdditionalControls(tpl: Lines): (r: Lines)
    ensures |r| == |tpl|
    ensures forall i :: 0 <= i < |tpl| ==>
              r[i] == (if Contains(tpl[i], SolveMarker) then SolveLine else tpl[i])
  {
    ReplaceWhole(tpl, SolveMarker, SolveLine)
  }

  /** The replacement line still names the switch, so a second run changes
      nothing. */
  lemma {:induction false} AdditionalControlsIdempotent(tpl: Lines)
    ensures PatchAdditionalControls(PatchAdditionalControls(tpl)) == PatchAdditionalControls(tpl)
  {
    assert SolveLine[..|SolveMarker|] == SolveMarker;
    assert OccursAt(SolveLine, SolveMarker, 0);
  }

  const FilmMarkers := ["specieName", "rho0", "mu0", "sigma0", "deltaWet",
                        "minValue", "maxValue", "expectation", "variance"]

  /** Rendered film parameters. `beta` is prepared by the script (the
      equilibrium angle) but has no marker, so it is never written. */
  datatype FilmValues = FilmValues(specie: string, rho: string, mu: string, sigma: string,
                                   deltaWet: string, thetaR: string, lCTenth: string,
                                   thetaA: string, lCFive: string, theta0: string,
                                   thetaHalf: string, beta: string)

  /** The marker table of surfaceFilmProperties: minValue and maxValue take
      two occurrences (the angle, then the length scale), every other marker one. */
  function FilmEdits(v: FilmValues): (r: seq<IndexedEdit>)
    ensures |r| == 9
    ensures forall k :: 0 <= k < 9 ==> r[k].marker == FilmMarkers[k] && r[k].sep == "\t" && r[k].term == ";\n"
    ensures forall k :: 0 <= k < 9 ==> |r[k].vals| == (if k == 5 || k == 6 then 2 else 1)
    ensures forall k :: 0 <= k < 9 ==> r[k].marker != "beta"
  {
    [IndexedEdit(FilmMarkers[0], "\t", [v.specie], ";\n"),
     IndexedEdit(FilmMarkers[1], "\t", [v.rho], ";\n"),
     IndexedEdit(FilmMarkers[2], "\t", [v.mu], ";\n"),
     IndexedEdit(FilmMarkers[3], "\t", [v.sigma], ";\n"),
     IndexedEdit(FilmMarkers[4], "\t", [v.deltaWet], ";\n"),
     IndexedEdit(FilmMarkers[5], "\t", [v.thetaR, v.lCTenth], ";\n"),
     IndexedEdit(FilmMarkers[6], "\t", [v.thetaA, v.lCFive], ";\n"),
     IndexedEdit(FilmMarkers[7], "\t", [v.theta0], ";\n"),
     IndexedEdit(FilmMarkers[8], "\t", [v.thetaHalf], ";\n")]
  }

  /** constant/surfaceFilmProperties. A second specieName line is already an
      index error. */
  function PatchSurfaceFilm(tpl: Lines, v: FilmValues): (r: Option<Lines>)
    ensures r.Some? ==> |r.value| == |tpl|
    ensures r.Some? ==> forall i :: (0 <= i < |tpl| && forall k :: 0 <= k < 9 ==> !Contains(tpl[i], FilmMarkers[k])) ==>
              r.value[i] == tpl[i]
    ensures CountMatches(tpl, "specieName") > 1 ==> r.None?
  {
    var edits := FilmEdits(v);
    assert forall i :: (0 <= i < |tpl| && forall k :: 0 <= k < 9 ==> !Contains(tpl[i], FilmMarkers[k])) ==>
             UnmarkedIndexed(tpl[i], edits);
    PatchIndexedEach(tpl, edits)
  }

  /** On a template where the film markers do not interfere, the patch
      fails exactly when a marker has more lines than values: a second
      line for a single-valued marker, or a third for minValue or maxValue. */
  lemma {:induction false} PatchSurfaceFilmFails(tpl: Lines, v: FilmValues)
    requires Separated(tpl, FilmEdits(v))
    ensures PatchSurfaceFilm(tpl, v).None? <==>
              exists k :: 0 <= k < 9 && CountMatches(tpl, FilmMarkers[k]) > (if k == 5 || k == 6 then 2 else 1)
  {
    var edits := FilmEdits(v);
    PatchIndexedEachFails(tpl, edits);
    if PatchSurfaceFilm(tpl, v).None? {
      var a :| 0 <= a < |edits| && CountMatches(tpl, edits[a].marker) > |edits[a].vals|;
      assert 0 <= a < 9 && CountMatches(tpl, FilmMarkers[a]) > (if a == 5 || a == 6 then 2 else 1);
    } else {
      forall k | 0 <= k < 9 ensures CountMatches(tpl, FilmMarkers[k]) <= (if k == 5 || k == 6 then 2 else 1) {
        assert edits[k].marker == FilmMarkers[k];
      }
    }
  }

  /** On such a template, when the patch succeeds, the c-th line holding a
      marker gets that marker's c-th value. */
  lemma {:induction false} PatchSurfaceFilmValues(tpl: Lines, v: FilmValues)
    requires Separated(tpl, FilmEdits(v))
    ensures PatchSurfaceFilm(tpl, v).Some? ==>
              forall i, k :: 0 <= i < |tpl| && 0 <= k < 9 && Contains(tpl[i], FilmMarkers[k]) ==>
                CountMatches(tpl[..i], FilmMarkers[k]) < |FilmEdits(v)[k].vals| &&
                PatchSurfaceFilm(tpl, v).value[i] ==
                  PatchLine(tpl[i], FilmMarkers[k], "\t" + FilmEdits(v)[k].vals[CountMatches(tpl[..i], FilmMarkers[k])] + ";\n")
  {
    var edits := FilmEdits(v);
    assert PatchSurfaceFilm(tpl, v) == PatchIndexedEach(tpl, edits);
    PatchIndexedEachSeparated(tpl, edits);
  }

  /** In particular the first minValue line gets the receding angle and the
      second the tenth of the capillary length; the first maxValue line the
      advancing angle and the second five capillary lengths. */
  lemma {:induction false} PatchSurfaceFilmRanges(tpl: Lines, v: FilmValues)
    requires Separated(tpl, FilmEdits(v))
    ensures PatchSurfaceFilm(tpl, v).Some? ==>
              forall i :: 0 <= i < |tpl| && Contains(tpl[i], "minValue") ==>
                PatchSurfaceFilm(tpl, v).value[i] ==
                  PatchLine(tpl[i], "minValue", "\t" + (if CountMatches(tpl[..i], "minValue") == 0 then v.thetaR else v.lCTenth) + ";\n")
    ensures PatchSurfaceFilm(tpl, v).Some? ==>
              forall i :: 0 <= i < |tpl| && Contains(tpl[i], "maxValue") ==>
                PatchSurfaceFilm(tpl, v).value[i] ==
                  PatchLine(tpl[i], "maxValue", "\t" + (if CountMatches(tpl[..i], "maxValue") == 0 then v.thetaA else v.lCFive) + ";\n")
  {
    PatchSurfaceFilmValues(tpl, v);
    var edits := FilmEdits(v);
    assert FilmMarkers[5] == "minValue" && edits[5].vals == [v.thetaR, v.lCTenth];
    assert FilmMarkers[6] == "maxValue" && edits[6].vals == [v.thetaA, v.lCFive];
  }

  /** The beta value only reaches the file if another parameter happens to
      render to the same text: changing beta alone never changes the result. */
  lemma {:induction false} SurfaceFilmIgnoresBeta(tpl: Lines, v: FilmValues, beta: string)
    ensures PatchSurfaceFilm(tpl, v.(beta := beta)) == PatchSurfaceFilm(tpl, v)
  {
    assert FilmEdits(v.(beta := beta)) == FilmEdits(v);
  }

  const SystemDecompose := "system/decomposeParDict"
  const FilmDecompose := "system/wallFilmRegion/decomposeParDict"

  /** The decomposition step: the film region's dictionary is patched and
      written as the system one; the system one is read back, patched again
      and written as the film region's. */
  function DecomposeCrossCopy(files: Files, nCores: string): (r: Files)
    requires SystemDecompose in files && FilmDecompose in files
    ensures r.Keys == files.Keys
    ensures r[SystemDecompose] == CaseFreiberg.PatchDecomposePar(files[FilmDecompose], nCores)
    ensures r[FilmDecompose] == r[SystemDecompose]
    ensures forall f :: f in files && f != SystemDecompose && f != FilmDecompose ==> r[f] == files[f]
  {
    var once := CaseFreiberg.PatchDecomposePar(files[FilmDecompose], nCores);
    var step1 := files[SystemDecompose := once];
    var twice := CaseFreiberg.PatchDecomposePar(step1[SystemDecompose], nCores);
    PatchAllIdempotent(files[FilmDecompose], "numberOfSubdomains ", "\t" + nCores + ";\n");
    step1[FilmDecompose := twice]
  }

  /** Whatever the system template held is discarded. */
  lemma {:induction false} DecomposeDiscardsSystemTemplate(files: Files, nCores: string, other: Lines)
    requires SystemDecompose in files && FilmDecompose in files
    ensures DecomposeCrossCopy(files[SystemDecompose := other], nCores) == DecomposeCrossCopy(files, nCores)
  {
  }

  const FilmOfShMarkers := ["#PBS -N ", "#PBS -q paralel", "#PBS -l nodes=1:ppn=", "caseDir="]

  /** The case name `rPFF_<Q0 mL/s>_<angle>_<liquid>` from its rendered parts. */
  function FilmCaseName(q0: string, angle: string, liqName: string): (r: string)
    ensures StartsWith(r, "rPFF_")
    ensures |r| == 7 + |q0| + |angle| + |liqName|
  {
    "rPFF" + "_" + q0 + "_" + angle + "_" + liqName
  }

  /** With no underscore in the rendered parts, splitting the case name at
      `_` gives back the prefix and the three parts. */
  lemma {:induction false} FilmCaseNameFields(q0: string, angle: string, liqName: string)
    requires !Contains(q0, "_") && !Contains(angle, "_") && !Contains(liqName, "_")
    ensures Split(FilmCaseName(q0, angle, liqName), "_") == ["rPFF", q0, angle, liqName]
  {
    assert "_" == ['_'];
    ContainsCharIff("rPFF", '_');
    FourFields("rPFF", q0, angle, liqName);
  }

  /** The job script markers with what each receives. */
  function FilmOfShEdits(caseName: string, nCores: string): (r: seq<Edit>)
    ensures |r| == 4 && forall k :: 0 <= k < 4 ==> r[k].marker == FilmOfShMarkers[k]
    ensures r[0].tail == caseName + ".pbs\n" && r[3].tail == "'" + caseName + "'\n"
    ensures r[1].tail == r[2].tail == nCores + "\n"
  {
    [Edit(FilmOfShMarkers[0], caseName + ".pbs" + "\n"),
     Edit(FilmOfShMarkers[1], nCores + "\n"),
     Edit(FilmOfShMarkers[2], nCores + "\n"),
     Edit(FilmOfShMarkers[3], "'" + caseName + "'" + "\n")]
  }

  /** ./of.sh: values follow their markers directly. The queue line's
      marker carries the queue name itself and receives the core count, as
      the nodes line does. */
  function PatchFilmOfSh(tpl: Lines, caseName: string, nCores: string): (r: Lines)
    ensures PatchedAsEach(tpl, r, FilmOfShEdits(caseName, nCores))
    ensures forall i :: (0 <= i < |tpl| && forall k :: 0 <= k < 4 ==> !Contains(tpl[i], FilmOfShMarkers[k])) ==>
              r[i] == tpl[i]
  {
    var edits := FilmOfShEdits(caseName, nCores);
    PatchEachValues(tpl, edits);
    PatchEach(tpl, edits)
  }
}

=== FILE: case_freiberg.dfy ===
/** The case constructor of the Freiberg rivulet experiment set-up: mesh
    size selection, cell counts, and the patching of every template file of
    the copied base case. Rendered numbers (`repr`, `%4.2e`, ...) enter as
    strings; `fmt` stands for `repr` on reals. */
module CaseFreiberg {
  import opened Text
  import opened Wrappers
  import opened Patch
  import opened CaseCommon
  import FluidData

  /** [aD, aT, hC]: dense-block width, total mesh width, mesh height (m). */
  datatype MeshSize = MeshSize(aD: real, aT: real, hC: real)

  predicate IsSiliconeOil(liqName: string) {
    liqName == "DC10" || liqName == "DC05"
  }

  /** `meshSizePars(Q0, liqName)`: Q0 is a volumetric flow rate in m3/s and
      is compared in mL/s. Silicone oils switch at 0.5 and 2.0 mL/s; every
      other liquid keeps the 20/40 mm widths and switches height at 3.5 and
      5.8 mL/s. */
  function MeshSizePars(q0: real, liqName: string): (r: MeshSize)
    ensures r.aD < r.aT
    ensures IsSiliconeOil(liqName) ==>
              (r == MeshSize(0.02, 0.04, 0.003) <==> q0 * 1000000.0 <= 0.5) &&
              (r == MeshSize(0.03, 0.055, 0.005) <==> 0.5 < q0 * 1000000.0 <= 2.0) &&
              (r == MeshSize(0.04, 0.075, 0.005) <==> 2.0 < q0 * 1000000.0)
    ensures !IsSiliconeOil(liqName) ==>
              r.aD == 0.02 && r.aT == 0.04 &&
              (r.hC == 0.003 <==> q0 * 1000000.0 <= 3.5) &&
              (r.hC == 0.006 <==> 3.5 < q0 * 1000000.0 <= 5.8) &&
              (r.hC == 0.01 <==> 5.8 < q0 * 1000000.0)
  {
    var q := q0 * 1000000.0;
    if IsSiliconeOil(liqName) then
      if q <= 0.5 then MeshSize(0.02, 0.04, 0.003)
      else if q > 0.5 && q <= 2.0 then MeshSize(0.03, 0.055, 0.005)
      else MeshSize(0.04, 0.075, 0.005)
    else
      if q <= 3.5 then MeshSize(0.02, 0.04, 0.003)
      else if q > 3.5 && q <= 5.8 then MeshSize(0.02, 0.04, 0.006)
      else MeshSize(0.02, 0.04, 0.01)
  }

  /** A larger flow rate never gets a smaller mesh, for a fixed liquid. */
  lemma {:induction false} MeshSizeMonotone(q1: real, q2: real, liqName: string)
    requires q1 <= q2
    ensures MeshSizePars(q1, liqName).hC <= MeshSizePars(q2, liqName).hC
    ensures MeshSizePars(q1, liqName).aD <= MeshSizePars(q2, liqName).aD
    ensures MeshSizePars(q1, liqName).aT <= MeshSizePars(q2, liqName).aT
  {
    assert q1 * 1000000.0 <= q2 * 1000000.0;
  }

  /** Cell counts of the dense (D) and sparse (S) blocks. */
  datatype CellCounts = CellCounts(xDL: nat, xDS: nat, yD: nat, zD: nat,
                                   xSL: nat, xSS: nat, yS: nat, zS: nat)

  /** The dense counts `int(cL*1e3)`, `int(dbW*1e3)`, `int(5*cH*1e3)` come in
      already truncated; the short dense block has 20 cells; the sparse
      counts are the dense ones divided by 5 (x, y) and 3 (z) with Python 2
      integer division, i.e. rounded down. */
  function MeshCellCounts(xDL: nat, yD: nat, zD: nat): (r: CellCounts)
    ensures r.xDL == xDL && r.yD == yD && r.zD == zD && r.xDS == 20
    ensures r.xSL * 5 <= xDL < r.xSL * 5 + 5
    ensures r.yS * 5 <= yD < r.yS * 5 + 5
    ensures r.zS * 3 <= zD < r.zS * 3 + 3
    ensures r.xSS == 4
  {
    CellCounts(xDL, 20, yD, zD, xDL / 5, 20 / 5, yD / 5, zD / 3)
  }

  /** The phase property lists: kinematic viscosities and densities of
      liquid and air, and the single surface tension. */
  datatype Phases = Phases(nu: seq<real>, rho: seq<real>, sigma: seq<real>)

  function LiquidPhases(liq: FluidData.Props, air: FluidData.Props): (r: Phases)
    requires liq.rho != 0.0 && air.rho != 0.0
    ensures |r.nu| == 2 && |r.rho| == 2 && |r.sigma| == 1
    ensures r.nu[0] * r.rho[0] == liq.mu && r.nu[1] * r.rho[1] == air.mu
    ensures r.sigma[0] == liq.sigma
  {
    Phases([liq.mu / liq.rho, air.mu / air.rho], [liq.rho, air.rho], [liq.sigma])
  }

  const MassFlowMarker := "massFlowRate    constant "

  /** 0.org/U: the inlet mass flow rate. */
  function PatchU(tpl: Lines, mDot: string): (r: Lines)
    ensures SinglePatched(tpl, r, MassFlowMarker, "\t" + mDot + ";\n")
  {
    PatchAll(tpl, MassFlowMarker, "\t" + mDot + ";\n")
  }

  /** Patching U a second time with the same value changes nothing. */
  lemma {:induction false} PatchUIdempotent(tpl: Lines, mDot: string)
    ensures PatchU(PatchU(tpl, mDot), mDot) == PatchU(tpl, mDot)
  {
    PatchAllIdempotent(tpl, MassFlowMarker, "\t" + mDot + ";\n");
  }

  /** The alpha.liquid markers with the contact angle each receives. */
  function AlphaEdits(theta0: string, thetaA: string, thetaR: string): seq<Edit> {
    [Edit("theta0", "\t\t\t" + theta0 + ";\n"),
     Edit("thetaA", "\t\t\t" + thetaA + ";\n"),
     Edit("thetaR", "\t\t\t" + thetaR + ";\n")]
  }

  /** 0.org/alpha.liquid: the three contact angles, each written after its
      own marker. */
  function PatchAlphaLiquid(tpl: Lines, theta0: string, thetaA: string, thetaR: string): (r: Lines)
    ensures PatchedAsEach(tpl, r, AlphaEdits(theta0, thetaA, thetaR))
    ensures forall i :: (0 <= i < |tpl| && !Contains(tpl[i], "theta0") &&
                         !Contains(tpl[i], "thetaA") && !Contains(tpl[i], "thetaR")) ==> r[i] == tpl[i]
  {
    var edits := AlphaEdits(theta0, thetaA, thetaR);
    assert forall i :: (0 <= i < |tpl| && !Contains(tpl[i], "theta0") &&
                        !Contains(tpl[i], "thetaA") && !Contains(tpl[i], "thetaR")) ==> Unmarked(tpl[i], edits);
    PatchEachValues(tpl, edits);
    PatchEach(tpl, edits)
  }

  /** constant/g: the gravity vector of the inclined plate; its y
      component is always the literal 0.0. */
  function PatchGravity(tpl: Lines, gx: string, gz: string): (r: Lines)
    ensures SinglePatched(tpl, r, "value", "\t\t\t(" + gx + "\t0.0\t" + gz + ");\n")
  {
    PatchAll(tpl, "value", "\t\t\t(" + gx + "\t0.0\t" + gz + ");\n")
  }

  const TransportMarkers := ["nu [ 0 2 -1 0 0 0 0 ]", "rho [ 1 -3 0 0 0 0 0 ]", "sigma [ 1 0 -2 0 0 0 0 ]"]

  /** The transportProperties markers with their value lists. */
  function TransportEdits(ph: Phases, fmt: real -> string): seq<IndexedEdit> {
    [IndexedEdit(TransportMarkers[0], "\t", Rendered(ph.nu, fmt), ";\n"),
     IndexedEdit(TransportMarkers[1], "\t", Rendered(ph.rho, fmt), ";\n"),
     IndexedEdit(TransportMarkers[2], "\t", Rendered(ph.sigma, fmt), ";\n")]
  }

  /** constant/transportProperties: the k-th line holding a marker gets the
      k-th value of that marker's list (liquid first, then air). */
  function PatchTransport(tpl: Lines, ph: Phases, fmt: real -> string): (r: Option<Lines>)
    ensures r.Some? ==> |r.value| == |tpl|
    ensures r.Some? ==> forall i :: (0 <= i < |tpl| && !Contains(tpl[i], TransportMarkers[0]) &&
                                     !Contains(tpl[i], TransportMarkers[1]) &&
                                     !Contains(tpl[i], TransportMarkers[2])) ==> r.value[i] == tpl[i]
    ensures CountMatches(tpl, TransportMarkers[0]) > |ph.nu| ==> r.None?
  {
    var edits := TransportEdits(ph, fmt);
    assert forall i :: (0 <= i < |tpl| && !Contains(tpl[i], TransportMarkers[0]) &&
                        !Contains(tpl[i], TransportMarkers[1]) &&
                        !Contains(tpl[i], TransportMarkers[2])) ==> UnmarkedIndexed(tpl[i], edits);
    PatchIndexedEach(tpl, edits)
  }

  /** On a template where the three markers do not interfere, the patch
      fails exactly when a marker has more lines than its list has values. */
  lemma {:induction false} PatchTransportFails(tpl: Lines, ph: Phases, fmt: real -> string)
    requires Separated(tpl, TransportEdits(ph, fmt))
    ensures PatchTransport(tpl, ph, fmt).None? <==>
              CountMatches(tpl, TransportMarkers[0]) > |ph.nu| ||
              CountMatches(tpl, TransportMarkers[1]) > |ph.rho| ||
              CountMatches(tpl, TransportMarkers[2]) > |ph.sigma|
  {
    var edits := TransportEdits(ph, fmt);
    PatchIndexedEachFails(tpl, edits);
    assert edits[0].marker == TransportMarkers[0] && |edits[0].vals| == |ph.nu|;
    assert edits[1].marker == TransportMarkers[1] && |edits[1].vals| == |ph.rho|;
    assert edits[2].marker == TransportMarkers[2] && |edits[2].vals| == |ph.sigma|;
  }

  /** On such a template, when the patch succeeds, the c-th `nu` line
      (from the top) gets the c-th viscosity, the c-th `rho` line the c-th
      density, and the `sigma` line the surface tension. */
  lemma {:induction false} PatchTransportValues(tpl: Lines, ph: Phases, fmt: real -> string)
    requires Separated(tpl, TransportEdits(ph, fmt))
    ensures PatchTransport(tpl, ph, fmt).Some? ==> forall i :: 0 <= i < |tpl| ==>
              var r := PatchTransport(tpl, ph, fmt).value;
              (Contains(tpl[i], TransportMarkers[0]) ==>
                 CountMatches(tpl[..i], TransportMarkers[0]) < |ph.nu| &&
                 r[i] == PatchLine(tpl[i], TransportMarkers[0], "\t" + fmt(ph.nu[CountMatches(tpl[..i], TransportMarkers[0])]) + ";\n")) &&
              (Contains(tpl[i], TransportMarkers[1]) ==>
                 CountMatches(tpl[..i], TransportMarkers[1]) < |ph.rho| &&
                 r[i] == PatchLine(tpl[i], TransportMarkers[1], "\t" + fmt(ph.rho[CountMatches(tpl[..i], TransportMarkers[1])]) + ";\n")) &&
              (Contains(tpl[i], TransportMarkers[2]) ==>
                 CountMatches(tpl[..i], TransportMarkers[2]) < |ph.sigma| &&
                 r[i] == PatchLine(tpl[i], TransportMarkers[2], "\t" + fmt(ph.sigma[CountMatches(tpl[..i], TransportMarkers[2])]) + ";\n"))
  {
    var edits := TransportEdits(ph, fmt);
    SeparatedValues(tpl, edits);
    if PatchTransport(tpl, ph, fmt).Some? {
      var r := PatchTransport(tpl, ph, fmt).value;
      assert edits[0].marker == TransportMarkers[0] && edits[0].vals == Rendered(ph.nu, fmt);
      assert edits[1].marker == TransportMarkers[1] && edits[1].vals == Rendered(ph.rho, fmt);
      assert edits[2].marker == TransportMarkers[2] && edits[2].vals == Rendered(ph.sigma, fmt);
      forall i | 0 <= i < |tpl|
        ensures Contains(tpl[i], TransportMarkers[0]) ==>
                  CountMatches(tpl[..i], TransportMarkers[0]) < |ph.nu| &&
                  r[i] == PatchLine(tpl[i], TransportMarkers[0], "\t" + fmt(ph.nu[CountMatches(tpl[..i], TransportMarkers[0])]) + ";\n")
        ensures Contains(tpl[i], TransportMarkers[1]) ==>
                  CountMatches(tpl[..i], TransportMarkers[1]) < |ph.rho| &&
                  r[i] == PatchLine(tpl[i], TransportMarkers[1], "\t" + fmt(ph.rho[CountMatches(tpl[..i], TransportMarkers[1])]) + ";\n")
        ensures Contains(tpl[i], TransportMarkers[2]) ==>
                  CountMatches(tpl[..i], TransportMarkers[2]) < |ph.sigma| &&
                  r[i] == PatchLine(tpl[i], TransportMarkers[2], "\t" + fmt(ph.sigma[CountMatches(tpl[..i], TransportMarkers[2])]) + ";\n")
      {
        if Contains(tpl[i], TransportMarkers[0]) { IndexedValueAt(tpl, edits, r, i, 0); }
        if Contains(tpl[i], TransportMarkers[1]) { IndexedValueAt(tpl, edits, r, i, 1); }
        if Contains(tpl[i], TransportMarkers[2]) { IndexedValueAt(tpl, edits, r, i, 2); }
      }
    }
  }

  /** `[repr(v) for v in vs]` */
  function Rendered(vs: seq<real>, fmt: real -> string): (r: seq<string>)
    ensures |r| == |vs| && forall k :: 0 <= k < |vs| ==> r[k] == fmt(vs[k])
  {
    seq(|vs|, k requires 0 <= k < |vs| => fmt(vs[k]))
  }

  /** With the liquid/air lists, a template with a third `nu` line raises
      the index error; two `nu` lines get the liquid's, then the air's value. */
  lemma {:induction false} TransportTooManyNu(tpl: Lines, liq: FluidData.Props, air: FluidData.Props, fmt: real -> string)
    requires liq.rho != 0.0 && air.rho != 0.0
    requires CountMatches(tpl, TransportMarkers[0]) > 2
    ensures PatchTransport(tpl, LiquidPhases(liq, air), fmt).None?
  {
  }

  /** system/decomposeParDict: the number of subdomains. */
  function PatchDecomposePar(tpl: Lines, nCores: string): (r: Lines)
    ensures SinglePatched(tpl, r, "numberOfSubdomains ", "\t" + nCores + ";\n")
  {
    PatchAll(tpl, "numberOfSubdomains ", "\t" + nCores + ";\n")
  }

  /** The controlDict markers with the times each receives. */
  function ControlDictEdits(startTime: string, endTime: string, wrInt: string): seq<Edit> {
    [Edit("startTime ", "\t" + startTime + ";\n"),
     Edit("endTime ", "\t" + endTime + ";\n"),
     Edit("writeInterval ", "\t" + wrInt + ";\n")]
  }

  /** system/controlDict: start time, end time and write interval, each
      written after its own marker. */
  function PatchControlDict(tpl: Lines, startTime: string, endTime: string, wrInt: string): (r: Lines)
    ensures PatchedAsEach(tpl, r, ControlDictEdits(startTime, endTime, wrInt))
    ensures forall i :: (0 <= i < |tpl| && !Contains(tpl[i], "startTime ") &&
                         !Contains(tpl[i], "endTime ") && !Contains(tpl[i], "writeInterval ")) ==> r[i] == tpl[i]
  {
    var edits := ControlDictEdits(startTime, endTime, wrInt);
    assert forall i :: (0 <= i < |tpl| && !Contains(tpl[i], "startTime ") &&
                        !Contains(tpl[i], "endTime ") && !Contains(tpl[i], "writeInterval ")) ==> Unmarked(tpl[i], edits);
    PatchEachValues(tpl, edits);
    PatchEach(tpl, edits)
  }

  const PimpleMarkers := ["nOuterCorrectors    ", "nCorrectors         ", "nNonOrthogonalCorrectors "]

  const CoarsestMarker := "nCellsInCoarsestLevel "

  /** system/fvSolution: the coarsest multigrid level everywhere (no
      separator), then the three PIMPLE settings, each only inside a PIMPLE
      block. */
  function PatchFvSolution(tpl: Lines, coarsest: string, nOuter: string, nCorr: string, nNonOrth: string): (r: Lines)
    ensures |r| == |tpl|
  {
    var afterCoarsest := PatchAll(tpl, CoarsestMarker, coarsest + ";\n");
    ScopedEach(afterCoarsest, PimpleEdits(nOuter, nCorr, nNonOrth))
  }

  function PimpleEdits(nOuter: string, nCorr: string, nNonOrth: string): (r: seq<Edit>)
    ensures |r| == 3 && forall k :: 0 <= k < 3 ==> r[k].marker == PimpleMarkers[k] && r[k].marker != ""
  {
    [Edit(PimpleMarkers[0], nOuter + ";\n"),
     Edit(PimpleMarkers[1], nCorr + ";\n"),
     Edit(PimpleMarkers[2], nNonOrth + ";\n")]
  }

  /** An fvSolution template whose markers do not interfere: the PIMPLE
      settings are safe for the scoped loop, and a line setting the
      coarsest level mentions neither PIMPLE nor a PIMPLE setting, before
      or after its patch. */
  predicate FvTemplate(tpl: Lines, coarsest: string, nOuter: string, nCorr: string, nNonOrth: string) {
    var pimple := PimpleEdits(nOuter, nCorr, nNonOrth);
    ScopeSafe(tpl, pimple) &&
    forall i :: 0 <= i < |tpl| && Contains(tpl[i], CoarsestMarker) ==>
      !Contains(tpl[i], "PIMPLE") && Unmarked(tpl[i], pimple) &&
      !Contains(PatchLine(tpl[i], CoarsestMarker, coarsest + ";\n"), "PIMPLE") &&
      Unmarked(PatchLine(tpl[i], CoarsestMarker, coarsest + ";\n"), pimple)
  }

  /** What the fvSolution patch writes: every line setting the coarsest
      level gets its value; a line inside a PIMPLE block holding the k-th
      corrector marker gets the k-th corrector count; everything else,
      including corrector settings outside the PIMPLE block, is left as it was. */
  lemma {:induction false} PatchFvSolutionValues(tpl: Lines, coarsest: string, nOuter: string, nCorr: string, nNonOrth: string)
    requires FvTemplate(tpl, coarsest, nOuter, nCorr, nNonOrth)
    ensures var r := PatchFvSolution(tpl, coarsest, nOuter, nCorr, nNonOrth);
            (forall i :: 0 <= i < |tpl| && Contains(tpl[i], CoarsestMarker) ==>
               r[i] == PatchLine(tpl[i], CoarsestMarker, coarsest + ";\n")) &&
            (forall i, k :: 0 <= i < |tpl| && 0 <= k < 3 && InScope(tpl, i) && Contains(tpl[i], PimpleMarkers[k]) ==>
               r[i] == PatchLine(tpl[i], PimpleMarkers[k], [nOuter, nCorr, nNonOrth][k] + ";\n")) &&
            (forall i :: 0 <= i < |tpl| && !Contains(tpl[i], CoarsestMarker) &&
                         (!InScope(tpl, i) || forall k :: 0 <= k < 3 ==> !Contains(tpl[i], PimpleMarkers[k])) ==>
               r[i] == tpl[i])
  {
    var pimple := PimpleEdits(nOuter, nCorr, nNonOrth);
    var a := PatchAll(tpl, CoarsestMarker, coarsest + ";\n");
    CoarsestPassSafe(tpl, coarsest, nOuter, nCorr, nNonOrth);
    ScopedEachWindow(a, pimple);
  }

  /** The coarsest-level pass leaves the PIMPLE window, the corrector
      lines and the non-interference of the corrector markers as they
      were. */
  lemma CoarsestPassSafe(tpl: Lines, coarsest: string, nOuter: string, nCorr: string, nNonOrth: string)
    requires FvTemplate(tpl, coarsest, nOuter, nCorr, nNonOrth)
    ensures FirstPassSafe(tpl, PatchAll(tpl, CoarsestMarker, coarsest + ";\n"), PimpleEdits(nOuter, nCorr, nNonOrth))
  {
    var pimple := PimpleEdits(nOuter, nCorr, nNonOrth);
    var a := PatchAll(tpl, CoarsestMarker, coarsest + ";\n");
    forall i | 0 <= i < |tpl|
      ensures (Contains(a[i], "PIMPLE") <==> Contains(tpl[i], "PIMPLE")) &&
              (StartsWith(a[i], "}") <==> StartsWith(tpl[i], "}"))
      ensures forall k :: 0 <= k < 3 ==> (Contains(a[i], PimpleMarkers[k]) <==> Contains(tpl[i], PimpleMarkers[k]))
      ensures (exists k :: 0 <= k < 3 && Contains(tpl[i], PimpleMarkers[k])) ==> a[i] == tpl[i]
    {
      PatchLineKeepsHead(tpl[i], CoarsestMarker, coarsest + ";\n");
    }
    forall i | 0 <= i < |tpl| ensures InScope(a, i) <==> InScope(tpl, i) {
      InScopeSame(a, tpl, i);
    }
    assert ScopeSafe(a, pimple) by {
      forall i, k | 0 <= i < |a| && 0 <= k < |pimple| && Contains(a[i], pimple[k].marker)
        ensures a[i] == tpl[i]
      {
        assert Contains(tpl[i], PimpleMarkers[k]);
      }
    }
  }

  /** What the second pass of the fvSolution patch needs from the first. */
  predicate FirstPassSafe(tpl: Lines, a: Lines, pimple: seq<Edit>)
    requires |pimple| == 3
  {
    |a| == |tpl| && ScopeSafe(a, pimple) &&
    (forall i :: 0 <= i < |tpl| ==> (InScope(a, i) <==> InScope(tpl, i))) &&
    (forall i, k :: 0 <= i < |tpl| && 0 <= k < 3 && Contains(tpl[i], pimple[k].marker) ==> a[i] == tpl[i]) &&
    (forall i, k :: 0 <= i < |tpl| && 0 <= k < 3 ==> (Contains(a[i], pimple[k].marker) <==> Contains(tpl[i], pimple[k].marker))) &&
    (forall i :: 0 <= i < |tpl| && Contains(tpl[i], CoarsestMarker) ==> Unmarked(a[i], pimple))
  }

  /** Lines above the first PIMPLE line that do not set the coarsest level
      come out of the fvSolution patch unchanged: the corrector settings of
      other solver blocks are not touched. */
  lemma {:induction false} FvSolutionKeepsAbovePimple(tpl: Lines, coarsest: string, nOuter: string, nCorr: string, nNonOrth: string, n: int)
    requires 0 <= n <= |tpl|
    requires forall k :: 0 <= k < n ==> !Contains(tpl[k], "PIMPLE") && !Contains(tpl[k], CoarsestMarker)
    ensures PatchFvSolution(tpl, coarsest, nOuter, nCorr, nNonOrth)[..n] == tpl[..n]
  {
    var afterCoarsest := PatchAll(tpl, CoarsestMarker, coarsest + ";\n");
    assert forall k :: 0 <= k < n ==> afterCoarsest[k] == tpl[k];
    ScopedEachKeepsAbove(afterCoarsest, PimpleEdits(nOuter, nCorr, nNonOrth), n);
  }

  /** ./Allrun-parallel: the core count after `runParallel $application`. */
  function PatchAllrunParallel(tpl: Lines, nCores: string): (r: Lines)
    ensures SinglePatched(tpl, r, "runParallel $application ", " " + nCores + "\n")
  {
    PatchAll(tpl, "runParallel $application ", " " + nCores + "\n")
  }

  const ParentMarker := "#PARENT="
  const MapFieldsMarker := "#mapFields ../$PARENT -sourceTime latestTime -consistent"
  const MapFieldsLine := "mapFields ../$PARENT -sourceTime latestTime -consistent\n"

  function ParentLine(parent: string): string {
    "PARENT=" + parent + "\n"
  }

  /** ./Allrun.pre, only for a child case: the commented PARENT assignment
      and mapFields call are replaced by live ones, whole rows at a time, so
      nothing before the marker survives. */
  function PatchAllrunPre(tpl: Lines, child: bool, parent: string): (r: Lines)
    ensures !child ==> r == tpl
    ensures |r| == |tpl|
    ensures child ==> forall i :: 0 <= i < |tpl| ==>
              (!Contains(tpl[i], ParentMarker) && !Contains(tpl[i], MapFieldsMarker) ==> r[i] == tpl[i]) &&
              (!Contains(tpl[i], ParentMarker) && Contains(tpl[i], MapFieldsMarker) ==> r[i] == MapFieldsLine) &&
              (Contains(tpl[i], ParentMarker) && !Contains(ParentLine(parent), MapFieldsMarker) ==>
                 r[i] == ParentLine(parent))
    ensures child ==> forall i :: 0 <= i < |tpl| && r[i] != tpl[i] ==>
              r[i] == ParentLine(parent) || r[i] == MapFieldsLine
  {
    if !child then tpl
    else
      var first := ReplaceWhole(tpl, ParentMarker, ParentLine(parent));
      ReplaceWhole(first, MapFieldsMarker, MapFieldsLine)
  }

  const OfShMarkers := ["#PBS -N ", "#PBS -q ", "#PBS -l nodes=1:ppn=", "#PBS -l walltime=", "caseDir="]

  /** The of.sh markers with what each receives. */
  function OfShEdits(name: string, queue: string, nCores: string, wallTime: string): (r: seq<Edit>)
    ensures |r| == 5 && forall k :: 0 <= k < 5 ==> r[k].marker == OfShMarkers[k]
    ensures r[0].tail == name + ".pbs\n" && r[4].tail == "'" + name + "'\n"
    ensures r[1].tail == queue + "\n" && r[2].tail == nCores + "\n" && r[3].tail == wallTime + "\n"
  {
    [Edit(OfShMarkers[0], name + ".pbs" + "\n"),
     Edit(OfShMarkers[1], queue + "\n"),
     Edit(OfShMarkers[2], nCores + "\n"),
     Edit(OfShMarkers[3], wallTime + "\n"),
     Edit(OfShMarkers[4], "'" + name + "'" + "\n")]
  }

  /** ./of.sh, the PBS job script: job name, queue, cores, wall time and
      the case directory, each written right after its marker. Fails where
      the case name cannot be taken from the case directory. */
  function PatchOfSh(tpl: Lines, caseDir: string, queue: string, nCores: string, wallTime: string): (r: Option<Lines>)
    ensures r.Some? <==> CaseName(caseDir).Some?
    ensures r.Some? ==> PatchedAsEach(tpl, r.value, OfShEdits(CaseName(caseDir).value, queue, nCores, wallTime))
    ensures r.Some? ==> forall i :: (0 <= i < |tpl| && forall k :: 0 <= k < 5 ==> !Contains(tpl[i], OfShMarkers[k])) ==>
              r.value[i] == tpl[i]
  {
    match CaseName(caseDir)
    case None => None
    case Some(name) =>
      var edits := OfShEdits(name, queue, nCores, wallTime);
      PatchEachValues(tpl, edits);
      Some(PatchEach(tpl, edits))
  }

  const PostProcMarkers := ["nu0     =", "gamma0  =", "rho0    =", "Q0      =", "alpha0  ="]

  /** The case description written into both ParaView scripts: each value
      follows its marker after a tab. */
  function PostProcEdits(nu: string, gamma: string, rho: string, q0: string, alpha: string): (r: seq<Edit>)
    ensures |r| == 5
    ensures forall k :: 0 <= k < 5 ==>
              r[k].marker == PostProcMarkers[k] && r[k].tail == "\t" + [nu, gamma, rho, q0, alpha][k] + "\n"
  {
    [Edit(PostProcMarkers[0], "\t" + nu + "\n"),
     Edit(PostProcMarkers[1], "\t" + gamma + "\n"),
     Edit(PostProcMarkers[2], "\t" + rho + "\n"),
     Edit(PostProcMarkers[3], "\t" + q0 + "\n"),
     Edit(PostProcMarkers[4], "\t" + alpha + "\n")]
  }

  /** One ParaView script patched with the case description: every line
      decided by a marker carries that marker's value, and lines holding
      none of the markers are kept. */
  function PatchCaseDescription(tpl: Lines, nu: string, gamma: string, rho: string, q0: string, alpha: string): (r: Lines)
    ensures PatchedAsEach(tpl, r, PostProcEdits(nu, gamma, rho, q0, alpha))
    ensures forall i :: 0 <= i < |tpl| && Unmarked(tpl[i], PostProcEdits(nu, gamma, rho, q0, alpha)) ==> r[i] == tpl[i]
  {
    PatchEachValues(tpl, PostProcEdits(nu, gamma, rho, q0, alpha));
    PatchEach(tpl, PostProcEdits(nu, gamma, rho, q0, alpha))
  }

  const ProcScript := "rivuletPostProc.py"
  const SaveScript := "rivuletPostProcSaveData.py"

  /** The post-processing step as written: rivuletPostProc.py is patched
      and written back; then rivuletPostProcSaveData.py is read and patched
      but written to rivuletPostProc.py. */
  function PostProcScriptsAsWritten(files: Files, edits: seq<Edit>): (r: Files)
    requires ProcScript in files && SaveScript in files
    ensures r.Keys == files.Keys
    ensures r[SaveScript] == files[SaveScript]
    ensures forall f :: f in files && f != ProcScript ==> r[f] == files[f]
  {
    var proc := files[ProcScript := PatchEach(files[ProcScript], edits)];
    proc[ProcScript := PatchEach(files[SaveScript], edits)]
  }

  /** The first patch is lost: what rivuletPostProc.py held before has no
      influence on the result, which is the patched data-saving script. */
  lemma {:induction false} PostProcWrongTarget(files: Files, edits: seq<Edit>, other: Lines)
    requires ProcScript in files && SaveScript in files
    ensures PostProcScriptsAsWritten(files, edits)[ProcScript] == PatchEach(files[SaveScript], edits)
    ensures PostProcScriptsAsWritten(files[ProcScript := other], edits) == PostProcScriptsAsWritten(files, edits)
  {
  }

  /** The evidently intended step: each script is patched in place. */
  function PostProcScripts(files: Files, edits: seq<Edit>): (r: Files)
    requires ProcScript in files && SaveScript in files
    ensures r.Keys == files.Keys
    ensures r[ProcScript] == PatchEach(files[ProcScript], edits)
    ensures r[SaveScript] == PatchEach(files[SaveScript], edits)
    ensures forall f :: f in files && f != ProcScript && f != SaveScript ==> r[f] == files[f]
  {
    files[ProcScript := PatchEach(files[ProcScript], edits)][SaveScript := PatchEach(files[SaveScript], edits)]
  }

  /** The two readings disagree whenever the data-saving script's patch
      changes it or the two scripts' patched texts differ. */
  lemma {:induction false} PostProcScriptsDiffer(files: Files, edits: seq<Edit>)
    requires ProcScript in files && SaveScript in files
    requires PatchEach(files[SaveScript], edits) != files[SaveScript]
    ensures PostProcScriptsAsWritten(files, edits) != PostProcScripts(files, edits)
  {
    assert PostProcScriptsAsWritten(files, edits)[SaveScript] != PostProcScripts(files, edits)[SaveScript];
  }

  /** rivuletPostProc2Blender.py: the name of the Blender preparation script
      to open, quoted, followed by the rest of the `with open(` statement. */
  function PatchBlenderExport(tpl: Lines, blenderPrep: string): (r: Lines)
    ensures SinglePatched(tpl, r, "with open(", "\t'" + blenderPrep + ".py', 'r') as file:\n")
  {
    PatchAll(tpl, "with open(", "\t'" + blenderPrep + ".py', 'r') as file:\n")
  }

  const BlenderPrepMarkers := ["plateIncl   =", "mDot        =", "liqName     =", "strTime     =", "endTime     =", "tStep       ="]

  /** The blenderPrep markers with the scene parameter each receives; the
      formatted values carry their own leading space. */
  function BlenderPrepEdits(incl: string, mDot: string, liq: string, start: string, end: string, step: string): (r: seq<Edit>)
    ensures |r| == 6
    ensures forall k :: 0 <= k < 6 ==>
              r[k].marker == BlenderPrepMarkers[k] && r[k].tail == [incl, mDot, liq, start, end, step][k] + "\n"
  {
    [Edit(BlenderPrepMarkers[0], incl + "\n"),
     Edit(BlenderPrepMarkers[1], mDot + "\n"),
     Edit(BlenderPrepMarkers[2], liq + "\n"),
     Edit(BlenderPrepMarkers[3], start + "\n"),
     Edit(BlenderPrepMarkers[4], end + "\n"),
     Edit(BlenderPrepMarkers[5], step + "\n")]
  }

  /** blenderPrep: six scene parameters, each value right after its marker. */
  function PatchBlenderPrep(tpl: Lines, incl: string, mDot: string, liq: string, start: string, end: string, step: string): (r: Lines)
    ensures PatchedAsEach(tpl, r, BlenderPrepEdits(incl, mDot, liq, start, end, step))
    ensures forall i :: 0 <= i < |tpl| && Unmarked(tpl[i], BlenderPrepEdits(incl, mDot, liq, start, end, step)) ==> r[i] == tpl[i]
  {
    PatchEachValues(tpl, BlenderPrepEdits(incl, mDot, liq, start, end, step));
    PatchEach(tpl, BlenderPrepEdits(incl, mDot, liq, start, end, step))
  }
}

=== FILE: case_mapped.dfy ===
/** The case constructor of the perforated-plate cases with a mapped inlet:
    the case directory name, the inlet velocity from the Reynolds number,
    the inlet velocity boundary condition and the offset of the mapped
    patch. The remaining files (g, transportProperties, decomposeParDict,
    controlDict, Allrun-parallel, of.sh) are patched exactly as the rivulet
    constructor patches them, so the functions of `CaseFreiberg` apply. */
module CaseMapped {
  import opened Text
  import opened Wrappers
  import opened Patch
  import opened CaseCommon
  import CaseFreiberg

  /** `'../iF_Re' + Re + '_' + angle + '_' + liquid + '_PS_MP/'` from the
      rendered Reynolds number and inclination angle. */
  function MappedCaseDir(re: string, angle: string, liqName: string): string {
    "../iF_Re" + re + "_" + angle + "_" + liqName + "_PS_MP/"
  }

  /** The job name the of.sh patch derives from the directory is the
      directory name without the parent path and the trailing slash. */
  lemma {:induction false} MappedCaseName(re: string, angle: string, liqName: string)
    requires '/' !in re && '/' !in angle && '/' !in liqName
    ensures CaseName(MappedCaseDir(re, angle, liqName)) ==
            Some("iF_Re" + re + "_" + angle + "_" + liqName + "_PS_MP")
  {
    var name := "iF_Re" + re + "_" + angle + "_" + liqName + "_PS_MP";
    assert '/' !in name;
    ContainsCharIff(name, '/');
    assert MappedCaseDir(re, angle, liqName) == ".." + "/" + name + "/";
    CaseNameIsLastDirectory("..", name);
  }

  /** Such a directory always yields a job script. */
  lemma {:induction false} MappedOfShDefined(tpl: Lines, re: string, angle: string, liqName: string,
                          queue: string, nCores: string, wallTime: string)
    ensures CaseFreiberg.PatchOfSh(tpl, MappedCaseDir(re, angle, liqName), queue, nCores, wallTime).Some?
  {
    var dir := MappedCaseDir(re, angle, liqName);
    assert dir[|dir| - 1] == '/';
    ContainsCharIff(dir, '/');
  }

  /** Inlet velocity `u0 = Re mu / (rho hIn)`; the script divides by the
      product, so a zero density or inlet height is a ZeroDivisionError. */
  function InletVelocity(re: real, mu: real, rho: real, hIn: real): (r: real)
    requires rho * hIn != 0.0
    ensures r * (rho * hIn) == re * mu
    ensures re > 0.0 && mu > 0.0 && rho * hIn > 0.0 ==> r > 0.0
  {
    re * mu / (rho * hIn)
  }

  /** The Reynolds number recomputed from the inlet velocity is the one the
      case was built for. */
  lemma {:induction false} ReynoldsRoundTrip(re: real, mu: real, rho: real, hIn: real)
    requires rho * hIn != 0.0 && mu != 0.0
    ensures InletVelocity(re, mu, rho, hIn) * rho * hIn / mu == re
  {
    var u := InletVelocity(re, mu, rho, hIn);
    assert u * rho * hIn == re * mu;
  }

  const UMarker := "value           uniform (0.01 0 0)"
  const UHead := "value           uniform ("

  /** 0.org/U: the placeholder inlet value is replaced (marker included)
      by the computed uniform velocity along x; the indentation before it
      is kept. */
  function PatchUMapped(tpl: Lines, u0: string): (r: Lines)
    ensures |r| == |tpl|
    ensures forall i :: 0 <= i < |tpl| && !Contains(tpl[i], UMarker) ==> r[i] == tpl[i]
    ensures forall i :: 0 <= i < |tpl| && Contains(tpl[i], UMarker) ==>
              r[i] == tpl[i][..Find(tpl[i], UMarker)] + UHead + u0 + " 0 0);\n"
  {
    RewriteAll(tpl, UMarker, UHead + u0 + " 0 0)" + ";\n")
  }

  /** system/createPatchDict: the mapped patch is offset downwards by the
      gas layer height, rendered as `(0 0 -<hG>)`. */
  function PatchCreatePatch(tpl: Lines, hG: string): (r: Lines)
    ensures SinglePatched(tpl, r, "offset", "\t\t\t(0 0 -" + hG + ");\n")
  {
    PatchAll(tpl, "offset", "\t\t\t(0 0 -" + hG + ");\n")
  }

  /** Re-running the offset patch changes nothing. */
  lemma {:induction false} CreatePatchIdempotent(tpl: Lines, hG: string)
    ensures PatchCreatePatch(PatchCreatePatch(tpl, hG), hG) == PatchCreatePatch(tpl, hG)
  {
    PatchAllIdempotent(tpl, "offset", "\t\t\t(0 0 -" + hG + ");\n");
  }
}

=== FILE: extract_vec.dfy ===
/** `fExtractVec` of rivuletPostProcSaveData.py: read the rows of a CSV
    export, keep the rows whose reduction column lies on a 1 mm grid, sort
    them by the text of the sort column and return the wanted columns. The
    number parsing is a parameter. */
module ExtractVec {
  import opened Wrappers

  type Row = seq<string>

  // ---------------------------------------------------------------- CSV columns

  /** Python's `list.index`: the first position holding `name`; a missing
      name raises ValueError. */
  function IndexOf(titles: seq<string>, name: string): (r: Option<nat>)
    ensures r.Some? ==> r.value < |titles| && titles[r.value] == name &&
                        forall k :: 0 <= k < r.value ==> titles[k] != name
    ensures r.None? <==> name !in titles
    decreases |titles|
  {
    if |titles| == 0 then None
    else if titles[0] == name then Some(0)
    else
      assert titles == [titles[0]] + titles[1..];
      match IndexOf(titles[1..], name)
      case None => None
      case Some(k) => Some(k + 1)
  }

  /** `[colTitles.index(cNm) for cNm in intColsNames]`. */
  function IndicesOf(titles: seq<string>, names: seq<string>): (r: Option<seq<nat>>)
    ensures r.Some? <==> forall j :: 0 <= j < |names| ==> names[j] in titles
    ensures r.Some? ==> (|r.value| == |names| &&
              forall j :: 0 <= j < |names| ==> IndexOf(titles, names[j]) == Some(r.value[j]))
    decreases |names|
  {
    if |names| == 0 then Some([])
    else
      match (IndexOf(titles, names[0]), IndicesOf(titles, names[1..]))
      case (Some(c), Some(cs)) =>
        assert forall j :: 1 <= j < |names| ==> names[j] == names[1..][j - 1];
        Some([c] + cs)
      case _ =>
        assert forall j :: 1 <= j < |names| ==> names[j] == names[1..][j - 1];
        None
  }

  /** `1e3*x % 1 == 0`: the coordinate lies on a whole millimetre. */
  predicate OnGrid(x: real) {
    (1000.0 * x).Floor as real == 1000.0 * x
  }

  /** Every row has column `col` and its text converts to a number. */
  predicate Readable(rows: seq<Row>, col: nat, parse: string -> Option<real>) {
    forall i :: 0 <= i < |rows| ==> col < |rows[i]| && parse(rows[i][col]).Some?
  }

  /** `[row for row in prepList if 1e3*float(row[sortCol]) % 1 == 0]`: the
      rows whose sort coordinate is on the grid, in file order. A short row
      or an unparsable number raises (`None`). */
  function Reduce(rows: seq<Row>, col: nat, parse: string -> Option<real>): (r: Option<seq<Row>>)
    ensures r.Some? <==> Readable(rows, col, parse)
    ensures r.Some? ==> |r.value| <= |rows|
    ensures r.Some? ==> forall k :: 0 <= k < |r.value| ==>
              r.value[k] in rows && col < |r.value[k]| && OnGrid(parse(r.value[k][col]).value)
  {
    if Readable(rows, col, parse) then
      KeptOnGrid(rows, col, parse);
      Some(Kept(rows, col, parse))
    else None
  }

  /** The filter itself, on rows that all read. */
  function Kept(rows: seq<Row>, col: nat, parse: string -> Option<real>): (r: seq<Row>)
    requires Readable(rows, col, parse)
    ensures |r| <= |rows|
    decreases |rows|
  {
    if |rows| == 0 then []
    else
      assert Readable(rows[1..], col, parse) by {
        assert forall i :: 1 <= i < |rows| ==> rows[i] == rows[1..][i - 1];
      }
      (if OnGrid(parse(rows[0][col]).value) then [rows[0]] else []) + Kept(rows[1..], col, parse)
  }

  lemma {:induction false} KeptOnGrid(rows: seq<Row>, col: nat, parse: string -> Option<real>)
    requires Readable(rows, col, parse)
    ensures forall k :: 0 <= k < |Kept(rows, col, parse)| ==>
              Kept(rows, col, parse)[k] in rows && col < |Kept(rows, col, parse)[k]| &&
              OnGrid(parse(Kept(rows, col, parse)[k][col]).value)
    decreases |rows|
  {
    if |rows| > 0 {
      assert Readable(rows[1..], col, parse) by {
        assert forall i :: 1 <= i < |rows| ==> rows[i] == rows[1..][i - 1];
      }
      KeptOnGrid(rows[1..], col, parse);
      var t := Kept(rows[1..], col, parse);
      assert forall k :: 0 <= k < |t| ==> t[k] in rows by {
        assert forall k :: 0 <= k < |t| ==> t[k] in rows[1..];
        assert forall x :: x in rows[1..] ==> x in rows;
      }
    }
  }

  /** A single row is kept exactly when it is on the grid. */
  lemma {:induction false} ReduceOne(row: Row, col: nat, parse: string -> Option<real>)
    requires col < |row| && parse(row[col]).Some?
    ensures Reduce([row], col, parse) == Some(if OnGrid(parse(row[col]).value) then [row] else [])
  {
    var rows := [row];
    assert rows[0] == row && rows[1..] == [];
    assert Readable(rows, col, parse);
    var h: seq<Row> := if OnGrid(parse(row[col]).value) then [row] else [];
    assert Kept(rows, col, parse) == h + [];
    assert h + [] == h;
  }

  /** The filter distributes over concatenation, so it keeps the file
      order: with `ReduceOne` this pins down the result completely. */
  lemma {:induction false} ReduceConcat(a: seq<Row>, b: seq<Row>, col: nat, parse: string -> Option<real>)
    requires Readable(a, col, parse) && Readable(b, col, parse)
    ensures Reduce(a + b, col, parse) == Some(Reduce(a, col, parse).value + Reduce(b, col, parse).value)
  {
    assert Readable(a + b, col, parse) by {
      assert forall i :: 0 <= i < |a| ==> (a + b)[i] == a[i];
      assert forall i :: |a| <= i < |a + b| ==> (a + b)[i] == b[i - |a|];
    }
    KeptConcat(a, b, col, parse);
  }

  lemma {:induction false} KeptConcat(a: seq<Row>, b: seq<Row>, col: nat, parse: string -> Option<real>)
    requires Readable(a, col, parse) && Readable(b, col, parse) && Readable(a + b, col, parse)
    ensures Kept(a + b, col, parse) == Kept(a, col, parse) + Kept(b, col, parse)
    decreases |a|
  {
    if |a| == 0 {
      assert a + b == b;
    } else {
      assert (a + b)[1..] == a[1..] + b;
      assert (a + b)[0] == a[0];
      assert Readable(a[1..], col, parse) by {
        assert forall i :: 1 <= i < |a| ==> a[i] == a[1..][i - 1];
      }
      assert Readable(a[1..] + b, col, parse) by {
        assert forall i :: 1 <= i < |a + b| ==> (a + b)[i] == (a[1..] + b)[i - 1];
      }
      KeptConcat(a[1..], b, col, parse);
      var h: seq<Row> := if OnGrid(parse(a[0][col]).value) then [a[0]] else [];
      assert h + (Kept(a[1..], col, parse) + Kept(b, col, parse)) ==
             (h + Kept(a[1..], col, parse)) + Kept(b, col, parse);
    }
  }

  // ---------------------------------------------------------------- sorting by text

  /** Python's `<` on strings: lexicographic by character code, a proper
      prefix coming first. */
  predicate StrLess(a: string, b: string)
    decreases |a|
  {
    |b| > 0 && (|a| == 0 || a[0] < b[0] || (a[0] == b[0] && StrLess(a[1..], b[1..])))
  }

  lemma {:induction false} StrLessAsymmetric(a: string, b: string)
    ensures !(StrLess(a, b) && StrLess(b, a))
    decreases |a|
  {
    if |a| > 0 && |b| > 0 && a[0] == b[0] {
      StrLessAsymmetric(a[1..], b[1..]);
    }
  }

  lemma {:induction false} StrLessTotal(a: string, b: string)
    requires a != b
    ensures StrLess(a, b) || StrLess(b, a)
    decreases |a|
  {
    if |a| > 0 && |b| > 0 && a[0] == b[0] {
      assert a == [a[0]] + a[1..] && b == [b[0]] + b[1..];
      StrLessTotal(a[1..], b[1..]);
    }
  }

  lemma {:induction false} StrLessTransitive(a: string, b: string, c: string)
    requires StrLess(a, b) && StrLess(b, c)
    ensures StrLess(a, c)
    decreases |a|
  {
    if |a| > 0 && a[0] == b[0] && b[0] == c[0] {
      StrLessTransitive(a[1..], b[1..], c[1..]);
    }
  }

  predicate HasCol(rows: seq<Row>, col: nat) {
    forall i :: 0 <= i < |rows| ==> col < |rows[i]|
  }

  /** Non-decreasing by the text of column `col`. */
  predicate SortedBy(rows: seq<Row>, col: nat)
    requires HasCol(rows, col)
  {
    forall i :: 0 < i < |rows| ==> !StrLess(rows[i][col], rows[i - 1][col])
  }

  /** The rows whose column `col` reads `key`, in order. */
  function WithKey(rows: seq<Row>, col: nat, key: string): (r: seq<Row>)
    requires HasCol(rows, col)
    decreases |rows|
  {
    if |rows| == 0 then []
    else (if rows[0][col] == key then [rows[0]] else []) + WithKey(rows[1..], col, key)
  }

  /** Places `x` in front of the first row whose key is not smaller, so it
      stays ahead of rows with an equal key. */
  function Insert(x: Row, rows: seq<Row>, col: nat): (r: seq<Row>)
    requires col < |x| && HasCol(rows, col)
    ensures |r| == |rows| + 1 && HasCol(r, col)
    ensures multiset(r) == multiset(rows) + multiset{x}
    ensures |rows| > 0 ==> r[0] == x || r[0] == rows[0]
    decreases |rows|
  {
    if |rows| == 0 || !StrLess(rows[0][col], x[col]) then [x] + rows
    else
      assert rows == [rows[0]] + rows[1..];
      [rows[0]] + Insert(x, rows[1..], col)
  }

  lemma {:induction false} InsertSorted(x: Row, rows: seq<Row>, col: nat)
    requires col < |x| && HasCol(rows, col) && SortedBy(rows, col)
    ensures SortedBy(Insert(x, rows, col), col)
    decreases |rows|
  {
    if |rows| > 0 && StrLess(rows[0][col], x[col]) {
      var tail := rows[1..];
      assert SortedBy(tail, col) by {
        assert forall i :: 0 < i < |tail| ==> tail[i] == rows[i + 1];
      }
      InsertSorted(x, tail, col);
      var t := Insert(x, tail, col);
      StrLessAsymmetric(rows[0][col], x[col]);
      assert [rows[0]] + t == Insert(x, rows, col);
      assert forall i :: 1 < i < |t| + 1 ==> ([rows[0]] + t)[i] == t[i - 1];
    }
  }

  lemma {:induction false} InsertWithKey(x: Row, rows: seq<Row>, col: nat, key: string)
    requires col < |x| && HasCol(rows, col)
    ensures WithKey(Insert(x, rows, col), col, key) ==
            (if x[col] == key then [x] else []) + WithKey(rows, col, key)
    decreases |rows|
  {
    if |rows| > 0 && StrLess(rows[0][col], x[col]) {
      var tail := rows[1..];
      InsertWithKey(x, tail, col, key);
      var t := Insert(x, tail, col);
      assert Insert(x, rows, col) == [rows[0]] + t;
      WithKeyCons(rows[0], t, col, key);
      assert rows == [rows[0]] + tail;
      WithKeyCons(rows[0], tail, col, key);
      if x[col] == key {
        StrLessAsymmetric(rows[0][col], x[col]);
      }
    } else {
      WithKeyCons(x, rows, col, key);
    }
  }

  lemma {:induction false} WithKeyCons(y: Row, t: seq<Row>, col: nat, key: string)
    requires col < |y| && HasCol(t, col)
    ensures HasCol([y] + t, col)
    ensures WithKey([y] + t, col, key) == (if y[col] == key then [y] else []) + WithKey(t, col, key)
  {
    assert ([y] + t)[1..] == t;
  }

  /** `sorted(rows, key=itemgetter(col))`, by insertion. */
  function Sort(rows: seq<Row>, col: nat): (r: seq<Row>)
    requires HasCol(rows, col)
    ensures |r| == |rows| && HasCol(r, col)
    ensures multiset(r) == multiset(rows)
    decreases |rows|
  {
    if |rows| == 0 then []
    else
      assert rows == [rows[0]] + rows[1..];
      Insert(rows[0], Sort(rows[1..], col), col)
  }

  /** Python's `sorted` is a stable sort: the result is ordered by the text
      of the key column, holds the same rows, and rows with equal keys keep
      their relative order. */
  lemma {:induction false} SortIsStable(rows: seq<Row>, col: nat)
    requires HasCol(rows, col)
    ensures SortedBy(Sort(rows, col), col)
    ensures forall key :: WithKey(Sort(rows, col), col, key) == WithKey(rows, col, key)
    decreases |rows|
  {
    if |rows| > 0 {
      SortIsStable(rows[1..], col);
      InsertSorted(rows[0], Sort(rows[1..], col), col);
      forall key
        ensures WithKey(Sort(rows, col), col, key) == WithKey(rows, col, key)
      {
        InsertWithKey(rows[0], Sort(rows[1..], col), col, key);
      }
    }
  }

  /** Column `col` of every row. */
  function Column(rows: seq<Row>, col: nat): (r: seq<string>)
    requires HasCol(rows, col)
    ensures |r| == |rows| && forall i :: 0 <= i < |rows| ==> r[i] == rows[i][col]
  {
    seq(|rows|, i requires 0 <= i < |rows| => rows[i][col])
  }

  /** The rows `fExtractVec` returns columns of: reduced to the grid, then
      sorted by the text of the sort column. */
  function Prepared(rows: seq<Row>, col: nat, parse: string -> Option<real>): (r: Option<seq<Row>>)
    ensures r.Some? <==> Readable(rows, col, parse)
    ensures r.Some? ==> HasCol(r.value, col) && SortedBy(r.value, col)
    ensures r.Some? ==> forall k :: 0 <= k < |r.value| ==> r.value[k] in rows && OnGrid(parse(r.value[k][col]).value)
    ensures r.Some? ==> multiset(r.value) == multiset(Reduce(rows, col, parse).value)
    ensures r.Some? ==> forall key :: WithKey(r.value, col, key) == WithKey(Reduce(rows, col, parse).value, col, key)
  {
    match Reduce(rows, col, parse)
    case None => None
    case Some(red) =>
      SortIsStable(red, col);
      var s := Sort(red, col);
      assert forall k :: 0 <= k < |s| ==> s[k] in multiset(red);
      Some(s)
  }

  /** `fExtractVec` after the CSV export: `outs[0]` is the sort column and
      `outs[1 + j]` the j-th requested column, all of the same length and in
      the same row order. A missing column name, a short row or an
      unparsable sort value raises (`None`). */
  function ExtractVec(titles: seq<string>, rows: seq<Row>, sortName: string, intNames: seq<string>,
                      parse: string -> Option<real>): (r: Option<seq<seq<string>>>)
    ensures r.Some? ==> sortName in titles && forall j :: 0 <= j < |intNames| ==> intNames[j] in titles
    ensures r.Some? <==>
              IndexOf(titles, sortName).Some? && IndicesOf(titles, intNames).Some? &&
              Readable(rows, IndexOf(titles, sortName).value, parse) &&
              forall j :: 0 <= j < |intNames| ==>
                HasCol(Prepared(rows, IndexOf(titles, sortName).value, parse).value, IndexOf(titles, intNames[j]).value)
    ensures r.Some? ==> (|r.value| == |intNames| + 1 &&
              forall j :: 0 <= j < |r.value| ==> |r.value[j]| == |r.value[0]|)
    ensures r.Some? ==> (IndexOf(titles, sortName).Some? &&
              Prepared(rows, IndexOf(titles, sortName).value, parse).Some?)
    ensures r.Some? ==> forall i :: 0 < i < |r.value[0]| ==> !StrLess(r.value[0][i], r.value[0][i - 1])
    ensures r.Some? ==> forall i :: 0 <= i < |r.value[0]| ==> parse(r.value[0][i]).Some? && OnGrid(parse(r.value[0][i]).value)
    ensures r.Some? ==>
              var s := Prepared(rows, IndexOf(titles, sortName).value, parse).value;
              |s| == |r.value[0]| &&
              (forall i :: 0 <= i < |s| ==> r.value[0][i] == s[i][IndexOf(titles, sortName).value]) &&
              forall j, i :: 0 <= j < |intNames| && 0 <= i < |s| ==>
                IndexOf(titles, intNames[j]).value < |s[i]| &&
                r.value[j + 1][i] == s[i][IndexOf(titles, intNames[j]).value]
  {
    match (IndexOf(titles, sortName), IndicesOf(titles, intNames))
    case (Some(c), Some(cs)) =>
      (match Prepared(rows, c, parse)
       case None => None
       case Some(s) => Outs(s, c, cs))
    case _ => None
  }

  /** The sort column followed by the requested columns of the prepared
      rows; a requested column past the end of a row raises IndexError. */
  function Outs(s: seq<Row>, c: nat, cs: seq<nat>): (r: Option<seq<seq<string>>>)
    requires HasCol(s, c)
    ensures r.Some? <==> forall j :: 0 <= j < |cs| ==> HasCol(s, cs[j])
    ensures r.Some? ==> (|r.value| == |cs| + 1 && forall j :: 0 <= j < |r.value| ==> |r.value[j]| == |s|)
    ensures r.Some? ==> forall i :: 0 <= i < |s| ==> r.value[0][i] == s[i][c]
    ensures r.Some? ==> forall j, i :: 0 <= j < |cs| && 0 <= i < |s| ==> cs[j] < |s[i]| && r.value[j + 1][i] == s[i][cs[j]]
  {
    if forall j :: 0 <= j < |cs| ==> HasCol(s, cs[j]) then
      Some([Column(s, c)] + seq(|cs|, j requires 0 <= j < |cs| => Column(s, cs[j])))
    else None
  }
}

=== FILE: fluid_data.dfy ===
/** The liquid property table `dfluidData(liqName)`: for each known liquid
    the list [sigma, rho, mu, theta0, thetaA, thetaR] (surface tension N/m,
    density kg/m3, dynamic viscosity Pa s, equilibrium, advancing and
    receding contact angles in degrees). */
module FluidData {
  import opened Wrappers

  datatype Props = Props(sigma: real, rho: real, mu: real, theta0: real, thetaA: real, thetaR: real)

  /** What `dict.get(liqName, 'DC10')` hands back: a property list, or, for
      an unknown name, the default argument, which is the string 'DC10'. */
  datatype Lookup = Found(props: Props) | Fallback(text: string)

  /** Gravitational acceleration (m/s2) every script sets as `g`. */
  const Gravity: real := 9.81

  const Known: set<string> := {"DC05", "DC10", "H2O", "H2OCk", "SURF", "AIR"}

  const Table: map<string, Props> := map[
    "DC05"  := Props(0.01757, 920.0, 0.005073, 5.0, 10.0, 0.0),
    "DC10"  := Props(0.01789, 940.0, 0.010419, 5.0, 10.0, 0.0),
    "H2O"   := Props(0.05518, 998.0, 0.001178, 60.0, 70.0, 50.0),
    "H2OCk" := Props(0.0728, 997.0, 0.0008899, 70.0, 75.0, 65.0),
    "SURF"  := Props(0.02936, 998.0, 0.001114, 0.0, 0.0, 0.0),
    "AIR"   := Props(0.0, 1.184, 0.000018408, 0.0, 0.0, 0.0)
  ]

  /** `dfluidData(liqName)` as written. */
  function Dfluid(liqName: string): (r: Lookup)
    ensures r.Found? <==> liqName in Known
    ensures r.Fallback? ==> r.text == "DC10"
    ensures r.Found? ==> r.props.thetaR <= r.props.theta0 <= r.props.thetaA
    ensures r.Found? ==> r.props.rho > 0.0 && r.props.mu > 0.0 && r.props.sigma >= 0.0
  {
    if liqName in Table then Found(Table[liqName]) else Fallback("DC10")
  }

  /** `[sigma,rho,mu,theta0,thetaA,thetaR] = dfluidData(liqName)`: the
      six-name unpack. A 4-character string does not unpack into six names
      (ValueError), so the fallback fails here. */
  function Unpack(l: Lookup): (r: Option<Props>)
    ensures r.Some? <==> l.Found?
    ensures l.Found? ==> r.value == l.props
  {
    match l
    case Found(p) => Some(p)
    case Fallback(_) => None
  }

  /** Unknown names fail at the caller's unpack rather than yielding DC10's
      properties. */
  lemma {:induction false} UnknownLiquidFails(liqName: string)
    requires liqName !in Known
    ensures Unpack(Dfluid(liqName)).None?
    ensures Dfluid(liqName) != Found(Table["DC10"])
  {
  }

  /** What the default was evidently meant to be: DC10's property list. */
  function DfluidIntended(liqName: string): (r: Props)
    ensures liqName in Known ==> Dfluid(liqName) == Found(r)
    ensures liqName !in Known ==> r == Table["DC10"]
  {
    if liqName in Table then Table[liqName] else Table["DC10"]
  }

  /** The two silicone oils share their contact angles and differ in the
      three transport properties; air has no surface tension and no
      contact angles. */
  lemma {:induction false} TableFacts()
    ensures var a, b := Table["DC05"], Table["DC10"];
            a.theta0 == b.theta0 == 5.0 && a.thetaA == b.thetaA == 10.0 && a.thetaR == b.thetaR == 0.0 &&
            a.sigma != b.sigma && a.rho != b.rho && a.mu != b.mu
    ensures var air := Table["AIR"];
            air.sigma == 0.0 && air.theta0 == 0.0 && air.thetaA == 0.0 && air.thetaR == 0.0
    ensures Known == Table.Keys
  {
  }
}

=== FILE: geometry.dfy ===
/** Exact real geometry shared by the generators: points in space and the
    circular cap used for liquid drops and rivulet cross-sections. */
module Geometry {

  datatype Vec3 = Vec3(x: real, y: real, z: real)

  function Shift(p: Vec3, dx: real, dy: real, dz: real): (r: Vec3)
    ensures r.x - p.x == dx && r.y - p.y == dy && r.z - p.z == dz
  {
    Vec3(p.x + dx, p.y + dy, p.z + dz)
  }

  /** Hex b (eight vertex indices, bottom quad first) stands on the plate:
      its four bottom vertices lie at z = 0 and its top face is the bottom
      face lifted by `height`. */
  predicate OnPlate(v: seq<Vec3>, height: real, b: seq<nat>) {
    |b| == 8 && (forall m :: 0 <= m < 8 ==> b[m] < |v|) &&
    forall m :: 0 <= m < 4 ==> v[b[m]].z == 0.0 && v[b[m + 4]] == Shift(v[b[m]], 0.0, 0.0, height)
  }

  /** Radius `R = h/2 + a^2/(2h)` of the circle through the cap's apex at
      height h and its foot points at distance a from the axis. */
  function CapRadius(h: real, a: real): real
    requires h != 0.0
  {
    h / 2.0 + a * a / (2.0 * h)
  }

  /** Depth `d = R - h` of the circle's centre below the plate. */
  function CapDepth(h: real, a: real): real
    requires h != 0.0
  {
    CapRadius(h, a) - h
  }

  /** The circle centred d below the plate with radius R reaches height h
      above the plate and cuts the plate at distance a from its axis. */
  lemma {:induction false} CircleCap(h: real, a: real)
    requires h != 0.0
    ensures CapRadius(h, a) - CapDepth(h, a) == h
    ensures CapDepth(h, a) * CapDepth(h, a) + a * a == CapRadius(h, a) * CapRadius(h, a)
  {
    var u := a * a / (2.0 * h);
    assert u * (2.0 * h) == a * a;
    assert u * h == a * a / 2.0;
    var R := h / 2.0 + u;
    var d := u - h / 2.0;
    assert d * d == u * u - u * h + h * h / 4.0;
    assert R * R == u * u + u * h + h * h / 4.0;
  }
}

=== FILE: initial_condition.dfy ===
/** The initial-condition writer of the rivulet case: it fills the inlet
    with liquid (one rotated box), then for each cell column along the
    plate writes a cylinder whose circular segment is the rivulet cross
    section and a stack of boxes carrying the film velocity and pressure,
    and splices all of it into `setFieldsDict` after the `regions`
    keyword. The rivulet profile (half width a, centre height h0 and the
    tangent of the contact angle per station) comes from an ODE solve
    that is an input here; `sqrt` and number rendering are parameters. */
module InitialCondition {
  import opened Wrappers
  import opened Geometry
  import opened MeshCommon
  import opened Text
  import opened Patch
  import FluidData

  /** One `setFieldsDict` region. */
  datatype Region =
    | Cylinder(p1: Vec3, p2: Vec3, radius: real)
    | Box(lo: Vec3, hi: Vec3, u: Vec3, pRgh: real)
    | BoxAlpha(lo: Vec3, hi: Vec3, alpha: real)
    | RotBox(origin: Vec3, i: Vec3, j: Vec3, k: Vec3, alpha: real)

  /** `writeCylinder`: the circle through the apex h above the plate and
      the foot points at +-a, as an axis from x to x + deltaX. */
  function WriteCylinder(h: real, a: real, x: real, deltaX: real): (r: Region)
    requires h != 0.0
    ensures r.Cylinder? && r.p2 == Shift(r.p1, deltaX, 0.0, 0.0)
    ensures r.p1.x == x && r.p1.y == 0.0
    ensures r.radius + r.p1.z == h
    ensures r.p1.z * r.p1.z + a * a == r.radius * r.radius
  {
    var R := CapRadius(h, a);
    var d := CapDepth(h, a);
    CircleCap(h, a);
    Cylinder(Vec3(x, 0.0, -d), Vec3(x + deltaX, 0.0, -d), R)
  }

  /** `writeBox`: the slab from height h to h + deltah, x to x + deltaX,
      symmetric in y with half width a. */
  function WriteBox(h: real, deltah: real, a: real, x: real, deltaX: real, u: Vec3, pRgh: real): (r: Region)
    ensures r.Box? && r.u == u && r.pRgh == pRgh
    ensures r.hi == Shift(r.lo, deltaX, 2.0 * a, deltah) && r.lo == Vec3(x, -a, h)
  {
    Box(Vec3(x, -a, h), Vec3(x + deltaX, a, h + deltah), u, pRgh)
  }

  /** `writeBoxAlpha`: the same slab carrying a phase fraction. */
  function WriteBoxAlpha(h: real, deltah: real, a: real, x: real, deltaX: real, alpha: real): (r: Region)
    ensures r.BoxAlpha? && r.alpha == alpha
    ensures r.hi == Shift(r.lo, deltaX, 2.0 * a, deltah) && r.lo == Vec3(x, -a, h)
  {
    BoxAlpha(Vec3(x, -a, h), Vec3(x + deltaX, a, h + deltah), alpha)
  }

  /** A box is well formed (min corner below max corner in every
      direction) exactly when its half width and extents are not negative. */
  lemma {:induction false} BoxOrdered(h: real, deltah: real, a: real, x: real, deltaX: real, u: Vec3, pRgh: real)
    ensures var b := WriteBox(h, deltah, a, x, deltaX, u, pRgh);
            (b.lo.x <= b.hi.x && b.lo.y <= b.hi.y && b.lo.z <= b.hi.z) <==> (a >= 0.0 && deltaX >= 0.0 && deltah >= 0.0)
  {
  }

  /** `writeRotBoxAlpha` */
  function WriteRotBoxAlpha(origin: Vec3, i: Vec3, j: Vec3, k: Vec3, alpha: real): (r: Region)
    ensures r.RotBox? && r.origin == origin && r.i == i && r.j == j && r.k == k && r.alpha == alpha
  {
    RotBox(origin, i, j, k, alpha)
  }

  function Dot(p: Vec3, q: Vec3): real {
    p.x * q.x + p.y * q.y + p.z * q.z
  }

  /** The inlet box: origin (-h, -10, 0), edges along the inclined plate
      and across it, full phase fraction. */
  function InletBox(h: real, tanAlpha: real): (r: Region)
    requires tanAlpha != 0.0
    ensures r.RotBox? && r.alpha == 1.0 && r.origin == Vec3(-h, -10.0, 0.0)
    ensures Dot(r.i, r.j) == 0.0 && Dot(r.j, r.k) == 0.0 && Dot(r.i, r.k) == 0.0
  {
    var t := -10.0 / tanAlpha;
    assert t * 10.0 + (-10.0) * t == 0.0;
    WriteRotBoxAlpha(Vec3(-h, -10.0, 0.0), Vec3(t, 0.0, -10.0), Vec3(0.0, 20.0, 0.0), Vec3(10.0, 0.0, t), 1.0)
  }

  /** `math.ceil` on an exact real. */
  function Ceil(v: real): (r: int)
    ensures (r - 1) as real < v <= r as real
  {
    -((-v).Floor)
  }

  /** One station of the solved rivulet profile. */
  datatype Station = Station(x: real, a: real, h0: real, tanBeta: real)

  /** The data the emission loop reads besides the profile. */
  datatype Pars = Pars(sigma: real, rho: real, mu: real, sinAlpha: real, deltaX: real, deltaZ: real,
                       nCellsZ: nat, bigH: real)

  /** Film velocity at height z in a film of thickness h0 (the x
      component of `uVec`). */
  function FilmVelocity(p: Pars, h0: real, z: real): real
    requires p.mu != 0.0
  {
    p.rho * FluidData.Gravity * p.sinAlpha / (2.0 * p.mu) * (2.0 * h0 * z - z * z)
  }

  /** Number of boxes above the cylinder of a station: `range(1,
      ceil(nCellsZ h0 / H))`. */
  function BoxCount(p: Pars, s: Station): (n: nat)
    requires p.bigH != 0.0
    ensures n as int == if Ceil(p.nCellsZ as real * s.h0 / p.bigH) <= 1 then 0 else Ceil(p.nCellsZ as real * s.h0 / p.bigH) - 1
  {
    var c := Ceil(p.nCellsZ as real * s.h0 / p.bigH);
    if c <= 1 then 0 else c - 1
  }

  predicate ValidStation(s: Station) {
    s.a != 0.0 && s.h0 != 0.0
  }

  /** Box j of a column: the slab from j deltaZ to (j + 1) deltaZ, as wide
      as the cylinder's segment at that height, with the film velocity at
      its bottom and the capillary pressure of the station. */
  function BoxAt(p: Pars, s: Station, sqrt: real -> real, j: nat): (r: Region)
    requires ValidStation(s) && p.mu != 0.0
    ensures r.Box? && r.pRgh == s.tanBeta / s.a * p.sigma && r.u.y == 0.0 && r.u.z == 0.0
    ensures r.lo.z == j as real * p.deltaZ && r.hi.z == r.lo.z + p.deltaZ
    ensures r.lo.x == s.x && r.hi.x == s.x + p.deltaX
  {
    var R := CapRadius(s.h0, s.a);
    var z := j as real * p.deltaZ;
    var c := sqrt((R - (s.h0 - z) / 2.0) * 8.0 * (s.h0 - z));
    WriteBox(z, p.deltaZ, c, s.x, p.deltaX, Vec3(FilmVelocity(p, s.h0, z), 0.0, 0.0), s.tanBeta / s.a * p.sigma)
  }

  /** The regions of one cell column: its cylinder, then the boxes at
      heights j deltaZ for j = 1 .. BoxCount, all with the same pressure
      and a velocity along the plate only. */
  function Column(p: Pars, s: Station, sqrt: real -> real): (r: seq<Region>)
    requires ValidStation(s) && p.mu != 0.0 && p.bigH != 0.0
    ensures |r| == 1 + BoxCount(p, s)
    ensures r[0] == WriteCylinder(s.h0, s.a, s.x, p.deltaX)
    ensures forall j :: 1 <= j < |r| ==> r[j] == BoxAt(p, s, sqrt, j)
  {
    var boxes := seq(BoxCount(p, s), jj requires 0 <= jj < BoxCount(p, s) => BoxAt(p, s, sqrt, jj + 1));
    [WriteCylinder(s.h0, s.a, s.x, p.deltaX)] + boxes
  }

  /** The whole generated block: the inlet box, then the columns of the
      first nCellsX stations. */
  function Regions(p: Pars, h: real, tanAlpha: real, profile: seq<Station>, nCellsX: nat, sqrt: real -> real): (r: seq<Region>)
    requires tanAlpha != 0.0 && p.mu != 0.0 && p.bigH != 0.0 && nCellsX <= |profile|
    requires forall i :: 0 <= i < |profile| ==> ValidStation(profile[i])
    ensures |r| == ColumnStart(p, profile, nCellsX) && r[0] == InletBox(h, tanAlpha)
  {
    var cols := seq(nCellsX, i requires 0 <= i < nCellsX => Column(p, profile[i], sqrt));
    ColumnsLength(p, profile, sqrt, nCellsX, nCellsX);
    assert cols[..nCellsX] == cols;
    [InletBox(h, tanAlpha)] + Flatten(cols)
  }

  /** Index of the cylinder of column i in the block: after the inlet box
      and the cylinder and boxes of every earlier column. */
  function ColumnStart(p: Pars, profile: seq<Station>, i: nat): (r: nat)
    requires p.bigH != 0.0 && i <= |profile|
    ensures r >= 1 + i
  {
    if i == 0 then 1 else ColumnStart(p, profile, i - 1) + 1 + BoxCount(p, profile[i - 1])
  }

  /** The first i columns take up ColumnStart(i) - 1 regions. */
  lemma {:induction false} ColumnsLength(p: Pars, profile: seq<Station>, sqrt: real -> real, n: nat, i: nat)
    requires p.mu != 0.0 && p.bigH != 0.0 && i <= n <= |profile|
    requires forall q :: 0 <= q < |profile| ==> ValidStation(profile[q])
    ensures var cols := seq(n, q requires 0 <= q < n => Column(p, profile[q], sqrt));
            |Flatten(cols[..i])| == ColumnStart(p, profile, i) - 1
    decreases i
  {
    var cols := seq(n, q requires 0 <= q < n => Column(p, profile[q], sqrt));
    if i > 0 {
      ColumnsLength(p, profile, sqrt, n, i - 1);
      assert cols[..i] == cols[..i - 1] + [cols[i - 1]];
      FlattenAppend(cols[..i - 1], [cols[i - 1]]);
      assert Flatten([cols[i - 1]]) == cols[i - 1] + Flatten([cols[i - 1]][1..]);
    }
  }

  /** The regions from index c on are the cylinder of station s followed
      by its boxes j = 1 .. BoxCount at heights j deltaZ. */
  predicate ColumnAt(r: seq<Region>, c: nat, p: Pars, s: Station, sqrt: real -> real)
    requires ValidStation(s) && p.mu != 0.0 && p.bigH != 0.0
  {
    c + BoxCount(p, s) < |r| && r[c] == WriteCylinder(s.h0, s.a, s.x, p.deltaX) &&
    forall j :: 1 <= j <= BoxCount(p, s) ==> r[c + j] == BoxAt(p, s, sqrt, j)
  }

  /** Column i of the block starts at ColumnStart(i) with the cylinder of
      station i, followed by its boxes j = 1 .. BoxCount at heights
      j deltaZ. */
  lemma {:induction false} RegionsLayout(p: Pars, h: real, tanAlpha: real, profile: seq<Station>, nCellsX: nat,
                                         sqrt: real -> real, i: nat)
    requires tanAlpha != 0.0 && p.mu != 0.0 && p.bigH != 0.0 && nCellsX <= |profile|
    requires forall q :: 0 <= q < |profile| ==> ValidStation(profile[q])
    requires i < nCellsX
    ensures ColumnAt(Regions(p, h, tanAlpha, profile, nCellsX, sqrt), ColumnStart(p, profile, i), p, profile[i], sqrt)
  {
    var cols := seq(nCellsX, q requires 0 <= q < nCellsX => Column(p, profile[q], sqrt));
    var r := Regions(p, h, tanAlpha, profile, nCellsX, sqrt);
    var c := ColumnStart(p, profile, i);
    assert r == [InletBox(h, tanAlpha)] + Flatten(cols);
    ColumnsLength(p, profile, sqrt, nCellsX, i);
    BlockAt(r, InletBox(h, tanAlpha), cols, i, c);
    assert cols[i] == Column(p, profile[i], sqrt);
    ColumnAtOf(r, c, p, profile[i], sqrt);
  }

  /** Block i of a flattened list of blocks behind one head element. */
  lemma BlockAt<T>(r: seq<T>, head: T, xss: seq<seq<T>>, i: nat, c: nat)
    requires r == [head] + Flatten(xss) && i < |xss| && c == |Flatten(xss[..i])| + 1
    ensures c + |xss[i]| <= |r|
    ensures forall j :: 0 <= j < |xss[i]| ==> r[c + j] == xss[i][j]
  {
    forall j | 0 <= j < |xss[i]|
      ensures c + j < |r| && r[c + j] == xss[i][j]
    {
      FlattenAt(xss, i, j);
    }
    if |xss[i]| > 0 {
      FlattenAt(xss, i, |xss[i]| - 1);
    } else {
      FlattenAppend(xss[..i], xss[i..]);
      assert xss == xss[..i] + xss[i..];
    }
  }

  /** A block holding Column(s) from index c on satisfies ColumnAt. */
  lemma ColumnAtOf(r: seq<Region>, c: nat, p: Pars, s: Station, sqrt: real -> real)
    requires ValidStation(s) && p.mu != 0.0 && p.bigH != 0.0
    requires c + |Column(p, s, sqrt)| <= |r|
    requires forall j :: 0 <= j < |Column(p, s, sqrt)| ==> r[c + j] == Column(p, s, sqrt)[j]
    ensures ColumnAt(r, c, p, s, sqrt)
  {
    var col := Column(p, s, sqrt);
    assert r[c + 0] == col[0];
  }

  function CountCylinders(rs: seq<Region>): nat {
    if |rs| == 0 then 0 else (if rs[0].Cylinder? then 1 else 0) + CountCylinders(rs[1..])
  }

  lemma {:induction false} CountCylindersAppend(a: seq<Region>, b: seq<Region>)
    ensures CountCylinders(a + b) == CountCylinders(a) + CountCylinders(b)
    decreases |a|
  {
    if |a| == 0 {
      assert a + b == b;
    } else {
      assert (a + b)[1..] == a[1..] + b;
      CountCylindersAppend(a[1..], b);
    }
  }

  /** A list of columns, each one cylinder followed by boxes, holds one
      cylinder per column. */
  lemma {:induction false} CylindersPerColumn(cols: seq<seq<Region>>)
    requires forall i :: 0 <= i < |cols| ==> |cols[i]| >= 1 && cols[i][0].Cylinder?
    requires forall i, j :: 0 <= i < |cols| && 1 <= j < |cols[i]| ==> cols[i][j].Box?
    ensures CountCylinders(Flatten(cols)) == |cols|
    decreases |cols|
  {
    if |cols| > 0 {
      CylindersPerColumn(cols[1..]);
      CountCylindersAppend(cols[0], Flatten(cols[1..]));
      NoCylinders(cols[0][1..]);
      assert cols[0] == [cols[0][0]] + cols[0][1..];
      CountCylindersAppend([cols[0][0]], cols[0][1..]);
    }
  }

  lemma {:induction false} NoCylinders(rs: seq<Region>)
    requires forall j :: 0 <= j < |rs| ==> rs[j].Box?
    ensures CountCylinders(rs) == 0
    decreases |rs|
  {
    if |rs| > 0 {
      NoCylinders(rs[1..]);
    }
  }

  /** The generated block opens with the one rotated box and holds
      exactly nCellsX cylinders, one per cell column. */
  lemma {:induction false} RegionsStructure(p: Pars, h: real, tanAlpha: real, profile: seq<Station>, nCellsX: nat, sqrt: real -> real)
    requires tanAlpha != 0.0 && p.mu != 0.0 && p.bigH != 0.0 && nCellsX <= |profile|
    requires forall i :: 0 <= i < |profile| ==> ValidStation(profile[i])
    ensures Regions(p, h, tanAlpha, profile, nCellsX, sqrt)[0].RotBox?
    ensures CountCylinders(Regions(p, h, tanAlpha, profile, nCellsX, sqrt)) == nCellsX
  {
    var cols := seq(nCellsX, i requires 0 <= i < nCellsX => Column(p, profile[i], sqrt));
    var r := Regions(p, h, tanAlpha, profile, nCellsX, sqrt);
    CylindersPerColumn(cols);
    assert r == [InletBox(h, tanAlpha)] + Flatten(cols);
    CountCylindersAppend([r[0]], Flatten(cols));
  }

  /** Renders three coordinates as `%5.5e %5.5e %5.5e`. */
  function Triple(v: Vec3, fmt: real -> string): string {
    fmt(v.x) + " " + fmt(v.y) + " " + fmt(v.z)
  }

  const CloseLine: string := "\t\t}\n"

  /** The entry opening line of each kind of region. */
  function OpenLine(r: Region): string {
    match r
    case Cylinder(_, _, _) => "\tcylinderToCell\n\t\t{\n"
    case Box(_, _, _, _) => "\tboxToCell\n\t\t{\n"
    case BoxAlpha(_, _, _) => "\tboxToCell\n\t\t{\n"
    case RotBox(_, _, _, _, _) => "\trotatedBoxToCell\n\t\t{\n"
  }

  /** The lines one region contributes: the opening line, the geometry,
      the field values, the closing line. */
  function Render(r: Region, fmt: real -> string): (ls: Lines)
    ensures |ls| >= 3 && ls[0] == OpenLine(r) && ls[|ls| - 1] == CloseLine
  {
    match r
    case Cylinder(p1, p2, radius) =>
      [OpenLine(r), "\t\t\tp1 (" + Triple(p1, fmt) + ");\n", "\t\t\tp2 (" + Triple(p2, fmt) + ");\n",
       "\t\t\tradius " + fmt(radius) + ";\n\n", "\t\t\tfieldValues\n\t\t\t(\n",
       "\t\t\t\tvolScalarFieldValue alpha.liquid 1\n\t\t\t);\n", CloseLine]
    case Box(lo, hi, u, pRgh) =>
      [OpenLine(r), "\t\t\tbox (" + Triple(lo, fmt) + ") (" + Triple(hi, fmt) + ");\n\n",
       "\t\t\tfieldValues\n\t\t\t(\n", "\t\t\t\tvolVectorFieldValue U (" + Triple(u, fmt) + ")\n",
       "\t\t\t\tvolScalarFieldValue p_rgh " + fmt(pRgh) + "\n\t\t\t);\n", CloseLine]
    case BoxAlpha(lo, hi, alpha) =>
      [OpenLine(r), "\t\t\tbox (" + Triple(lo, fmt) + ") (" + Triple(hi, fmt) + ");\n\n",
       "\t\t\tfieldValues\n\t\t\t(\n", "\t\t\t\tvolScalarFieldValue alpha.liquid " + fmt(alpha) + "\n\t\t\t);\n", CloseLine]
    case RotBox(origin, i, j, k, alpha) =>
      [OpenLine(r), "\t\t\torigin (" + Triple(origin, fmt) + ");\n", "\t\t\ti (" + Triple(i, fmt) + ");\n",
       "\t\t\tj (" + Triple(j, fmt) + ");\n", "\t\t\tk (" + Triple(k, fmt) + ");\n\n",
       "\t\t\tfieldValues\n\t\t\t(\n", "\t\t\t\tvolScalarFieldValue alpha.liquid " + fmt(alpha) + "\n\t\t\t);\n", CloseLine]
  }

  /** The rendered lines of a list of regions, in order. */
  function RenderAll(rs: seq<Region>, fmt: real -> string): Lines {
    if |rs| == 0 then [] else Render(rs[0], fmt) + RenderAll(rs[1..], fmt)
  }

  /** `fprepIC_noGravity`'s edit of `setFieldsDict`: the rendered regions
      go two lines below the first line mentioning `regions`; with no such
      line the prefix is never bound and the script fails. The `a0`
      argument does not appear: the script overwrites it before use. */
  function PrepIC(data: Lines, p: Pars, h: real, tanAlpha: real, profile: seq<Station>, nCellsX: nat,
                  sqrt: real -> real, fmt: real -> string): (r: Option<Lines>)
    requires tanAlpha != 0.0 && p.mu != 0.0 && p.bigH != 0.0 && nCellsX <= |profile|
    requires forall i :: 0 <= i < |profile| ==> ValidStation(profile[i])
    ensures r.Some? <==> FirstLine(data, "regions").Some?
    ensures r.Some? <==> exists k :: 0 <= k < |data| && Contains(data[k], "regions")
    ensures r.Some? ==> Spliced(data, RenderAll(Regions(p, h, tanAlpha, profile, nCellsX, sqrt), fmt), r.value)
  {
    var block := RenderAll(Regions(p, h, tanAlpha, profile, nCellsX, sqrt), fmt);
    SplicedBelowRegions(data, block);
    SpliceAfter(data, "regions", block)
  }

  /** `r` is `data` with `block` inserted two lines below the first line
      mentioning `regions`: the lines around the block are the template's. */
  predicate Spliced(data: Lines, block: Lines, r: Lines)
    requires FirstLine(data, "regions").Some?
  {
    var at := Clamp(FirstLine(data, "regions").value + 2, |data|);
    |r| == |data| + |block| && r[..at] + r[at + |block|..] == data && r[at..at + |block|] == block
  }

  lemma {:induction false} SplicedBelowRegions(data: Lines, block: Lines)
    ensures SpliceAfter(data, "regions", block).Some? ==>
              Spliced(data, block, SpliceAfter(data, "regions", block).value)
  {
    if SpliceAfter(data, "regions", block).Some? {
      SpliceAfterRoundTrip(data, "regions", block);
    }
  }
}

=== FILE: inlet_bc.dfy ===
/** The inlet boundary-condition writer of the rivulet case
    (`finletBCWriter_rPFF`): it samples the static rivulet cross-section
    profile h(zeta) = A (cosh B - cosh(B zeta)) at nCellsIn+1 points across
    the inlet, integrates it with the trapezoid rule, derives the uniform
    inlet velocity that carries the requested mass flow, and rewrites the
    `inlet` entries of the film velocity file `Uf` and the film thickness
    file `deltaf`. Rounding, square root, the hyperbolic and circular
    functions and number rendering are parameters. */
module InletBC {
  import opened Wrappers
  import opened Text
  import opened Patch
  import FluidData
  import opened Sums

  /** The patch name whose entry is replaced in both files. */
  const Marker: string := "inlet"

  /** Python's `math.pi`, the double nearest to pi. */
  const Pi: real := 3.141592653589793

  /** The numerical library the script calls: Python 2 `round`, `math`'s
      sqrt, sinh, cosh and tan, and the two ways a float is rendered
      (`'%5.4e'` and `repr`). */
  datatype Numerics = Numerics(round: real -> int, sqrt: real -> real, sinh: real -> real,
                               cosh: real -> real, tan: real -> real,
                               sci: real -> string, repr: real -> string)

  /** The caller's arguments that the computation reads: inlet half width,
      cell width, cells across the plate, the cosine of the plate
      inclination and the mass flow rate. */
  datatype Inlet = Inlet(a0: real, cellW: real, nCellsW: int, cosAlpha: real, mDot: real)

  /** `nCellsIn = int(round(x) + round(x) % 2)` with `rounded = round(x)`:
      the inlet cell count is the rounded value bumped up to the next even
      number. Only a rounded value of 0 or -1 gives 0 cells. */
  function NCellsIn(rounded: int): (r: int)
    ensures r % 2 == 0
    ensures rounded <= r <= rounded + 1
    ensures r == 0 <==> rounded == 0 || rounded == -1
  {
    rounded + rounded % 2
  }

  /** The mean of the three contact angles, converted to radians. */
  function ContactAngle(p: FluidData.Props): (r: real)
    ensures var lo := if p.thetaR <= p.thetaA then p.thetaR else p.thetaA;
            var hi := if p.thetaR <= p.thetaA then p.thetaA else p.thetaR;
            p.thetaR <= p.theta0 <= p.thetaA ==> lo / 180.0 * Pi <= r <= hi / 180.0 * Pi
  {
    (p.theta0 + p.thetaA + p.thetaR) / 3.0 / 180.0 * Pi
  }

  /** `rho*g*cos(alpha)/sigma`, the capillary constant's inverse square. */
  function Radicand(p: FluidData.Props, cosAlpha: real): real
    requires p.sigma != 0.0
  {
    p.rho * FluidData.Gravity * cosAlpha / p.sigma
  }

  /** `Bsqrt = a0*sqrt(rho*g*cos(alpha)/sigma)` and
      `A = a0*tan(beta)/(Bsqrt*sinh(Bsqrt))`. A liquid without surface
      tension divides by zero, a negative radicand makes `math.sqrt` raise,
      and a zero `Bsqrt*sinh(Bsqrt)` divides by zero: all three are `None`.
      On success A is the amplitude that makes the profile's slope at the
      contact line equal tan(beta). */
  function ProfileConstants(a0: real, p: FluidData.Props, cosAlpha: real, tanBeta: real, num: Numerics): (r: Option<(real, real)>)
    ensures r.Some? <==>
              p.sigma != 0.0 && Radicand(p, cosAlpha) >= 0.0 &&
              a0 * num.sqrt(Radicand(p, cosAlpha)) * num.sinh(a0 * num.sqrt(Radicand(p, cosAlpha))) != 0.0
    ensures r.Some? ==>
              r.value.1 == a0 * num.sqrt(Radicand(p, cosAlpha)) &&
              r.value.0 * (r.value.1 * num.sinh(r.value.1)) == a0 * tanBeta
  {
    if p.sigma == 0.0 || Radicand(p, cosAlpha) < 0.0 then None
    else
      var b := a0 * num.sqrt(Radicand(p, cosAlpha));
      var d := b * num.sinh(b);
      if d == 0.0 then None
      else Some((a0 * tanBeta / d, b))
  }

  /** The sampling point `dzeta = 2*i/float(n) - 1` in [-1, 1]. */
  function Dzeta(i: int, n: int): real
    requires n != 0
  {
    2.0 * (i as real) / (n as real) - 1.0
  }

  /** The sampling points mirror about the inlet centre and run from the
      left contact line (-1) to the right one (1). */
  lemma {:induction false} DzetaSymmetric(i: int, n: int)
    requires n != 0
    ensures Dzeta(n - i, n) == -Dzeta(i, n)
    ensures Dzeta(0, n) == -1.0 && Dzeta(n, n) == 1.0
  {
    var nr := n as real;
    var ir := i as real;
    assert ((n - i) as real) == nr - ir;
    DivDifference(2.0 * nr, 2.0 * ir, nr);
    assert 2.0 * nr / nr == 2.0;
  }

  lemma {:induction false} DivDifference(x: real, y: real, d: real)
    requires d != 0.0
    ensures (x - y) / d == x / d - y / d
  {
  }

  /** The profile height at sampling point i. */
  function Height(amp: real, b: real, i: int, n: int, cosh: real -> real): real
    requires n != 0
  {
    amp * (cosh(b) - cosh(b * Dzeta(i, n)))
  }

  /** The loop over `range(nCellsIn+1)` building `hVec`. With n = 0 the
      first sample divides by zero (`None`); a negative n gives an empty
      range and an empty list. */
  function Profile(amp: real, b: real, n: int, cosh: real -> real): (r: Option<seq<real>>)
    ensures r.None? <==> n == 0
    ensures r.Some? ==> |r.value| == (if n < 0 then 0 else n + 1)
    ensures r.Some? ==> forall i :: 0 <= i < |r.value| ==> r.value[i] == Height(amp, b, i, n, cosh)
  {
    if n == 0 then None
    else if n < 0 then Some([])
    else Some(seq(n + 1, i requires 0 <= i < n + 1 => Height(amp, b, i, n, cosh)))
  }

  /** Negation as a function: the term evenness is stated on. */
  function Neg(x: real): real {
    -x
  }

  /** `f` is an even function: arguments of opposite sign give equal values. */
  ghost predicate Even(f: real -> real) {
    forall x: real :: f(Neg(x)) == f(x)
  }

  /** Since cosh is even, the sampled profile is symmetric about the inlet
      centre and vanishes at both contact lines. */
  lemma {:induction false} ProfileSymmetric(amp: real, b: real, n: int, cosh: real -> real)
    requires n > 0
    requires Even(cosh)
    ensures var h := Profile(amp, b, n, cosh).value;
            |h| == n + 1 && h[0] == 0.0 && h[n] == 0.0 &&
            forall i :: 0 <= i <= n ==> h[i] == h[n - i]
  {
    var h := Profile(amp, b, n, cosh).value;
    HeightMirror(amp, b, 0, n, cosh);
    HeightAtEdge(amp, b, n, cosh);
    forall i | 0 <= i <= n
      ensures h[i] == h[n - i]
    {
      HeightMirror(amp, b, i, n, cosh);
    }
  }

  /** Mirrored sampling points have equal heights. */
  lemma {:induction false} HeightMirror(amp: real, b: real, i: int, n: int, cosh: real -> real)
    requires n != 0
    requires Even(cosh)
    ensures Height(amp, b, n - i, n, cosh) == Height(amp, b, i, n, cosh)
  {
    DzetaSymmetric(i, n);
    var x := b * Dzeta(i, n);
    assert b * Dzeta(n - i, n) == Neg(x);
    assert cosh(Neg(x)) == cosh(x);
  }

  /** At the right contact line the profile height is zero. */
  lemma {:induction false} HeightAtEdge(amp: real, b: real, n: int, cosh: real -> real)
    requires n != 0
    ensures Height(amp, b, n, n, cosh) == 0.0
  {
    DzetaSymmetric(0, n);
    assert Height(amp, b, n, n, cosh) == amp * (cosh(b) - cosh(b * Dzeta(n, n)));
    assert b * Dzeta(n, n) == b;
  }

  /** The accumulation `cSec += hVec[i+1] + hVec[i]` over every adjacent
      pair. Each interior sample is counted twice and the two end samples
      once. */
  function PairSum(h: seq<real>): (r: real)
    ensures |h| > 0 ==> r == 2.0 * RealSum(h) - h[0] - h[|h| - 1]
    ensures |h| == 0 ==> r == 0.0
    decreases |h|
  {
    if |h| <= 1 then 0.0
    else
      var init := h[..|h| - 1];
      assert init[0] == h[0] && init[|init| - 1] == h[|h| - 2];
      PairSum(init) + h[|h| - 1] + h[|h| - 2]
  }

  /** The cross-section loop as the script runs it: the pair sum scaled
      by half the sampling step. */
  method CrossSection(h: seq<real>, step: real) returns (cSec: real)
    ensures |h| > 0 ==> cSec == step * (RealSum(h) - (h[0] + h[|h| - 1]) / 2.0)
    ensures |h| == 0 ==> cSec == 0.0
  {
    var acc := 0.0;
    var i := 0;
    while i + 1 < |h|
      invariant |h| > 0 ==> i < |h| && acc == PairSum(h[..i + 1])
      invariant |h| == 0 ==> acc == 0.0
    {
      assert h[..i + 2][..i + 1] == h[..i + 1];
      acc := acc + h[i + 1] + h[i];
      i := i + 1;
    }
    if |h| > 0 {
      assert h[..i + 1] == h;
    }
    cSec := acc * step / 2.0;
  }

  /** The sampling step `2*a0/nCellsIn` across the inlet. */
  function CellStep(a0: real, n: int): real
    requires n != 0
  {
    2.0 * a0 / (n as real)
  }

  /** The trapezoid value the loop computes, as a function. */
  function Trapezoid(h: seq<real>, step: real): real
  {
    PairSum(h) * step / 2.0
  }

  /** No samples, no cross section. */
  lemma {:induction false} TrapezoidEmpty(h: seq<real>, step: real)
    ensures |h| == 0 ==> Trapezoid(h, step) == 0.0
  {
  }

  /** When the profile vanishes at both ends the trapezoid rule reduces to
      step times the plain sum of the samples. */
  lemma {:induction false} TrapezoidOfClosedProfile(h: seq<real>, step: real)
    requires |h| > 0 && h[0] == 0.0 && h[|h| - 1] == 0.0
    ensures Trapezoid(h, step) == step * RealSum(h)
  {
  }

  /** `u0 = mDot/rho/cSec`; a zero density or a zero cross section
      divides by zero. The velocity carries exactly the requested mass
      flow through the cross section. */
  function InletVelocity(mDot: real, rho: real, cSec: real): (r: Option<real>)
    ensures r.Some? <==> rho != 0.0 && cSec != 0.0
    ensures r.Some? ==> r.value * rho * cSec == mDot
  {
    if rho == 0.0 || cSec == 0.0 then None
    else Some(mDot / rho / cSec)
  }

  /** What the numerical part of the script produces. */
  datatype Solution = Solution(nCellsIn: int, amp: real, b: real, hVec: seq<real>, cSec: real, u0: real)

  /** The computation from the liquid properties to the inlet velocity.
      Every error the script can raise before it touches a file is `None`:
      a zero cell width, the profile constants (see `ProfileConstants`), a
      zero inlet cell count, a zero density or an empty cross section. */
  function Solve(inl: Inlet, p: FluidData.Props, num: Numerics): (r: Option<Solution>)
    ensures r.Some? ==>
              var s := r.value;
              s.nCellsIn % 2 == 0 && s.nCellsIn > 0 && |s.hVec| == s.nCellsIn + 1 &&
              s.cSec == Trapezoid(s.hVec, CellStep(inl.a0, s.nCellsIn)) &&
              InletVelocity(inl.mDot, p.rho, s.cSec) == Some(s.u0) &&
              s.hVec == Profile(s.amp, s.b, s.nCellsIn, num.cosh).value
    ensures r.Some? ==> inl.cellW != 0.0 && p.sigma != 0.0 && p.rho != 0.0
    ensures r.Some? <==>
              inl.cellW != 0.0 &&
              var n := NCellsIn(num.round(inl.a0 / inl.cellW * (inl.nCellsW as real)));
              var pc := ProfileConstants(inl.a0, p, inl.cosAlpha, num.tan(ContactAngle(p)), num);
              pc.Some? && n > 0 && p.rho != 0.0 &&
              Trapezoid(Profile(pc.value.0, pc.value.1, n, num.cosh).value, CellStep(inl.a0, n)) != 0.0
  {
    if inl.cellW == 0.0 then None
    else
      var n := NCellsIn(num.round(inl.a0 / inl.cellW * (inl.nCellsW as real)));
      match ProfileConstants(inl.a0, p, inl.cosAlpha, num.tan(ContactAngle(p)), num)
      case None => None
      case Some((amp, b)) =>
        SolveProfile(inl, p.rho, n, amp, b, num.cosh)
  }

  /** The part of `Solve` after the profile constants: sample the profile,
      integrate it and derive the velocity. */
  function SolveProfile(inl: Inlet, rho: real, n: int, amp: real, b: real, cosh: real -> real): (r: Option<Solution>)
    ensures r.Some? ==>
              var s := r.value;
              s.nCellsIn == n && n > 0 && s.amp == amp && s.b == b && |s.hVec| == n + 1 &&
              s.cSec == Trapezoid(s.hVec, CellStep(inl.a0, n)) &&
              InletVelocity(inl.mDot, rho, s.cSec) == Some(s.u0) &&
              s.hVec == Profile(amp, b, n, cosh).value
    ensures r.Some? ==> rho != 0.0
    ensures r.Some? <==>
              n > 0 && rho != 0.0 && Trapezoid(Profile(amp, b, n, cosh).value, CellStep(inl.a0, n)) != 0.0
  {
    match Profile(amp, b, n, cosh)
    case None => None
    case Some(h) =>
      var cSec := Trapezoid(h, CellStep(inl.a0, n));
      TrapezoidEmpty(h, CellStep(inl.a0, n));
      match InletVelocity(inl.mDot, rho, cSec)
      case None => None
      case Some(u0) => Some(Solution(n, amp, b, h, cSec, u0))
  }

  /** The lines closing an entry and the file: the entry's brace, the
      dictionary's brace and the footer rule, each write followed by a
      blank line. */
  const Closing: Lines := ["\t} \n", "\n", "}\n", "\n",
    "// * * * * * * * * * * * * * * * * * * * * * * * * * * * * * * * * * * * * * // \n", "\n"]

  /** The constant-velocity `inlet` entry of `Uf`, the velocity rendered
      with `'%5.4e'` along x. */
  function UfEntry(u0Text: string): (r: Lines)
    ensures |r| == 4 + |Closing| && r[4..] == Closing
    ensures r[0] == "\tinlet \n" && Contains(r[0], Marker)
  {
    assert "\tinlet \n"[1..6] == Marker;
    ["\tinlet \n", "\t{ \n", "\t\ttype\tfixedValue;\n",
     "\t\tvalue\tuniform \t\t(" + u0Text + " 0 0);\n"] + Closing
  }

  /** Opening lines of the non-uniform `deltaf` entry up to the list's
      opening parenthesis, with the declared length on the fifth line. */
  function DeltafHead(count: nat): Lines
  {
    ["\tinlet \n", "\t{ \n", "\t\ttype\tfixedValue;\n",
     "\t\tvalue\tnonuniform List<scalar>  \n", "\t\t" + IntRepr(count) + "\n", "\t\t(\n"]
  }

  /** The `inlet` entry of `deltaf`: the header declares `nCellsIn+1`
      entries and one line per sample follows. */
  function DeltafEntry(n: nat, h: seq<real>, repr: real -> string): (r: Lines)
    ensures |r| == 6 + |h| + 1 + |Closing|
    ensures r[0] == "\tinlet \n" && r[5] == "\t\t(\n" && r[6 + |h|] == "\t\t); \n"
    ensures forall i :: 0 <= i < |h| ==> r[6 + i] == "\t\t\t " + repr(h[i]) + "\n"
  {
    DeltafHead(n + 1) + seq(|h|, i requires 0 <= i < |h| => "\t\t\t " + repr(h[i]) + "\n") +
    ["\t\t); \n"] + Closing
  }

  /** The declared length, read back as a number, equals the number of
      value lines between the parentheses. */
  lemma {:induction false} DeltafCountMatches(n: nat, h: seq<real>, repr: real -> string)
    requires |h| == n + 1
    ensures var r := DeltafEntry(n, h, repr);
            r[4] == "\t\t" + IntRepr(n + 1) + "\n" && DecimalValue(IntRepr(n + 1)) == |r| - 7 - |Closing|
  {
  }

  /** Read, truncate at the first line mentioning `inlet`, write back,
      then append the new entry: the file keeps everything above the old
      entry and ends with the new one. */
  function Rewrite(file: Lines, entry: Lines): Lines
  {
    TruncateAtFirst(file, Marker) + entry
  }

  /** Everything the script leaves behind: `Uf` and `deltaf`, each
      rewritten with its new `inlet` entry, or `None` exactly when the
      computation raises before either file is touched. */
  function WriteInletBC(uf: Lines, deltaf: Lines, inl: Inlet, p: FluidData.Props, num: Numerics): (r: Option<(Lines, Lines)>)
    ensures r.Some? <==> Solve(inl, p, num).Some?
  {
    match Solve(inl, p, num)
    case None => None
    case Some(s) =>
      Some((Rewrite(uf, UfEntry(num.sci(s.u0))), Rewrite(deltaf, DeltafEntry(s.nCellsIn, s.hVec, num.repr))))
  }

  /** A file rewritten by the script mentions `inlet` first on the line
      that opens the new entry: the old entry and everything after it are
      gone, and the lines above it are kept in order. */
  lemma {:induction false} RewriteReplacesEntry(file: Lines, entry: Lines)
    requires |entry| > 0 && Contains(entry[0], Marker)
    ensures FirstLine(Rewrite(file, entry), Marker) == Some(|TruncateAtFirst(file, Marker)|)
    ensures Rewrite(file, entry)[..|TruncateAtFirst(file, Marker)|] == file[..|TruncateAtFirst(file, Marker)|]
  {
    var r := Rewrite(file, entry);
    var kept := TruncateAtFirst(file, Marker);
    assert r[|kept|] == entry[0];
    assert r[..|kept|] == kept;
    FirstLineAt(r, Marker, |kept|);
  }

  /** A file with no `inlet` line keeps all its lines; the new entry is
      appended after them. */
  lemma {:induction false} RewriteAppendsWhenAbsent(file: Lines, entry: Lines)
    requires forall i :: 0 <= i < |file| ==> !Contains(file[i], Marker)
    ensures Rewrite(file, entry) == file + entry
  {
    assert |TruncateAtFirst(file, Marker)| == |file|;
  }

  /** Rewriting twice with the same entry gives the same file as
      rewriting once: the script can be rerun on its own output. */
  lemma {:induction false} RewriteIdempotent(file: Lines, entry: Lines)
    requires |entry| > 0 && Contains(entry[0], Marker)
    ensures Rewrite(Rewrite(file, entry), entry) == Rewrite(file, entry)
  {
    var r := Rewrite(file, entry);
    var kept := TruncateAtFirst(file, Marker);
    RewriteReplacesEntry(file, entry);
    FirstLineTruncates(r, Marker, |kept|);
    assert r[..|kept|] == kept;
  }
}

=== FILE: log_monitor.dfy ===
/** The run monitors `procLogOnline` (transient interFoam runs on a remote
    server) and `procLogLocalSS` (steady simpleFoam runs on this machine):
    they read the solver log and extract the run header, the time step
    and execution-time series, residuals and PIMPLE iteration counts for
    plotting. Copying the logs, plotting and the refresh loop are left
    out; number conversion with `float` is a parameter. */
module LogMonitor {
  import opened Wrappers
  import opened Text
  import opened Sums
  import opened Patch
  import LogReader

  // ---------------------------------------------------------------- servers

  /** A server record: host, user, the two halves of the case directory
      around the user name, and the machine description for the title. */
  datatype Server = Server(host: string, user: string, dirParts: seq<string>, title: string)

  /** What `dict.get(rName, 'Altix')` returns: a record, or for an unknown
      name the default argument, which is the string 'Altix'. */
  datatype ServerLookup = Record(server: Server) | Plain(text: string)

  const Altix: Server := Server("altix.vscht.cz", "isozm", ["/scratch/", "/"], "Altix UV 2000")
  const Poctar: Server := Server("413-C407-Poctar.vscht.cz", "martin",
                                 ["/media/", "/Data_2/05_TextPlate/10_noTextureV2/"], "Intel Xeon E3")

  /** `avServers(rName)` as written. */
  function AvServers(rName: string): (r: ServerLookup)
    ensures r.Record? <==> rName == "Altix" || rName == "Poctar"
    ensures r.Plain? ==> r.text == "Altix"
    ensures rName == "Altix" ==> r == Record(Altix)
  {
    if rName == "Altix" then Record(Altix)
    else if rName == "Poctar" then Record(Poctar)
    else Plain("Altix")
  }

  /** `rServer,rUser,caseDir,sTitle = avServers(rName)`: a record has four
      fields; the five characters of 'Altix' do not unpack into four names
      (ValueError). */
  function UnpackServer(l: ServerLookup): (r: Option<Server>)
    ensures r.Some? <==> l.Record?
    ensures l.Record? ==> r.value == l.server
  {
    match l
    case Record(s) => Some(s)
    case Plain(_) => None
  }

  /** An unknown server name fails at the unpack instead of falling back
      to Altix. */
  lemma {:induction false} UnknownServerFails(rName: string)
    requires rName != "Altix" && rName != "Poctar"
    ensures UnpackServer(AvServers(rName)).None?
    ensures AvServers(rName) != Record(Altix)
  {
  }

  /** What the default was evidently meant to be: Altix's record. */
  function AvServersIntended(rName: string): (r: Server)
    ensures rName == "Altix" || rName == "Poctar" ==> AvServers(rName) == Record(r)
    ensures rName != "Altix" && rName != "Poctar" ==> r == Altix
  {
    if rName == "Poctar" then Poctar else Altix
  }

  /** `caseDir[0] + rUser + caseDir[1] + caseName + '/'`; a record with
      fewer than two directory parts would raise IndexError. */
  function RemoteCaseDir(s: Server, caseName: string): (r: Option<string>)
    ensures r.Some? <==> |s.dirParts| >= 2
    ensures r.Some? ==> r.value == s.dirParts[0] + s.user + s.dirParts[1] + caseName + "/"
  {
    if |s.dirParts| < 2 then None
    else Some(s.dirParts[0] + s.user + s.dirParts[1] + caseName + "/")
  }

  /** `os.popen(...).read()` followed by `[:-1]`: the machine description
      printed by the shell command, without the last character (the
      newline the command ends its output with). */
  function MachineTitle(raw: string): (r: string)
    ensures |raw| > 0 ==> |r| == |raw| - 1 && r + [raw[|raw| - 1]] == raw
    ensures |raw| == 0 ==> r == ""
  {
    DropLast(raw)
  }

  /** A description printed with its newline comes back as printed. */
  lemma {:induction false} MachineTitleOf(name: string)
    ensures MachineTitle(name + "\n") == name
  {
    assert (name + "\n")[..|name|] == name;
  }

  // ---------------------------------------------------------------- header

  /** Index of the first line that starts with `marker` (`find(..) == 0`). */
  function FirstAtColumn0(data: Lines, marker: string, from: nat): (r: Option<nat>)
    ensures r.Some? ==> from <= r.value < |data| && StartsWith(data[r.value], marker) &&
                        forall k :: from <= k < r.value ==> !StartsWith(data[k], marker)
    ensures r.None? ==> forall k :: from <= k < |data| ==> !StartsWith(data[k], marker)
    decreases |data| - from
  {
    if from >= |data| then None
    else
      FindZeroIffStartsWith(data[from], marker);
      if Find(data[from], marker) == 0 then Some(from)
      else FirstAtColumn0(data, marker, from + 1)
  }

  /** `out`: for each marker that starts some line, the rest of the first
      such line (newline included); markers with no line add nothing. */
  function HeaderFields(data: Lines, markers: seq<string>): (r: seq<string>)
    ensures |r| <= |markers|
    ensures |r| == |markers| <==> forall j :: 0 <= j < |markers| ==> FirstAtColumn0(data, markers[j], 0).Some?
    ensures |r| == |markers| ==> forall j :: 0 <= j < |markers| ==>
              markers[j] + r[j] == data[FirstAtColumn0(data, markers[j], 0).value]
    decreases |markers|
  {
    if |markers| == 0 then []
    else
      var rest := HeaderFields(data, markers[1..]);
      match FirstAtColumn0(data, markers[0], 0)
      case None => rest
      case Some(i) =>
        assert data[i] == markers[0] + data[i][|markers[0]|..];
        [data[i][|markers[0]|..]] + rest
  }

  const HeaderMarkers: seq<string> := ["nProcs : ", "Date   : ", "Time   : ", "Case   : ", "Exec   : ", "Build  : "]

  datatype Header = Header(nProcs: int, date: string, time: string, caseName: string, exec: string, build: string)

  /** `nProcs = int(out[0])`, the five-name unpack of `out[1::]`, the
      newline cut from each text field, and `Case` reduced to its last
      `/` segment. A missing marker leaves `out` short and the index or the
      unpack raises; a non-numeric core count raises in `int`. */
  function ReadHeader(data: Lines): (r: Option<Header>)
    ensures r.Some? ==> forall j :: 0 <= j < |HeaderMarkers| ==> FirstAtColumn0(data, HeaderMarkers[j], 0).Some?
    ensures (exists j :: 0 <= j < |HeaderMarkers| && FirstAtColumn0(data, HeaderMarkers[j], 0).None?) ==> r.None?
    ensures r.Some? ==>
              var out := HeaderFields(data, HeaderMarkers);
              LogReader.ParseInt(out[0]) == Some(r.value.nProcs) &&
              r.value.date == DropLast(out[1]) && r.value.time == DropLast(out[2]) &&
              r.value.exec == DropLast(out[4]) && r.value.build == DropLast(out[5]) &&
              r.value.caseName == LastField(DropLast(out[3]), "/") && !Contains(r.value.caseName, "/")
  {
    var out := HeaderFields(data, HeaderMarkers);
    if |out| != 6 then None
    else
      match LogReader.ParseInt(out[0])
      case None => None
      case Some(n) =>
        Some(Header(n, DropLast(out[1]), DropLast(out[2]), LastField(DropLast(out[3]), "/"),
                    DropLast(out[4]), DropLast(out[5])))
  }

  const CellsMarker: string := "nCells: "

  /** `round(float(...)/1e6, 1)` is applied to the rest of the first
      `log.blockMesh` line mentioning `nCells: `; with no such line
      `nCells` is never bound (`None`). */
  function CellCountText(data: Lines): (r: Option<string>)
    ensures r.Some? <==> exists i :: 0 <= i < |data| && Contains(data[i], CellsMarker)
  {
    match FirstMention(data, CellsMarker, 0)
    case None => None
    case Some(i) => Some(data[i][Find(data[i], CellsMarker) + |CellsMarker|..])
  }

  /** The text read is what follows the marker on the first line that
      mentions it: for `pre + "nCells: " + t`, with no earlier mention, it
      is `t`. */
  lemma {:induction false} CellCountTextOf(data: Lines, i: nat, pre: string, t: string)
    requires i < |data| && data[i] == pre + CellsMarker + t
    requires Find(pre + CellsMarker, CellsMarker) == |pre|
    requires forall k :: 0 <= k < i ==> !Contains(data[k], CellsMarker)
    ensures CellCountText(data) == Some(t)
  {
    FindInPrefix(pre + CellsMarker, t, CellsMarker);
    assert Contains(data[i], CellsMarker);
    var f := FirstMention(data, CellsMarker, 0);
    assert f.Some? && f.value == i;
    assert data[i][|pre| + |CellsMarker|..] == t;
  }

  /** `nCells = round(float(t)/1e6, 1)` on that text, with `round1` standing
      for `round(., 1)`: no mentioning line, or a text `float()` rejects,
      leaves the script without a cell count. */
  function CellCount(data: Lines, toFloat: string -> Option<real>, round1: real -> real): (r: Option<real>)
    ensures r.Some? <==> CellCountText(data).Some? && toFloat(CellCountText(data).value).Some?
  {
    match CellCountText(data)
    case None => None
    case Some(t) =>
      match toFloat(t)
      case None => None
      case Some(x) => Some(round1(x / 1000000.0))
  }

  /** The cell count is the millions, rounded, of the number that follows
      the marker on the first line mentioning it. */
  lemma {:induction false} CellCountOf(data: Lines, i: nat, pre: string, t: string,
                                       toFloat: string -> Option<real>, round1: real -> real)
    requires i < |data| && data[i] == pre + CellsMarker + t
    requires Find(pre + CellsMarker, CellsMarker) == |pre|
    requires forall k :: 0 <= k < i ==> !Contains(data[k], CellsMarker)
    ensures toFloat(t).None? ==> CellCount(data, toFloat, round1).None?
    ensures toFloat(t).Some? ==> CellCount(data, toFloat, round1) == Some(round1(toFloat(t).value / 1000000.0))
  {
    CellCountTextOf(data, i, pre, t);
    CellCountFrom(data, t, toFloat, round1);
  }

  /** The count converts whatever text was read. */
  lemma CellCountFrom(data: Lines, t: string, toFloat: string -> Option<real>, round1: real -> real)
    requires CellCountText(data) == Some(t)
    ensures toFloat(t).None? ==> CellCount(data, toFloat, round1).None?
    ensures toFloat(t).Some? ==> CellCount(data, toFloat, round1) == Some(round1(toFloat(t).value / 1000000.0))
  {
  }

  /** Index of the first line at or after `from` that mentions `pat`. */
  function FirstMention(data: Lines, pat: string, from: nat): (r: Option<nat>)
    ensures r.Some? ==> from <= r.value < |data| && Contains(data[r.value], pat) &&
                        forall k :: from <= k < r.value ==> !Contains(data[k], pat)
    ensures r.None? <==> forall k :: from <= k < |data| ==> !Contains(data[k], pat)
    decreases |data| - from
  {
    if from >= |data| then None
    else if Contains(data[from], pat) then Some(from)
    else FirstMention(data, pat, from + 1)
  }

  // ---------------------------------------------------------------- float()

  /** `float()` applied to every text in turn, with `toFloat` standing for
      `float()` (`None` where it raises ValueError, which ends the script). */
  function Floats(ts: seq<string>, toFloat: string -> Option<real>): (r: Option<seq<real>>)
    ensures r.Some? <==> forall i :: 0 <= i < |ts| ==> toFloat(ts[i]).Some?
    ensures r.Some? ==> |r.value| == |ts| && forall i :: 0 <= i < |ts| ==> toFloat(ts[i]) == Some(r.value[i])
    decreases |ts|
  {
    if |ts| == 0 then Some([])
    else
      assert forall i :: 1 <= i < |ts| ==> ts[1..][i - 1] == ts[i];
      match (toFloat(ts[0]), Floats(ts[1..], toFloat))
      case (Some(x), Some(xs)) => Some([x] + xs)
      case _ => None
  }

  /** `float()` accepts every text. */
  predicate AllConvert(ts: seq<string>, toFloat: string -> Option<real>) {
    forall i :: 0 <= i < |ts| ==> toFloat(ts[i]).Some?
  }

  /** A failed conversion has a text `float()` rejects. */
  lemma FloatsRejects(ts: seq<string>, toFloat: string -> Option<real>)
    requires Floats(ts, toFloat).None?
    ensures !AllConvert(ts, toFloat)
  {
  }

  /** `float()` applied to every text of every list: all lists converted,
      or `None` once any text is rejected. */
  function FloatLists(ss: seq<seq<string>>, toFloat: string -> Option<real>): (r: Option<seq<seq<real>>>)
    ensures r.Some? <==> forall j, i :: 0 <= j < |ss| && 0 <= i < |ss[j]| ==> toFloat(ss[j][i]).Some?
    ensures r.Some? ==> |r.value| == |ss| && forall j :: 0 <= j < |ss| ==> Floats(ss[j], toFloat) == Some(r.value[j])
    decreases |ss|
  {
    if |ss| == 0 then Some([])
    else
      assert forall j :: 1 <= j < |ss| ==> ss[1..][j - 1] == ss[j];
      match (Floats(ss[0], toFloat), FloatLists(ss[1..], toFloat))
      case (Some(x), Some(xs)) => Some([x] + xs)
      case _ => None
  }

  // ---------------------------------------------------------------- series

  /** Indices, in increasing order, of the lines among the first `n` that
      start with `marker`. */
  function Col0Lines(data: Lines, marker: string, n: nat): (r: seq<nat>)
    requires n <= |data|
    ensures forall k :: 0 <= k < |r| ==> r[k] < n && StartsWith(data[r[k]], marker)
    ensures forall k, l :: 0 <= k < l < |r| ==> r[k] < r[l]
    ensures forall i :: 0 <= i < n && StartsWith(data[i], marker) ==> i in r
    decreases n
  {
    if n == 0 then []
    else
      FindZeroIffStartsWith(data[n - 1], marker);
      Col0Lines(data, marker, n - 1) + (if Find(data[n - 1], marker) == 0 then [n - 1] else [])
  }

  /** The `deltaT = ` and `Time = ` series: the rest of every line that
      starts with the marker, in file order (the text `float` converts). */
  function Series(data: Lines, marker: string): (r: seq<string>)
    ensures var idx := Col0Lines(data, marker, |data|);
            |r| == |idx| && forall k :: 0 <= k < |r| ==> marker + r[k] == data[idx[k]]
  {
    var idx := Col0Lines(data, marker, |data|);
    seq(|idx|, k requires 0 <= k < |idx| => data[idx[k]][|marker|..])
  }

  /** `vec[j]`: the series converted by `float()`. It exists exactly when
      every line starting with the marker has a convertible rest, and entry
      k is the k-th such line's value. */
  function SeriesValues(data: Lines, marker: string, toFloat: string -> Option<real>): (r: Option<seq<real>>)
    ensures var idx := Col0Lines(data, marker, |data|);
            r.Some? <==> forall k :: 0 <= k < |idx| ==> toFloat(data[idx[k]][|marker|..]).Some?
    ensures var idx := Col0Lines(data, marker, |data|);
            r.Some? ==> (|r.value| == |idx| &&
              forall k :: 0 <= k < |idx| ==> toFloat(data[idx[k]][|marker|..]) == Some(r.value[k]))
  {
    SeriesRests(data, marker, toFloat);
    Floats(Series(data, marker), toFloat)
  }

  /** Entry k of the series is the rest of the k-th line starting with
      the marker, so converting the series converts those rests. */
  lemma SeriesRests(data: Lines, marker: string, toFloat: string -> Option<real>)
    ensures var idx := Col0Lines(data, marker, |data|);
            var ts := Series(data, marker);
            |ts| == |idx| &&
            (forall k :: 0 <= k < |idx| ==> toFloat(ts[k]) == toFloat(data[idx[k]][|marker|..]))
  {
    var idx := Col0Lines(data, marker, |data|);
    var ts := Series(data, marker);
    forall k | 0 <= k < |idx|
      ensures toFloat(ts[k]) == toFloat(data[idx[k]][|marker|..])
    {
      assert data[idx[k]] == marker + ts[k];
      assert (marker + ts[k])[|marker|..] == ts[k];
    }
  }

  // ---------------------------------------------------------------- execution time

  /** `float(line.split(' ')[2])`'s text: the third space-separated field;
      a line with fewer fields raises IndexError. */
  function ThirdField(line: string): (r: Option<string>)
    ensures r.Some? <==> |Split(line, " ")| > 2
    ensures r.Some? ==> !Contains(r.value, " ")
  {
    var parts := Split(line, " ");
    if |parts| > 2 then Some(parts[2]) else None
  }

  /** A solver line `ExecutionTime = <t> s  ClockTime = ...` splits at
      single spaces into the marker word, `=`, and the time: the third field
      is the time, whatever follows it after a space. */
  lemma {:induction false} ThirdFieldOf(a: string, b: string, f: string, rest: string)
    requires !Contains(a, " ") && !Contains(b, " ") && !Contains(f, " ")
    ensures ThirdField(a + " " + b + " " + f) == Some(f)
    ensures ThirdField(a + " " + b + " " + f + " " + rest) == Some(f)
  {
    var sp := ' ';
    assert [sp] == " ";
    var t1 := f + [sp] + rest;
    assert a + " " + b + " " + f == a + [sp] + (b + [sp] + f);
    assert a + " " + b + " " + f + " " + rest == a + [sp] + (b + [sp] + t1);
    SplitWhole(f, " ");
    ThirdFieldSplit(a, b, f);
    SplitFirstField(f, sp, rest);
    ThirdFieldSplit(a, b, t1);
  }

  /** Two space-free fields and a space before each: the third field is
      the first piece of what follows. */
  lemma {:induction false} ThirdFieldSplit(a: string, b: string, t: string)
    requires !Contains(a, " ") && !Contains(b, " ")
    ensures ThirdField(a + [' '] + (b + [' '] + t)) == Some(Split(t, " ")[0])
  {
    var sp := ' ';
    assert [sp] == " ";
    SplitFirstField(b, sp, t);
    SplitFirstField(a, sp, b + [sp] + t);
  }

  const ExecMarker: string := "ExecutionTime = "

  /** The execution times read from every line mentioning
      `ExecutionTime = `, converted by `toFloat` (`float()`, `None` where it
      raises): the k-th time is the third field of the k-th such line. A
      mentioning line with fewer than three fields, or whose third field
      does not convert, raises. */
  function ExecTimes(data: Lines, toFloat: string -> Option<real>): (r: Option<seq<real>>)
    ensures r.Some? <==> forall i :: 0 <= i < |data| && Contains(data[i], ExecMarker) ==>
              ThirdField(data[i]).Some? && toFloat(ThirdField(data[i]).value).Some?
    ensures r.Some? ==> |r.value| == CountHits(data, ExecMarker)
    decreases |data|
  {
    if |data| == 0 then Some([])
    else
      var rest := ExecTimes(data[1..], toFloat);
      assert forall i :: 1 <= i < |data| ==> data[i] == data[1..][i - 1];
      if !Contains(data[0], ExecMarker) then rest
      else match ThirdField(data[0])
        case None => None
        case Some(t) =>
          match (toFloat(t), rest)
          case (Some(x), Some(ts)) => Some([x] + ts)
          case _ => None
  }

  /** The k-th time is the third field of the k-th line mentioning the
      marker. */
  lemma ExecTimesValues(data: Lines, toFloat: string -> Option<real>)
    ensures ExecTimes(data, toFloat).Some? ==> forall k :: 0 <= k < |ExecTimes(data, toFloat).value| ==>
              Contains(data[Hits(data, ExecMarker)[k]], ExecMarker) &&
              ThirdField(data[Hits(data, ExecMarker)[k]]).Some? &&
              toFloat(ThirdField(data[Hits(data, ExecMarker)[k]]).value) ==
                Some(ExecTimes(data, toFloat).value[k])
  {
    var rs := ExecReadings(data, toFloat);
    ExecTimesCollect(data, toFloat);
    CollectValues(rs);
    assert Taken(rs) == Mask(data, ExecMarker);
  }

  /** What one line contributes to the execution times. */
  function ExecReading(line: string, toFloat: string -> Option<real>): Reading<real> {
    if !Contains(line, ExecMarker) then Skip
    else match ThirdField(line)
      case None => Fail
      case Some(t) =>
        match toFloat(t)
        case None => Fail
        case Some(x) => Value(x)
  }

  function ExecReadings(data: Lines, toFloat: string -> Option<real>): (r: seq<Reading<real>>)
    ensures |r| == |data| && forall i :: 0 <= i < |data| ==> r[i] == ExecReading(data[i], toFloat)
  {
    seq(|data|, i requires 0 <= i < |data| => ExecReading(data[i], toFloat))
  }

  /** The time loop collects the readings of the lines. */
  lemma {:induction false} ExecTimesCollect(data: Lines, toFloat: string -> Option<real>)
    ensures ExecTimes(data, toFloat) == Collect(ExecReadings(data, toFloat))
    decreases |data|
  {
    if |data| > 0 {
      ExecTimesCollect(data[1..], toFloat);
      assert ExecReadings(data, toFloat)[1..] == ExecReadings(data[1..], toFloat);
    }
  }

  /** The execution-time vectors built by the append loop from
      `[[0.0],[0.0],[0]]`: cumulative time, the time of each step, and the
      step number. The step times telescope to the last cumulative time. */
  method ExecutionTimeVectors(times: seq<real>) returns (v0: seq<real>, v1: seq<real>, v2: seq<int>)
    ensures |v0| == |v1| == |v2| == |times| + 1
    ensures v0 == [0.0] + times
    ensures forall k :: 0 <= k < |v2| ==> v2[k] == k
    ensures v1[0] == 0.0 && forall k :: 1 <= k < |v1| ==> v1[k] == v0[k] - v0[k - 1]
    ensures RealSum(v1) == v0[|v0| - 1]
  {
    v0, v1, v2 := [0.0], [0.0], [0];
    var i := 0;
    while i < |times|
      invariant 0 <= i <= |times|
      invariant |v0| == |v1| == |v2| == i + 1
      invariant v0 == [0.0] + times[..i]
      invariant forall k :: 0 <= k < |v2| ==> v2[k] == k
      invariant v1[0] == 0.0 && forall k :: 1 <= k < |v1| ==> v1[k] == v0[k] - v0[k - 1]
    {
      v0 := v0 + [times[i]];
      v1 := v1 + [times[i] - v0[|v0| - 2]];
      v2 := v2 + [v2[|v2| - 1] + 1];
      i := i + 1;
    }
    assert times[..i] == times;
    Telescope(v0, v1);
  }

  /** Differences of consecutive values starting from 0 sum to the last
      value. */
  lemma {:induction false} Telescope(v0: seq<real>, v1: seq<real>)
    requires |v0| == |v1| > 0 && v0[0] == 0.0 && v1[0] == 0.0
    requires forall k :: 1 <= k < |v1| ==> v1[k] == v0[k] - v0[k - 1]
    ensures RealSum(v1) == v0[|v0| - 1]
    decreases |v1|
  {
    if |v1| > 1 {
      Telescope(v0[..|v0| - 1], v1[..|v1| - 1]);
    }
  }

  // ---------------------------------------------------------------- tail of the log

  const IterMarker: string := "PIMPLE: iteration 1"

  /** Number of lines mentioning `pat`. */
  function CountHits(lines: Lines, pat: string): (r: nat)
    ensures r <= |lines|
    decreases |lines|
  {
    if |lines| == 0 then 0
    else (if Contains(lines[0], pat) then 1 else 0) + CountHits(lines[1..], pat)
  }

  /** What one line contributes to a series collected over the log:
      nothing, a value, or an exception that ends the scan. */
  datatype Reading<T> = Skip | Fail | Value(v: T)

  /** The values of the readings in order, or None once one fails. */
  function Collect<T>(rs: seq<Reading<T>>): (r: Option<seq<T>>)
    decreases |rs|
  {
    if |rs| == 0 then Some([])
    else match rs[0]
      case Skip => Collect(rs[1..])
      case Fail => None
      case Value(v) =>
        match Collect(rs[1..])
        case None => None
        case Some(vs) => Some([v] + vs)
  }

  /** Which readings are not skipped. */
  function Taken<T>(rs: seq<Reading<T>>): (r: seq<bool>)
    ensures |r| == |rs| && forall i :: 0 <= i < |rs| ==> r[i] == !rs[i].Skip?
  {
    seq(|rs|, i requires 0 <= i < |rs| => !rs[i].Skip?)
  }

  /** Entry k of `r` is the value of the k-th reading not skipped. */
  ghost predicate ValuesAt<T>(rs: seq<Reading<T>>, r: seq<T>) {
    |r| == |PosFrom(Taken(rs), 0)| &&
    forall k :: 0 <= k < |r| ==> PosFrom(Taken(rs), 0)[k] < |rs| && rs[PosFrom(Taken(rs), 0)[k]] == Value(r[k])
  }

  /** A collected series holds the values of the readings not skipped,
      in order. */
  lemma {:induction false} CollectValues<T>(rs: seq<Reading<T>>)
    ensures Collect(rs).Some? ==> ValuesAt(rs, Collect(rs).value)
    decreases |rs|
  {
    if |rs| > 0 && Collect(rs).Some? {
      CollectValues(rs[1..]);
      var d := Lead(Taken(rs), 0);
      CollectHead(rs);
      TakenHead(rs);
      ValuesStep(rs, PosFrom(Taken(rs), 0), PosFrom(Taken(rs[1..]), 0), d,
                 Collect(rs).value, Collect(rs[1..]).value);
    }
  }

  /** A collected series starts with the first reading's value, if it is
      one, and goes on with the rest. */
  lemma CollectHead<T>(rs: seq<Reading<T>>)
    requires |rs| > 0 && Collect(rs).Some?
    ensures !rs[0].Fail? && Collect(rs[1..]).Some?
    ensures Collect(rs).value == (if rs[0].Skip? then [] else [rs[0].v]) + Collect(rs[1..]).value
  {
  }

  /** The readings after the first are taken at the same places, one
      earlier. */
  lemma TakenHead<T>(rs: seq<Reading<T>>)
    requires |rs| > 0
    ensures Lead(Taken(rs), 0) == if rs[0].Skip? then 0 else 1
    ensures |PosFrom(Taken(rs), 0)| == Lead(Taken(rs), 0) + |PosFrom(Taken(rs[1..]), 0)|
    ensures !rs[0].Skip? ==> PosFrom(Taken(rs), 0)[0] == 0
    ensures forall k :: 0 <= k < |PosFrom(Taken(rs[1..]), 0)| ==>
              PosFrom(Taken(rs), 0)[k + Lead(Taken(rs), 0)] == PosFrom(Taken(rs[1..]), 0)[k] + 1
  {
    assert Taken(rs)[1..] == Taken(rs[1..]);
    PosFromHead(Taken(rs));
  }

  lemma ValuesStep<T>(rs: seq<Reading<T>>, h: seq<nat>, ht: seq<nat>, d: nat, r: seq<T>, t: seq<T>)
    requires |rs| > 0 && !rs[0].Fail? && d == (if rs[0].Skip? then 0 else 1)
    requires |h| == d + |ht| && (d == 1 ==> h[0] == 0)
    requires forall k :: 0 <= k < |ht| ==> h[k + d] == ht[k] + 1
    requires r == (if d == 1 then [rs[0].v] else []) + t
    requires |t| == |ht| && forall k :: 0 <= k < |t| ==> ht[k] < |rs| - 1 && rs[1..][ht[k]] == Value(t[k])
    ensures |r| == |h| && forall k :: 0 <= k < |r| ==> h[k] < |rs| && rs[h[k]] == Value(r[k])
  {
    forall k | 0 <= k < |r| ensures h[k] < |rs| && rs[h[k]] == Value(r[k]) {
      if k >= d {
        assert h[k] == ht[k - d] + 1 && r[k] == t[k - d];
      }
    }
  }

  /** Which lines mention `pat`. */
  function Mask(lines: Lines, pat: string): (r: seq<bool>)
    ensures |r| == |lines| && forall i :: 0 <= i < |lines| ==> r[i] == Contains(lines[i], pat)
  {
    seq(|lines|, i requires 0 <= i < |lines| => Contains(lines[i], pat))
  }

  lemma MaskTail(lines: Lines, pat: string)
    requires |lines| > 0
    ensures Mask(lines, pat)[1..] == Mask(lines[1..], pat)
  {
    assert forall i :: 0 <= i < |lines| - 1 ==> Mask(lines, pat)[1..][i] == Mask(lines[1..], pat)[i];
  }

  /** Indices, in file order, of the lines mentioning `pat`. */
  function Hits(lines: Lines, pat: string): (r: seq<nat>)
    ensures |r| == CountHits(lines, pat)
    ensures forall k :: 0 <= k < |r| ==> r[k] < |lines|
  {
    HitsCount(lines, pat);
    PosFrom(Mask(lines, pat), 0)
  }

  lemma {:induction false} HitsCount(lines: Lines, pat: string)
    ensures |PosFrom(Mask(lines, pat), 0)| == CountHits(lines, pat)
    decreases |lines|
  {
    if |lines| > 0 {
      HitsCount(lines[1..], pat);
      MaskTail(lines, pat);
      PosFromHead(Mask(lines, pat));
    }
  }

  /** Every hit mentions `pat`. */
  lemma HitsMention(lines: Lines, pat: string)
    ensures forall k :: 0 <= k < |Hits(lines, pat)| ==> Contains(lines[Hits(lines, pat)[k]], pat)
  {
    PosFromSet(Mask(lines, pat), 0);
  }

  /** The hits are in increasing order. */
  lemma HitsOrdered(lines: Lines, pat: string)
    ensures var h := Hits(lines, pat);
            forall k, l :: 0 <= k < l < |h| ==> h[k] < h[l]
  {
    PosFromOrdered(Mask(lines, pat), 0);
  }

  /** Every line mentioning `pat` is a hit. */
  lemma HitsComplete(lines: Lines, pat: string)
    ensures forall i :: 0 <= i < |lines| && Contains(lines[i], pat) ==> i in Hits(lines, pat)
  {
    PosFromComplete(Mask(lines, pat), 0);
  }

  /** Indices `i` and above of the set entries of a mask, in order. */
  function PosFrom(mask: seq<bool>, i: nat): (r: seq<nat>)
    requires i <= |mask|
    ensures forall k :: 0 <= k < |r| ==> i <= r[k] < |mask|
    decreases |mask| - i
  {
    if i == |mask| then [] else (if mask[i] then [i] else []) + PosFrom(mask, i + 1)
  }

  function Lead(mask: seq<bool>, i: nat): nat
    requires i < |mask|
  {
    if mask[i] then 1 else 0
  }

  lemma SetStep(mask: seq<bool>, h: seq<nat>, t: seq<nat>, d: nat, i: nat)
    requires i < |mask| && ConsOf(h, t, d, i) && (d == 1 ==> mask[i])
    requires forall k :: 0 <= k < |t| ==> t[k] < |mask| && mask[t[k]]
    ensures forall k :: 0 <= k < |h| ==> h[k] < |mask| && mask[h[k]]
  {
    forall k | 0 <= k < |h| ensures h[k] < |mask| && mask[h[k]] {
      if k >= d {
        assert h[k] == t[k - d];
      }
    }
  }

  lemma {:induction false} PosFromSet(mask: seq<bool>, i: nat)
    requires i <= |mask|
    ensures forall k :: 0 <= k < |PosFrom(mask, i)| ==> mask[PosFrom(mask, i)[k]]
    decreases |mask| - i
  {
    if i < |mask| {
      PosFromSet(mask, i + 1);
      PosFromConsOf(mask, i);
      SetStep(mask, PosFrom(mask, i), PosFrom(mask, i + 1), Lead(mask, i), i);
    }
  }

  predicate Increasing(h: seq<nat>) {
    forall k, l :: 0 <= k < l < |h| ==> h[k] < h[l]
  }

  /** One step of a position list: an optional head `i` before a tail. */
  predicate ConsOf(h: seq<nat>, t: seq<nat>, d: nat, i: nat) {
    d <= 1 && |h| == d + |t| && (d == 1 ==> h[0] == i) &&
    forall k :: 0 <= k < |t| ==> h[k + d] == t[k]
  }

  lemma PosFromConsOf(mask: seq<bool>, i: nat)
    requires i < |mask|
    ensures ConsOf(PosFrom(mask, i), PosFrom(mask, i + 1), Lead(mask, i), i)
  {
  }

  lemma IncreasingStep(h: seq<nat>, t: seq<nat>, d: nat, i: nat)
    requires ConsOf(h, t, d, i) && Increasing(t)
    requires forall k :: 0 <= k < |t| ==> i < t[k]
    ensures Increasing(h)
  {
    forall k, l | 0 <= k < l < |h| ensures h[k] < h[l] {
      if k >= d {
        assert h[k] == t[k - d] && h[l] == t[l - d];
      } else {
        assert h[k] == i && h[l] == t[l - d];
      }
    }
  }

  lemma {:induction false} PosFromOrdered(mask: seq<bool>, i: nat)
    requires i <= |mask|
    ensures Increasing(PosFrom(mask, i))
    decreases |mask| - i
  {
    if i < |mask| {
      PosFromOrdered(mask, i + 1);
      PosFromConsOf(mask, i);
      IncreasingStep(PosFrom(mask, i), PosFrom(mask, i + 1), Lead(mask, i), i);
    }
  }

  lemma CompleteStep(h: seq<nat>, t: seq<nat>, d: nat, i: nat, j: nat)
    requires ConsOf(h, t, d, i)
    requires j == i ==> d == 1
    requires j != i ==> j in t
    ensures j in h
  {
    if j == i {
      assert h[0] == i;
    } else {
      var k :| 0 <= k < |t| && t[k] == j;
      assert h[k + d] == j;
    }
  }

  lemma {:induction false} PosFromComplete(mask: seq<bool>, i: nat)
    requires i <= |mask|
    ensures forall j :: i <= j < |mask| && mask[j] ==> j in PosFrom(mask, i)
    decreases |mask| - i
  {
    if i < |mask| {
      PosFromComplete(mask, i + 1);
      PosFromConsOf(mask, i);
      forall j | i <= j < |mask| && mask[j] ensures j in PosFrom(mask, i) {
        CompleteStep(PosFrom(mask, i), PosFrom(mask, i + 1), Lead(mask, i), i, j);
      }
    }
  }

  /** Every entry of `h` is one more than the same entry of `h1`. */
  predicate Shifted(h: seq<nat>, h1: seq<nat>) {
    |h| == |h1| && forall k :: 0 <= k < |h| ==> h[k] == h1[k] + 1
  }

  lemma DropStep(h: seq<nat>, t: seq<nat>, h1: seq<nat>, t1: seq<nat>, d: nat, i: nat)
    requires i >= 1 && ConsOf(h, t, d, i) && ConsOf(h1, t1, d, i - 1) && Shifted(t, t1)
    ensures Shifted(h, h1)
  {
    forall k | 0 <= k < |h| ensures h[k] == h1[k] + 1 {
      if k >= d {
        assert h[k] == t[k - d] && h1[k] == t1[k - d];
      }
    }
  }

  /** Dropping the first entry moves every later position down by one. */
  lemma {:induction false} PosFromDrop(mask: seq<bool>, i: nat)
    requires 1 <= i <= |mask|
    ensures Shifted(PosFrom(mask, i), PosFrom(mask[1..], i - 1))
    decreases |mask| - i
  {
    if i < |mask| {
      PosFromDrop(mask, i + 1);
      DropAt(mask, i);
    }
  }

  /** One step of PosFromDrop, at entry `i`. */
  lemma DropAt(mask: seq<bool>, i: nat)
    requires 1 <= i < |mask|
    requires Shifted(PosFrom(mask, i + 1), PosFrom(mask[1..], i))
    ensures Shifted(PosFrom(mask, i), PosFrom(mask[1..], i - 1))
  {
    PosFromConsOf(mask, i);
    PosFromConsOf(mask[1..], i - 1);
    assert Lead(mask[1..], i - 1) == Lead(mask, i);
    DropStep(PosFrom(mask, i), PosFrom(mask, i + 1), PosFrom(mask[1..], i - 1), PosFrom(mask[1..], i), Lead(mask, i), i);
  }

  lemma ConsShifted(h: seq<nat>, m: seq<nat>, t: seq<nat>, d: nat)
    requires ConsOf(h, m, d, 0) && Shifted(m, t)
    ensures |h| == d + |t| && (d == 1 ==> h[0] == 0)
    ensures forall k :: 0 <= k < |t| ==> h[k + d] == t[k] + 1
  {
    forall k | 0 <= k < |t| ensures h[k + d] == t[k] + 1 {
      assert h[k + d] == m[k];
    }
  }

  /** Dropping the first entry of a mask shifts the positions after it
      by one. */
  lemma PosFromHead(mask: seq<bool>)
    requires |mask| > 0
    ensures |PosFrom(mask, 0)| == Lead(mask, 0) + |PosFrom(mask[1..], 0)|
    ensures mask[0] ==> PosFrom(mask, 0)[0] == 0
    ensures forall k :: 0 <= k < |PosFrom(mask[1..], 0)| ==>
              PosFrom(mask, 0)[k + Lead(mask, 0)] == PosFrom(mask[1..], 0)[k] + 1
  {
    PosFromConsOf(mask, 0);
    PosFromDrop(mask, 1);
    ConsShifted(PosFrom(mask, 0), PosFrom(mask, 1), PosFrom(mask[1..], 0), Lead(mask, 0));
  }

  /** The lines not mentioning `pat`, in order. */
  function Keep(lines: Lines, pat: string): (r: Lines)
    ensures |r| + CountHits(lines, pat) == |lines|
    ensures forall k :: 0 <= k < |r| ==> !Contains(r[k], pat)
    decreases |lines|
  {
    if |lines| == 0 then []
    else (if Contains(lines[0], pat) then [] else [lines[0]]) + Keep(lines[1..], pat)
  }

  /** The backward loop collecting the last `n` time steps: from the last
      line down to index 1 every line without the marker is kept, every
      marker line is counted, and the loop stops at the `n`-th marker line
      from the end. The script appends and reverses at the end; prepending
      gives the same list. `lo` is the first index of the kept range:
      just past the `n`-th marker line from the end, or 1 when there are
      fewer (or `n` is not positive and the counter never meets it). */
  method LastSteps(data: Lines, marker: string, n: int) returns (part: Lines, lo: nat)
    ensures lo <= |data| && (|data| > 0 ==> lo >= 1)
    ensures part == Keep(data[lo..], marker)
    ensures lo > 1 ==> n > 0 && Contains(data[lo - 1], marker) && CountHits(data[lo - 1..], marker) == n
    ensures |data| > 0 && lo == 1 ==> n <= 0 || CountHits(data[1..], marker) < n
  {
    part := [];
    var cnt := 0;
    if |data| == 0 {
      return [], 0;
    }
    var i := |data| - 1;
    while i > 0
      invariant 0 <= i < |data|
      invariant part == Keep(data[i + 1..], marker)
      invariant cnt == CountHits(data[i + 1..], marker)
      invariant n <= 0 || cnt < n
    {
      assert data[i..][1..] == data[i + 1..];
      if !Contains(data[i], marker) {
        part := [data[i]] + part;
      } else {
        cnt := cnt + 1;
        if cnt == n {
          return part, i + 1;
        }
      }
      i := i - 1;
    }
    lo := 1;
  }

  // ---------------------------------------------------------------- residuals

  const ResidualSep: string := "residual = "

  function SolvingFor(name: string): string {
    "Solving for " + name
  }

  /** `s.split(',')[0]`: the text up to the first comma. */
  function UpToComma(s: string): (r: string)
    ensures |r| <= |s| && r == s[..|r|]
    ensures !Contains(r, ",")
    ensures |r| < |s| ==> s[|r|] == ','
  {
    var f := Find(s, ",");
    var parts := Split(s, ",");
    if f < 0 then
      assert parts == [s];
      parts[0]
    else
      assert parts[0] == s[..f];
      assert s[f..f + 1] == ",";
      parts[0]
  }

  /** `line[fInd::]`: the line from the first mention of `pat` on. */
  function FromMention(line: string, pat: string): (r: string)
    requires Contains(line, pat)
    ensures |r| <= |line| && r == line[|line| - |r|..] && StartsWith(r, pat)
  {
    line[Find(line, pat)..]
  }

  /** `line[fInd::].split('residual = ')[which].split(',')[0]` for the
      first mention of `pat`: the text after the `which`-th `residual = `
      up to the next comma. Too few occurrences raise IndexError. */
  function ResidualText(line: string, pat: string, which: nat): (r: Option<string>)
    requires Contains(line, pat)
    ensures r.Some? <==> which < |Pieces(line, pat)|
    ensures r.Some? ==>
              var piece := Pieces(line, pat)[which];
              |r.value| <= |piece| && r.value == piece[..|r.value|] && !Contains(r.value, ",") &&
              (|r.value| < |piece| ==> piece[|r.value|] == ',')
  {
    var pieces := Pieces(line, pat);
    if which < |pieces| then Some(UpToComma(pieces[which])) else None
  }

  /** The pieces `split('residual = ')` cuts the line into, from the first
      mention of `pat` on. */
  function Pieces(line: string, pat: string): (r: seq<string>)
    requires Contains(line, pat)
    ensures |r| >= 1 && Join(r, ResidualSep) == FromMention(line, pat)
  {
    Split(FromMention(line, pat), ResidualSep)
  }

  /** A line yields its residual pair when it does not mention the
      variable, or mentions it with two `residual = ` after it. */
  predicate LineOk(line: string, pat: string) {
    !Contains(line, pat) || (ResidualText(line, pat, 1).Some? && ResidualText(line, pat, 2).Some?)
  }

  /** The values one line contributes for one variable: the initial and
      the final residual when the line mentions it, nothing otherwise. */
  function LineValues(line: string, pat: string): (r: seq<string>)
    requires LineOk(line, pat)
    ensures |r| == if Contains(line, pat) then 2 else 0
  {
    if Contains(line, pat) then [ResidualText(line, pat, 1).value, ResidualText(line, pat, 2).value]
    else []
  }

  /** The text up to the comma is the comma-free head. */
  lemma {:induction false} UpToCommaOf(a: string, c: string)
    requires !Contains(a, ",")
    requires c == "" || c[0] == ','
    ensures UpToComma(a + c) == a
  {
    var s := a + c;
    var r := UpToComma(s);
    assert "," == [','];
    ContainsCharIff(a, ',');
    ContainsCharIff(r, ',');
    assert r == s[..|a|];
  }

  /** A solver line `<pre><pat><mid>residual = <a><c1>residual = <b><c2>`
      (`Solving for Ux, Initial residual = 0.02, Final residual = 1e-06,
      No Iterations 2`) gives back the initial residual `a` and the final
      residual `b`, provided `pat` is first found where written, `mid` and
      `a c1` hold no separator, and the two values end at a comma. */
  lemma {:induction false} LineValuesOf(line: string, pre: string, pat: string, mid: string, a: string, c1: string, b: string, c2: string)
    requires line == pre + pat + mid + ResidualSep + (a + c1) + ResidualSep + (b + c2)
    requires Find(pre + pat, pat) == |pre|
    requires Find(pat + mid + ResidualSep, ResidualSep) == |pat + mid|
    requires Find(a + c1 + ResidualSep, ResidualSep) == |a + c1|
    requires !Contains(b + c2, ResidualSep)
    requires !Contains(a, ",") && !Contains(b, ",")
    requires |c1| > 0 && c1[0] == ','
    requires c2 == "" || c2[0] == ','
    ensures Contains(line, pat) && LineOk(line, pat) && LineValues(line, pat) == [a, b]
  {
    PiecesOf(pre, pat, mid, a + c1, b + c2);
    ValuesFromPieces(line, pat, a, c1, b, c2);
  }

  /** Residual pieces made of a comma-free value and an optional
      comma-led rest give those values. */
  lemma {:induction false} ValuesFromPieces(line: string, pat: string, a: string, c1: string, b: string, c2: string)
    requires Contains(line, pat) && |Pieces(line, pat)| == 3
    requires Pieces(line, pat)[1] == a + c1 && Pieces(line, pat)[2] == b + c2
    requires !Contains(a, ",") && !Contains(b, ",")
    requires c1 == "" || c1[0] == ','
    requires c2 == "" || c2[0] == ','
    ensures LineOk(line, pat) && LineValues(line, pat) == [a, b]
  {
    UpToCommaOf(a, c1);
    UpToCommaOf(b, c2);
  }

  /** After the first mention, the separators cut the line into the
      mention's own piece and the two residual pieces. */
  lemma {:induction false} PiecesOf(pre: string, pat: string, mid: string, y: string, z: string)
    requires Find(pre + pat, pat) == |pre|
    requires Find(pat + mid + ResidualSep, ResidualSep) == |pat + mid|
    requires Find(y + ResidualSep, ResidualSep) == |y|
    requires !Contains(z, ResidualSep)
    ensures Contains(pre + pat + mid + ResidualSep + y + ResidualSep + z, pat)
    ensures Pieces(pre + pat + mid + ResidualSep + y + ResidualSep + z, pat) == [pat + mid, y, z]
  {
    var rest := mid + ResidualSep + (y + ResidualSep + z);
    LineShape(pre, pat, mid, ResidualSep, y, z);
    MentionOf(pre, pat, rest);
    ThreePieces(pat + mid, y, z);
  }

  /** The regroupings of a solver line that the piece lemmas need. */
  lemma LineShape(pre: string, pat: string, mid: string, sep: string, y: string, z: string)
    ensures pre + pat + mid + sep + y + sep + z == (pre + pat) + (mid + sep + (y + sep + z))
    ensures pat + (mid + sep + (y + sep + z)) == pat + mid + sep + (y + sep + z)
  {
  }

  /** The first mention, found where written, starts the text kept. */
  lemma {:induction false} MentionOf(pre: string, pat: string, rest: string)
    requires Find(pre + pat, pat) == |pre|
    ensures Contains((pre + pat) + rest, pat) && FromMention((pre + pat) + rest, pat) == pat + rest
  {
    FindInPrefix(pre + pat, rest, pat);
    assert ((pre + pat) + rest)[|pre|..] == pat + rest;
  }

  /** Two separators, each first found where written, cut a text into
      three pieces. */
  lemma {:induction false} ThreePieces(x: string, y: string, z: string)
    requires Find(x + ResidualSep, ResidualSep) == |x|
    requires Find(y + ResidualSep, ResidualSep) == |y|
    requires !Contains(z, ResidualSep)
    ensures Split(x + ResidualSep + (y + ResidualSep + z), ResidualSep) == [x, y, z]
  {
    SplitWhole(z, ResidualSep);
    SplitAt(y, ResidualSep, z);
    SplitAt(x, ResidualSep, y + ResidualSep + z);
    var joined := [x] + ([y] + [z]);
    assert |joined| == 3 && joined[0] == x && joined[1] == y && joined[2] == z;
  }

  predicate AllOk(part: Lines, pats: seq<string>) {
    forall i, j :: 0 <= i < |part| && 0 <= j < |pats| ==> LineOk(part[i], pats[j])
  }

  /** One variable's series collected over the lines. */
  function PerVariable(part: Lines, pat: string): (r: seq<string>)
    requires forall i :: 0 <= i < |part| ==> LineOk(part[i], pat)
    ensures |r| == 2 * CountHits(part, pat)
    decreases |part|
  {
    if |part| == 0 then []
    else LineValues(part[0], pat) + PerVariable(part[1..], pat)
  }

  /** Entries 2k and 2k+1 of a variable's series are the initial and
      the final residual on the k-th line mentioning it. */
  lemma {:induction false} PerVariableValues(part: Lines, pat: string)
    requires forall i :: 0 <= i < |part| ==> LineOk(part[i], pat)
    ensures var r := PerVariable(part, pat);
            var h := Hits(part, pat);
            forall k :: 0 <= k < |h| ==> r[2 * k..2 * k + 2] == LineValues(part[h[k]], pat)
  {
    PerVariableBlocks(part, pat);
    PairsAtHits(part, pat, LineBlocks(part, pat));
  }

  /** Each line's values for `pat`, line by line. */
  function LineBlocks(part: Lines, pat: string): (r: seq<seq<string>>)
    requires forall i :: 0 <= i < |part| ==> LineOk(part[i], pat)
    ensures |r| == |part| && forall i :: 0 <= i < |part| ==> r[i] == LineValues(part[i], pat)
  {
    seq(|part|, i requires 0 <= i < |part| => LineValues(part[i], pat))
  }

  lemma LineBlocksTail(part: Lines, pat: string)
    requires |part| > 0 && forall i :: 0 <= i < |part| ==> LineOk(part[i], pat)
    ensures forall i :: 0 <= i < |part[1..]| ==> LineOk(part[1..][i], pat)
    ensures LineBlocks(part, pat) == [LineValues(part[0], pat)] + LineBlocks(part[1..], pat)
  {
    assert forall i :: 0 <= i < |part[1..]| ==> part[1..][i] == part[i + 1];
  }

  /** A variable's series is its lines' values laid end to end. */
  lemma {:induction false} PerVariableBlocks(part: Lines, pat: string)
    requires forall i :: 0 <= i < |part| ==> LineOk(part[i], pat)
    ensures PerVariable(part, pat) == Glue(LineBlocks(part, pat))
    decreases |part|
  {
    if |part| > 0 {
      LineBlocksTail(part, pat);
      PerVariableBlocks(part[1..], pat);
      GlueCons(LineValues(part[0], pat), LineBlocks(part[1..], pat));
    }
  }

  lemma GlueCons(b: seq<string>, blocks: seq<seq<string>>)
    ensures Glue([b] + blocks) == b + Glue(blocks)
  {
    assert ([b] + blocks)[1..] == blocks;
  }

  function Glue(blocks: seq<seq<string>>): seq<string>
    decreases |blocks|
  {
    if |blocks| == 0 then [] else blocks[0] + Glue(blocks[1..])
  }

  /** Blocks of two values on the lines mentioning `pat`, and of none
      elsewhere, glue into a series whose k-th pair is the block of the
      k-th hit. */
  lemma {:induction false} PairsAtHits(part: Lines, pat: string, blocks: seq<seq<string>>)
    requires |blocks| == |part|
    requires forall i :: 0 <= i < |part| ==> |blocks[i]| == if Contains(part[i], pat) then 2 else 0
    ensures var h := Hits(part, pat);
            forall k :: 0 <= k < |h| ==> 2 * k + 2 <= |Glue(blocks)| && Glue(blocks)[2 * k..2 * k + 2] == blocks[h[k]]
  {
    PairsAtPositions(Mask(part, pat), blocks);
    assert PairsRel(Mask(part, pat), blocks, Hits(part, pat), Glue(blocks));
  }

  /** `g` lays the blocks at positions `h` end to end, two entries each. */
  predicate PairsRel(mask: seq<bool>, blocks: seq<seq<string>>, h: seq<nat>, g: seq<string>)
    requires |blocks| == |mask|
  {
    |g| == 2 * |h| &&
    forall k :: 0 <= k < |h| ==> h[k] < |mask| && g[2 * k..2 * k + 2] == blocks[h[k]]
  }

  /** `h` is `t` shifted up by one, after `d` leading zero. */
  predicate HeadRel(h: seq<nat>, t: seq<nat>, d: nat) {
    |h| == d + |t| && (d == 1 ==> h[0] == 0) &&
    forall k :: 0 <= k < |t| ==> h[k + d] == t[k] + 1
  }

  lemma {:induction false} PairsAtPositions(mask: seq<bool>, blocks: seq<seq<string>>)
    requires |blocks| == |mask|
    requires forall i :: 0 <= i < |mask| ==> |blocks[i]| == if mask[i] then 2 else 0
    ensures PairsRel(mask, blocks, PosFrom(mask, 0), Glue(blocks))
    decreases |mask|
  {
    if |mask| > 0 {
      BlocksTail(mask, blocks);
      PairsAtPositions(mask[1..], blocks[1..]);
      PairsAtHead(mask, blocks);
    }
  }

  /** One step of PairsAtPositions: the first block goes in front. */
  lemma PairsAtHead(mask: seq<bool>, blocks: seq<seq<string>>)
    requires |mask| > 0 && |blocks| == |mask|
    requires forall i :: 0 <= i < |mask| ==> |blocks[i]| == if mask[i] then 2 else 0
    requires PairsRel(mask[1..], blocks[1..], PosFrom(mask[1..], 0), Glue(blocks[1..]))
    ensures PairsRel(mask, blocks, PosFrom(mask, 0), Glue(blocks))
  {
    PosFromHeadRel(mask);
    PairsStep(mask, blocks, PosFrom(mask, 0), PosFrom(mask[1..], 0), Lead(mask, 0), Glue(blocks), Glue(blocks[1..]));
  }

  /** The block sizes of the tail follow the tail of the mask. */
  lemma BlocksTail(mask: seq<bool>, blocks: seq<seq<string>>)
    requires |mask| > 0 && |blocks| == |mask|
    requires forall i :: 0 <= i < |mask| ==> |blocks[i]| == if mask[i] then 2 else 0
    ensures forall i :: 0 <= i < |mask[1..]| ==> |blocks[1..][i]| == if mask[1..][i] then 2 else 0
  {
    forall i | 0 <= i < |mask[1..]| ensures |blocks[1..][i]| == if mask[1..][i] then 2 else 0 {
      assert blocks[1..][i] == blocks[i + 1] && mask[1..][i] == mask[i + 1];
    }
  }

  lemma PosFromHeadRel(mask: seq<bool>)
    requires |mask| > 0
    ensures HeadRel(PosFrom(mask, 0), PosFrom(mask[1..], 0), Lead(mask, 0))
  {
    PosFromHead(mask);
  }

  lemma PairsStep(mask: seq<bool>, blocks: seq<seq<string>>, h: seq<nat>, t: seq<nat>, d: nat, g: seq<string>, gt: seq<string>)
    requires |mask| > 0 && |blocks| == |mask|
    requires forall i :: 0 <= i < |mask| ==> |blocks[i]| == if mask[i] then 2 else 0
    requires d == Lead(mask, 0) && HeadRel(h, t, d)
    requires forall k :: 0 <= k < |h| ==> h[k] < |mask|
    requires PairsRel(mask[1..], blocks[1..], t, gt)
    requires g == blocks[0] + gt
    ensures PairsRel(mask, blocks, h, g)
  {
    assert |blocks[0]| == 2 * d;
    forall k | 0 <= k < |h|
      ensures g[2 * k..2 * k + 2] == blocks[h[k]]
    {
      if k < d {
        assert h[k] == 0;
      } else {
        var m := k - d;
        assert h[k] == t[m] + 1;
        assert blocks[h[k]] == blocks[1..][t[m]];
        assert g[2 * k..2 * k + 2] == gt[2 * m..2 * m + 2];
      }
    }
  }

  /** Every variable's values from one line, in variable order. */
  function LineAll(line: string, pats: seq<string>): (r: seq<string>)
    requires forall j :: 0 <= j < |pats| ==> LineOk(line, pats[j])
    decreases |pats|
  {
    if |pats| == 0 then [] else LineValues(line, pats[0]) + LineAll(line, pats[1..])
  }

  /** What the single list behind `[[]]*len(varInt)` receives: each
      line's values for every variable, in loop order. */
  function SharedList(part: Lines, pats: seq<string>): (r: seq<string>)
    requires AllOk(part, pats)
    decreases |part|
  {
    if |part| == 0 then []
    else
      assert forall i :: 1 <= i < |part| ==> part[1..][i - 1] == part[i];
      LineAll(part[0], pats) + SharedList(part[1..], pats)
  }

  /** Total number of matching (line, variable) pairs. */
  function HitsOver(part: Lines, pats: seq<string>): nat
    decreases |pats|
  {
    if |pats| == 0 then 0 else CountHits(part, pats[0]) + HitsOver(part, pats[1..])
  }

  /** The residual series of `procLogOnline` as written: every entry of
      `vec` is the same list, holding the residuals of all variables. */
  function AliasedSeries(part: Lines, pats: seq<string>): (r: Option<seq<seq<string>>>)
    ensures r.Some? <==> AllOk(part, pats)
    ensures r.Some? ==> (|r.value| == |pats| &&
              forall j :: 0 <= j < |pats| ==> |r.value[j]| == 2 * HitsOver(part, pats))
    ensures r.Some? ==> forall i, j :: 0 <= i < |pats| && 0 <= j < |pats| ==> r.value[i] == r.value[j]
  {
    if !AllOk(part, pats) then None
    else
      var shared := SharedList(part, pats);
      SharedListLength(part, pats);
      Some(seq(|pats|, j requires 0 <= j < |pats| => shared))
  }

  /** The aliased series after `float()`: every text of the shared list
      must convert, and then every variable's series is that converted
      list. */
  function AliasedValues(part: Lines, pats: seq<string>, toFloat: string -> Option<real>): (r: Option<seq<seq<real>>>)
    ensures r.Some? <==> AllOk(part, pats) && AllConvert(SharedList(part, pats), toFloat)
    ensures r.Some? ==> (|r.value| == |pats| &&
              forall j :: 0 <= j < |pats| ==> Floats(SharedList(part, pats), toFloat) == Some(r.value[j]))
  {
    if !AllOk(part, pats) then None
    else
      var c := Floats(SharedList(part, pats), toFloat);
      if c.None? then FloatsRejects(SharedList(part, pats), toFloat); None
      else Some(seq(|pats|, j => c.value))
  }

  /** The shared list holds two values per matching (line, variable). */
  lemma {:induction false} SharedListLength(part: Lines, pats: seq<string>)
    requires AllOk(part, pats)
    ensures |SharedList(part, pats)| == 2 * HitsOver(part, pats)
    decreases |part|
  {
    if |part| > 0 {
      assert forall i :: 1 <= i < |part| ==> part[1..][i - 1] == part[i];
      assert AllOk(part[1..], pats);
      assert SharedList(part, pats) == LineAll(part[0], pats) + SharedList(part[1..], pats);
      SharedListLength(part[1..], pats);
      LineAllLength(part[0], pats);
      HitsOverCons(part, pats);
    } else {
      NoLinesNoHits(part, pats);
    }
  }

  lemma {:induction false} LineAllLength(line: string, pats: seq<string>)
    requires forall j :: 0 <= j < |pats| ==> LineOk(line, pats[j])
    ensures |LineAll(line, pats)| == 2 * HitsOver([line], pats)
    decreases |pats|
  {
    if |pats| > 0 {
      LineAllLength(line, pats[1..]);
      assert [line][1..] == [];
    }
  }

  lemma {:induction false} NoLinesNoHits(part: Lines, pats: seq<string>)
    requires |part| == 0
    ensures HitsOver(part, pats) == 0
    decreases |pats|
  {
    if |pats| > 0 {
      NoLinesNoHits(part, pats[1..]);
    }
  }

  lemma {:induction false} HitsOverCons(part: Lines, pats: seq<string>)
    requires |part| > 0
    ensures HitsOver(part, pats) == HitsOver([part[0]], pats) + HitsOver(part[1..], pats)
    decreases |pats|
  {
    if |pats| > 0 {
      HitsOverCons(part, pats[1..]);
      assert [part[0]][1..] == [];
    }
  }

  /** The series as evidently intended (and as `procLogLocalSS` builds
      them with one fresh list per variable): variable j's series holds
      exactly the two residuals of each line mentioning it. */
  function DistinctSeries(part: Lines, pats: seq<string>): (r: Option<seq<seq<string>>>)
    ensures r.Some? <==> AllOk(part, pats)
    ensures r.Some? ==> (|r.value| == |pats| &&
              forall j :: 0 <= j < |pats| ==> |r.value[j]| == 2 * CountHits(part, pats[j]))
  {
    if !AllOk(part, pats) then None
    else Some(seq(|pats|, j requires 0 <= j < |pats| => PerVariable(part, pats[j])))
  }

  /** Variable j's evident series holds the initial and the final
      residual of each line mentioning it, in file order. */
  lemma {:induction false} DistinctSeriesValues(part: Lines, pats: seq<string>)
    requires AllOk(part, pats)
    ensures var r := DistinctSeries(part, pats).value;
            forall j, k :: 0 <= j < |pats| && 0 <= k < |Hits(part, pats[j])| ==>
              r[j][2 * k..2 * k + 2] == LineValues(part[Hits(part, pats[j])[k]], pats[j])
  {
    var r := DistinctSeries(part, pats).value;
    forall j | 0 <= j < |pats|
      ensures forall k :: 0 <= k < |Hits(part, pats[j])| ==>
                r[j][2 * k..2 * k + 2] == LineValues(part[Hits(part, pats[j])[k]], pats[j])
    {
      assert forall i :: 0 <= i < |part| ==> LineOk(part[i], pats[j]);
      assert r[j] == PerVariable(part, pats[j]);
      PerVariableValues(part, pats[j]);
    }
  }

  /** The evident series after `float()`: every variable's texts must
      convert, and series j is variable j's converted texts. */
  function DistinctValues(part: Lines, pats: seq<string>, toFloat: string -> Option<real>): (r: Option<seq<seq<real>>>)
    ensures r.Some? <==> (AllOk(part, pats) &&
              forall j, i :: 0 <= j < |pats| && 0 <= i < |PerVariable(part, pats[j])| ==>
                toFloat(PerVariable(part, pats[j])[i]).Some?)
    ensures r.Some? ==> (|r.value| == |pats| &&
              forall j :: 0 <= j < |pats| ==> Floats(PerVariable(part, pats[j]), toFloat) == Some(r.value[j]))
  {
    match DistinctSeries(part, pats)
    case None => None
    case Some(ss) =>
      assert forall j :: 0 <= j < |ss| ==> ss[j] == PerVariable(part, pats[j]);
      FloatLists(ss, toFloat)
  }

  /** Values 2k and 2k+1 of converted series j are `float()` of the
      initial and the final residual of the k-th line mentioning
      variable j. */
  lemma {:induction false} DistinctValuesAt(part: Lines, pats: seq<string>, toFloat: string -> Option<real>)
    requires DistinctValues(part, pats, toFloat).Some?
    ensures var r := DistinctValues(part, pats, toFloat).value;
            forall j, k :: 0 <= j < |pats| && 0 <= k < |Hits(part, pats[j])| ==>
              Floats(LineValues(part[Hits(part, pats[j])[k]], pats[j]), toFloat) == Some(r[j][2 * k..2 * k + 2])
  {
    var r := DistinctValues(part, pats, toFloat).value;
    var ss := DistinctSeries(part, pats).value;
    DistinctSeriesValues(part, pats);
    forall j, k | 0 <= j < |pats| && 0 <= k < |Hits(part, pats[j])|
      ensures Floats(LineValues(part[Hits(part, pats[j])[k]], pats[j]), toFloat) == Some(r[j][2 * k..2 * k + 2])
    {
      assert ss[j] == PerVariable(part, pats[j]);
      assert Floats(ss[j], toFloat) == Some(r[j]);
      SliceFloats(ss[j], r[j], toFloat, 2 * k, 2 * k + 2);
      assert ss[j][2 * k..2 * k + 2] == LineValues(part[Hits(part, pats[j])[k]], pats[j]);
    }
  }

  /** Converting a slice of a converted list gives that slice. */
  lemma {:induction false} SliceFloats(ts: seq<string>, xs: seq<real>, toFloat: string -> Option<real>, a: nat, b: nat)
    requires Floats(ts, toFloat) == Some(xs) && a <= b <= |ts|
    ensures Floats(ts[a..b], toFloat) == Some(xs[a..b])
  {
    var u := ts[a..b];
    forall i | 0 <= i < |u|
      ensures toFloat(u[i]) == Some(xs[a + i])
    {
      assert u[i] == ts[a + i];
    }
    var c := Floats(u, toFloat);
    assert c.Some?;
    forall i | 0 <= i < |u|
      ensures c.value[i] == xs[a..b][i]
    {
      assert toFloat(u[i]) == Some(c.value[i]);
    }
    assert c.value == xs[a..b];
  }


  /** All variables' residuals taken together, regardless of order. */
  function Bag(part: Lines, pats: seq<string>): multiset<string>
    requires AllOk(part, pats)
    decreases |pats|
  {
    if |pats| == 0 then multiset{}
    else
      assert forall i :: 0 <= i < |part| ==> LineOk(part[i], pats[0]);
      multiset(PerVariable(part, pats[0])) + Bag(part, pats[1..])
  }

  /** Each aliased entry holds, up to order, every variable's residuals:
      the union of all the evident series. */
  lemma {:induction false} AliasedHoldsAll(part: Lines, pats: seq<string>)
    requires AllOk(part, pats)
    ensures var r := AliasedSeries(part, pats).value;
            forall j :: 0 <= j < |pats| ==> multiset(r[j]) == Bag(part, pats)
  {
    SharedBag(part, pats);
  }

  lemma {:induction false} SharedBag(part: Lines, pats: seq<string>)
    requires AllOk(part, pats)
    ensures multiset(SharedList(part, pats)) == Bag(part, pats)
    decreases |part|
  {
    if |part| > 0 {
      assert forall i :: 1 <= i < |part| ==> part[1..][i - 1] == part[i];
      assert AllOk(part[1..], pats);
      assert AllOk([part[0]], pats);
      SharedBag(part[1..], pats);
      LineAllBag(part[0], pats);
      BagCons(part, pats);
    } else {
      EmptyBag(part, pats);
    }
  }

  lemma {:induction false} EmptyBag(part: Lines, pats: seq<string>)
    requires |part| == 0
    ensures AllOk(part, pats) && Bag(part, pats) == multiset{}
    decreases |pats|
  {
    if |pats| > 0 {
      EmptyBag(part, pats[1..]);
    }
  }

  lemma {:induction false} LineAllBag(line: string, pats: seq<string>)
    requires AllOk([line], pats)
    ensures forall j :: 0 <= j < |pats| ==> LineOk(line, pats[j])
    ensures multiset(LineAll(line, pats)) == Bag([line], pats)
    decreases |pats|
  {
    assert forall j :: 0 <= j < |pats| ==> LineOk([line][0], pats[j]);
    if |pats| > 0 {
      assert AllOk([line], pats[1..]);
      LineAllBag(line, pats[1..]);
      assert [line][1..] == [];
      assert PerVariable([line], pats[0]) == LineValues(line, pats[0]);
    }
  }

  lemma {:induction false} BagCons(part: Lines, pats: seq<string>)
    requires |part| > 0 && AllOk(part, pats)
    ensures AllOk([part[0]], pats) && AllOk(part[1..], pats)
    ensures Bag(part, pats) == Bag([part[0]], pats) + Bag(part[1..], pats)
    decreases |pats|
  {
    assert forall i :: 1 <= i < |part| ==> part[1..][i - 1] == part[i];
    assert AllOk([part[0]], pats);
    assert AllOk(part[1..], pats);
    if |pats| > 0 {
      assert AllOk(part, pats[1..]);
      BagCons(part, pats[1..]);
      assert [part[0]][1..] == [];
      assert PerVariable([part[0]], pats[0]) == LineValues(part[0], pats[0]);
      assert PerVariable(part, pats[0]) == LineValues(part[0], pats[0]) + PerVariable(part[1..], pats[0]);
    }
  }

  /** With two variables both present, the aliased series of the first
      variable is longer than its own series: it also carries the other
      variable's residuals. */
  lemma {:induction false} AliasingMixesVariables(part: Lines, pats: seq<string>)
    requires |pats| == 2 && AllOk(part, pats)
    requires CountHits(part, pats[1]) > 0
    ensures |AliasedSeries(part, pats).value[0]| > |DistinctSeries(part, pats).value[0]|
  {
    assert pats[1..][0] == pats[1] && pats[1..][1..] == [];
    assert HitsOver(part, pats[1..][1..]) == 0;
    assert HitsOver(part, pats) == CountHits(part, pats[0]) + CountHits(part, pats[1]);
  }

  /** With a single variable (the script's default) the aliasing is
      harmless: both forms agree. */
  lemma {:induction false} SingleVariableAgrees(part: Lines, pat: string)
    requires AllOk(part, [pat])
    ensures AliasedSeries(part, [pat]) == DistinctSeries(part, [pat])
  {
    assert forall i :: 0 <= i < |part| ==> LineOk(part[i], [pat][0]);
    SingleShared(part, pat);
    var a := seq(1, j requires 0 <= j < 1 => SharedList(part, [pat]));
    var d := seq(1, j requires 0 <= j < 1 => PerVariable(part, [pat][j]));
    assert a == d;
    assert AliasedSeries(part, [pat]) == Some(a);
    assert DistinctSeries(part, [pat]) == Some(d);
  }

  lemma {:induction false} SingleShared(part: Lines, pat: string)
    requires AllOk(part, [pat])
    requires forall i :: 0 <= i < |part| ==> LineOk(part[i], pat)
    ensures SharedList(part, [pat]) == PerVariable(part, pat)
    decreases |part|
  {
    if |part| > 0 {
      assert forall i :: 1 <= i < |part| ==> part[1..][i - 1] == part[i];
      assert AllOk(part[1..], [pat]);
      SingleShared(part[1..], pat);
      assert [pat][1..] == [];
      assert LineAll(part[0], [pat]) == LineValues(part[0], pat);
    }
  }

  // ---------------------------------------------------------------- PIMPLE iterations

  const ConvergedMarker: string := "PIMPLE: converged in"

  /** `int(re.findall('\d+', rest)[0])` on the text after the marker: the
      first run of digits; none raises IndexError. */
  function ConvergedIn(line: string): (r: Option<nat>)
    requires Contains(line, ConvergedMarker)
    ensures var rest := line[Find(line, ConvergedMarker) + |ConvergedMarker|..];
            r.Some? <==> exists k :: 0 <= k < |rest| && IsDigit(rest[k])
  {
    var rest := line[Find(line, ConvergedMarker) + |ConvergedMarker|..];
    match FirstDigitRun(rest)
    case None => None
    case Some(d) => Some(DecimalValue(d))
  }

  /** A digit run ends at the first non-digit. */
  lemma {:induction false} DigitPrefixOf(d: string, t: string)
    requires forall k :: 0 <= k < |d| ==> IsDigit(d[k])
    requires |t| > 0 && !IsDigit(t[0])
    ensures DigitPrefix(d + t) == d
    decreases |d|
  {
    if |d| > 0 {
      assert (d + t)[1..] == d[1..] + t;
      DigitPrefixOf(d[1..], t);
    }
  }

  /** The count the solver prints, `converged in <n> iterations`, is read
      back exactly. */
  lemma {:induction false} ConvergedRoundTrip(prefix: string, n: nat)
    requires Find(prefix + ConvergedMarker, ConvergedMarker) == |prefix|
    ensures var line := (prefix + ConvergedMarker) + (" " + IntRepr(n) + " iterations\n");
            Contains(line, ConvergedMarker) && ConvergedIn(line) == Some(n)
  {
    var digits := IntRepr(n);
    var tail := " " + digits + " iterations\n";
    var a := prefix + ConvergedMarker;
    var line := a + tail;
    assert Find(line, ConvergedMarker) == |prefix| by {
      FindInPrefix(a, tail, ConvergedMarker);
    }
    assert line[|prefix| + |ConvergedMarker|..] == tail;
    assert FirstDigitRun(tail) == Some(digits) by {
      DigitRunAfterSpace(digits, " iterations\n");
    }
    ConvergedAfter(line, |prefix|, tail, digits);
  }

  /** The count is read from whatever follows the first marker. */
  lemma {:induction false} ConvergedAfter(line: string, f: nat, tail: string, digits: string)
    requires Find(line, ConvergedMarker) == f && f + |ConvergedMarker| <= |line|
    requires line[f + |ConvergedMarker|..] == tail
    requires FirstDigitRun(tail) == Some(digits)
    ensures Contains(line, ConvergedMarker)
    ensures ConvergedIn(line) == Some(DecimalValue(digits))
  {
  }

  /** The first digit run of `' ' + d + t` is `d` when `t` starts with a
      non-digit. */
  lemma {:induction false} DigitRunAfterSpace(d: string, t: string)
    requires |d| > 0 && forall k :: 0 <= k < |d| ==> IsDigit(d[k])
    requires |t| > 0 && !IsDigit(t[0])
    ensures FirstDigitRun(" " + d + t) == Some(d)
  {
    var s := " " + d + t;
    assert s[1..] == d + t;
    assert IsDigit((d + t)[0]);
    DigitPrefixOf(d, t);
  }

  /** The PIMPLE iteration count of every line mentioning the marker: the
      k-th count is the one read from the k-th such line, and a mentioning
      line without digits after the marker raises. */
  function PimpleCounts(part: Lines): (r: Option<seq<nat>>)
    ensures r.Some? ==> |r.value| == CountHits(part, ConvergedMarker)
    decreases |part|
  {
    if |part| == 0 then Some([])
    else
      var rest := PimpleCounts(part[1..]);
      if !Contains(part[0], ConvergedMarker) then rest
      else match ConvergedIn(part[0])
        case None => None
        case Some(c) =>
          match rest
          case None => None
          case Some(cs) => Some([c] + cs)
  }

  /** The counts fail exactly when a mentioning line has no digits after
      the marker. */
  lemma {:induction false} PimpleCountsFail(part: Lines)
    ensures PimpleCounts(part).Some? <==>
              forall i :: 0 <= i < |part| && Contains(part[i], ConvergedMarker) ==> ConvergedIn(part[i]).Some?
    decreases |part|
  {
    if |part| > 0 {
      PimpleCountsFail(part[1..]);
      assert forall i :: 1 <= i < |part| ==> part[i] == part[1..][i - 1];
    }
  }

  /** The k-th count is the one read from the k-th mentioning line. */
  lemma PimpleCountsValues(part: Lines)
    ensures PimpleCounts(part).Some? ==> forall k :: 0 <= k < |PimpleCounts(part).value| ==>
              Contains(part[Hits(part, ConvergedMarker)[k]], ConvergedMarker) &&
              ConvergedIn(part[Hits(part, ConvergedMarker)[k]]) == Some(PimpleCounts(part).value[k])
  {
    var rs := CountReadings(part);
    PimpleCountsCollect(part);
    CollectValues(rs);
    assert Taken(rs) == Mask(part, ConvergedMarker);
  }

  /** What one line contributes to the iteration counts. */
  function CountReading(line: string): Reading<nat> {
    if !Contains(line, ConvergedMarker) then Skip
    else match ConvergedIn(line)
      case None => Fail
      case Some(c) => Value(c)
  }

  function CountReadings(part: Lines): (r: seq<Reading<nat>>)
    ensures |r| == |part| && forall i :: 0 <= i < |part| ==> r[i] == CountReading(part[i])
  {
    seq(|part|, i requires 0 <= i < |part| => CountReading(part[i]))
  }

  /** The count loop collects the readings of the lines. */
  lemma {:induction false} PimpleCountsCollect(part: Lines)
    ensures PimpleCounts(part) == Collect(CountReadings(part))
    decreases |part|
  {
    if |part| > 0 {
      PimpleCountsCollect(part[1..]);
      assert CountReadings(part)[1..] == CountReadings(part[1..]);
    }
  }

  // ---------------------------------------------------------------- steady-state iterations

  const TimeMarker: string := "Time = "

  /** Which `residual = ` the steady monitor reads: the initial residual,
      or with `finRes` the final one. */
  function ResidualIndex(finRes: bool): (r: nat)
    ensures r == 1 || r == 2
    ensures finRes <==> r == 2
  {
    if finRes then 2 else 1
  }

  /** The value variable `pat` receives for the iteration whose
      `Time = ` line is at `t`: the residual on the first line at or after
      `t` that mentions it. Reaching the end of the file first raises
      IndexError. */
  function IterValue(data: Lines, t: nat, pat: string, which: nat): (r: Option<string>)
    ensures r.Some? ==> FirstMention(data, pat, t).Some?
    ensures FirstMention(data, pat, t).None? ==> r.None?
  {
    match FirstMention(data, pat, t)
    case None => None
    case Some(x) => ResidualText(data[x], pat, which)
  }

  /** What `vec[j].append(float(...))` appends for that iteration:
      `float()` of the residual text, absent when the text is missing or
      `float()` rejects it. */
  function IterFloat(data: Lines, t: nat, pat: string, which: nat, toFloat: string -> Option<real>): (r: Option<real>)
    ensures r.Some? <==> IterValue(data, t, pat, which).Some? && toFloat(IterValue(data, t, pat, which).value).Some?
    ensures r.Some? ==> toFloat(IterValue(data, t, pat, which).value) == r
  {
    match IterValue(data, t, pat, which)
    case None => None
    case Some(v) => toFloat(v)
  }

  /** Variable `j` has been updated exactly when its first mention from
      `t` lies before line `bound`, and then it holds that mention's value. */
  predicate Collected(data: Lines, t: nat, pats: seq<string>, which: nat,
                      upd: seq<bool>, vals: seq<string>, bound: nat, j: nat)
    requires |upd| == |vals| == |pats| && j < |pats|
  {
    (upd[j] <==> FirstMention(data, pats[j], t).Some? && FirstMention(data, pats[j], t).value < bound) &&
    (upd[j] ==> IterValue(data, t, pats[j], which) == Some(vals[j]))
  }

  predicate AllCollected(data: Lines, t: nat, pats: seq<string>, which: nat,
                         upd: seq<bool>, vals: seq<string>, bound: nat)
    requires |upd| == |vals| == |pats|
  {
    forall j :: 0 <= j < |pats| ==> Collected(data, t, pats, which, upd, vals, bound, j)
  }

  /** One pass of the `while any(not updated)` loop for the iteration at
      `t`: lines `t`, `t+1`, ... are scanned and each variable takes the
      first line that mentions it; the scan does not stop at the next
      `Time = ` line. */
  method CollectIteration(data: Lines, t: nat, pats: seq<string>, which: nat) returns (r: Option<seq<string>>)
    ensures r.Some? ==> (|r.value| == |pats| &&
              forall j :: 0 <= j < |pats| ==> IterValue(data, t, pats[j], which) == Some(r.value[j]))
    ensures r.None? ==> exists j :: 0 <= j < |pats| && IterValue(data, t, pats[j], which).None?
  {
    var upd := seq(|pats|, j => false);
    var vals := seq(|pats|, j => "");
    var k := 0;
    while false in upd
      invariant |upd| == |vals| == |pats|
      invariant AllCollected(data, t, pats, which, upd, vals, t + k)
      decreases |data| - (t + k)
    {
      if t + k >= |data| {
        var j :| 0 <= j < |pats| && !upd[j];
        assert Collected(data, t, pats, which, upd, vals, t + k, j);
        return None;
      }
      var ok;
      ok, upd, vals := ScanLine(data, t, k, pats, which, upd, vals);
      if !ok {
        return None;
      }
      k := k + 1;
    }
    forall j | 0 <= j < |pats|
      ensures IterValue(data, t, pats[j], which) == Some(vals[j])
    {
      assert Collected(data, t, pats, which, upd, vals, t + k, j);
      assert upd[j] in upd;
    }
    return Some(vals);
  }

  /** The iteration's values after `float()`: each variable's text must
      exist and convert, and variable j receives the converted text. */
  method CollectIterationValues(data: Lines, t: nat, pats: seq<string>, which: nat, toFloat: string -> Option<real>)
    returns (r: Option<seq<real>>)
    ensures r.Some? <==> forall j :: 0 <= j < |pats| ==> IterFloat(data, t, pats[j], which, toFloat).Some?
    ensures r.Some? ==> (|r.value| == |pats| &&
              forall j :: 0 <= j < |pats| ==> IterFloat(data, t, pats[j], which, toFloat) == Some(r.value[j]))
  {
    var texts := CollectIteration(data, t, pats, which);
    if texts.None? {
      return None;
    }
    r := Floats(texts.value, toFloat);
  }

  /** The inner `for` over the variables on line `t + k`. */
  method ScanLine(data: Lines, t: nat, k: nat, pats: seq<string>, which: nat, upd0: seq<bool>, vals0: seq<string>)
    returns (ok: bool, upd: seq<bool>, vals: seq<string>)
    requires t + k < |data| && |upd0| == |vals0| == |pats|
    requires AllCollected(data, t, pats, which, upd0, vals0, t + k)
    ensures |upd| == |vals| == |pats|
    ensures ok ==> AllCollected(data, t, pats, which, upd, vals, t + k + 1)
    ensures !ok ==> exists j :: 0 <= j < |pats| && IterValue(data, t, pats[j], which).None?
  {
    upd, vals := upd0, vals0;
    var x := t + k;
    var j := 0;
    while j < |pats|
      invariant 0 <= j <= |pats|
      invariant |upd| == |vals| == |pats|
      invariant ScanInv(data, t, pats, which, upd0, vals0, upd, vals, x, x + 1, j)
    {
      if Contains(data[x], pats[j]) && !upd[j] {
        match ResidualText(data[x], pats[j], which)
        case None =>
          ScanFail(data, t, pats, which, upd0, vals0, upd, vals, x, j);
          return false, upd, vals;
        case Some(v) =>
          ScanTake(data, t, pats, which, upd0, vals0, upd, vals, x, j, v);
          upd, vals := upd[j := true], vals[j := v];
      } else {
        ScanSkip(data, t, pats, which, upd0, vals0, upd, vals, x, j);
      }
      j := j + 1;
    }
    ok := true;
  }

  /** The invariant of ScanLine's loop on line `x`: the first `j` variables
      have been brought up to line `x + 1`, the others are as they were. */
  predicate ScanInv(data: Lines, t: nat, pats: seq<string>, which: nat, upd0: seq<bool>, vals0: seq<string>,
                    upd: seq<bool>, vals: seq<string>, x: nat, next: nat, j: nat)
    requires |upd0| == |vals0| == |upd| == |vals| == |pats| && j <= |pats|
  {
    AllCollected(data, t, pats, which, upd0, vals0, x) &&
    (forall i :: 0 <= i < j ==> Collected(data, t, pats, which, upd, vals, next, i)) &&
    (forall i :: j <= i < |pats| ==> upd[i] == upd0[i] && vals[i] == vals0[i])
  }

  /** ScanLine takes the value of variable `j` from line `x`. */
  lemma ScanTake(data: Lines, t: nat, pats: seq<string>, which: nat, upd0: seq<bool>, vals0: seq<string>,
                 upd: seq<bool>, vals: seq<string>, x: nat, j: nat, v: string)
    requires |upd0| == |vals0| == |upd| == |vals| == |pats| && j < |pats| && t <= x < |data|
    requires ScanInv(data, t, pats, which, upd0, vals0, upd, vals, x, x + 1, j)
    requires Contains(data[x], pats[j]) && !upd[j]
    requires ResidualText(data[x], pats[j], which) == Some(v)
    ensures ScanInv(data, t, pats, which, upd0, vals0, upd[j := true], vals[j := v], x, x + 1, j + 1)
  {
    var next, upd2, vals2 := x + 1, upd[j := true], vals[j := v];
    ScanTakeNew(data, t, pats, which, upd0, vals0, upd, vals, x, j, v);
    forall i | 0 <= i < j
      ensures Collected(data, t, pats, which, upd2, vals2, next, i)
    {
      CollectedOther(data, t, pats, which, upd, vals, next, i, j, true, v);
    }
  }

  /** The variable ScanTake updates is collected up to the next line. */
  lemma ScanTakeNew(data: Lines, t: nat, pats: seq<string>, which: nat, upd0: seq<bool>, vals0: seq<string>,
                    upd: seq<bool>, vals: seq<string>, x: nat, j: nat, v: string)
    requires |upd0| == |vals0| == |upd| == |vals| == |pats| && j < |pats| && t <= x < |data|
    requires AllCollected(data, t, pats, which, upd0, vals0, x)
    requires upd[j] == upd0[j] && vals[j] == vals0[j]
    requires Contains(data[x], pats[j]) && !upd[j]
    requires ResidualText(data[x], pats[j], which) == Some(v)
    ensures Collected(data, t, pats, which, upd[j := true], vals[j := v], x + 1, j)
  {
    assert Collected(data, t, pats, which, upd0, vals0, x, j);
    assert Collected(data, t, pats, which, upd, vals, x, j);
    CollectedTake(data, t, pats, which, upd, vals, x, j, v);
  }

  /** ScanLine finds variable `j` first mentioned on line `x` with no
      value there. */
  lemma ScanFail(data: Lines, t: nat, pats: seq<string>, which: nat, upd0: seq<bool>, vals0: seq<string>,
                 upd: seq<bool>, vals: seq<string>, x: nat, j: nat)
    requires |upd0| == |vals0| == |upd| == |vals| == |pats| && j < |pats| && t <= x < |data|
    requires ScanInv(data, t, pats, which, upd0, vals0, upd, vals, x, x + 1, j)
    requires Contains(data[x], pats[j]) && !upd[j]
    requires ResidualText(data[x], pats[j], which).None?
    ensures IterValue(data, t, pats[j], which).None?
  {
    assert Collected(data, t, pats, which, upd0, vals0, x, j);
    FirstMentionAt(data, pats[j], t, x);
  }

  /** ScanLine leaves variable `j` as it is on line `x`. */
  lemma ScanSkip(data: Lines, t: nat, pats: seq<string>, which: nat, upd0: seq<bool>, vals0: seq<string>,
                 upd: seq<bool>, vals: seq<string>, x: nat, j: nat)
    requires |upd0| == |vals0| == |upd| == |vals| == |pats| && j < |pats| && t <= x < |data|
    requires ScanInv(data, t, pats, which, upd0, vals0, upd, vals, x, x + 1, j)
    requires !(Contains(data[x], pats[j]) && !upd[j])
    ensures ScanInv(data, t, pats, which, upd0, vals0, upd, vals, x, x + 1, j + 1)
  {
    assert Collected(data, t, pats, which, upd0, vals0, x, j);
    assert Collected(data, t, pats, which, upd, vals, x, j);
    CollectedSkip(data, t, pats, which, upd, vals, x, j);
  }

  /** A variable first mentioned on line `x` takes that line's value. */
  lemma {:induction false} CollectedTake(data: Lines, t: nat, pats: seq<string>, which: nat,
                      upd: seq<bool>, vals: seq<string>, x: nat, j: nat, v: string)
    requires |upd| == |vals| == |pats| && j < |pats| && t <= x < |data|
    requires Collected(data, t, pats, which, upd, vals, x, j)
    requires Contains(data[x], pats[j]) && !upd[j]
    requires ResidualText(data[x], pats[j], which) == Some(v)
    ensures Collected(data, t, pats, which, upd[j := true], vals[j := v], x + 1, j)
  {
    FirstMentionAt(data, pats[j], t, x);
  }

  /** A variable already updated, or not mentioned on line `x`, keeps its
      state. */
  lemma {:induction false} CollectedSkip(data: Lines, t: nat, pats: seq<string>, which: nat,
                      upd: seq<bool>, vals: seq<string>, x: nat, j: nat)
    requires |upd| == |vals| == |pats| && j < |pats| && t <= x < |data|
    requires Collected(data, t, pats, which, upd, vals, x, j)
    requires !(Contains(data[x], pats[j]) && !upd[j])
    ensures Collected(data, t, pats, which, upd, vals, x + 1, j)
  {
    if !upd[j] {
      NotFirstMentionAt(data, pats[j], t, x);
    }
  }

  /** Updating variable `j` leaves the state of variable `i` alone. */
  lemma {:induction false} CollectedOther(data: Lines, t: nat, pats: seq<string>, which: nat,
                       upd: seq<bool>, vals: seq<string>, bound: nat, i: nat, j: nat, u: bool, v: string)
    requires |upd| == |vals| == |pats| && i < |pats| && j < |pats| && i != j
    requires Collected(data, t, pats, which, upd, vals, bound, i)
    ensures Collected(data, t, pats, which, upd[j := u], vals[j := v], bound, i)
  {
  }

  /** A mention at `x` with none in `[t, x)` is the first one from `t`. */
  lemma {:induction false} FirstMentionAt(data: Lines, pat: string, t: nat, x: nat)
    requires t <= x < |data| && Contains(data[x], pat)
    requires FirstMention(data, pat, t).None? || FirstMention(data, pat, t).value >= x
    ensures FirstMention(data, pat, t) == Some(x)
  {
  }

  /** A line without a mention moves the first mention past it. */
  lemma {:induction false} NotFirstMentionAt(data: Lines, pat: string, t: nat, x: nat)
    requires t <= x < |data| && !Contains(data[x], pat)
    requires FirstMention(data, pat, t).None? || FirstMention(data, pat, t).value >= x
    ensures FirstMention(data, pat, t).None? || FirstMention(data, pat, t).value > x
  {
  }

  /** When variable `pat` is not mentioned between iteration lines `t`
      and `t2`, iteration `t` takes the value of iteration `t2`. */
  lemma {:induction false} AbsentTakesLater(data: Lines, t: nat, t2: nat, pat: string, which: nat)
    requires t <= t2 <= |data|
    requires forall y :: t <= y < t2 ==> !Contains(data[y], pat)
    ensures IterValue(data, t, pat, which) == IterValue(data, t2, pat, which)
  {
    var a := FirstMention(data, pat, t);
    var b := FirstMention(data, pat, t2);
    if a.Some? {
      assert a.value >= t2;
      if b.Some? {
        assert b.value == a.value;
      }
    }
  }

  /** Every variable has a value for every iteration line in `ts`. */
  predicate AllIterationsOk(data: Lines, ts: seq<nat>, pats: seq<string>, which: nat) {
    forall m, j :: 0 <= m < |ts| && 0 <= j < |pats| ==> IterValue(data, ts[m], pats[j], which).Some?
  }

  /** The steady monitor's residual lists: for every line starting with
      `Time = `, one value per variable, each list distinct. */
  function SteadySeries(data: Lines, pats: seq<string>, finRes: bool): (r: Option<seq<seq<string>>>)
    ensures r.Some? <==> AllIterationsOk(data, Col0Lines(data, TimeMarker, |data|), pats, ResidualIndex(finRes))
    ensures r.Some? ==> |r.value| == |pats|
    ensures r.Some? ==> forall j :: 0 <= j < |pats| ==> |r.value[j]| == |Col0Lines(data, TimeMarker, |data|)|
    ensures r.Some? ==> forall j, m :: 0 <= j < |pats| && 0 <= m < |Col0Lines(data, TimeMarker, |data|)| ==>
              IterValue(data, Col0Lines(data, TimeMarker, |data|)[m], pats[j], ResidualIndex(finRes)) == Some(r.value[j][m])
  {
    var ts := Col0Lines(data, TimeMarker, |data|);
    var w := ResidualIndex(finRes);
    if AllIterationsOk(data, ts, pats, w) then
      Some(seq(|pats|, j requires 0 <= j < |pats| =>
             seq(|ts|, m requires 0 <= m < |ts| => IterValue(data, ts[m], pats[j], w).value)))
    else None
  }

  /** Every variable's value converts for every iteration line in `ts`. */
  predicate AllIterationsConvert(data: Lines, ts: seq<nat>, pats: seq<string>, w: nat, toFloat: string -> Option<real>) {
    forall j, m :: 0 <= j < |pats| && 0 <= m < |ts| ==> IterFloat(data, ts[m], pats[j], w, toFloat).Some?
  }

  /** The steady monitor's lists after `float()`: every iteration's value
      of every variable must exist and convert, and entry m of list j is
      the converted value for the m-th `Time = ` line. */
  function SteadyValues(data: Lines, pats: seq<string>, finRes: bool, toFloat: string -> Option<real>): (r: Option<seq<seq<real>>>)
    ensures var ts, w := Col0Lines(data, TimeMarker, |data|), ResidualIndex(finRes);
            r.Some? <==> AllIterationsConvert(data, ts, pats, w, toFloat)
    ensures var ts, w := Col0Lines(data, TimeMarker, |data|), ResidualIndex(finRes);
            r.Some? ==> (|r.value| == |pats| &&
              forall j, m :: 0 <= j < |pats| && 0 <= m < |ts| ==>
                |r.value[j]| == |ts| && IterFloat(data, ts[m], pats[j], w, toFloat) == Some(r.value[j][m]))
  {
    var ts, w := Col0Lines(data, TimeMarker, |data|), ResidualIndex(finRes);
    match SteadySeries(data, pats, finRes)
    case None =>
      SteadyMissing(data, pats, ts, w, toFloat);
      None
    case Some(ss) =>
      SteadyGrid(data, pats, ts, w, ss, toFloat);
      FloatLists(ss, toFloat)
  }

  /** An iteration without a value has nothing to convert. */
  lemma {:induction false} SteadyMissing(data: Lines, pats: seq<string>, ts: seq<nat>, w: nat, toFloat: string -> Option<real>)
    requires !AllIterationsOk(data, ts, pats, w)
    ensures !AllIterationsConvert(data, ts, pats, w, toFloat)
  {
    var m, j :| 0 <= m < |ts| && 0 <= j < |pats| && IterValue(data, ts[m], pats[j], w).None?;
    assert IterFloat(data, ts[m], pats[j], w, toFloat).None?;
  }

  /** Lists holding each iteration's text convert exactly when every
      iteration's value converts, and then to those values. */
  lemma {:induction false} SteadyGrid(data: Lines, pats: seq<string>, ts: seq<nat>, w: nat, ss: seq<seq<string>>,
                                      toFloat: string -> Option<real>)
    requires |ss| == |pats| && forall j :: 0 <= j < |ss| ==> |ss[j]| == |ts|
    requires forall j, m :: 0 <= j < |pats| && 0 <= m < |ts| ==> IterValue(data, ts[m], pats[j], w) == Some(ss[j][m])
    ensures var c := FloatLists(ss, toFloat);
            (c.Some? <==> AllIterationsConvert(data, ts, pats, w, toFloat)) &&
            (c.Some? ==> forall j, m :: 0 <= j < |pats| && 0 <= m < |ts| ==>
               |c.value[j]| == |ts| && IterFloat(data, ts[m], pats[j], w, toFloat) == Some(c.value[j][m]))
  {
    FloatGrid(ss, toFloat, |ts|);
    var c := FloatLists(ss, toFloat);
    if c.Some? {
      forall j, m | 0 <= j < |pats| && 0 <= m < |ts|
        ensures |c.value[j]| == |ts| && IterFloat(data, ts[m], pats[j], w, toFloat) == Some(c.value[j][m])
      {
        assert IterValue(data, ts[m], pats[j], w) == Some(ss[j][m]);
        assert toFloat(ss[j][m]) == Some(c.value[j][m]);
      }
    } else {
      var j, m :| 0 <= j < |ss| && 0 <= m < |ts| && toFloat(ss[j][m]).None?;
      assert IterValue(data, ts[m], pats[j], w) == Some(ss[j][m]);
      assert IterFloat(data, ts[m], pats[j], w, toFloat).None?;
    }
  }

  /** Converting lists that all have length `m`, entry by entry. */
  lemma {:induction false} FloatGrid(ss: seq<seq<string>>, toFloat: string -> Option<real>, m: nat)
    requires forall j :: 0 <= j < |ss| ==> |ss[j]| == m
    ensures var c := FloatLists(ss, toFloat);
            (c.Some? <==> forall j, i :: 0 <= j < |ss| && 0 <= i < m ==> toFloat(ss[j][i]).Some?) &&
            (c.Some? ==> forall j, i :: 0 <= j < |ss| && 0 <= i < m ==>
               |c.value[j]| == m && toFloat(ss[j][i]) == Some(c.value[j][i]))
  {
    var c := FloatLists(ss, toFloat);
    if c.Some? {
      forall j, i | 0 <= j < |ss| && 0 <= i < m
        ensures |c.value[j]| == m && toFloat(ss[j][i]) == Some(c.value[j][i])
      {
        assert Floats(ss[j], toFloat) == Some(c.value[j]);
      }
    }
  }
}

=== FILE: log_reader.dfy ===
/** The run watchdog `freadLog`: it polls the solver log until the
    wall-clock time it reports reaches a limit, then reads the last
    simulated time from the same log and writes it as `endTime` into
    `controlDict`, so the solver stops at the next write. Each poll's file
    contents are an input (a sequence of snapshots); sleeping and the
    console messages are left out. */
module LogReader {
  import opened Wrappers
  import opened Text
  import opened Patch

  const ClockMarker: string := "ClockTime = "
  const TimeMarker: string := "Time = "
  const EndTimeMarker: string := "endTime "

  /** A line the scan accepts: one mentioning the marker anywhere, or,
      for the column-0 scan (`find(..) == 0`), one starting with it. */
  predicate Hit(line: string, marker: string, col0: bool) {
    if col0 then Find(line, marker) == 0 else Find(line, marker) > -1
  }

  /** `r` is what `for i in range(len(data)-1, 0, -1): if hit: break`
      leaves behind: the last hitting line among indices 1.., or nothing
      when no such line exists. Index 0 is outside the range. */
  predicate IsLastHit(data: Lines, marker: string, col0: bool, r: Option<nat>) {
    match r
    case Some(i) =>
      1 <= i < |data| && Hit(data[i], marker, col0) &&
      forall j :: i < j < |data| ==> !Hit(data[j], marker, col0)
    case None => forall j :: 1 <= j < |data| ==> !Hit(data[j], marker, col0)
  }

  /** At most one answer meets the description. */
  lemma {:induction false} IsLastHitUnique(data: Lines, marker: string, col0: bool, r1: Option<nat>, r2: Option<nat>)
    requires IsLastHit(data, marker, col0, r1) && IsLastHit(data, marker, col0, r2)
    ensures r1 == r2
  {
  }

  /** The backward scan, as a function of the lines read. */
  function LastHit(data: Lines, marker: string, col0: bool): (r: Option<nat>)
    ensures IsLastHit(data, marker, col0, r)
    decreases |data|
  {
    if |data| <= 1 then None
    else if Hit(data[|data| - 1], marker, col0) then Some(|data| - 1)
    else
      var init := data[..|data| - 1];
      var r := LastHit(init, marker, col0);
      assert forall j :: 1 <= j < |init| ==> init[j] == data[j];
      r
  }

  /** The backward scan as the script runs it, from the last line down to
      index 1. */
  method ScanBackward(data: Lines, marker: string, col0: bool) returns (r: Option<nat>)
    ensures IsLastHit(data, marker, col0, r)
  {
    var i := |data| - 1;
    r := None;
    while i > 0
      invariant 0 <= i < |data| || (i == -1 && |data| == 0)
      invariant forall j :: i < j < |data| ==> !Hit(data[j], marker, col0)
    {
      if Hit(data[i], marker, col0) {
        return Some(i);
      }
      i := i - 1;
    }
  }

  /** The first line of the file never influences either scan. */
  lemma {:induction false} FirstLineIgnored(data: Lines, line: string, marker: string, col0: bool)
    requires |data| > 0
    ensures LastHit([line] + data[1..], marker, col0) == LastHit(data, marker, col0)
  {
    var other := [line] + data[1..];
    var r := LastHit(data, marker, col0);
    assert forall j :: 1 <= j < |data| ==> other[j] == data[j];
    assert IsLastHit(other, marker, col0, r);
    IsLastHitUnique(other, marker, col0, r, LastHit(other, marker, col0));
  }

  /** A non-empty run of decimal digits. */
  predicate AllDigits(s: string) {
    |s| > 0 && forall k :: 0 <= k < |s| ==> IsDigit(s[k])
  }

  /** Python's `int(s)`: surrounding whitespace is ignored and an optional
      sign may precede a run of decimal digits; anything else raises
      ValueError, here `None`. */
  function ParseInt(s: string): (r: Option<int>)
    ensures AllDigits(s) ==> r == Some(DecimalValue(s))
    ensures r.Some? ==> AllDigits(Trim(s)) || (|Trim(s)| > 1 && AllDigits(Trim(s)[1..]))
  {
    DigitsUntrimmed(s);
    SignedDigits(Trim(s))
  }

  /** Stripping leaves a run of digits alone. */
  lemma {:induction false} DigitsUntrimmed(s: string)
    ensures AllDigits(s) ==> Trim(s) == s
  {
    if AllDigits(s) {
      assert !IsSpace(s[0]) && !IsSpace(s[|s| - 1]);
    }
  }

  /** The stripped text: digits, or a sign followed by digits. */
  function SignedDigits(t: string): (r: Option<int>)
    ensures AllDigits(t) ==> r == Some(DecimalValue(t))
    ensures r.Some? ==> AllDigits(t) || (|t| > 1 && AllDigits(t[1..]))
  {
    if AllDigits(t) then Some(DecimalValue(t))
    else if |t| > 1 && AllDigits(t[1..]) then
      var v: int := DecimalValue(t[1..]);
      if t[0] == '-' then Some(-v)
      else if t[0] == '+' then Some(v)
      else None
    else None
  }

  /** `data[i][fInd+len(idStr):len(data[i])-3]`: the text after the
      marker with the last three characters (" s\n") cut off. */
  function ClockText(line: string): (r: string)
    requires Contains(line, ClockMarker)
  {
    Slice(line, Find(line, ClockMarker) + |ClockMarker|, |line| - 3)
  }

  /** Reading back a clock time the solver wrote as digits followed by
      " s\n" gives the number written, whatever precedes the marker. */
  lemma {:induction false} ClockTextRoundTrip(prefix: string, n: nat)
    requires Find(prefix + ClockMarker, ClockMarker) == |prefix|
    ensures var line := prefix + ClockMarker + IntRepr(n) + " s\n";
            Contains(line, ClockMarker) && ParseInt(ClockText(line)) == Some(n)
  {
    var digits := IntRepr(n);
    var line := prefix + ClockMarker + digits + " s\n";
    FindInPrefix(prefix + ClockMarker, digits + " s\n", ClockMarker);
    assert line == (prefix + ClockMarker) + (digits + " s\n");
    assert line[|prefix| + |ClockMarker|..|line| - 3] == digits;
  }

  /** What one poll does to `cClockTime`: the clock of the last line
      mentioning the marker, or the previous value when the scan finds
      none. An unparsable clock text raises (`None`). */
  function Poll(data: Lines, clock: int): Option<int>
  {
    match LastHit(data, ClockMarker, false)
    case None => Some(clock)
    case Some(i) => ParseInt(ClockText(data[i]))
  }

  /** A poll of lines with no clock line after line 0 keeps the clock. */
  lemma {:induction false} PollWithoutClock(data: Lines, clock: int)
    requires forall j :: 1 <= j < |data| ==> !Hit(data[j], ClockMarker, false)
    ensures Poll(data, clock) == Some(clock)
  {
    IsLastHitUnique(data, ClockMarker, false, None, LastHit(data, ClockMarker, false));
  }

  /** A poll reads the clock the solver wrote, as digits followed by
      " s\n", on the last clock line. */
  lemma {:induction false} PollReadsClock(data: Lines, clock: int, i: nat, prefix: string, n: nat)
    requires IsLastHit(data, ClockMarker, false, Some(i))
    requires data[i] == prefix + ClockMarker + IntRepr(n) + " s\n"
    requires Find(prefix + ClockMarker, ClockMarker) == |prefix|
    ensures Poll(data, clock) == Some(n)
  {
    IsLastHitUnique(data, ClockMarker, false, Some(i), LastHit(data, ClockMarker, false));
    ClockTextRoundTrip(prefix, n);
  }

  /** How the polling loop ends on a finite run of snapshots: it stops
      with the clock and the last lines read; `data` was never bound
      because the limit was met before the first poll (NameError
      afterwards); a poll raised on an unparsable clock; or the snapshots
      ran out while the limit was still ahead. */
  datatype PollEnd = Stopped(clock: int, data: Lines, polls: nat) | Unbound | BadClock(poll: nat) | Running

  /** `while cClockTime < mClockTime:` one poll per snapshot, from poll `k`. */
  function PollLoop(snaps: seq<Lines>, limit: int, clock: int, last: Option<Lines>, k: nat): (r: PollEnd)
    requires k <= |snaps|
    requires last.Some? <==> k > 0
    requires k > 0 ==> last.value == snaps[k - 1]
    ensures r.Stopped? ==> r.clock >= limit && 1 <= r.polls <= |snaps| && r.data == snaps[r.polls - 1]
    ensures r.Stopped? ==> k <= r.polls
    ensures r.Unbound? <==> k == 0 && clock >= limit
    ensures clock >= limit && k > 0 ==> r == Stopped(clock, last.value, k)
    decreases |snaps| - k
  {
    if clock >= limit then
      match last
      case None => Unbound
      case Some(d) => Stopped(clock, d, k)
    else if k == |snaps| then Running
    else
      match Poll(snaps[k], clock)
      case None => BadClock(k)
      case Some(c) => PollLoop(snaps, limit, c, Some(snaps[k]), k + 1)
  }

  /** The loop as the script starts it, with `cClockTime = 0`. A loop that
      stops has polled at least once, its clock reached the limit, and
      the lines it hands on are those of its last poll. A limit of zero or
      less skips the loop and leaves `data` unbound. */
  function Watch(snaps: seq<Lines>, limit: int): (r: PollEnd)
    ensures r.Stopped? ==> r.clock >= limit && 1 <= r.polls <= |snaps| && r.data == snaps[r.polls - 1]
    ensures r.Unbound? <==> limit <= 0
  {
    PollLoop(snaps, limit, 0, None, 0)
  }

  /** A poll that keeps finding no clock line keeps the previous clock,
      so a log without any clock line never stops the loop. */
  lemma {:induction false} NoClockNeverStops(snaps: seq<Lines>, limit: int, clock: int, last: Option<Lines>, k: nat)
    requires k <= |snaps|
    requires last.Some? <==> k > 0
    requires k > 0 ==> last.value == snaps[k - 1]
    requires clock < limit
    requires forall j :: k <= j < |snaps| ==> LastHit(snaps[j], ClockMarker, false).None?
    ensures PollLoop(snaps, limit, clock, last, k) == Running
    decreases |snaps| - k
  {
    if k < |snaps| {
      NoClockNeverStops(snaps, limit, clock, Some(snaps[k]), k + 1);
    }
  }

  /** `data[i][len('Time = '):len(data[i])-1]` for the last line that
      starts with `Time = `: the simulated time without its newline. With
      no such line `sTime` is never bound (`None`). */
  function SimTime(data: Lines): (r: Option<string>)
    ensures r.Some? <==> exists j :: 1 <= j < |data| && StartsWith(data[j], TimeMarker)
    ensures r.Some? ==>
              var line := data[LastHit(data, TimeMarker, true).value];
              StartsWith(line, TimeMarker) &&
              (|line| > |TimeMarker| ==> TimeMarker + r.value + [line[|line| - 1]] == line)
  {
    match LastHit(data, TimeMarker, true)
    case None =>
      assert forall j :: 1 <= j < |data| ==> !StartsWith(data[j], TimeMarker) by {
        forall j | 1 <= j < |data|
          ensures !StartsWith(data[j], TimeMarker)
        {
          FindZeroIffStartsWith(data[j], TimeMarker);
        }
      }
      None
    case Some(i) =>
      FindZeroIffStartsWith(data[i], TimeMarker);
      Some(Slice(data[i], |TimeMarker|, |data[i]| - 1))
  }

  /** `endTime` patch of `controlDict`: only lines starting with
      `endTime ` change, each to `endTime \t\t<sTime>;\n`. */
  function SetEndTime(controlDict: Lines, sTime: string): (r: Lines)
    ensures |r| == |controlDict|
    ensures forall i :: 0 <= i < |r| ==>
              r[i] == (if StartsWith(controlDict[i], EndTimeMarker) then EndTimeMarker + "\t\t" + sTime + ";\n"
                       else controlDict[i])
  {
    var r := PatchAtColumn0(controlDict, EndTimeMarker, "\t\t" + sTime + ";\n");
    assert forall i :: 0 <= i < |r| && StartsWith(controlDict[i], EndTimeMarker) ==>
             r[i] == EndTimeMarker + "\t\t" + sTime + ";\n" by {
      forall i | 0 <= i < |r| && StartsWith(controlDict[i], EndTimeMarker)
        ensures r[i] == EndTimeMarker + "\t\t" + sTime + ";\n"
      {
        FindZeroIffStartsWith(controlDict[i], EndTimeMarker);
      }
    }
    r
  }

  /** The whole run: poll until the limit, then write the last simulated
      time of the last lines read into `controlDict`. `None` when the loop
      does not stop with lines in hand or no `Time = ` line exists. */
  function FreadLog(snaps: seq<Lines>, limit: int, controlDict: Lines): (r: Option<Lines>)
    ensures r.Some? ==> Watch(snaps, limit).Stopped? && SimTime(Watch(snaps, limit).data).Some?
    ensures r.Some? ==>
              var sTime := SimTime(Watch(snaps, limit).data).value;
              |r.value| == |controlDict| &&
              forall i :: 0 <= i < |controlDict| ==>
                r.value[i] == (if StartsWith(controlDict[i], EndTimeMarker) then EndTimeMarker + "\t\t" + sTime + ";\n"
                               else controlDict[i])
    ensures Watch(snaps, limit).Stopped? && SimTime(Watch(snaps, limit).data).Some? ==> r.Some?
  {
    match Watch(snaps, limit)
    case Stopped(_, data, _) =>
      (match SimTime(data)
       case None => None
       case Some(sTime) => Some(SetEndTime(controlDict, sTime)))
    case _ => None
  }
}

=== FILE: mesh_common.dfy ===
/** Index bookkeeping shared by the blockMeshDict generators: consecutive
    label ranges (Python's `range(k, k + n)`), the label groups built by
    advancing a running counter, and flattening. */
module MeshCommon {

  /** `range(a, a + n)` */
  function Range(a: nat, n: nat): (r: seq<nat>)
    ensures |r| == n
    ensures forall k :: 0 <= k < n ==> r[k] == a + k
  {
    seq(n, k requires 0 <= k < n => a + k)
  }

  function Sum(xs: seq<nat>): nat
  {
    if |xs| == 0 then 0 else xs[0] + Sum(xs[1..])
  }

  /** Concatenation of a list of label lists. */
  function Concat(xss: seq<seq<nat>>): seq<nat>
  {
    if |xss| == 0 then [] else xss[0] + Concat(xss[1..])
  }

  /** The label groups the generators build with a running counter `k`:
      group g is `range(k, k + sizes[g])` and `k` then advances by
      `sizes[g]`. */
  function Groups(sizes: seq<nat>, start: nat): (r: seq<seq<nat>>)
    ensures |r| == |sizes|
    ensures forall g :: 0 <= g < |sizes| ==> r[g] == Range(start + Sum(sizes[..g]), sizes[g])
    decreases |sizes|
  {
    if |sizes| == 0 then []
    else
      var rest := Groups(sizes[1..], start + sizes[0]);
      assert forall g :: 1 <= g < |sizes| ==> sizes[..g][1..] == sizes[1..][..g - 1];
      [Range(start, sizes[0])] + rest
  }

  /** The groups partition the labels: read in order they are exactly
      `start, start + 1, …` up to the total size, each label once. */
  lemma {:induction false} GroupsPartition(sizes: seq<nat>, start: nat)
    ensures Concat(Groups(sizes, start)) == Range(start, Sum(sizes))
    decreases |sizes|
  {
    if |sizes| > 0 {
      var gs := Groups(sizes, start);
      assert gs[1..] == Groups(sizes[1..], start + sizes[0]);
      GroupsPartition(sizes[1..], start + sizes[0]);
      assert Concat(gs) == Range(start, sizes[0]) + Range(start + sizes[0], Sum(sizes[1..]));
    }
  }

  /** Every label below the total lies in exactly one group. */
  lemma GroupOfLabel(sizes: seq<nat>, start: nat, k: nat)
    requires start <= k < start + Sum(sizes)
    ensures exists g :: 0 <= g < |sizes| && k in Groups(sizes, start)[g]
    ensures forall g1, g2 :: (0 <= g1 < |sizes| && 0 <= g2 < |sizes| &&
                              k in Groups(sizes, start)[g1] && k in Groups(sizes, start)[g2]) ==> g1 == g2
  {
    GroupsPartition(sizes, start);
    var gs := Groups(sizes, start);
    ConcatMember(gs, k - start, k);
    SumPrefixMonotone(sizes);
  }

  /** The element at position `p` of a flattened list lies in one of the
      pieces. */
  lemma {:induction false} ConcatMember(xss: seq<seq<nat>>, p: nat, k: nat)
    requires p < |Concat(xss)| && Concat(xss)[p] == k
    ensures exists g :: 0 <= g < |xss| && k in xss[g]
    decreases |xss|
  {
    if |xss[0]| > p {
      assert Concat(xss)[p] == xss[0][p];
    } else {
      assert Concat(xss)[p] == Concat(xss[1..])[p - |xss[0]|];
      ConcatMember(xss[1..], p - |xss[0]|, k);
      var g :| 0 <= g < |xss[1..]| && k in xss[1..][g];
      assert xss[g + 1] == xss[1..][g];
    }
  }

  /** Prefix sums do not decrease. */
  lemma {:induction false} SumPrefixGrows(xs: seq<nat>, i: nat, j: nat)
    requires i <= j <= |xs|
    ensures Sum(xs[..i]) <= Sum(xs[..j])
    decreases j - i
  {
    if i < j {
      SumPrefixGrows(xs, i + 1, j);
      SumSnoc(xs[..i + 1]);
      assert xs[..i + 1][..i] == xs[..i];
    }
  }

  lemma {:induction false} SumPrefixMonotone(xs: seq<nat>)
    ensures forall i, j :: 0 <= i <= j <= |xs| ==> Sum(xs[..i]) <= Sum(xs[..j])
  {
    forall i, j | 0 <= i <= j <= |xs|
      ensures Sum(xs[..i]) <= Sum(xs[..j])
    {
      SumPrefixGrows(xs, i, j);
    }
  }

  lemma {:induction false} SumSnoc(xs: seq<nat>)
    requires |xs| > 0
    ensures Sum(xs) == Sum(xs[..|xs| - 1]) + xs[|xs| - 1]
    decreases |xs|
  {
    if |xs| > 1 {
      SumSnoc(xs[1..]);
      assert xs[1..][..|xs[1..]| - 1] == xs[..|xs| - 1][1..];
    }
  }

  /** `[w] * n` */
  function Repeat(n: nat, w: nat): (r: seq<nat>)
    ensures |r| == n && forall k :: 0 <= k < n ==> r[k] == w
  {
    seq(n, k => w)
  }

  lemma {:induction false} SumRepeat(n: nat, w: nat)
    ensures Sum(Repeat(n, w)) == n * w
    decreases n
  {
    if n > 0 {
      assert Repeat(n, w)[1..] == Repeat(n - 1, w);
      SumRepeat(n - 1, w);
    }
  }

  /** Flattening a list of lists (Python's nested loop that appends). */
  function Flatten<T>(xss: seq<seq<T>>): seq<T>
  {
    if |xss| == 0 then [] else xss[0] + Flatten(xss[1..])
  }

  /** Lists of one common length w flatten to |xss| * w elements, element
      q * w + m being element m of list q. */
  lemma {:induction false} FlattenUniform<T>(xss: seq<seq<T>>, w: nat)
    requires forall q :: 0 <= q < |xss| ==> |xss[q]| == w
    ensures |Flatten(xss)| == |xss| * w
    decreases |xss|
  {
    if |xss| > 0 {
      FlattenUniform(xss[1..], w);
    }
  }

  /** Element q * w + m of the flattening is element m of list q. */
  lemma {:induction false} FlattenIndex<T>(xss: seq<seq<T>>, w: nat, q: nat, m: nat)
    requires forall p :: 0 <= p < |xss| ==> |xss[p]| == w
    requires q < |xss| && m < w
    ensures q * w + m < |Flatten(xss)| && Flatten(xss)[q * w + m] == xss[q][m]
    decreases q
  {
    FlattenUniform(xss, w);
    if q > 0 {
      FlattenIndex(xss[1..], w, q - 1, m);
      assert q * w + m == w + ((q - 1) * w + m);
    }
  }

  lemma {:induction false} FlattenAppend<T>(x: seq<seq<T>>, y: seq<seq<T>>)
    ensures Flatten(x + y) == Flatten(x) + Flatten(y)
    decreases |x|
  {
    if |x| > 0 {
      assert (x + y)[1..] == x[1..] + y;
      FlattenAppend(x[1..], y);
    } else {
      assert x + y == y;
    }
  }

  /** Element j of list i sits in the flattening right after the lists
      before i. */
  lemma {:induction false} FlattenAt<T>(xss: seq<seq<T>>, i: nat, j: nat)
    requires i < |xss| && j < |xss[i]|
    ensures |Flatten(xss[..i])| + j < |Flatten(xss)|
    ensures Flatten(xss)[|Flatten(xss[..i])| + j] == xss[i][j]
  {
    assert xss == xss[..i] + xss[i..];
    FlattenAppend(xss[..i], xss[i..]);
    assert xss[i..][1..] == xss[i + 1..];
  }

  /** Flattening twice equals flattening each part first. */
  lemma {:induction false} FlattenFlatten<T>(b: seq<seq<seq<T>>>)
    ensures Flatten(Flatten(b)) == Flatten(seq(|b|, i requires 0 <= i < |b| => Flatten(b[i])))
    decreases |b|
  {
    if |b| > 0 {
      FlattenAppend(b[0], Flatten(b[1..]));
      FlattenFlatten(b[1..]);
      var parts := seq(|b|, i requires 0 <= i < |b| => Flatten(b[i]));
      assert parts[1..] == seq(|b[1..]|, i requires 0 <= i < |b[1..]| => Flatten(b[1..][i]));
    }
  }

  /** k * n + m lies in block k of size n, at offset m. */
  lemma {:induction false} DivBlock(k: nat, n: nat, m: nat)
    requires m < n
    ensures (k * n + m) / n == k && (k * n + m) % n == m
  {
    var x := k * n + m;
    var q := x / n;
    var r := x % n;
    assert x == q * n + r;
    assert (q - k) * n == m - r;
    if q > k {
      MulAtLeast(q - k, n);
    } else if q < k {
      MulAtLeast(k - q, n);
    }
  }

  lemma {:induction false} MulAtLeast(a: int, n: nat)
    requires a >= 1
    ensures a * n >= n
  {
  }

  /** Two adjacent ranges join into one. */
  lemma {:induction false} RangeSplit(a: nat, n: nat, m: nat)
    ensures Range(a, n) + Range(a + n, m) == Range(a, n + m)
  {
  }

  predicate Palindrome<T(==)>(xs: seq<T>) {
    forall k :: 0 <= k < |xs| ==> xs[k] == xs[|xs| - 1 - k]
  }
}

=== FILE: mesh_film.dfy ===
/** The blockMeshDict generator of the rivulet falling-film case: one
    slab of cells split across its width into three strips, the middle one
    carrying the inlet. Sixteen vertices, four label rows, three hexes and
    the patch faces. */
module MeshFilm {
  import opened Geometry
  import opened MeshCommon

  /** Length scale of the non-dimensionalisation; the script fixes it to 1. */
  const LengthScale: real := 1.0

  datatype FilmGeom = FilmGeom(a0: real, h0: real, cellW: real, cellL: real, hG: real)

  /** Division of every length by the length scale: with the scale fixed
      to 1 it changes nothing. */
  function NonDim(g: FilmGeom): (r: FilmGeom)
    ensures r == g
  {
    FilmGeom(g.a0 / LengthScale, g.h0 / LengthScale, g.cellW / LengthScale,
             g.cellL / LengthScale, g.hG / LengthScale)
  }

  /** Vertex levels: two along the length, four across the width (plate
      edges and inlet edges), two in height. */
  function AddVecL(g: FilmGeom): seq<real> { [0.0, g.cellL] }
  function AddVecW(g: FilmGeom): seq<real> { [-g.cellW / 2.0, -g.a0 / 2.0, g.a0 / 2.0, g.cellW / 2.0] }
  function AddVecH(g: FilmGeom): seq<real> { [0.0, g.hG] }

  /** The width levels are symmetric about the axis, and increasing when
      the inlet is narrower than the plate. */
  lemma {:induction false} WidthLevels(g: FilmGeom)
    ensures forall w :: 0 <= w < 4 ==> AddVecW(g)[w] + AddVecW(g)[3 - w] == 0.0
    ensures 0.0 < g.a0 < g.cellW ==> forall w :: 0 <= w < 3 ==> AddVecW(g)[w] < AddVecW(g)[w + 1]
  {
  }

  /** `for H: for L: vert.append([L, W, H])` for one width level w. */
  function WidthRow(g: FilmGeom, w: nat): (r: seq<Vec3>)
    requires w < 4
    ensures |r| == 4
    ensures forall m :: 0 <= m < 4 ==> r[m] == Vec3(AddVecL(g)[m % 2], AddVecW(g)[w], AddVecH(g)[m / 2])
  {
    var byH := seq(2, h requires 0 <= h < 2 =>
                 seq(2, l requires 0 <= l < 2 => Vec3(AddVecL(g)[l], AddVecW(g)[w], AddVecH(g)[h])));
    var r := Flatten(byH);
    FlattenUniform(byH, 2);
    forall m | 0 <= m < 4
      ensures r[m] == Vec3(AddVecL(g)[m % 2], AddVecW(g)[w], AddVecH(g)[m / 2])
    {
      FlattenIndex(byH, 2, m / 2, m % 2);
      assert m == m / 2 * 2 + m % 2;
    }
    r
  }

  /** `for W: for H: for L: vert.append([L, W, H])` */
  function Vertices(g: FilmGeom): (r: seq<Vec3>)
    ensures |r| == 16
    ensures forall k :: 0 <= k < 16 ==> r[k] == Vec3(AddVecL(g)[k % 2], AddVecW(g)[k / 4], AddVecH(g)[k / 2 % 2])
  {
    var byW := seq(4, w requires 0 <= w < 4 => WidthRow(g, w));
    var r := Flatten(byW);
    FlattenUniform(byW, 4);
    forall k | 0 <= k < 16
      ensures r[k] == Vec3(AddVecL(g)[k % 2], AddVecW(g)[k / 4], AddVecH(g)[k / 2 % 2])
    {
      VertexAt(g, byW, k);
    }
    r
  }

  lemma {:induction false} VertexAt(g: FilmGeom, byW: seq<seq<Vec3>>, k: nat)
    requires |byW| == 4 && k < 16
    requires forall w :: 0 <= w < 4 ==> byW[w] == WidthRow(g, w)
    ensures k < |Flatten(byW)| && Flatten(byW)[k] == Vec3(AddVecL(g)[k % 2], AddVecW(g)[k / 4], AddVecH(g)[k / 2 % 2])
  {
    var w, m := k / 4, k % 4;
    FlattenIndex(byW, 4, w, m);
    LevelDigits(w, m);
    assert k == w * 4 + m;
    assert Flatten(byW)[k] == byW[w][m];
  }

  /** For k = 4 w + m with m < 4, the length level k % 2 and the height
      level k / 2 % 2 are those of m. */
  lemma {:induction false} LevelDigits(w: nat, m: nat)
    requires m < 4
    ensures (4 * w + m) % 2 == m % 2 && (4 * w + m) / 2 % 2 == m / 2
  {
    var k := 4 * w + m;
    assert k == 2 * (2 * w + m / 2) + m % 2;
    assert k / 2 == 2 * w + m / 2;
  }

  /** `lablsV[i] = range(4 i, 4 i + 4)`: the four vertices of width level i. */
  function LablsV(): (r: seq<seq<nat>>)
    ensures |r| == 4 && forall i :: 0 <= i < 4 ==> |r[i]| == 4
    ensures forall i, m :: 0 <= i < 4 && 0 <= m < 4 ==> r[i][m] == 4 * i + m
  {
    var r := Groups(Repeat(4, 4), 0);
    forall i | 0 <= i < 4
      ensures r[i] == Range(4 * i, 4)
    {
      assert Repeat(4, 4)[..i] == Repeat(i, 4);
      SumRepeat(i, 4);
    }
    r
  }

  /** The label rows partition the sixteen vertex labels. */
  lemma {:induction false} LablsVPartition()
    ensures Concat(LablsV()) == Range(0, 16)
  {
    GroupsPartition(Repeat(4, 4), 0);
    SumRepeat(4, 4);
  }

  /** `nCellsIn = round(r) + round(r) % 2 + 1` with `rounded = round(r)`:
      always odd, so the inlet strip has a centre cell. */
  function NCellsIn(rounded: int): (r: int)
    ensures r % 2 == 1
    ensures rounded < r <= rounded + 2
  {
    rounded + rounded % 2 + 1
  }

  /** Cells across the three width strips. Python 2 `/` on ints floors,
      as Dafny's `/` does for the divisor 2. */
  function NCellsWVec(nCellsW: int, nCellsIn: int): (r: seq<int>)
    ensures |r| == 3 && r[1] == nCellsIn && r[2] == r[0] - 1
    ensures 2 * r[0] <= nCellsW - nCellsIn < 2 * r[0] + 2
  {
    [(nCellsW - nCellsIn) / 2, nCellsIn, (nCellsW - nCellsIn) / 2 - 1]
  }

  /** With an even width count and an odd inlet count the three strips
      hold two cells fewer than nCellsW. */
  lemma {:induction false} WidthCellsTotal(nCellsW: int, rounded: int)
    requires nCellsW % 2 == 0
    ensures var v := NCellsWVec(nCellsW, NCellsIn(rounded));
            v[0] + v[1] + v[2] == nCellsW - 2
  {
  }

  datatype FilmHex = FilmHex(corners: seq<nat>, cellsL: int, cellsW: int, cellsH: int)

  /** Hex i between width levels i and i+1: `lablsV[i][:2]`,
      `lablsV[i+1][1::-1]`, `lablsV[i][2:]`, `lablsV[i+1][:1:-1]`. */
  function HexAt(ls: seq<seq<nat>>, i: nat, nCellsL: int, nCellsWVec: seq<int>): FilmHex
    requires i + 1 < |ls| && |ls[i]| == 4 && |ls[i + 1]| == 4 && i < |nCellsWVec|
  {
    FilmHex(ls[i][..2] + [ls[i + 1][1], ls[i + 1][0]] + ls[i][2..] + [ls[i + 1][3], ls[i + 1][2]],
            nCellsL, nCellsWVec[i], 1)
  }

  /** The three hexes: hex i is the bottom quad 4i, 4i+1, 4i+5, 4i+4 and
      its copy two labels up (the top of the slab); its bottom corners sit
      on the plate and its top corners at hG straight above them. */
  function Blocks(g: FilmGeom, nCellsL: int, nCellsWVec: seq<int>): (r: seq<FilmHex>)
    requires |nCellsWVec| == 3
    ensures |r| == 3
    ensures forall i :: 0 <= i < 3 ==>
              r[i].corners == [4 * i, 4 * i + 1, 4 * i + 5, 4 * i + 4, 4 * i + 2, 4 * i + 3, 4 * i + 7, 4 * i + 6]
              && r[i].cellsW == nCellsWVec[i] && r[i].cellsL == nCellsL && r[i].cellsH == 1
  {
    BlocksOf(LablsV(), nCellsL, nCellsWVec)
  }

  /** The labels `lablsV` holds: row i is 4i, 4i+1, 4i+2, 4i+3. */
  predicate RowLabels(ls: seq<seq<nat>>) {
    |ls| == 4 && (forall i :: 0 <= i < 4 ==> |ls[i]| == 4) &&
    forall i, m :: 0 <= i < 4 && 0 <= m < 4 ==> ls[i][m] == 4 * i + m
  }

  /** The three hexes over a label table of that shape. */
  function BlocksOf(ls: seq<seq<nat>>, nCellsL: int, nCellsWVec: seq<int>): (r: seq<FilmHex>)
    requires RowLabels(ls) && |nCellsWVec| == 3
    ensures |r| == 3
    ensures forall i :: 0 <= i < 3 ==>
              r[i].corners == [4 * i, 4 * i + 1, 4 * i + 5, 4 * i + 4, 4 * i + 2, 4 * i + 3, 4 * i + 7, 4 * i + 6]
              && r[i].cellsW == nCellsWVec[i] && r[i].cellsL == nCellsL && r[i].cellsH == 1
  {
    var r := seq(3, i requires 0 <= i < 3 => HexAt(ls, i, nCellsL, nCellsWVec));
    forall i | 0 <= i < 3
      ensures r[i].corners == [4 * i, 4 * i + 1, 4 * i + 5, 4 * i + 4, 4 * i + 2, 4 * i + 3, 4 * i + 7, 4 * i + 6]
    {
      HexCornerLabels(ls, i, nCellsL, nCellsWVec);
    }
    r
  }

  lemma {:induction false} HexCornerLabels(ls: seq<seq<nat>>, i: nat, nCellsL: int, nCellsWVec: seq<int>)
    requires RowLabels(ls) && i < 3 && |nCellsWVec| == 3
    ensures HexAt(ls, i, nCellsL, nCellsWVec).corners
              == [4 * i, 4 * i + 1, 4 * i + 5, 4 * i + 4, 4 * i + 2, 4 * i + 3, 4 * i + 7, 4 * i + 6]
  {
    var a, b := ls[i], ls[i + 1];
    assert a == [4 * i, 4 * i + 1, 4 * i + 2, 4 * i + 3];
    assert b == [4 * i + 4, 4 * i + 5, 4 * i + 6, 4 * i + 7];
  }

  /** Geometry of a hex: bottom corners on the plate, top corners at hG
      directly above the bottom ones. */
  lemma {:induction false} BlocksOnPlate(g: FilmGeom, nCellsL: int, nCellsWVec: seq<int>, i: nat)
    requires |nCellsWVec| == 3 && i < 3
    ensures OnPlate(Vertices(g), g.hG, Blocks(g, nCellsL, nCellsWVec)[i].corners)
  {
    var v := Vertices(g);
    var h := Blocks(g, nCellsL, nCellsWVec)[i].corners;
    HexOnPlate(g, v, i, h);
  }

  /** The vertex list `Vertices` builds. */
  predicate VertexTable(g: FilmGeom, v: seq<Vec3>) {
    |v| == 16 && forall k :: 0 <= k < 16 ==> v[k] == Vec3(AddVecL(g)[k % 2], AddVecW(g)[k / 4], AddVecH(g)[k / 2 % 2])
  }

  lemma {:induction false} HexOnPlate(g: FilmGeom, v: seq<Vec3>, i: nat, h: seq<nat>)
    requires VertexTable(g, v) && i < 3
    requires h == [4 * i, 4 * i + 1, 4 * i + 5, 4 * i + 4, 4 * i + 2, 4 * i + 3, 4 * i + 7, 4 * i + 6]
    ensures OnPlate(v, g.hG, h)
  {
    var a := 4 * i;
    assert forall m :: 0 <= m < 8 ==> h[m] < |v|;
    forall m | 0 <= m < 4
      ensures v[h[m]].z == 0.0 && v[h[m + 4]] == Shift(v[h[m]], 0.0, 0.0, g.hG)
    {
      var c := if m == 0 then 0 else if m == 1 then 1 else if m == 2 then 5 else 4;
      assert h[m] == a + c && h[m + 4] == a + c + 2;
      FloorAndCeiling(g, v, i, c);
    }
  }

  /** Vertex 4i + c (c in a bottom position) is on the plate and vertex
      4i + c + 2 is hG above it. */
  lemma {:induction false} FloorAndCeiling(g: FilmGeom, v: seq<Vec3>, i: nat, c: nat)
    requires VertexTable(g, v)
    requires i < 3 && (c == 0 || c == 1 || c == 4 || c == 5)
    ensures v[4 * i + c].z == 0.0 && v[4 * i + c + 2] == Shift(v[4 * i + c], 0.0, 0.0, g.hG)
  {
    var k := 4 * i + c;
    assert k / 4 == (k + 2) / 4 && k % 2 == (k + 2) % 2 && k / 2 % 2 == 0 && (k + 2) / 2 % 2 == 1 by {
      if i == 0 {
      } else if i == 1 {
      } else {
      }
    }
    assert v[k] == Vec3(AddVecL(g)[k % 2], AddVecW(g)[k / 4], AddVecH(g)[k / 2 % 2]);
    assert v[k + 2] == Vec3(AddVecL(g)[(k + 2) % 2], AddVecW(g)[(k + 2) / 4], AddVecH(g)[(k + 2) / 2 % 2]);
  }

  /** Patch faces, each a quad of vertex labels. */
  datatype Faces = Faces(inlet: seq<seq<nat>>, outlet: seq<seq<nat>>, filmWalls: seq<seq<nat>>, sides: seq<seq<nat>>)

  /** The x = 0 face of hex i: `lablsV[i][0], lablsV[i][2], lablsV[i+1][2], lablsV[i+1][0]`. */
  function FrontFace(ls: seq<seq<nat>>, i: nat): seq<nat>
    requires i + 1 < |ls| && |ls[i]| == 4 && |ls[i + 1]| == 4
  {
    [ls[i][0], ls[i][2], ls[i + 1][2], ls[i + 1][0]]
  }

  /** The boundary section: the inlet on strip inLev = 3 / 2 = 1, the
      outlet and film wall under every strip, and as sides the two outer
      walls, the front faces of every strip but the inlet one, and the top
      of every strip. */
  function Boundary(): (r: Faces)
    ensures r.inlet == [[4, 6, 10, 8]]
    ensures |r.outlet| == 3 && |r.filmWalls| == 3 && |r.sides| == 7
    ensures r.sides[2] == [0, 2, 6, 4] && r.sides[3] == [8, 10, 14, 12]
  {
    BoundaryOf(LablsV())
  }

  lemma {:induction false} FrontFacesOnRows(ls: seq<seq<nat>>)
    requires |ls| == 4 && forall i :: 0 <= i < 4 ==> |ls[i]| == 4
    ensures RowLabels(ls) ==>
              FrontFace(ls, 0) == [0, 2, 6, 4] && FrontFace(ls, 1) == [4, 6, 10, 8] && FrontFace(ls, 2) == [8, 10, 14, 12]
  {
    if RowLabels(ls) {
      FrontFaceAt(ls, 0);
      FrontFaceAt(ls, 1);
      FrontFaceAt(ls, 2);
    }
  }

  /** On the generated label rows the front face of hex i is
      4i, 4i+2, 4i+6, 4i+4. */
  lemma {:induction false} FrontFaceAt(ls: seq<seq<nat>>, i: nat)
    requires RowLabels(ls) && i < 3
    ensures FrontFace(ls, i) == [4 * i, 4 * i + 2, 4 * i + 6, 4 * i + 4]
  {
    assert ls[i][0] == 4 * i && ls[i][2] == 4 * i + 2;
    assert ls[i + 1][2] == 4 * i + 6 && ls[i + 1][0] == 4 * i + 4;
  }

  /** The boundary section over any four rows of four labels. */
  function BoundaryOf(ls: seq<seq<nat>>): (r: Faces)
    requires |ls| == 4 && forall i :: 0 <= i < 4 ==> |ls[i]| == 4
    ensures r.inlet == [FrontFace(ls, 1)]
    ensures |r.outlet| == 3 && |r.filmWalls| == 3 && |r.sides| == 7
    ensures r.sides[2] == FrontFace(ls, 0) && r.sides[3] == FrontFace(ls, 2)
    ensures RowLabels(ls) ==> r.inlet == [[4, 6, 10, 8]] && r.sides[2] == [0, 2, 6, 4] && r.sides[3] == [8, 10, 14, 12]
  {
    FrontFacesOnRows(ls);
    var nBlocks := 3;
    var inLev := nBlocks / 2;
    var lenLen := 2 / 2;
    var outlet := seq(nBlocks, i requires 0 <= i < nBlocks =>
                    [ls[i][lenLen], ls[i][2 * lenLen + 1], ls[i + 1][2 * lenLen + 1], ls[i + 1][lenLen]]);
    var walls := seq(nBlocks, i requires 0 <= i < nBlocks =>
                   [ls[i][0], ls[i][lenLen], ls[i + 1][lenLen], ls[i + 1][0]]);
    var outer := seq(2, s requires 0 <= s < 2 =>
                   var i := if s == 0 then 0 else nBlocks;
                   [ls[i][0], ls[i][lenLen], ls[i][2 * lenLen + 1], ls[i][lenLen + 1]]);
    var front := seq(nBlocks, i requires 0 <= i < nBlocks =>
                   [ls[i][0], ls[i][lenLen + 1], ls[i + 1][lenLen + 1], ls[i + 1][0]]);
    var fronts := front[..inLev] + front[inLev + 1..];
    var tops := seq(nBlocks, i requires 0 <= i < nBlocks =>
                  [ls[i][lenLen + 1], ls[i][2 * lenLen + 1], ls[i + 1][2 * lenLen + 1], ls[i + 1][lenLen + 1]]);
    assert fronts == [front[0], front[2]];
    Faces([front[inLev]], outlet, walls, outer + fronts + tops)
  }

  /** The inlet quad lies in the plane x = 0 and spans exactly the inlet
      width -a0/2 .. a0/2 and the slab height; the front faces left in
      the sides lie in x = 0 outside the inlet width. */
  lemma {:induction false} InletPlacement(g: FilmGeom, v: seq<Vec3>, ls: seq<seq<nat>>)
    requires VertexTable(g, v) && RowLabels(ls)
    ensures var q := BoundaryOf(ls).inlet[0];
            v[q[0]] == Vec3(0.0, -g.a0 / 2.0, 0.0) && v[q[1]] == Vec3(0.0, -g.a0 / 2.0, g.hG)
            && v[q[2]] == Vec3(0.0, g.a0 / 2.0, g.hG) && v[q[3]] == Vec3(0.0, g.a0 / 2.0, 0.0)
    ensures var s := BoundaryOf(ls).sides;
            (forall m :: 0 <= m < 4 ==> v[s[2][m]].x == 0.0 && v[s[3][m]].x == 0.0)
            && v[s[2][0]].y == -g.cellW / 2.0 && v[s[2][3]].y == -g.a0 / 2.0
            && v[s[3][0]].y == g.a0 / 2.0 && v[s[3][3]].y == g.cellW / 2.0
  {
    var l, w, h := AddVecL(g), AddVecW(g), AddVecH(g);
    assert v[0] == Vec3(l[0], w[0], h[0]) && v[2] == Vec3(l[0], w[0], h[1]);
    assert v[4] == Vec3(l[0], w[1], h[0]) && v[6] == Vec3(l[0], w[1], h[1]);
    assert v[8] == Vec3(l[0], w[2], h[0]) && v[10] == Vec3(l[0], w[2], h[1]);
    assert v[12] == Vec3(l[0], w[3], h[0]) && v[14] == Vec3(l[0], w[3], h[1]);
  }
}

=== FILE: mesh_freiberg.dfy ===
/** The blockMeshDict generator of the Freiberg rivulet geometry: five
    strips of nine vertices (the dense-block interfaces doubled), the
    triangular inlet, its auxiliary vertices, the label groups and the
    sparse blocks. Text output and the dense/inlet block wiring are not
    modelled. */
module MeshFreiberg {
  import opened Geometry
  import opened MeshCommon

  /** Lengths after division by the length scale `d0`. */
  datatype Geom = Geom(cL: real, cW: real, cH: real, iH: real, tL: real, iW: real, dbW: real)

  /** `cL/d0, …`; the inlet half-width `iW = sqrt(3)/3 tL` is taken before
      scaling, `s3` standing for `sqrt(3)`. */
  function Scaled(cL: real, cW: real, cH: real, iH: real, tL: real, dbW: real, d0: real, s3: real): (r: Geom)
    requires d0 != 0.0
    ensures r.cL * d0 == cL && r.cW * d0 == cW && r.cH * d0 == cH && r.iH * d0 == iH
    ensures r.tL * d0 == tL && r.dbW * d0 == dbW && r.iW * d0 == s3 / 3.0 * tL
  {
    Geom(cL / d0, cW / d0, cH / d0, iH / d0, tL / d0, s3 / 3.0 * tL / d0, dbW / d0)
  }

  /** x of the three points of a line: the inlet tip, the centre, the outlet. */
  function XAt(g: Geom, m: nat): real {
    if m == 0 then -g.tL else if m == 1 then 0.0 else g.cL
  }

  /** z of the three floors: basement (inlet bottom), plate, top. */
  function FloorZ(g: Geom, f: nat): real {
    if f == 0 then -g.iH else if f == 1 then 0.0 else g.cH
  }

  /** y of the seven strips: left side, left dense interface (twice), centre,
      right dense interface (twice), right side. */
  function StripOffsets(g: Geom): (r: seq<real>)
    ensures |r| == 7
  {
    [-g.cW, -g.dbW, -g.dbW, 0.0, g.dbW, g.dbW, g.cW]
  }

  function ShiftAll(ps: seq<Vec3>, dx: real, dy: real, dz: real): (r: seq<Vec3>)
    ensures |r| == |ps| && forall k :: 0 <= k < |ps| ==> r[k] == Shift(ps[k], dx, dy, dz)
  {
    seq(|ps|, k requires 0 <= k < |ps| => Shift(ps[k], dx, dy, dz))
  }

  /** The centre line on the ground floor, copied down by the inlet height
      and up by the cell height, flattened floor by floor. The origin
      arguments of the generator are overwritten with 0 before use. */
  function CentreStrip(g: Geom): (r: seq<Vec3>)
    ensures |r| == 9
    ensures forall f, x :: 0 <= f < 3 && 0 <= x < 3 ==> r[3 * f + x] == Vec3(XAt(g, x), 0.0, FloorZ(g, f))
  {
    var ground := [Vec3(0.0 - g.tL, 0.0, 0.0), Vec3(0.0, 0.0, 0.0), Vec3(0.0 + g.cL, 0.0, 0.0)];
    ShiftAll(ground, 0.0, 0.0, -g.iH) + ground + ShiftAll(ground, 0.0, 0.0, g.cH)
  }

  /** Copies of a nine-point strip moved sideways by each offset in turn. */
  function Strips(c: seq<Vec3>, offsets: seq<real>): (r: seq<Vec3>)
    requires |c| == 9
    ensures |r| == 9 * |offsets|
    ensures forall s, m :: 0 <= s < |offsets| && 0 <= m < 9 ==> r[9 * s + m] == Shift(c[m], 0.0, offsets[s], 0.0)
    decreases |offsets|
  {
    if |offsets| == 0 then []
    else
      var rest := Strips(c, offsets[1..]);
      var r := ShiftAll(c, 0.0, offsets[0], 0.0) + rest;
      forall s, m | 1 <= s < |offsets| && 0 <= m < 9
        ensures r[9 * s + m] == Shift(c[m], 0.0, offsets[s], 0.0)
      {
        assert r[9 * s + m] == rest[9 * (s - 1) + m];
        assert offsets[1..][s - 1] == offsets[s];
      }
      r
  }

  /** The two inlet side edges at y = -iW and y = +iW, on the three floors. */
  function InletVerts(g: Geom): (r: seq<Vec3>)
    ensures |r| == 6
  {
    [Vec3(-g.tL, -g.iW, -g.iH), Vec3(-g.tL, -g.iW, 0.0), Vec3(-g.tL, -g.iW, g.cH),
     Vec3(-g.tL, g.iW, -g.iH), Vec3(-g.tL, g.iW, 0.0), Vec3(-g.tL, g.iW, g.cH)]
  }

  /** The auxiliary inlet vertices, nDiv cells behind the tip, each triple
      written twice (one copy per side of the merged patch pair). */
  function AuxVerts(g: Geom, nDiv: nat, nCellsXDS: nat, s3: real): (r: seq<Vec3>)
    requires nCellsXDS != 0
    ensures |r| == 12
  {
    var xa := 0.0 - (nDiv as real) * g.tL / (nCellsXDS as real);
    var ya := s3 / 3.0 * (nDiv as real) * g.tL / (nCellsXDS as real);
    var left := [Vec3(xa, 0.0 - ya, 0.0 - g.iH), Vec3(xa, 0.0 - ya, 0.0), Vec3(xa, 0.0 - ya, 0.0 + g.cH)];
    var right := [Vec3(xa, 0.0 + ya, 0.0 - g.iH), Vec3(xa, 0.0 + ya, 0.0), Vec3(xa, 0.0 + ya, 0.0 + g.cH)];
    left + left + right + right
  }

  /** Point x of floor f of strip s sits at position 9 s + 3 f + x. */
  predicate StripLayout(v: seq<Vec3>, g: Geom) {
    |v| == 81 &&
    forall s, f, x :: 0 <= s < 7 && 0 <= f < 3 && 0 <= x < 3 ==>
      v[9 * s + 3 * f + x] == Vec3(XAt(g, x), StripOffsets(g)[s], FloorZ(g, f))
  }

  /** The vertex list: point x of floor f of strip s sits at position
      9 s + 3 f + x. `nCellsXDS` divides the auxiliary vertices' position,
      so it must not be zero. */
  function Vertices(x0: real, y0: real, z0: real, g: Geom, nDiv: nat, nCellsXDS: nat, s3: real): (r: seq<Vec3>)
    requires nCellsXDS != 0
    ensures |r| == 81 && StripLayout(r, g)
    ensures r[31] == Vec3(0.0, 0.0, 0.0)
    ensures forall f :: 0 <= f < 3 ==>
              r[63 + f] == Vec3(-g.tL, -g.iW, FloorZ(g, f)) && r[66 + f] == Vec3(-g.tL, g.iW, FloorZ(g, f))
    ensures r[69..72] == r[72..75] && r[75..78] == r[78..81]
  {
    var c := CentreStrip(g);
    var strips := Strips(c, StripOffsets(g));
    var aux := AuxVerts(g, nDiv, nCellsXDS, s3);
    var r := strips + InletVerts(g) + aux;
    assert StripLayout(r, g) by {
      assert r[..63] == strips;
      StripsLaidOut(g, r);
    }
    assert r[31] == Vec3(0.0, 0.0, 0.0) by {
      VertexAt(r, g, 3, 1, 1);
      assert StripOffsets(g)[3] == 0.0 && XAt(g, 1) == 0.0 && FloorZ(g, 1) == 0.0;
    }
    assert r[69..72] == r[72..75] && r[75..78] == r[78..81] by {
      assert r[69..72] == aux[..3] && r[72..75] == aux[3..6];
      assert r[75..78] == aux[6..9] && r[78..81] == aux[9..];
    }
    r
  }

  /** Whatever follows the seven strips, they keep their layout. */
  lemma {:induction false} StripsLaidOut(g: Geom, r: seq<Vec3>)
    requires |r| == 81 && r[..63] == Strips(CentreStrip(g), StripOffsets(g))
    ensures StripLayout(r, g)
  {
    var c := CentreStrip(g);
    var strips := r[..63];
    forall s, f, x | 0 <= s < 7 && 0 <= f < 3 && 0 <= x < 3
      ensures r[9 * s + 3 * f + x] == Vec3(XAt(g, x), StripOffsets(g)[s], FloorZ(g, f))
    {
      assert r[9 * s + 3 * f + x] == strips[9 * s + (3 * f + x)];
      assert c[3 * f + x] == Vec3(XAt(g, x), 0.0, FloorZ(g, f));
    }
  }

  const LabelSizes: seq<nat> := [9, 9, 9, 9, 9, 9, 9, 3, 3, 6, 6]

  /** The shape of the size list: seven strips of nine, two inlet sides of
      three, two auxiliary sets of six. */
  predicate SizesLayout(sizes: seq<nat>) {
    |sizes| == 11 &&
    (forall s :: 0 <= s < 7 ==> sizes[s] == 9) &&
    sizes[7] == 3 && sizes[8] == 3 && sizes[9] == 6 && sizes[10] == 6
  }

  /** The label groups built from sizes of that shape: seven groups of
      nine labels (one per strip), then two of three (inlet sides) and two
      of six (auxiliary sets), consecutive and together exactly the 81
      vertex indices. The generator's own sizes have that shape
      (`LabelSizesLayout`). */
  function LabelsOf(sizes: seq<nat>): (r: seq<seq<nat>>)
    requires SizesLayout(sizes)
    ensures |r| == 11
    ensures forall s :: 0 <= s < 7 ==> r[s] == Range(9 * s, 9)
    ensures r[7] == Range(63, 3) && r[8] == Range(66, 3) && r[9] == Range(69, 6) && r[10] == Range(75, 6)
    ensures Concat(r) == Range(0, 81)
  {
    StripGroups(sizes);
    SideSums(sizes);
    SideGroups(sizes);
    GroupsPartition(sizes, 0);
    Groups(sizes, 0)
  }

  lemma LabelSizesLayout()
    ensures SizesLayout(LabelSizes)
  {
  }

  lemma StripGroups(sizes: seq<nat>)
    requires SizesLayout(sizes)
    ensures forall s :: 0 <= s < 7 ==> Groups(sizes, 0)[s] == Range(9 * s, 9)
  {
    forall s | 0 <= s < 7 ensures Groups(sizes, 0)[s] == Range(9 * s, 9) {
      NinesPrefix(sizes, s);
      StripGroup(sizes, s);
    }
  }

  lemma NinesPrefix(sizes: seq<nat>, s: nat)
    requires s <= 7 && SizesLayout(sizes)
    ensures Sum(sizes[..s]) == 9 * s
  {
    SumNines(sizes[..s]);
  }

  lemma StripGroup(sizes: seq<nat>, s: nat)
    requires s < 7 && |sizes| == 11 && sizes[s] == 9 && Sum(sizes[..s]) == 9 * s
    ensures Groups(sizes, 0)[s] == Range(9 * s, 9)
  {
  }

  /** The running offsets of the inlet and auxiliary groups. */
  lemma {:induction false} SideSums(ls: seq<nat>)
    requires SizesLayout(ls)
    ensures Sum(ls[..7]) == 63 && Sum(ls[..8]) == 66 && Sum(ls[..9]) == 69 && Sum(ls[..10]) == 75
    ensures Sum(ls) == 81
  {
    NinesPrefix(ls, 7);
    SumSnoc(ls[..8]);
    assert ls[..8][..7] == ls[..7];
    SumSnoc(ls[..9]);
    assert ls[..9][..8] == ls[..8];
    SumSnoc(ls[..10]);
    assert ls[..10][..9] == ls[..9];
    SumSnoc(ls);
    assert ls[..10] == ls[..|ls| - 1];
  }

  lemma SideGroups(sizes: seq<nat>)
    requires |sizes| == 11 && sizes[7] == 3 && sizes[8] == 3 && sizes[9] == 6 && sizes[10] == 6
    requires Sum(sizes[..7]) == 63 && Sum(sizes[..8]) == 66 && Sum(sizes[..9]) == 69 && Sum(sizes[..10]) == 75
    ensures var r := Groups(sizes, 0);
            r[7] == Range(63, 3) && r[8] == Range(66, 3) && r[9] == Range(69, 6) && r[10] == Range(75, 6)
  {
  }

  lemma {:induction false} SumNines(xs: seq<nat>)
    requires forall k :: 0 <= k < |xs| ==> xs[k] == 9
    ensures Sum(xs) == 9 * |xs|
    decreases |xs|
  {
    if |xs| > 0 {
      SumNines(xs[1..]);
    }
  }

  const DescList := ["left", "right", "top", "cell"]

  /** A sparse hex between strips i and i+1 starting at label position j:
      the bottom quad (j, j+1 of strip i, then j+1, j of strip i+1) and the
      same quad one floor up (positions j+3, j+4). */
  function SparseBlock(ls: seq<seq<nat>>, i: nat, j: nat): (r: seq<nat>)
    requires i + 1 < |ls| && j + 4 < |ls[i]| && j + 4 < |ls[i + 1]|
    ensures |r| == 8
  {
    [ls[i][j], ls[i][j + 1], ls[i + 1][j + 1], ls[i + 1][j],
     ls[i][j + 3], ls[i][j + 4], ls[i + 1][j + 4], ls[i + 1][j + 3]]
  }

  /** The label positions of a sparse block between strips i and i+1 at
      position j, read directly off the vertex layout. */
  function BlockAt(i: nat, j: nat): seq<nat> {
    [9 * i + j, 9 * i + j + 1, 9 * (i + 1) + j + 1, 9 * (i + 1) + j,
     9 * i + j + 3, 9 * i + j + 4, 9 * (i + 1) + j + 4, 9 * (i + 1) + j + 3]
  }

  /** Strip s holds the labels 9 s … 9 s + 8. */
  predicate StripLabels(ls: seq<seq<nat>>) {
    |ls| >= 7 && forall s :: 0 <= s < 7 ==> ls[s] == Range(9 * s, 9)
  }

  lemma {:induction false} SparseBlockAt(ls: seq<seq<nat>>, i: nat, j: nat)
    requires StripLabels(ls) && i < 6 && (j == 3 || j == 4)
    ensures j + 4 < |ls[i]| && j + 4 < |ls[i + 1]| && SparseBlock(ls, i, j) == BlockAt(i, j)
  {
    assert ls[i] == Range(9 * i, 9);
    assert ls[i + 1] == Range(9 * (i + 1), 9);
    QuadAt(ls[i], ls[i + 1], 9 * i, 9 * (i + 1), j);
  }

  /** The block read off two consecutive runs of labels. */
  lemma QuadAt(a: seq<nat>, b: seq<nat>, x: nat, y: nat, j: nat)
    requires |a| == 9 && |b| == 9 && j + 4 < 9
    requires forall p :: 0 <= p < 9 ==> a[p] == x + p
    requires forall p :: 0 <= p < 9 ==> b[p] == y + p
    ensures [a[j], a[j + 1], b[j + 1], b[j], a[j + 3], a[j + 4], b[j + 4], b[j + 3]] ==
            [x + j, x + j + 1, y + j + 1, y + j, x + j + 3, x + j + 4, y + j + 4, y + j + 3]
  {
  }

  /** The four sparse blocks for i in [0, 5] and j in [3, 4], cut from the
      label lists (the generator passes `LabelsOf(LabelSizes)`, whose strips have
      this shape). */
  function SparseBlocks(ls: seq<seq<nat>>): (r: seq<seq<nat>>)
    requires StripLabels(ls)
    ensures |r| == 4
    ensures r[0] == BlockAt(0, 3) && r[1] == BlockAt(0, 4) && r[2] == BlockAt(5, 3) && r[3] == BlockAt(5, 4)
  {
    SparseBlockAt(ls, 0, 3);
    SparseBlockAt(ls, 0, 4);
    SparseBlockAt(ls, 5, 3);
    SparseBlockAt(ls, 5, 4);
    [SparseBlock(ls, 0, 3), SparseBlock(ls, 0, 4), SparseBlock(ls, 5, 3), SparseBlock(ls, 5, 4)]
  }

  /** Their descriptions `descList[i/5] descList[j-1]`: integer division
      sends i = 0 to "left" and i = 5 to "right". */
  function SparseNames(): (r: seq<string>)
    ensures |r| == 4
    ensures r[0] == DescList[0] + " " + DescList[2] && r[3] == DescList[1] + " " + DescList[3]
  {
    seq(4, q requires 0 <= q < 4 =>
      var i := if q < 2 then 0 else 5;
      var j := 3 + q % 2;
      DescList[i / 5] + " " + DescList[j - 1])
  }

  /** A block at floor-1 position j (x index j - 3 and j - 2) between
      strips i and i+1 stands on the plate and is one cell high. */
  lemma {:induction false} BlockOnPlate(v: seq<Vec3>, g: Geom, i: nat, j: nat)
    requires StripLayout(v, g) && i < 6 && (j == 3 || j == 4)
    ensures OnPlate(v, g.cH, BlockAt(i, j))
  {
    var x := j - 3;
    var b := BlockAt(i, j);
    ColumnOnPlate(v, g, i, x);
    ColumnOnPlate(v, g, i, x + 1);
    ColumnOnPlate(v, g, i + 1, x);
    ColumnOnPlate(v, g, i + 1, x + 1);
    assert b[0] == 9 * i + 3 + x && b[4] == b[0] + 3;
    assert b[1] == 9 * i + 3 + (x + 1) && b[5] == b[1] + 3;
    assert b[2] == 9 * (i + 1) + 3 + (x + 1) && b[6] == b[2] + 3;
    assert b[3] == 9 * (i + 1) + 3 + x && b[7] == b[3] + 3;
  }

  /** The plate vertex of column x of strip s and the vertex one floor up. */
  lemma {:induction false} ColumnOnPlate(v: seq<Vec3>, g: Geom, s: nat, x: nat)
    requires StripLayout(v, g) && s < 7 && x < 3
    ensures 9 * s + 3 + x + 3 < |v|
    ensures v[9 * s + 3 + x].z == 0.0 && v[9 * s + 3 + x + 3] == Shift(v[9 * s + 3 + x], 0.0, 0.0, g.cH)
  {
    VertexAt(v, g, s, 1, x);
    VertexAt(v, g, s, 2, x);
    assert 9 * s + 3 * 1 + x == 9 * s + 3 + x && 9 * s + 3 * 2 + x == 9 * s + 3 + x + 3;
  }

  lemma {:induction false} VertexAt(v: seq<Vec3>, g: Geom, s: nat, f: nat, x: nat)
    requires StripLayout(v, g) && s < 7 && f < 3 && x < 3
    ensures v[9 * s + 3 * f + x] == Vec3(XAt(g, x), StripOffsets(g)[s], FloorZ(g, f))
  {
  }

  /** Every sparse block is a prism standing on the plate: its four bottom
      vertices lie at z = 0 and its top face is the bottom face lifted by
      the cell height (for the generated vertices, see `Vertices`). */
  lemma {:induction false} SparseBlocksOnPlate(v: seq<Vec3>, g: Geom, ls: seq<seq<nat>>)
    requires StripLayout(v, g) && StripLabels(ls)
    ensures forall q :: 0 <= q < |SparseBlocks(ls)| ==> OnPlate(v, g.cH, SparseBlocks(ls)[q])
  {
    SparseFour(v, g);
    FourOnPlate(v, g.cH, SparseBlocks(ls));
  }

  lemma SparseFour(v: seq<Vec3>, g: Geom)
    requires StripLayout(v, g)
    ensures OnPlate(v, g.cH, BlockAt(0, 3)) && OnPlate(v, g.cH, BlockAt(0, 4))
    ensures OnPlate(v, g.cH, BlockAt(5, 3)) && OnPlate(v, g.cH, BlockAt(5, 4))
  {
    BlockOnPlate(v, g, 0, 3);
    BlockOnPlate(v, g, 0, 4);
    BlockOnPlate(v, g, 5, 3);
    BlockOnPlate(v, g, 5, 4);
  }

  lemma FourOnPlate(v: seq<Vec3>, height: real, bs: seq<seq<nat>>)
    requires bs == [BlockAt(0, 3), BlockAt(0, 4), BlockAt(5, 3), BlockAt(5, 4)]
    requires OnPlate(v, height, BlockAt(0, 3)) && OnPlate(v, height, BlockAt(0, 4))
    requires OnPlate(v, height, BlockAt(5, 3)) && OnPlate(v, height, BlockAt(5, 4))
    ensures forall q :: 0 <= q < |bs| ==> OnPlate(v, height, bs[q])
  {
  }
}

=== FILE: mesh_perforated.dfy ===
/** The blockMeshDict generator of the perforated plate: a grid of square
    hole footprints, vertex rows built by appending, seven z levels, label
    ranges per row and layer, the per-direction cell-count vectors, the
    hex blocks and the four arcs around each hole. Numbers of holes are
    inputs (they come from floor of real quotients). */
module MeshPerforated {
  import opened Wrappers
  import opened Geometry
  import opened MeshCommon

  function Last(vert: seq<Vec3>): Vec3
    requires |vert| > 0
  {
    vert[|vert| - 1]
  }

  /** `addHoleX`: from the last vertex, step distHX to the hole's start and
      diamHEff to its end, appending both. */
  function AddHoleX(distHX: real, diamHEff: real, vert: seq<Vec3>): (r: seq<Vec3>)
    requires |vert| > 0
    ensures |r| == |vert| + 2 && r[..|vert|] == vert
    ensures r[|vert|] == Shift(Last(vert), distHX, 0.0, 0.0)
    ensures r[|vert| + 1] == Shift(Last(vert), distHX + diamHEff, 0.0, 0.0)
  {
    var c := Last(vert);
    var start := Vec3(c.x + distHX, c.y, c.z);
    var end := Vec3(start.x + diamHEff, c.y, c.z);
    vert + [start, end]
  }

  /** `for i in range(1, n): addHoleX(...)`, i.e. `n - 1` further holes. */
  function MoreHoles(distHX: real, diamHEff: real, n: nat, vert: seq<Vec3>): (r: seq<Vec3>)
    requires |vert| > 0
    ensures |r| == |vert| + 2 * (if n <= 1 then 0 else n - 1) && r[..|vert|] == vert
    ensures AllAtY(r, |vert|, Last(vert).y) && AllAtZ(r, |vert|, Last(vert).z)
    decreases n
  {
    if n <= 1 then vert
    else
      var v := AddHoleX(distHX, diamHEff, vert);
      var r := MoreHoles(distHX, diamHEff, n - 1, v);
      assert r[..|vert|] == r[..|v|][..|vert|];
      r
  }

  /** One row of vertices at height y: its first vertex at x, half a gap to
      the first hole, the holes, and half a gap past the last one. Both
      the plate-side rows and the two rows `addHolesCol` adds use it. */
  function AddRow(x: real, y: real, z: real, distHX: real, diamHEff: real, nHolesX: nat, vert: seq<Vec3>): (r: seq<Vec3>)
    ensures |r| == |vert| + RowLength(nHolesX) && r[..|vert|] == vert
    ensures r[|vert|] == Vec3(x, y, z)
    ensures AllAtY(r, |vert|, y) && AllAtZ(r, |vert|, z)
  {
    var v1 := vert + [Vec3(x, y, z)];
    var v2 := AddHoleX(distHX / 2.0, diamHEff, v1);
    var v3 := MoreHoles(distHX, diamHEff, nHolesX, v2);
    var r := v3 + [Vec3(Last(v3).x + distHX / 2.0, y, z)];
    PrefixChain(vert, v1, v2);
    PrefixChain(vert, v2, v3);
    PrefixChain(vert, v3, r);
    PrefixChain(v1, v3, r);
    assert r[|vert|] == r[..|v1|][|vert|];
    r
  }

  /** Vertices per row: `2 nHolesX + 2` (a script with no hole still gets
      one hole's worth, since the first `addHoleX` is unconditional). */
  function RowLength(nHolesX: nat): nat {
    2 * (if nHolesX == 0 then 1 else nHolesX) + 2
  }

  /** `addHolesCol`: two rows, at distHY above the last vertex and diamHEff
      higher still, both starting at the first vertex's x. */
  function AddHolesCol(distHX: real, distHY: real, diamHEff: real, nHolesX: nat, vert: seq<Vec3>): (r: seq<Vec3>)
    requires |vert| > 0
    ensures |r| == |vert| + 2 * RowLength(nHolesX) && r[..|vert|] == vert
    ensures r[|vert|] == Vec3(vert[0].x, Last(vert).y + distHY, Last(vert).z)
    ensures r[|vert| + RowLength(nHolesX)] == Vec3(vert[0].x, Last(vert).y + distHY + diamHEff, Last(vert).z)
    ensures AllAtZ(r, |vert|, Last(vert).z)
    ensures Last(r).y == Last(vert).y + distHY + diamHEff
  {
    var c := Last(vert);
    var y1 := c.y + distHY;
    var v1 := AddRow(vert[0].x, y1, c.z, distHX, diamHEff, nHolesX, vert);
    var r := AddRow(vert[0].x, y1 + diamHEff, c.z, distHX, diamHEff, nHolesX, v1);
    assert r[..|vert|] == r[..|v1|][..|vert|];
    assert r[|vert|] == v1[|vert|] by {
      assert r[..|v1|] == v1;
    }
    AllAtZChain(v1, r, |vert|, c.z);
    r
  }

  /** Number of vertices the extra columns add. */
  function ColsLength(w: nat, n: nat): nat
    decreases n
  {
    if n <= 1 then 0 else 2 * w + ColsLength(w, n - 1)
  }

  lemma {:induction false} ColsLengthClosed(w: nat, n: nat)
    ensures ColsLength(w, n) == 2 * w * (if n <= 1 then 0 else n - 1)
    decreases n
  {
    if n > 1 {
      ColsLengthClosed(w, n - 1);
      if n - 1 > 1 {
        assert 2 * w * (n - 1) == 2 * w + 2 * w * (n - 2);
      }
    }
  }

  /** The vertices from index `from` on all lie at height z. */
  predicate AllAtZ(s: seq<Vec3>, from: nat, z: real) {
    forall k :: from <= k < |s| ==> s[k].z == z
  }

  /** The vertices from index `from` on all lie at ordinate y. */
  predicate AllAtY(s: seq<Vec3>, from: nat, y: real) {
    forall k :: from <= k < |s| ==> s[k].y == y
  }

  /** Appending vertices at height z to a list whose tail is at height z. */
  lemma {:induction false} AllAtZChain(a: seq<Vec3>, b: seq<Vec3>, from: nat, z: real)
    requires from <= |a| <= |b| && b[..|a|] == a
    requires AllAtZ(a, from, z) && AllAtZ(b, |a|, z)
    ensures AllAtZ(b, from, z)
  {
    forall k | from <= k < |b|
      ensures b[k].z == z
    {
      if k < |a| {
        assert b[k] == b[..|a|][k];
      }
    }
  }

  /** `for i in range(1, n): addHolesCol(...)` */
  function MoreCols(distHX: real, distHY: real, diamHEff: real, nHolesX: nat, n: nat, vert: seq<Vec3>): (r: seq<Vec3>)
    requires |vert| > 0
    ensures |r| == |vert| + ColsLength(RowLength(nHolesX), n) && r[..|vert|] == vert
    ensures AllAtZ(r, |vert|, Last(vert).z) && Last(r).z == Last(vert).z
    decreases n
  {
    if n <= 1 then vert
    else
      var v := AddHolesCol(distHX, distHY, diamHEff, nHolesX, vert);
      var r := MoreCols(distHX, distHY, diamHEff, nHolesX, n - 1, v);
      assert Last(v).z == Last(vert).z by {
        assert Last(v) == v[|v| - 1];
      }
      PrefixChain(vert, v, r);
      AllAtZChain(v, r, |vert|, Last(vert).z);
      r
  }

  /** The hole columns of one layer: the first `addHolesCol` shifted by
      half the y gap, then `nHolesY - 1` further ones. */
  function HoleColumns(distHX: real, distHY: real, diamHEff: real,
                       nHolesX: nat, nHolesY: nat, vert: seq<Vec3>): (r: seq<Vec3>)
    requires |vert| > 0
    ensures |r| == |vert| + 2 * RowLength(nHolesX) + ColsLength(RowLength(nHolesX), nHolesY)
    ensures r[..|vert|] == vert
    ensures AllAtZ(r, |vert|, Last(vert).z)
  {
    var v := AddHolesCol(distHX, distHY / 2.0, diamHEff, nHolesX, vert);
    var r := MoreCols(distHX, distHY, diamHEff, nHolesX, nHolesY, v);
    AllAtZChain(v, r, |vert|, Last(vert).z);
    PrefixChain(vert, v, r);
    r
  }

  /** Vertices per layer. */
  function LayerSize(nHolesX: nat, nHolesY: nat): nat {
    RowLength(nHolesX) * RowLength(nHolesY)
  }

  /** The holes of one layer: the plate row at y = 0, the hole columns,
      the plate row at y = aG. */
  function AddLayer(z: real, aG: real, distHX: real, distHY: real, diamHEff: real,
                    nHolesX: nat, nHolesY: nat, vert: seq<Vec3>): (r: seq<Vec3>)
    ensures |r| == |vert| + LayerSize(nHolesX, nHolesY) && r[..|vert|] == vert
    ensures AllAtZ(r, |vert|, z)
  {
    var v1 := AddRow(0.0, 0.0, z, distHX, diamHEff, nHolesX, vert);
    var v2 := HoleColumns(distHX, distHY, diamHEff, nHolesX, nHolesY, v1);
    var r := AddRow(0.0, aG, z, distHX, diamHEff, nHolesX, v2);
    assert Last(v1).z == z;
    AllAtZChain(v1, v2, |vert|, z);
    AllAtZChain(v2, r, |vert|, z);
    PrefixChain(vert, v1, v2);
    PrefixChain(vert, v2, r);
    LayerLength(RowLength(nHolesX), nHolesY);
    r
  }

  lemma {:induction false} PrefixChain(a: seq<Vec3>, b: seq<Vec3>, c: seq<Vec3>)
    requires |a| <= |b| <= |c| && b[..|a|] == a && c[..|b|] == b
    ensures c[..|a|] == a
  {
    assert c[..|a|] == c[..|b|][..|a|];
  }

  lemma {:induction false} LayerLength(w: nat, nHolesY: nat)
    ensures w + 2 * w + ColsLength(w, nHolesY) + w == w * RowLength(nHolesY)
  {
    ColsLengthClosed(w, nHolesY);
    var m := if nHolesY == 0 then 1 else nHolesY;
    assert RowLength(nHolesY) == 2 * m + 2;
    assert ColsLength(w, nHolesY) == 2 * w * (m - 1);
    assert w * (2 * m + 2) == 2 * w * m + 2 * w;
    assert 2 * w * (m - 1) == 2 * w * m - 2 * w;
  }

  /** Vertex k lies at the height of layer k / n. */
  predicate Layered(r: seq<Vec3>, zs: seq<real>, n: nat) {
    n > 0 && |r| == |zs| * n && forall k :: 0 <= k < |r| ==> r[k].z == zs[k / n]
  }


  lemma {:induction false} LayeredSnoc(prev: seq<Vec3>, r: seq<Vec3>, zs: seq<real>, n: nat)
    requires |zs| > 0 && Layered(prev, zs[..|zs| - 1], n)
    requires |r| == |prev| + n && r[..|prev|] == prev
    requires AllAtZ(r, |prev|, zs[|zs| - 1])
    ensures Layered(r, zs, n)
  {
    forall k | 0 <= k < |r|
      ensures r[k].z == zs[k / n]
    {
      if k < |prev| {
        assert r[k] == r[..|prev|][k];
        assert k / n < |zs| - 1;
        assert zs[..|zs| - 1][k / n] == zs[k / n];
      } else {
        DivBlock(|zs| - 1, n, k - |prev|);
      }
    }
  }

  /** All layers, bottom to top: the script's `for z in zCoordVec` loop. */
  function AllVertices(zs: seq<real>, aG: real, distHX: real, distHY: real, diamHEff: real,
                       nHolesX: nat, nHolesY: nat): (r: seq<Vec3>)
    ensures Layered(r, zs, LayerSize(nHolesX, nHolesY))
    decreases |zs|
  {
    if |zs| == 0 then []
    else
      var prev := AllVertices(zs[..|zs| - 1], aG, distHX, distHY, diamHEff, nHolesX, nHolesY);
      var r := AddLayer(zs[|zs| - 1], aG, distHX, distHY, diamHEff, nHolesX, nHolesY, prev);
      LayeredSnoc(prev, r, zs, LayerSize(nHolesX, nHolesY));
      r
  }

  /** The vertex-count vector along x (or y): `[nB, nH] * n`, the first
      entry overwritten by the margin count nM and nM appended. With no
      hole the list is empty and the assignment to its first entry fails. */
  function CellsVec(n: nat, nB: nat, nH: nat, nM: nat): (r: Option<seq<nat>>)
    ensures r.Some? <==> n >= 1
    ensures r.Some? ==> |r.value| == 2 * n + 1 && |r.value| == RowLength(n) - 1
    ensures r.Some? ==> r.value[0] == nM && r.value[2 * n] == nM
    ensures r.Some? ==> forall k :: 0 <= k < 2 * n + 1 && k % 2 == 1 ==> r.value[k] == nH
    ensures r.Some? ==> forall k :: 0 < k < 2 * n && k % 2 == 0 ==> r.value[k] == nB
  {
    var pairs := seq(2 * n, k => if k % 2 == 0 then nB else nH);
    if |pairs| == 0 then None
    else Some([nM] + pairs[1..] + [nM])
  }

  /** The x and y cell counts read the same from either end. */
  lemma {:induction false} CellsVecPalindrome(n: nat, nB: nat, nH: nat, nM: nat)
    requires n >= 1
    ensures Palindrome(CellsVec(n, nB, nH, nM).value)
  {
    var v := CellsVec(n, nB, nH, nM).value;
    forall k | 0 <= k < |v|
      ensures v[k] == v[|v| - 1 - k]
    {
      var m := |v| - 1 - k;
      assert k % 2 == m % 2 by {
        assert k + m == 2 * n;
      }
    }
  }

  /** Cells along z: inlet layer, the rest of the dense block (twice as
      many, since the dense block is three inlet heights), the graded
      sparse block, and the same mirrored above the mid-plane. */
  function NCellsZVec(nCellsZ: nat, nCellsZS: nat): (r: seq<nat>)
    ensures |r| == 6 && Palindrome(r)
  {
    [nCellsZ, 2 * nCellsZ, nCellsZS, nCellsZS, 2 * nCellsZ, nCellsZ]
  }

  /** z grading: 1 in the dense blocks, spGrad in the lower sparse block
      and its reciprocal in the upper one, so mirrored blocks undo each
      other's grading. */
  function ZGradVec(spGrad: real): (r: seq<real>)
    requires spGrad != 0.0
    ensures |r| == 6
    ensures forall k :: 0 <= k < 6 ==> r[k] * r[5 - k] == 1.0
    ensures r[2] == spGrad
  {
    [1.0, 1.0, spGrad, 1.0 / spGrad, 1.0, 1.0]
  }

  /** The seven z levels for a plate of full height hGFull (halved in the
      script) and inlet height hI, with the dense block three inlet
      heights thick. */
  function ZCoordVec(hI: real, hGFull: real): (r: seq<real>)
    ensures |r| == 7 && r[0] == 0.0 && r[6] == hGFull && r[3] == hGFull / 2.0
    ensures forall k :: 0 <= k < 7 ==> r[k] + r[6 - k] == hGFull
    ensures 0.0 < 3.0 * hI < hGFull / 2.0 ==> forall k :: 0 <= k < 6 ==> r[k] < r[k + 1]
  {
    var hG := hGFull / 2.0;
    [0.0, hI, 3.0 * hI, hG, 2.0 * hG - 3.0 * hI, 2.0 * hG - hI, 2.0 * hG]
  }

  /** Label rows of layer i: nVertY rows of nVertX consecutive labels. */
  function LayerLabels(i: nat, nVertX: nat, nVertY: nat): seq<seq<nat>>
  {
    Groups(Repeat(nVertY, nVertX), i * (nVertX * nVertY))
  }

  /** `lablsV[i][j] = range(i*nVert + j*nVertX, i*nVert + (j+1)*nVertX)` */
  function LablsV(nLrs: nat, nVertX: nat, nVertY: nat): (r: seq<seq<seq<nat>>>)
    ensures |r| == nLrs
    ensures forall i :: 0 <= i < nLrs ==> |r[i]| == nVertY
    ensures forall i, j :: 0 <= i < nLrs && 0 <= j < nVertY ==>
              r[i][j] == Range(i * (nVertX * nVertY) + j * nVertX, nVertX)
  {
    var r := seq(nLrs, i requires 0 <= i < nLrs => LayerLabels(i, nVertX, nVertY));
    forall i, j | 0 <= i < nLrs && 0 <= j < nVertY
      ensures r[i][j] == Range(i * (nVertX * nVertY) + j * nVertX, nVertX)
    {
      RowLabels(i, j, nVertX, nVertY);
    }
    r
  }


  lemma {:induction false} RowLabels(i: nat, j: nat, nVertX: nat, nVertY: nat)
    requires j < nVertY
    ensures LayerLabels(i, nVertX, nVertY)[j] == Range(i * (nVertX * nVertY) + j * nVertX, nVertX)
  {
    var sizes := Repeat(nVertY, nVertX);
    assert sizes[..j] == Repeat(j, nVertX);
    SumRepeat(j, nVertX);
    assert Groups(sizes, i * (nVertX * nVertY))[j] == Range(i * (nVertX * nVertY) + Sum(sizes[..j]), sizes[j]);
  }

  /** Every label of every row of every layer, in order, is exactly
      0 .. nLrs * nVert - 1: the label grid partitions the vertex list. */
  lemma {:induction false} LablsVPartition(nLrs: nat, nVertX: nat, nVertY: nat)
    ensures Concat(seq(nLrs, i requires 0 <= i < nLrs => Concat(LablsV(nLrs, nVertX, nVertY)[i])))
            == Range(0, nLrs * (nVertX * nVertY))
  {
    var nVert := nVertX * nVertY;
    var ls := LablsV(nLrs, nVertX, nVertY);
    var layers := seq(nLrs, i requires 0 <= i < nLrs => Concat(ls[i]));
    var gs := Groups(Repeat(nLrs, nVert), 0);
    forall i | 0 <= i < nLrs
      ensures layers[i] == gs[i]
    {
      assert ls[i] == LayerLabels(i, nVertX, nVertY);
      GroupsPartition(Repeat(nVertY, nVertX), i * nVert);
      SumRepeat(nVertY, nVertX);
      assert Repeat(nLrs, nVert)[..i] == Repeat(i, nVert);
      SumRepeat(i, nVert);
    }
    assert layers == gs;
    GroupsPartition(Repeat(nLrs, nVert), 0);
    SumRepeat(nLrs, nVert);
  }

  /** The eight corner labels the script writes for the hex between layers
      i and i+1, rows j and j+1, columns k and k+1: the bottom quad
      counter-clockwise, then the same quad one layer up. */
  function HexCorners(ls: seq<seq<seq<nat>>>, i: nat, j: nat, k: nat): seq<nat>
    requires i + 1 < |ls| && j + 1 < |ls[i]| && j + 1 < |ls[i + 1]|
    requires k + 1 < |ls[i][j]| && k + 1 < |ls[i][j + 1]|
    requires k + 1 < |ls[i + 1][j]| && k + 1 < |ls[i + 1][j + 1]|
  {
    [ls[i][j][k], ls[i][j][k + 1], ls[i][j + 1][k + 1], ls[i][j + 1][k],
     ls[i + 1][j][k], ls[i + 1][j][k + 1], ls[i + 1][j + 1][k + 1], ls[i + 1][j + 1][k]]
  }

  /** Bottom quad at label a (a, its x neighbour, the diagonal, the y
      neighbour) and the quad nVert labels higher. */
  predicate IsHexAt(h: seq<nat>, a: nat, nVertX: nat, nVert: nat) {
    |h| == 8 && h[0] == a && h[1] == a + 1 && h[2] == a + nVertX + 1 && h[3] == a + nVertX
    && forall m :: 0 <= m < 4 ==> h[4 + m] == h[m] + nVert
  }


  lemma {:induction false} HexClosedForm(nLrs: nat, nVertX: nat, nVertY: nat, i: nat, j: nat, k: nat)
    requires i + 1 < nLrs && j + 1 < nVertY && k + 1 < nVertX
    ensures IsHexAt(HexCorners(LablsV(nLrs, nVertX, nVertY), i, j, k),
                    i * (nVertX * nVertY) + j * nVertX + k, nVertX, nVertX * nVertY)
  {
    var nVert := nVertX * nVertY;
    var a := i * nVert + j * nVertX;
    NextBases(i, j, nVertX, nVert);
    LablsVAt(nLrs, nVertX, nVertY, i, j, a);
    LablsVAt(nLrs, nVertX, nVertY, i, j + 1, a + nVertX);
    LablsVAt(nLrs, nVertX, nVertY, i + 1, j, a + nVert);
    LablsVAt(nLrs, nVertX, nVertY, i + 1, j + 1, a + nVert + nVertX);
    HexOfRanges(LablsV(nLrs, nVertX, nVertY), i, j, k, a, nVertX, nVert);
  }

  /** Row j of layer i starts at label base. */
  lemma LablsVAt(nLrs: nat, nVertX: nat, nVertY: nat, i: nat, j: nat, base: nat)
    requires i < nLrs && j < nVertY && base == i * (nVertX * nVertY) + j * nVertX
    ensures LablsV(nLrs, nVertX, nVertY)[i][j] == Range(base, nVertX)
  {
  }

  /** The start labels of the next row and the next layer. */
  lemma NextBases(i: nat, j: nat, nVertX: nat, nVert: nat)
    ensures i * nVert + (j + 1) * nVertX == i * nVert + j * nVertX + nVertX
    ensures (i + 1) * nVert + j * nVertX == i * nVert + j * nVertX + nVert
    ensures (i + 1) * nVert + (j + 1) * nVertX == i * nVert + j * nVertX + nVert + nVertX
  {
  }

  /** The hex step over rows already known to be consecutive ranges. */
  lemma HexOfRanges(ls: seq<seq<seq<nat>>>, i: nat, j: nat, k: nat, a: nat, nVertX: nat, nVert: nat)
    requires i + 1 < |ls| && j + 1 < |ls[i]| && j + 1 < |ls[i + 1]| && k + 1 < nVertX
    requires ls[i][j] == Range(a, nVertX)
    requires ls[i][j + 1] == Range(a + nVertX, nVertX)
    requires ls[i + 1][j] == Range(a + nVert, nVertX)
    requires ls[i + 1][j + 1] == Range(a + nVert + nVertX, nVertX)
    ensures IsHexAt(HexCorners(ls, i, j, k), a + k, nVertX, nVert)
  {
  }

  datatype Hex = Hex(corners: seq<nat>, cellsX: nat, cellsY: nat, cellsZ: nat, zGrading: real)

  /** One hex of the `blocks` section: the corners of layer i, row j,
      column k, with the matching entries of the cell-count and grading
      vectors. */
  function BlockAt(nLrs: nat, nVertX: nat, nVertY: nat, xVec: seq<nat>, yVec: seq<nat>,
                   zVec: seq<nat>, zGrad: seq<real>, i: nat, j: nat, k: nat): (h: Hex)
    requires i + 1 < nLrs && i < |zVec| && i < |zGrad|
    requires j < |yVec| < nVertY && k < |xVec| < nVertX
    ensures IsHexAt(h.corners, i * (nVertX * nVertY) + j * nVertX + k, nVertX, nVertX * nVertY)
    ensures h.cellsX == xVec[k] && h.cellsY == yVec[j] && h.cellsZ == zVec[i] && h.zGrading == zGrad[i]
  {
    HexClosedForm(nLrs, nVertX, nVertY, i, j, k);
    Hex(HexCorners(LablsV(nLrs, nVertX, nVertY), i, j, k), xVec[k], yVec[j], zVec[i], zGrad[i])
  }

  /** The `blocks` section: layers, then rows, then columns. */
  function Blocks(nLrs: nat, nVertX: nat, nVertY: nat, xVec: seq<nat>, yVec: seq<nat>,
                  zVec: seq<nat>, zGrad: seq<real>): (r: seq<seq<seq<Hex>>>)
    requires nLrs >= 1 && |zVec| >= nLrs - 1 && |zGrad| >= nLrs - 1
    requires |xVec| < nVertX && |yVec| < nVertY
    ensures |r| == nLrs - 1
    ensures forall i :: 0 <= i < |r| ==> |r[i]| == |yVec|
    ensures forall i, j :: 0 <= i < |r| && 0 <= j < |yVec| ==> |r[i][j]| == |xVec|
    ensures forall i, j, k :: 0 <= i < |r| && 0 <= j < |yVec| && 0 <= k < |xVec| ==>
              r[i][j][k] == BlockAt(nLrs, nVertX, nVertY, xVec, yVec, zVec, zGrad, i, j, k)
  {
    seq(nLrs - 1, i requires 0 <= i < nLrs - 1 =>
      seq(|yVec|, j requires 0 <= j < |yVec| =>
        seq(|xVec|, k requires 0 <= k < |xVec| =>
          BlockAt(nLrs, nVertX, nVertY, xVec, yVec, zVec, zGrad, i, j, k))))
  }

  /** `(nLrs - 1) * (nVertY - 1) * (nVertX - 1)` hexes are written. */
  lemma {:induction false} BlockCount(nHolesX: nat, nHolesY: nat, nLrs: nat, nB: nat, nH: nat, nM: nat,
                                      zVec: seq<nat>, zGrad: seq<real>)
    requires nHolesX >= 1 && nHolesY >= 1 && nLrs >= 1
    requires |zVec| >= nLrs - 1 && |zGrad| >= nLrs - 1
    ensures var nVertX := RowLength(nHolesX);
            var nVertY := RowLength(nHolesY);
            var xVec := CellsVec(nHolesX, nB, nH, nM).value;
            var yVec := CellsVec(nHolesY, nB, nH, nM).value;
            |Flatten(Flatten(Blocks(nLrs, nVertX, nVertY, xVec, yVec, zVec, zGrad)))|
              == (nLrs - 1) * ((nVertY - 1) * (nVertX - 1))
  {
    var nVertX := RowLength(nHolesX);
    var nVertY := RowLength(nHolesY);
    var xVec := CellsVec(nHolesX, nB, nH, nM).value;
    var yVec := CellsVec(nHolesY, nB, nH, nM).value;
    var b := Blocks(nLrs, nVertX, nVertY, xVec, yVec, zVec, zGrad);
    var layers := seq(|b|, i requires 0 <= i < |b| => Flatten(b[i]));
    forall i | 0 <= i < |b|
      ensures |layers[i]| == |yVec| * |xVec|
    {
      FlattenUniform(b[i], |xVec|);
    }
    FlattenFlatten(b);
    FlattenUniform(layers, |yVec| * |xVec|);
  }

  /** An `arc` edge from vertex `from` to vertex `to` through `via`. */
  datatype Arc = Arc(from: nat, to: nat, via: Vec3)

  /** Squared distance in the x-y plane. */
  function Dist2(p: Vec3, q: Vec3): real {
    (p.x - q.x) * (p.x - q.x) + (p.y - q.y) * (p.y - q.y)
  }

  /** Centre of the hole whose square footprint has vertex i as its lower
      left corner. */
  function HoleCentre(c: Vec3, diamHEff: real): Vec3 {
    Vec3(c.x + diamHEff / 2.0, c.y + diamHEff / 2.0, c.z)
  }

  /** `writeArcs`: the four arcs round the hole whose footprint has
      corners i, i+1 (one row) and j, j+1 (the next row). */
  function WriteArcs(i: nat, j: nat, diamH: real, diamHEff: real, vert: seq<Vec3>): (r: seq<Arc>)
    requires i < |vert|
    ensures |r| == 4 && r[0].from == i && r[2].from == j + 1
    ensures forall k :: 0 <= k < 4 ==> r[k].to == r[(k + 1) % 4].from
    ensures var o := HoleCentre(vert[i], diamHEff);
            r[0].via == Shift(o, 0.0, -diamH / 2.0, 0.0) && r[1].via == Shift(o, diamH / 2.0, 0.0, 0.0)
            && r[2].via == Shift(o, 0.0, diamH / 2.0, 0.0) && r[3].via == Shift(o, -diamH / 2.0, 0.0, 0.0)
  {
    var c := vert[i];
    var r := [Arc(i, i + 1, Vec3(c.x + diamHEff / 2.0, c.y - (diamH - diamHEff) / 2.0, c.z)),
              Arc(i + 1, j + 1, Vec3(c.x + (diamH + diamHEff) / 2.0, c.y + diamHEff / 2.0, c.z)),
              Arc(j + 1, j, Vec3(c.x + diamHEff / 2.0, c.y + (diamH + diamHEff) / 2.0, c.z)),
              Arc(j, i, Vec3(c.x - (diamH - diamHEff) / 2.0, c.y + diamHEff / 2.0, c.z))];
    forall k | 0 <= k < 4
      ensures r[k].to == r[(k + 1) % 4].from
    {
      if k == 3 {
        assert (k + 1) % 4 == 0;
      }
    }
    assert (diamH - diamHEff) / 2.0 == diamH / 2.0 - diamHEff / 2.0;
    assert (diamH + diamHEff) / 2.0 == diamH / 2.0 + diamHEff / 2.0;
    r
  }

  /** Every arc passes through a point of the hole's circle of diameter
      diamH, at the same height as the footprint. */
  lemma {:induction false} ArcsOnHoleCircle(i: nat, j: nat, diamH: real, diamHEff: real, vert: seq<Vec3>)
    requires i < |vert|
    ensures forall k :: 0 <= k < 4 ==>
              Dist2(WriteArcs(i, j, diamH, diamHEff, vert)[k].via, HoleCentre(vert[i], diamHEff))
                == (diamH / 2.0) * (diamH / 2.0)
              && WriteArcs(i, j, diamH, diamHEff, vert)[k].via.z == vert[i].z
  {
    var r := WriteArcs(i, j, diamH, diamHEff, vert);
    var o := HoleCentre(vert[i], diamHEff);
    var h := diamH / 2.0;
    assert o.z == vert[i].z;
    NegSquare(h);
    forall k | 0 <= k < 4
      ensures Dist2(r[k].via, o) == h * h && r[k].via.z == o.z
    {
      if k == 0 {
        AxisOffset(r[0].via, o, 0.0, -h);
      } else if k == 1 {
        AxisOffset(r[1].via, o, h, 0.0);
      } else if k == 2 {
        AxisOffset(r[2].via, o, 0.0, h);
      } else {
        AxisOffset(r[3].via, o, -h, 0.0);
      }
    }
  }

  lemma {:induction false} NegSquare(h: real)
    ensures (-h) * (-h) == h * h && 0.0 * 0.0 + h * h == h * h && h * h + 0.0 * 0.0 == h * h
  {
  }

  lemma {:induction false} AxisOffset(p: Vec3, o: Vec3, dx: real, dy: real)
    requires p == Shift(o, dx, dy, 0.0)
    ensures Dist2(p, o) == dx * dx + dy * dy && p.z == o.z
  {
  }

  /** With diamHEff = diamH * sqrt(2) / 2 (so 2 diamHEff^2 = diamH^2), the
      corners of the square footprint lie on the same circle as the arc
      points: the arcs round the square off into the hole of diameter
      diamH. */
  lemma {:induction false} FootprintOnHoleCircle(c: Vec3, diamH: real, diamHEff: real)
    requires 2.0 * diamHEff * diamHEff == diamH * diamH
    ensures var o := HoleCentre(c, diamHEff);
            var r2 := (diamH / 2.0) * (diamH / 2.0);
            Dist2(c, o) == r2 && Dist2(Shift(c, diamHEff, 0.0, 0.0), o) == r2
            && Dist2(Shift(c, 0.0, diamHEff, 0.0), o) == r2
            && Dist2(Shift(c, diamHEff, diamHEff, 0.0), o) == r2
  {
  }
}

=== FILE: mesh_textured.dfy ===
/** The blockMeshDict generator of the transversally textured plate: a
    stack of rectangles at four heights, three hexes on top of each other,
    the texture as two polyLine edges, and the inlet/outlet patch faces. */
module MeshTextured {
  import opened Geometry
  import opened MeshCommon

  /** The four z levels: plate, inlet top, dense-block top (three inlet
      heights), domain top. */
  function ZCoordVec(hI: real, hG: real): (r: seq<real>)
    ensures |r| == 4 && r[0] == 0.0 && r[1] == hI && r[2] == 3.0 * r[1] && r[3] == hG
    ensures 0.0 < 3.0 * hI < hG ==> forall k :: 0 <= k < 3 ==> r[k] < r[k + 1]
  {
    [0.0, hI, 3.0 * hI, hG]
  }

  /** Corner m of the plate rectangle: (0,0), (lG,0), (lG,aG), (0,aG). */
  function Corner(lG: real, aG: real, m: nat, z: real): Vec3 {
    Vec3(if m == 1 || m == 2 then lG else 0.0, if m >= 2 then aG else 0.0, z)
  }

  /** `for zCoord in zCoordVec`: four corners per level. */
  function Vertices(lG: real, aG: real, zs: seq<real>): (r: seq<Vec3>)
    ensures |r| == 4 * |zs|
    ensures forall k :: 0 <= k < |r| ==> r[k] == Corner(lG, aG, k % 4, zs[k / 4])
  {
    var levels := seq(|zs|, i requires 0 <= i < |zs| =>
                    [Corner(lG, aG, 0, zs[i]), Corner(lG, aG, 1, zs[i]),
                     Corner(lG, aG, 2, zs[i]), Corner(lG, aG, 3, zs[i])]);
    FlattenUniform(levels, 4);
    var r := Flatten(levels);
    forall k | 0 <= k < |r|
      ensures r[k] == Corner(lG, aG, k % 4, zs[k / 4])
    {
      FlattenIndex(levels, 4, k / 4, k % 4);
    }
    r
  }

  /** `lablsV[i] = range(4 i, 4 i + 4)` */
  function LablsV(nLrs: nat): (r: seq<seq<nat>>)
    ensures |r| == nLrs && forall i :: 0 <= i < nLrs ==> r[i] == Range(4 * i, 4)
  {
    var r := Groups(Repeat(nLrs, 4), 0);
    forall i | 0 <= i < nLrs
      ensures r[i] == Range(4 * i, 4)
    {
      assert Repeat(nLrs, 4)[..i] == Repeat(i, 4);
      SumRepeat(i, 4);
    }
    r
  }

  /** The label rows partition the labels of all levels. */
  lemma {:induction false} LablsVPartition(nLrs: nat)
    ensures Concat(LablsV(nLrs)) == Range(0, 4 * nLrs)
  {
    GroupsPartition(Repeat(nLrs, 4), 0);
    SumRepeat(nLrs, 4);
  }

  datatype StackHex = StackHex(corners: seq<nat>, cellsX: nat, cellsY: nat, cellsZ: nat, zGrading: real)

  /** z cells: the inlet layer, twice that for the rest of the dense
      block, the graded sparse block. */
  function NCellsZVec(nCellsZ: nat, nCellsZS: nat): (r: seq<nat>)
    ensures |r| == 3 && r[1] == 2 * r[0] && r[2] == nCellsZS
  {
    [nCellsZ, 2 * nCellsZ, nCellsZS]
  }

  /** z grading: uniform in the dense block, spGrad in the sparse one. */
  function ZGradVec(spGrad: real): (r: seq<real>)
    ensures |r| == 3 && r[0] == r[1] == 1.0 && r[2] == spGrad
  {
    [1.0, 1.0, spGrad]
  }

  /** One hex per pair of neighbouring levels, `lablsV[i] + lablsV[i+1]`:
      the eight consecutive labels from 4 i. */
  function Blocks(nLrs: nat, nCellsX: nat, nCellsY: nat, zVec: seq<nat>, zGrad: seq<real>): (r: seq<StackHex>)
    requires nLrs >= 1 && |zVec| >= nLrs - 1 && |zGrad| >= nLrs - 1
    ensures |r| == nLrs - 1
    ensures forall i :: 0 <= i < |r| ==>
              r[i].corners == Range(4 * i, 8) && r[i].cellsX == nCellsX && r[i].cellsY == nCellsY
              && r[i].cellsZ == zVec[i] && r[i].zGrading == zGrad[i]
  {
    BlocksOf(LablsV(nLrs), nCellsX, nCellsY, zVec, zGrad)
  }

  /** The hexes over label rows of the shape `LablsV` builds. */
  function BlocksOf(ls: seq<seq<nat>>, nCellsX: nat, nCellsY: nat, zVec: seq<nat>, zGrad: seq<real>): (r: seq<StackHex>)
    requires |ls| >= 1 && |zVec| >= |ls| - 1 && |zGrad| >= |ls| - 1
    requires forall i :: 0 <= i < |ls| ==> ls[i] == Range(4 * i, 4)
    ensures |r| == |ls| - 1
    ensures forall i :: 0 <= i < |r| ==>
              r[i].corners == Range(4 * i, 8) && r[i].cellsX == nCellsX && r[i].cellsY == nCellsY
              && r[i].cellsZ == zVec[i] && r[i].zGrading == zGrad[i]
  {
    var n := |ls| - 1;
    var r := seq(n, i requires 0 <= i < n => StackHex(ls[i] + ls[i + 1], nCellsX, nCellsY, zVec[i], zGrad[i]));
    forall i | 0 <= i < n
      ensures r[i].corners == Range(4 * i, 8)
    {
      HexLabels(ls[i], ls[i + 1], i);
    }
    r
  }

  lemma {:induction false} HexLabels(lo: seq<nat>, hi: seq<nat>, i: nat)
    requires lo == Range(4 * i, 4) && hi == Range(4 * (i + 1), 4)
    ensures lo + hi == Range(4 * i, 8)
  {
    assert hi == Range(4 * i + 4, 4);
    RangeSplit(4 * i, 4, 4);
  }

  /** Each hex spans two consecutive levels: its upper four corners are
      its lower four one level up. */
  lemma {:induction false} BlocksStack(v: seq<Vec3>, h: seq<nat>, lG: real, aG: real, zs: seq<real>, i: nat)
    requires |zs| >= 1 && i + 1 < |zs|
    requires v == Vertices(lG, aG, zs) && h == Range(4 * i, 8)
    ensures forall m :: 0 <= m < 4 ==> v[h[m]] == Corner(lG, aG, m, zs[i])
    ensures forall m :: 4 <= m < 8 ==> v[h[m]] == Corner(lG, aG, m - 4, zs[i + 1])
  {
    forall m | 0 <= m < 4
      ensures v[h[m]] == Corner(lG, aG, m, zs[i])
    {
      DivBlock(i, 4, m);
      assert h[m] == 4 * i + m;
    }
    forall m | 4 <= m < 8
      ensures v[h[m]] == Corner(lG, aG, m - 4, zs[i + 1])
    {
      DivBlock(i + 1, 4, m - 4);
      assert h[m] == 4 * (i + 1) + (m - 4);
    }
  }

  /** A texture peak, half an element into element j, at height hT. */
  function Peak(lT: real, hT: real, y: real, j: nat): Vec3 {
    Vec3(j as real * lT + lT / 2.0, y, hT)
  }

  /** The boundary between elements j - 1 and j, on the plate. */
  function Valley(lT: real, y: real, j: nat): Vec3 {
    Vec3(j as real * lT, y, 0.0)
  }

  /** The polyLine points along the plate edge at ordinate y for n
      texture elements: the first peak, then for j = 1 .. n-1 a valley
      and a peak, so peaks and valleys alternate. */
  function PolyLine(lT: real, hT: real, y: real, n: nat): (r: seq<Vec3>)
    ensures |r| == 1 + 2 * (if n == 0 then 0 else n - 1)
    ensures forall k :: 0 <= k < |r| ==>
              r[k] == if k % 2 == 0 then Peak(lT, hT, y, k / 2) else Valley(lT, y, (k + 1) / 2)
    decreases n
  {
    if n <= 1 then [Peak(lT, hT, y, 0)]
    else
      var prev := PolyLine(lT, hT, y, n - 1);
      prev + [Valley(lT, y, n - 1), Peak(lT, hT, y, n - 1)]
  }

  /** The `3 2` polyLine is the `0 1` one moved to the far edge y = aG. */
  lemma {:induction false} PolyLinesParallel(lT: real, hT: real, aG: real, n: nat)
    ensures |PolyLine(lT, hT, aG, n)| == |PolyLine(lT, hT, 0.0, n)|
    ensures forall k :: 0 <= k < |PolyLine(lT, hT, aG, n)| ==>
              PolyLine(lT, hT, aG, n)[k] == PolyLine(lT, hT, 0.0, n)[k].(y := aG)
  {
  }

  /** The quad of level i's x = 0 edge and level i+1's. */
  function FrontFace(ls: seq<seq<nat>>, i: nat): seq<nat>
    requires i + 1 < |ls| && |ls[i]| == 4 && |ls[i + 1]| == 4
  {
    [ls[i][0], ls[i + 1][0], ls[i + 1][3], ls[i][3]]
  }

  /** The x = 0 quad between levels i and i+1. */
  function FrontQuad(i: nat): seq<nat> {
    [4 * i, 4 * i + 4, 4 * i + 7, 4 * i + 3]
  }

  /** `inlet` uses levels 0-1; `overInlet` the level pairs above, up to
      the top: together they are the front quads of every level pair. */
  function InletFaces(nLrs: nat): (r: (seq<seq<nat>>, seq<seq<nat>>))
    requires nLrs >= 2
    ensures |r.0| == 1 && |r.0 + r.1| == nLrs - 1
    ensures forall i :: 0 <= i < nLrs - 1 ==> (r.0 + r.1)[i] == FrontQuad(i)
  {
    InletFacesOf(LablsV(nLrs))
  }

  /** The two patches over label rows of the shape `LablsV` builds. */
  function InletFacesOf(ls: seq<seq<nat>>): (r: (seq<seq<nat>>, seq<seq<nat>>))
    requires |ls| >= 2
    requires forall i :: 0 <= i < |ls| ==> ls[i] == Range(4 * i, 4)
    ensures |r.0| == 1 && |r.0 + r.1| == |ls| - 1
    ensures forall i :: 0 <= i < |ls| - 1 ==> (r.0 + r.1)[i] == FrontQuad(i)
  {
    var n := |ls|;
    forall i | 0 <= i < n
      ensures |ls[i]| == 4
    {
      assert ls[i] == Range(4 * i, 4);
    }
    var inlet := [FrontFace(ls, 0)];
    var over := seq(n - 2, i requires 0 <= i < n - 2 => FrontFace(ls, i + 1));
    forall i | 0 <= i < n - 1
      ensures (inlet + over)[i] == FrontQuad(i)
    {
      FrontFaceIs(ls, i);
      if i > 0 {
        assert (inlet + over)[i] == over[i - 1];
      }
    }
    (inlet, over)
  }

  lemma {:induction false} FrontFaceIs(ls: seq<seq<nat>>, i: nat)
    requires i + 1 < |ls| && ls[i] == Range(4 * i, 4) && ls[i + 1] == Range(4 * (i + 1), 4)
    ensures FrontFace(ls, i) == FrontQuad(i)
  {
    assert ls[i + 1] == Range(4 * i + 4, 4);
  }

  /** Together the two patches cover the whole x = 0 side of the stack,
      each quad between two neighbouring levels. */
  lemma {:induction false} InletFacesAtFront(lG: real, aG: real, zs: seq<real>, i: nat, m: nat)
    requires |zs| >= 2 && i + 1 < |zs| && m < 4
    ensures var f := InletFaces(|zs|);
            var q := (f.0 + f.1)[i];
            Vertices(lG, aG, zs)[q[m]].x == 0.0
  {
    var q := (InletFaces(|zs|).0 + InletFaces(|zs|).1)[i];
    assert q == FrontQuad(i);
    var c := if m == 0 then 0 else if m == 1 then 4 else if m == 2 then 7 else 3;
    assert q[m] == 4 * i + c;
    if c < 4 {
      DivBlock(i, 4, c);
    } else {
      DivBlock(i + 1, 4, c - 4);
    }
  }
}

=== FILE: patch.dfy ===
/** The template-patching idiom every case constructor repeats: read a file
    into a list of lines, walk the lines, and where a marker string occurs,
    keep the text before the marker, write the marker back and replace the
    rest of the line by separator + value + terminator. A file is a sequence
    of lines, each line carrying its own trailing newline. */
module Patch {
  import opened Text
  import opened Wrappers

  type Lines = seq<string>

  /** One step of the patch loop on one line. `tail` is the separator, the
      rendered value and the terminator, already concatenated. */
  function PatchLine(line: string, marker: string, tail: string): (r: string)
    ensures !Contains(line, marker) ==> r == line
    ensures Contains(line, marker) ==>
              var f := Find(line, marker);
              |r| == f + |marker| + |tail| && r[..f] == line[..f] &&
              r[f..] == marker + tail && Find(r, marker) == f
  {
    var f := Find(line, marker);
    if f < 0 then line
    else
      var r := line[..f] + marker + tail;
      FirstOccurrenceKept(line, marker, tail, f);
      r
  }

  /** Patching does not move the marker: everything up to the end of its
      first occurrence is copied, so that occurrence is still the first. */
  lemma {:induction false} FirstOccurrenceKept(line: string, marker: string, tail: string, f: int)
    requires f == Find(line, marker) && f >= 0
    ensures Find(line[..f] + marker + tail, marker) == f
  {
    var r := line[..f] + marker + tail;
    assert r[..f + |marker|] == line[..f + |marker|] by {
      assert line[f..f + |marker|] == marker;
      assert line[..f + |marker|] == line[..f] + line[f..f + |marker|];
    }
    assert OccursAt(r, marker, f);
    forall j | 0 <= j < f
      ensures !OccursAt(r, marker, j)
    {
      assert !OccursAt(line, marker, j);
      forall k | j <= k < j + |marker|
        ensures r[k] == line[k]
      {
        assert r[k] == r[..f + |marker|][k];
        assert line[k] == line[..f + |marker|][k];
      }
      assert r[j..j + |marker|] == line[j..j + |marker|];
    }
  }

  /** Patching a line twice with the same marker and tail is patching it once. */
  lemma {:induction false} PatchLineIdempotent(line: string, marker: string, tail: string)
    ensures PatchLine(PatchLine(line, marker, tail), marker, tail) == PatchLine(line, marker, tail)
  {
    var r := PatchLine(line, marker, tail);
    if Contains(line, marker) {
      var f := Find(line, marker);
      assert r == r[..f] + r[f..];
      assert Contains(r, marker);
    }
  }

  /** A line that starts with the marker becomes exactly marker + tail
      (the `find(..) == 0` variant of the loop). */
  lemma {:induction false} PatchLineAtColumn0(line: string, marker: string, tail: string)
    requires StartsWith(line, marker)
    ensures PatchLine(line, marker, tail) == marker + tail
  {
    FindZeroIffStartsWith(line, marker);
  }

  /** `after` is `before` with every line holding `marker` rewritten to the
      text before the marker's first occurrence, the marker and `tail`, and
      every other line kept. */
  predicate SinglePatched(before: Lines, after: Lines, marker: string, tail: string) {
    |after| == |before| &&
    forall i :: 0 <= i < |before| ==>
      after[i] == if Contains(before[i], marker)
                  then before[i][..Find(before[i], marker)] + marker + tail
                  else before[i]
  }

  /** The patch loop for one marker over a whole file. */
  function PatchAll(lines: Lines, marker: string, tail: string): (r: Lines)
    ensures |r| == |lines|
    ensures forall i :: 0 <= i < |lines| ==> r[i] == PatchLine(lines[i], marker, tail)
    ensures SinglePatched(lines, r, marker, tail)
  {
    seq(|lines|, i requires 0 <= i < |lines| => PatchLine(lines[i], marker, tail))
  }

  /** Running the same patch on an already patched file changes nothing. */
  lemma {:induction false} PatchAllIdempotent(lines: Lines, marker: string, tail: string)
    ensures PatchAll(PatchAll(lines, marker, tail), marker, tail) == PatchAll(lines, marker, tail)
  {
    var once := PatchAll(lines, marker, tail);
    var twice := PatchAll(once, marker, tail);
    forall i | 0 <= i < |lines|
      ensures twice[i] == once[i]
    {
      PatchLineIdempotent(lines[i], marker, tail);
    }
  }

  /** A marker and the text written after it. */
  datatype Edit = Edit(marker: string, tail: string)

  /** The `for j in markers: for i in lines:` double loop: the markers are
      applied one after the other, each over the file as left by the one
      before. A line mentioning none of the markers comes out unchanged. */
  function PatchEach(lines: Lines, edits: seq<Edit>): (r: Lines)
    ensures |r| == |lines|
    ensures forall i :: 0 <= i < |lines| && Unmarked(lines[i], edits) ==> r[i] == lines[i]
    decreases |edits|
  {
    if |edits| == 0 then lines
    else
      var next := PatchAll(lines, edits[0].marker, edits[0].tail);
      assert forall i :: 0 <= i < |lines| && Unmarked(lines[i], edits) ==>
               next[i] == lines[i] && Unmarked(next[i], edits[1..]);
      PatchEach(next, edits[1..])
  }

  /** A line that holds none of the markers before the k-th, and whose
      form after the k-th edit holds none of the later markers, ends up as
      the k-th edit alone leaves it (unchanged when it lacks that marker
      too). */
  lemma {:induction false} PatchEachOnlyMarker(lines: Lines, edits: seq<Edit>, i: int, k: int)
    requires 0 <= i < |lines| && 0 <= k < |edits|
    requires Unmarked(lines[i], edits[..k])
    requires Unmarked(PatchLine(lines[i], edits[k].marker, edits[k].tail), edits[k + 1..])
    ensures PatchEach(lines, edits)[i] == PatchLine(lines[i], edits[k].marker, edits[k].tail)
    decreases |edits|
  {
    var next := PatchAll(lines, edits[0].marker, edits[0].tail);
    assert PatchEach(lines, edits) == PatchEach(next, edits[1..]);
    if k == 0 {
      assert edits[1..] == edits[k + 1..];
    } else {
      assert !Contains(lines[i], edits[..k][0].marker);
      assert next[i] == lines[i];
      EditsShift(edits, k);
      PatchEachOnlyMarker(next, edits[1..], i, k - 1);
    }
  }

  /** Dropping the first edit shifts every later edit down by one. */
  lemma EditsShift(edits: seq<Edit>, k: int)
    requires 0 < k < |edits|
    ensures edits[1..][..k - 1] == edits[..k][1..]
    ensures edits[1..][k - 1] == edits[k]
    ensures edits[1..][k - 1 + 1..] == edits[k + 1..]
  {
  }

  /** Edit `k` decides `line`: no earlier marker occurs in it, and once
      edit `k` has run, no later marker does. */
  predicate DecidedBy(line: string, edits: seq<Edit>, k: int)
    requires 0 <= k < |edits|
  {
    Unmarked(line, edits[..k]) && Unmarked(PatchLine(line, edits[k].marker, edits[k].tail), edits[k + 1..])
  }

  /** `after` is `before` with every line that some edit decides rewritten
      by that edit alone: the value written is the one paired with the
      marker the line holds. */
  predicate PatchedAsEach(before: Lines, after: Lines, edits: seq<Edit>) {
    |after| == |before| &&
    forall i, k :: 0 <= i < |before| && 0 <= k < |edits| && DecidedBy(before[i], edits, k) ==>
      after[i] == PatchLine(before[i], edits[k].marker, edits[k].tail)
  }

  /** A line holding only marker k keeps its text before that marker,
      which then carries marker k's value. */
  lemma {:induction false} PatchEachKeepsPrefix(lines: Lines, edits: seq<Edit>, i: int, k: int)
    requires 0 <= i < |lines| && 0 <= k < |edits|
    requires Find(lines[i], edits[k].marker) >= 0 && Unmarked(lines[i], edits[..k])
    requires Unmarked(lines[i][..Find(lines[i], edits[k].marker)] + edits[k].marker + edits[k].tail, edits[k + 1..])
    ensures PatchEach(lines, edits)[i] ==
              lines[i][..Find(lines[i], edits[k].marker)] + edits[k].marker + edits[k].tail
  {
    var p := PatchLine(lines[i], edits[k].marker, edits[k].tail);
    var f := Find(lines[i], edits[k].marker);
    assert p == p[..f] + p[f..];
    PatchEachOnlyMarker(lines, edits, i, k);
  }

  /** The marker loop writes, on each decided line, its own marker's value. */
  lemma {:induction false} PatchEachValues(lines: Lines, edits: seq<Edit>)
    ensures PatchedAsEach(lines, PatchEach(lines, edits), edits)
  {
    forall i, k | 0 <= i < |lines| && 0 <= k < |edits| && DecidedBy(lines[i], edits, k)
      ensures PatchEach(lines, edits)[i] == PatchLine(lines[i], edits[k].marker, edits[k].tail)
    {
      PatchEachOnlyMarker(lines, edits, i, k);
    }
  }

  /** No marker of `edits` occurs in `line`. */
  predicate Unmarked(line: string, edits: seq<Edit>) {
    forall k :: 0 <= k < |edits| ==> !Contains(line, edits[k].marker)
  }

  /** Number of lines that contain `marker`. */
  function CountMatches(lines: Lines, marker: string): nat
  {
    if |lines| == 0 then 0
    else CountMatches(lines[..|lines| - 1], marker) + (if Contains(lines[|lines| - 1], marker) then 1 else 0)
  }

  /** The occurrence-indexed loop (transportProperties, surfaceFilmProperties):
      a counter starts at 0 for each marker; the k-th line (from the top)
      holding the marker gets `vals[k]`. More matching lines than values is
      the source's IndexError, modelled as `None`. */
  function PatchIndexed(lines: Lines, marker: string, sep: string, vals: seq<string>, term: string): (r: Option<Lines>)
    ensures r.None? <==> CountMatches(lines, marker) > |vals|
    ensures r.Some? ==> |r.value| == |lines|
    ensures r.Some? ==> forall i :: 0 <= i < |lines| && !Contains(lines[i], marker) ==> r.value[i] == lines[i]
    ensures r.Some? ==> forall i :: 0 <= i < |lines| && Contains(lines[i], marker) ==>
              CountMatches(lines[..i], marker) < |vals| &&
              r.value[i] == PatchLine(lines[i], marker, sep + vals[CountMatches(lines[..i], marker)] + term)
    decreases |lines|
  {
    if |lines| == 0 then Some([])
    else
      var n := |lines| - 1;
      var prev := PatchIndexed(lines[..n], marker, sep, vals, term);
      var r := IndexedNext(lines[n], CountMatches(lines[..n], marker), marker, sep, vals, term, prev);
      IndexedStep(lines, marker, sep, vals, term, prev);
      r
  }

  /** The contract of `PatchIndexed`, as one predicate for the step lemma. */
  predicate IndexedSpec(lines: Lines, marker: string, sep: string, vals: seq<string>, term: string, r: Option<Lines>) {
    (r.None? <==> CountMatches(lines, marker) > |vals|) &&
    (r.Some? ==>
       |r.value| == |lines| &&
       (forall i :: 0 <= i < |lines| && !Contains(lines[i], marker) ==> r.value[i] == lines[i]) &&
       (forall i :: 0 <= i < |lines| && Contains(lines[i], marker) ==>
          CountMatches(lines[..i], marker) < |vals| &&
          r.value[i] == PatchLine(lines[i], marker, sep + vals[CountMatches(lines[..i], marker)] + term)))
  }

  /** One more line, `k` markers having been seen above it. */
  function IndexedNext(last: string, k: nat, marker: string, sep: string, vals: seq<string>, term: string,
                       prev: Option<Lines>): Option<Lines>
  {
    match prev
    case None => None
    case Some(done) =>
      if !Contains(last, marker) then Some(done + [last])
      else if k < |vals| then Some(done + [PatchLine(last, marker, sep + vals[k] + term)])
      else None
  }

  lemma {:induction false} IndexedStep(lines: Lines, marker: string, sep: string, vals: seq<string>, term: string, prev: Option<Lines>)
    requires |lines| > 0
    requires IndexedSpec(lines[..|lines| - 1], marker, sep, vals, term, prev)
    ensures IndexedSpec(lines, marker, sep, vals, term,
                        IndexedNext(lines[|lines| - 1], CountMatches(lines[..|lines| - 1], marker), marker, sep, vals, term, prev))
  {
    var n := |lines| - 1;
    var init := lines[..n];
    var k := CountMatches(init, marker);
    var last := lines[n];
    assert CountMatches(lines, marker) == k + (if Contains(last, marker) then 1 else 0);
    match prev
    case None =>
    case Some(done) =>
      if !Contains(last, marker) {
        IndexedAppend(lines, marker, sep, vals, term, done, last);
      } else if k < |vals| {
        IndexedAppend(lines, marker, sep, vals, term, done, PatchLine(last, marker, sep + vals[k] + term));
      }
  }

  /** The lines above the last keep their patched form; the last line gets
      `x`, which is what the loop writes for it. */
  lemma {:induction false} IndexedAppend(lines: Lines, marker: string, sep: string, vals: seq<string>, term: string, done: Lines, x: string)
    requires |lines| > 0
    requires IndexedSpec(lines[..|lines| - 1], marker, sep, vals, term, Some(done))
    requires !Contains(lines[|lines| - 1], marker) ==> x == lines[|lines| - 1]
    requires Contains(lines[|lines| - 1], marker) ==>
               CountMatches(lines[..|lines| - 1], marker) < |vals| &&
               x == PatchLine(lines[|lines| - 1], marker, sep + vals[CountMatches(lines[..|lines| - 1], marker)] + term)
    ensures var out := done + [x];
            |out| == |lines| &&
            (forall i :: 0 <= i < |lines| && !Contains(lines[i], marker) ==> out[i] == lines[i]) &&
            (forall i :: 0 <= i < |lines| && Contains(lines[i], marker) ==>
               CountMatches(lines[..i], marker) < |vals| &&
               out[i] == PatchLine(lines[i], marker, sep + vals[CountMatches(lines[..i], marker)] + term))
  {
    var out := done + [x];
    forall i | 0 <= i < |lines|
      ensures !Contains(lines[i], marker) ==> out[i] == lines[i]
      ensures Contains(lines[i], marker) ==>
                CountMatches(lines[..i], marker) < |vals| &&
                out[i] == PatchLine(lines[i], marker, sep + vals[CountMatches(lines[..i], marker)] + term)
    {
      IndexedAppendAt(lines, marker, sep, vals, term, done, x, i);
    }
  }

  /** One line of IndexedAppend. */
  lemma IndexedAppendAt(lines: Lines, marker: string, sep: string, vals: seq<string>, term: string, done: Lines, x: string, i: nat)
    requires i < |lines|
    requires IndexedSpec(lines[..|lines| - 1], marker, sep, vals, term, Some(done))
    requires !Contains(lines[|lines| - 1], marker) ==> x == lines[|lines| - 1]
    requires Contains(lines[|lines| - 1], marker) ==>
               CountMatches(lines[..|lines| - 1], marker) < |vals| &&
               x == PatchLine(lines[|lines| - 1], marker, sep + vals[CountMatches(lines[..|lines| - 1], marker)] + term)
    ensures !Contains(lines[i], marker) ==> (done + [x])[i] == lines[i]
    ensures Contains(lines[i], marker) ==>
              CountMatches(lines[..i], marker) < |vals| &&
              (done + [x])[i] == PatchLine(lines[i], marker, sep + vals[CountMatches(lines[..i], marker)] + term)
  {
    var n := |lines| - 1;
    assert lines == lines[..n] + [lines[n]];
    if i < n {
      IndexedAppendEarly(lines[..n], lines[n], marker, sep, vals, term, done, x, i);
    } else {
      assert lines[..i] == lines[..n];
    }
  }

  /** A line above the appended one keeps what `done` wrote on it. */
  lemma IndexedAppendEarly(init: Lines, last: string, marker: string, sep: string, vals: seq<string>, term: string,
                           done: Lines, x: string, i: nat)
    requires i < |init|
    requires IndexedSpec(init, marker, sep, vals, term, Some(done))
    ensures !Contains((init + [last])[i], marker) ==> (done + [x])[i] == (init + [last])[i]
    ensures Contains((init + [last])[i], marker) ==>
              CountMatches((init + [last])[..i], marker) < |vals| &&
              (done + [x])[i] == PatchLine((init + [last])[i], marker, sep + vals[CountMatches((init + [last])[..i], marker)] + term)
  {
    assert (init + [last])[..i] == init[..i];
    assert (init + [last])[i] == init[i];
    assert (done + [x])[i] == done[i];
  }

  /** Matching never exceeds the number of lines. */
  lemma {:induction false} CountMatchesBound(lines: Lines, marker: string)
    ensures CountMatches(lines, marker) <= |lines|
    ensures (forall i :: 0 <= i < |lines| ==> !Contains(lines[i], marker)) ==> CountMatches(lines, marker) == 0
    decreases |lines|
  {
    if |lines| > 0 {
      var init := lines[..|lines| - 1];
      assert forall i :: 0 <= i < |init| ==> init[i] == lines[i];
      CountMatchesBound(init, marker);
    }
  }

  /** A marker with its values, separator and terminator. */
  datatype IndexedEdit = IndexedEdit(marker: string, sep: string, vals: seq<string>, term: string)

  /** The occurrence-indexed loop over several markers, in order; the
      counter starts again at 0 for each marker. Lines holding none of the
      markers are not touched, and too many lines for the first marker
      already fail. */
  function PatchIndexedEach(lines: Lines, edits: seq<IndexedEdit>): (r: Option<Lines>)
    ensures r.Some? ==> |r.value| == |lines|
    ensures r.Some? ==> forall i :: 0 <= i < |lines| && UnmarkedIndexed(lines[i], edits) ==> r.value[i] == lines[i]
    ensures |edits| > 0 && CountMatches(lines, edits[0].marker) > |edits[0].vals| ==> r.None?
    decreases |edits|
  {
    if |edits| == 0 then Some(lines)
    else
      var e := edits[0];
      match PatchIndexed(lines, e.marker, e.sep, e.vals, e.term)
      case None => None
      case Some(next) =>
        assert forall i :: 0 <= i < |lines| && UnmarkedIndexed(lines[i], edits) ==>
                 next[i] == lines[i] && UnmarkedIndexed(next[i], edits[1..]);
        PatchIndexedEach(next, edits[1..])
  }

  predicate UnmarkedIndexed(line: string, edits: seq<IndexedEdit>) {
    forall k :: 0 <= k < |edits| ==> !Contains(line, edits[k].marker)
  }

  /** The line written for `line` by indexed edit `e` with its `n`-th value. */
  function IndexedLine(line: string, e: IndexedEdit, n: int): string
    requires 0 <= n < |e.vals|
  {
    PatchLine(line, e.marker, e.sep + e.vals[n] + e.term)
  }

  /** A template on which the markers do not interfere: a line holding one
      marker holds no other, and writing any of that marker's values brings
      in no other marker. */
  predicate Separated(lines: Lines, edits: seq<IndexedEdit>) {
    forall i, a, b :: 0 <= i < |lines| && 0 <= a < |edits| && 0 <= b < |edits| && a != b &&
                      Contains(lines[i], edits[a].marker) ==>
      !Contains(lines[i], edits[b].marker) &&
      forall n :: 0 <= n < |edits[a].vals| ==> !Contains(IndexedLine(lines[i], edits[a], n), edits[b].marker)
  }

  /** Two files with the same length and the same lines holding `marker`
      count the same matches. */
  lemma {:induction false} CountMatchesSame(a: Lines, b: Lines, marker: string)
    requires |a| == |b|
    requires forall i :: 0 <= i < |a| ==> (Contains(a[i], marker) <==> Contains(b[i], marker))
    ensures CountMatches(a, marker) == CountMatches(b, marker)
    decreases |a|
  {
    if |a| > 0 {
      var n := |a| - 1;
      assert forall i :: 0 <= i < n ==> a[..n][i] == a[i] && b[..n][i] == b[i];
      CountMatchesSame(a[..n], b[..n], marker);
    }
  }

  /** After the first indexed edit of a separated template: the lines it
      touched hold no later marker, the others are as before, and the rest
      of the template is still separated. */
  lemma {:induction false} SeparatedFirstStep(lines: Lines, edits: seq<IndexedEdit>, next: Lines)
    requires Separated(lines, edits) && |edits| > 0
    requires PatchIndexed(lines, edits[0].marker, edits[0].sep, edits[0].vals, edits[0].term) == Some(next)
    ensures |next| == |lines|
    ensures forall i, a :: 0 <= i < |lines| && 1 <= a < |edits| ==>
              (Contains(next[i], edits[a].marker) <==> Contains(lines[i], edits[a].marker))
    ensures forall i :: 0 <= i < |lines| && !Contains(lines[i], edits[0].marker) ==> next[i] == lines[i]
    ensures forall i :: 0 <= i < |lines| && Contains(lines[i], edits[0].marker) ==>
              UnmarkedIndexed(next[i], edits[1..]) &&
              CountMatches(lines[..i], edits[0].marker) < |edits[0].vals| &&
              next[i] == IndexedLine(lines[i], edits[0], CountMatches(lines[..i], edits[0].marker))
    ensures Separated(next, edits[1..])
  {
    var e := edits[0];
    var rest := edits[1..];
    forall i | 0 <= i < |lines| && Contains(lines[i], e.marker)
      ensures UnmarkedIndexed(next[i], rest)
    {
      var c := CountMatches(lines[..i], e.marker);
      assert next[i] == IndexedLine(lines[i], edits[0], c);
      forall b | 0 <= b < |rest| ensures !Contains(next[i], rest[b].marker) {
        assert rest[b] == edits[b + 1];
      }
    }
    forall i, a | 0 <= i < |lines| && 1 <= a < |edits|
      ensures Contains(next[i], edits[a].marker) <==> Contains(lines[i], edits[a].marker)
    {
      if Contains(lines[i], e.marker) {
        assert rest[a - 1] == edits[a];
      }
    }
    forall i, a, b | 0 <= i < |next| && 0 <= a < |rest| && 0 <= b < |rest| && a != b &&
                     Contains(next[i], rest[a].marker)
      ensures !Contains(next[i], rest[b].marker)
      ensures forall n :: 0 <= n < |rest[a].vals| ==> !Contains(IndexedLine(next[i], rest[a], n), rest[b].marker)
    {
      assert rest[a] == edits[a + 1] && rest[b] == edits[b + 1];
      assert next[i] == lines[i];
    }
  }

  /** Counting a later marker over the file left by the first edit gives
      the count over the template, in every prefix. */
  lemma {:induction false} SeparatedCounts(lines: Lines, next: Lines, marker: string)
    requires |next| == |lines|
    requires forall i :: 0 <= i < |lines| ==> (Contains(next[i], marker) <==> Contains(lines[i], marker))
    ensures CountMatches(next, marker) == CountMatches(lines, marker)
    ensures forall i :: 0 <= i <= |lines| ==> CountMatches(next[..i], marker) == CountMatches(lines[..i], marker)
  {
    CountMatchesSame(next, lines, marker);
    forall i | 0 <= i <= |lines|
      ensures CountMatches(next[..i], marker) == CountMatches(lines[..i], marker)
    {
      CountMatchesSame(next[..i], lines[..i], marker);
    }
  }

  /** Some marker of `edits` has more lines in `lines` than values. */
  predicate Overflows(lines: Lines, edits: seq<IndexedEdit>) {
    exists a :: 0 <= a < |edits| && CountMatches(lines, edits[a].marker) > |edits[a].vals|
  }

  /** On a separated template the whole patch fails exactly when some
      marker has more lines than values. */
  lemma {:induction false} PatchIndexedEachFails(lines: Lines, edits: seq<IndexedEdit>)
    requires Separated(lines, edits)
    ensures PatchIndexedEach(lines, edits).None? <==> Overflows(lines, edits)
    decreases |edits|
  {
    if |edits| > 0 {
      var e := edits[0];
      var rest := edits[1..];
      match PatchIndexed(lines, e.marker, e.sep, e.vals, e.term)
      case None =>
        assert CountMatches(lines, edits[0].marker) > |edits[0].vals|;
      case Some(next) =>
        assert PatchIndexedEach(lines, edits) == PatchIndexedEach(next, rest);
        SeparatedFirstStep(lines, edits, next);
        PatchIndexedEachFails(next, rest);
        if Overflows(next, rest) {
          var a :| 0 <= a < |rest| && CountMatches(next, rest[a].marker) > |rest[a].vals|;
          assert edits[a + 1] == rest[a];
          SeparatedCounts(lines, next, edits[a + 1].marker);
        } else {
          forall a | 1 <= a < |edits|
            ensures CountMatches(lines, edits[a].marker) <= |edits[a].vals|
          {
            assert edits[a] == rest[a - 1];
            SeparatedCounts(lines, next, edits[a].marker);
          }
        }
    }
  }

  /** On a separated template that does not fail, the `c`-th line holding
      a marker (the counter restarting at 0 for every marker) gets that
      marker's `c`-th value. */
  lemma {:induction false} PatchIndexedEachSeparated(lines: Lines, edits: seq<IndexedEdit>)
    requires Separated(lines, edits)
    ensures PatchIndexedEach(lines, edits).Some? ==>
              forall i, a :: 0 <= i < |lines| && 0 <= a < |edits| && Contains(lines[i], edits[a].marker) ==>
                CountMatches(lines[..i], edits[a].marker) < |edits[a].vals| &&
                PatchIndexedEach(lines, edits).value[i] == IndexedLine(lines[i], edits[a], CountMatches(lines[..i], edits[a].marker))
  {
    SeparatedValues(lines, edits);
    match PatchIndexedEach(lines, edits)
    case None =>
    case Some(out) => IndexedValuesUnfold(lines, edits, out);
  }

  /** IndexedValues, line by line. */
  lemma IndexedValuesUnfold(lines: Lines, edits: seq<IndexedEdit>, out: Lines)
    requires IndexedValues(lines, edits, out)
    ensures forall i, a :: 0 <= i < |lines| && 0 <= a < |edits| && Contains(lines[i], edits[a].marker) ==>
              CountMatches(lines[..i], edits[a].marker) < |edits[a].vals| &&
              out[i] == IndexedLine(lines[i], edits[a], CountMatches(lines[..i], edits[a].marker))
  {
    forall i, a | 0 <= i < |lines| && 0 <= a < |edits| && Contains(lines[i], edits[a].marker)
      ensures CountMatches(lines[..i], edits[a].marker) < |edits[a].vals| &&
              out[i] == IndexedLine(lines[i], edits[a], CountMatches(lines[..i], edits[a].marker))
    {
      IndexedValueAt(lines, edits, out, i, a);
    }
  }

  lemma {:induction false} SeparatedValues(lines: Lines, edits: seq<IndexedEdit>)
    requires Separated(lines, edits)
    ensures PatchIndexedEach(lines, edits).Some? ==> IndexedValues(lines, edits, PatchIndexedEach(lines, edits).value)
    decreases |edits|
  {
    if |edits| > 0 {
      var e := edits[0];
      var rest := edits[1..];
      match PatchIndexed(lines, e.marker, e.sep, e.vals, e.term)
      case None =>
      case Some(next) =>
        assert PatchIndexedEach(lines, edits) == PatchIndexedEach(next, rest);
        SeparatedNext(lines, edits, next);
        SeparatedValues(next, rest);
        if PatchIndexedEach(next, rest).Some? {
          SeparatedValuesStep(lines, edits, next, PatchIndexedEach(next, rest).value);
        }
    } else {
      assert PatchIndexedEach(lines, edits) == Some(lines);
    }
  }

  lemma SeparatedNext(lines: Lines, edits: seq<IndexedEdit>, next: Lines)
    requires Separated(lines, edits) && |edits| > 0
    requires PatchIndexed(lines, edits[0].marker, edits[0].sep, edits[0].vals, edits[0].term) == Some(next)
    ensures Separated(next, edits[1..])
  {
    SeparatedFirstStep(lines, edits, next);
  }

  /** Every line of `lines` holding marker a reads, in `out`, as the line
      with marker a's c-th value, c counting the earlier lines holding it. */
  predicate IndexedValues(lines: Lines, edits: seq<IndexedEdit>, out: Lines) {
    |out| == |lines| &&
    forall i, a :: 0 <= i < |lines| && 0 <= a < |edits| && Contains(lines[i], edits[a].marker) ==>
      CountMatches(lines[..i], edits[a].marker) < |edits[a].vals| &&
      out[i] == IndexedLine(lines[i], edits[a], CountMatches(lines[..i], edits[a].marker))
  }

  /** One line of IndexedValues. */
  lemma IndexedValueAt(lines: Lines, edits: seq<IndexedEdit>, out: Lines, i: int, a: int)
    requires IndexedValues(lines, edits, out)
    requires 0 <= i < |lines| && 0 <= a < |edits| && Contains(lines[i], edits[a].marker)
    ensures CountMatches(lines[..i], edits[a].marker) < |edits[a].vals|
    ensures out[i] == IndexedLine(lines[i], edits[a], CountMatches(lines[..i], edits[a].marker))
  {
  }

  /** What the later markers write over the file left by the first edit is
      what they write over the template. */
  lemma SeparatedValuesStep(lines: Lines, edits: seq<IndexedEdit>, next: Lines, out: Lines)
    requires Separated(lines, edits) && |edits| > 0
    requires PatchIndexed(lines, edits[0].marker, edits[0].sep, edits[0].vals, edits[0].term) == Some(next)
    requires PatchIndexedEach(next, edits[1..]) == Some(out)
    requires IndexedValues(next, edits[1..], out)
    ensures IndexedValues(lines, edits, out)
  {
    SeparatedFirstStep(lines, edits, next);
    FirstThenLater(lines, edits, next, out);
  }

  /** The first edit's lines keep their value through the later edits;
      the later edits' lines get theirs as over the template. */
  lemma FirstThenLater(lines: Lines, edits: seq<IndexedEdit>, next: Lines, out: Lines)
    requires Separated(lines, edits) && |edits| > 0 && |next| == |lines| && |out| == |next|
    requires forall j, b :: 0 <= j < |lines| && 1 <= b < |edits| ==>
               (Contains(next[j], edits[b].marker) <==> Contains(lines[j], edits[b].marker))
    requires forall j :: 0 <= j < |lines| && !Contains(lines[j], edits[0].marker) ==> next[j] == lines[j]
    requires forall j :: 0 <= j < |lines| && Contains(lines[j], edits[0].marker) ==>
               UnmarkedIndexed(next[j], edits[1..]) &&
               CountMatches(lines[..j], edits[0].marker) < |edits[0].vals| &&
               next[j] == IndexedLine(lines[j], edits[0], CountMatches(lines[..j], edits[0].marker))
    requires forall j :: 0 <= j < |next| && UnmarkedIndexed(next[j], edits[1..]) ==> out[j] == next[j]
    requires IndexedValues(next, edits[1..], out)
    ensures IndexedValues(lines, edits, out)
  {
    forall i, a | 0 <= i < |lines| && 0 <= a < |edits| && Contains(lines[i], edits[a].marker)
      ensures CountMatches(lines[..i], edits[a].marker) < |edits[a].vals|
      ensures out[i] == IndexedLine(lines[i], edits[a], CountMatches(lines[..i], edits[a].marker))
    {
      if a == 0 {
        assert UnmarkedIndexed(next[i], edits[1..]);
      } else {
        LaterValueAt(lines, edits, next, out, i, a);
      }
    }
  }

  /** A line holding a later marker passes the first edit unchanged and
      gets its value from the later edits, counted as over the template. */
  lemma LaterValueAt(lines: Lines, edits: seq<IndexedEdit>, next: Lines, out: Lines, i: int, a: int)
    requires |edits| > 0 && |next| == |lines|
    requires forall j, b :: 0 <= j < |lines| && 1 <= b < |edits| ==>
               (Contains(next[j], edits[b].marker) <==> Contains(lines[j], edits[b].marker))
    requires forall j :: 0 <= j < |lines| && !Contains(lines[j], edits[0].marker) ==> next[j] == lines[j]
    requires IndexedValues(next, edits[1..], out)
    requires Separated(lines, edits)
    requires 0 <= i < |lines| && 1 <= a < |edits| && Contains(lines[i], edits[a].marker)
    ensures CountMatches(lines[..i], edits[a].marker) < |edits[a].vals|
    ensures out[i] == IndexedLine(lines[i], edits[a], CountMatches(lines[..i], edits[a].marker))
  {
    var e := edits[a];
    assert edits[1..][a - 1] == e;
    assert !Contains(lines[i], edits[0].marker);
    assert next[i] == lines[i];
    IndexedValueAt(next, edits[1..], out, i, a - 1);
    SeparatedCounts(lines, next, e.marker);
  }

  /** The block-scoped loop of the fvSolution patch: a line containing
      `PIMPLE` opens the scope, lines in scope are patched, and a line that
      (after patching) starts with `}` closes it. `open` is the scope flag
      carried into the first line. */
  function ScopedPass(lines: Lines, marker: string, tail: string, open: bool): (r: Lines)
    ensures |r| == |lines|
    decreases |lines|
  {
    if |lines| == 0 then []
    else
      var on := open || Contains(lines[0], "PIMPLE");
      var line := if on then PatchLine(lines[0], marker, tail) else lines[0];
      [line] + ScopedPass(lines[1..], marker, tail, on && !StartsWith(line, "}"))
  }

  /** Line `i` is inside a PIMPLE block: some line at or above it mentions
      `PIMPLE` and no line from there up to (not including) `i` starts with `}`. */
  predicate InScope(lines: Lines, i: int)
    requires 0 <= i < |lines|
  {
    exists j :: 0 <= j <= i && Contains(lines[j], "PIMPLE") &&
                forall k :: j <= k < i ==> !StartsWith(lines[k], "}")
  }

  /** InScope, when the scope may already be open before the first line. */
  predicate InScopeFrom(lines: Lines, open: bool, i: int)
    requires 0 <= i < |lines|
  {
    (open && forall k :: 0 <= k < i ==> !StartsWith(lines[k], "}")) || InScope(lines, i)
  }

  /** With a non-empty marker, patching keeps the first character of a line,
      so it cannot change whether the line starts with `}`. */
  lemma {:induction false} PatchLineKeepsHead(line: string, marker: string, tail: string)
    requires marker != ""
    ensures StartsWith(PatchLine(line, marker, tail), "}") <==> StartsWith(line, "}")
  {
    var r := PatchLine(line, marker, tail);
    if Contains(line, marker) {
      var f := Find(line, marker);
      assert OccursAt(line, marker, f);
      if f == 0 {
        assert r[0] == marker[0] == line[0];
      } else {
        assert r[0] == r[..f][0] == line[..f][0] == line[0];
      }
    }
  }

  /** The scope flag handed from line 0 to line 1 by the script. */
  function NextOpen(lines: Lines, open: bool): bool
    requires |lines| > 0
  {
    (open || Contains(lines[0], "PIMPLE")) && !StartsWith(lines[0], "}")
  }

  lemma {:induction false} ScopeStepForward(lines: Lines, open: bool, i: int)
    requires 0 < i < |lines|
    requires InScopeFrom(lines[1..], NextOpen(lines, open), i - 1)
    ensures InScopeFrom(lines, open, i)
  {
    var rest := lines[1..];
    if NextOpen(lines, open) && forall k :: 0 <= k < i - 1 ==> !StartsWith(rest[k], "}") {
      forall k | 0 <= k < i ensures !StartsWith(lines[k], "}") {
        if k > 0 {
          assert rest[k - 1] == lines[k];
        }
      }
      if !open {
        assert InScope(lines, i) by {
          assert 0 <= 0 <= i && Contains(lines[0], "PIMPLE") &&
                 forall k :: 0 <= k < i ==> !StartsWith(lines[k], "}");
        }
      }
    } else {
      var j :| 0 <= j <= i - 1 && Contains(rest[j], "PIMPLE") &&
               forall k :: j <= k < i - 1 ==> !StartsWith(rest[k], "}");
      assert lines[j + 1] == rest[j];
      forall k | j + 1 <= k < i ensures !StartsWith(lines[k], "}") {
        assert rest[k - 1] == lines[k];
      }
      assert 0 <= j + 1 <= i && Contains(lines[j + 1], "PIMPLE") &&
             forall k :: j + 1 <= k < i ==> !StartsWith(lines[k], "}");
    }
  }

  lemma {:induction false} ScopeStepBackward(lines: Lines, open: bool, i: int)
    requires 0 < i < |lines|
    requires InScopeFrom(lines, open, i)
    ensures InScopeFrom(lines[1..], NextOpen(lines, open), i - 1)
  {
    var rest := lines[1..];
    if open && forall k :: 0 <= k < i ==> !StartsWith(lines[k], "}") {
      forall k | 0 <= k < i - 1 ensures !StartsWith(rest[k], "}") {
        assert rest[k] == lines[k + 1];
      }
    } else {
      var j :| 0 <= j <= i && Contains(lines[j], "PIMPLE") &&
               forall k :: j <= k < i ==> !StartsWith(lines[k], "}");
      if j == 0 {
        forall k | 0 <= k < i - 1 ensures !StartsWith(rest[k], "}") {
          assert rest[k] == lines[k + 1];
        }
      } else {
        assert rest[j - 1] == lines[j];
        forall k | j - 1 <= k < i - 1 ensures !StartsWith(rest[k], "}") {
          assert rest[k] == lines[k + 1];
        }
        assert 0 <= j - 1 <= i - 1 && Contains(rest[j - 1], "PIMPLE") &&
               forall k :: j - 1 <= k < i - 1 ==> !StartsWith(rest[k], "}");
      }
    }
  }

  lemma {:induction false} ScopedPassWindowFrom(lines: Lines, marker: string, tail: string, open: bool, i: int)
    requires marker != ""
    requires 0 <= i < |lines|
    ensures ScopedPass(lines, marker, tail, open)[i] ==
              if InScopeFrom(lines, open, i) then PatchLine(lines[i], marker, tail) else lines[i]
    decreases i
  {
    ScopedPassHead(lines, marker, tail, open);
    if i == 0 {
      ScopedPassFirst(lines, open);
    } else {
      var rest := lines[1..];
      ScopedPassWindowFrom(rest, marker, tail, NextOpen(lines, open), i - 1);
      assert rest[i - 1] == lines[i];
      ScopeStep(lines, open, i);
    }
  }

  /** One pass hands the scope on to the rest of the file through NextOpen. */
  lemma ScopedPassHead(lines: Lines, marker: string, tail: string, open: bool)
    requires marker != "" && |lines| > 0
    ensures var on := open || Contains(lines[0], "PIMPLE");
            ScopedPass(lines, marker, tail, open) ==
              [if on then PatchLine(lines[0], marker, tail) else lines[0]] +
              ScopedPass(lines[1..], marker, tail, NextOpen(lines, open))
  {
    var on := open || Contains(lines[0], "PIMPLE");
    var line := if on then PatchLine(lines[0], marker, tail) else lines[0];
    if on {
      PatchLineKeepsHead(lines[0], marker, tail);
    }
    assert (on && !StartsWith(line, "}")) == NextOpen(lines, open);
  }

  /** The first line is in scope exactly when the scope is open or it
      mentions PIMPLE. */
  lemma ScopedPassFirst(lines: Lines, open: bool)
    requires |lines| > 0
    ensures InScopeFrom(lines, open, 0) <==> open || Contains(lines[0], "PIMPLE")
  {
    if InScope(lines, 0) {
      var j :| 0 <= j <= 0 && Contains(lines[j], "PIMPLE");
    }
    if Contains(lines[0], "PIMPLE") {
      assert 0 <= 0 <= 0 && Contains(lines[0], "PIMPLE");
    }
  }

  /** Line `i > 0` is in scope exactly when line `i - 1` of the rest is,
      with the scope handed on. */
  lemma ScopeStep(lines: Lines, open: bool, i: int)
    requires 0 < i < |lines|
    ensures InScopeFrom(lines, open, i) <==> InScopeFrom(lines[1..], NextOpen(lines, open), i - 1)
  {
    if InScopeFrom(lines[1..], NextOpen(lines, open), i - 1) {
      ScopeStepForward(lines, open, i);
    }
    if InScopeFrom(lines, open, i) {
      ScopeStepBackward(lines, open, i);
    }
  }

  /** The scoped loop as the script runs it for one marker (flag starts
      cleared) patches exactly the lines inside a PIMPLE block. */
  lemma {:induction false} ScopedPassWindow(lines: Lines, marker: string, tail: string, i: int)
    requires marker != ""
    requires 0 <= i < |lines|
    ensures ScopedPass(lines, marker, tail, false)[i] ==
              if InScope(lines, i) then PatchLine(lines[i], marker, tail) else lines[i]
  {
    ScopedPassWindowFrom(lines, marker, tail, false, i);
  }

  /** The scoped loop over several markers; the flag is cleared after each. */
  function ScopedEach(lines: Lines, edits: seq<Edit>): (r: Lines)
    ensures |r| == |lines|
    decreases |edits|
  {
    if |edits| == 0 then lines
    else ScopedEach(ScopedPass(lines, edits[0].marker, edits[0].tail, false), edits[1..])
  }

  /** A template the PIMPLE markers cannot confuse: every marker is
      non-empty, and a line holding one marker holds no other and no
      `PIMPLE`, neither before nor after its own edit. */
  predicate ScopeSafe(lines: Lines, edits: seq<Edit>) {
    (forall k :: 0 <= k < |edits| ==> edits[k].marker != "") &&
    forall i, k :: 0 <= i < |lines| && 0 <= k < |edits| && Contains(lines[i], edits[k].marker) ==>
      !Contains(lines[i], "PIMPLE") && !Contains(PatchLine(lines[i], edits[k].marker, edits[k].tail), "PIMPLE") &&
      forall j :: 0 <= j < |edits| && j != k ==>
        !Contains(lines[i], edits[j].marker) && !Contains(PatchLine(lines[i], edits[k].marker, edits[k].tail), edits[j].marker)
  }

  /** Whether a line is in scope depends only on which lines mention
      PIMPLE and which start with `}`. */
  lemma {:induction false} InScopeSame(a: Lines, b: Lines, i: int)
    requires |a| == |b| && 0 <= i < |a|
    requires forall k :: 0 <= k < |a| ==>
               (Contains(a[k], "PIMPLE") <==> Contains(b[k], "PIMPLE")) &&
               (StartsWith(a[k], "}") <==> StartsWith(b[k], "}"))
    ensures InScope(a, i) <==> InScope(b, i)
  {
    if InScope(a, i) {
      var j :| 0 <= j <= i && Contains(a[j], "PIMPLE") && forall k :: j <= k < i ==> !StartsWith(a[k], "}");
      assert 0 <= j <= i && Contains(b[j], "PIMPLE") && forall k :: j <= k < i ==> !StartsWith(b[k], "}");
    }
    if InScope(b, i) {
      var j :| 0 <= j <= i && Contains(b[j], "PIMPLE") && forall k :: j <= k < i ==> !StartsWith(b[k], "}");
      assert 0 <= j <= i && Contains(a[j], "PIMPLE") && forall k :: j <= k < i ==> !StartsWith(a[k], "}");
    }
  }

  /** One scoped pass over a safe template: it rewrites only in-scope
      lines holding its marker, keeps the scope of every line, and leaves
      the template safe for the remaining markers. */
  lemma {:induction false} ScopedFirstStep(lines: Lines, edits: seq<Edit>)
    requires ScopeSafe(lines, edits) && |edits| > 0
    ensures var next := ScopedPass(lines, edits[0].marker, edits[0].tail, false);
            (forall i :: 0 <= i < |lines| ==>
               next[i] == (if InScope(lines, i) && Contains(lines[i], edits[0].marker)
                           then PatchLine(lines[i], edits[0].marker, edits[0].tail) else lines[i])) &&
            (forall i :: 0 <= i < |lines| ==> (InScope(next, i) <==> InScope(lines, i))) &&
            ScopeSafe(next, edits[1..])
  {
    var m, t := edits[0].marker, edits[0].tail;
    var next := ScopedPass(lines, m, t, false);
    forall i | 0 <= i < |lines|
      ensures next[i] == (if InScope(lines, i) && Contains(lines[i], m) then PatchLine(lines[i], m, t) else lines[i])
      ensures Contains(next[i], "PIMPLE") <==> Contains(lines[i], "PIMPLE")
      ensures StartsWith(next[i], "}") <==> StartsWith(lines[i], "}")
    {
      ScopedPassWindow(lines, m, t, i);
      PatchLineKeepsHead(lines[i], m, t);
    }
    forall i | 0 <= i < |lines| ensures InScope(next, i) <==> InScope(lines, i) {
      InScopeSame(next, lines, i);
    }
    var rest := edits[1..];
    forall i, k | 0 <= i < |next| && 0 <= k < |rest| && Contains(next[i], rest[k].marker)
      ensures next[i] == lines[i]
    {
      assert rest[k] == edits[k + 1];
    }
    assert ScopeSafe(next, rest) by {
      forall k | 0 <= k < |rest| ensures rest[k].marker != "" {
        assert rest[k] == edits[k + 1];
      }
      forall i, k, j | 0 <= i < |next| && 0 <= k < |rest| && Contains(next[i], rest[k].marker) &&
                       0 <= j < |rest| && j != k
        ensures !Contains(next[i], rest[j].marker)
        ensures !Contains(PatchLine(next[i], rest[k].marker, rest[k].tail), rest[j].marker)
      {
        assert rest[k] == edits[k + 1] && rest[j] == edits[j + 1];
      }
    }
  }

  /** The scoped loop over several markers, on a safe template: an
      in-scope line holding a marker gets that marker's value, and every
      other line comes out unchanged. */
  lemma {:induction false} ScopedEachWindow(lines: Lines, edits: seq<Edit>)
    requires ScopeSafe(lines, edits)
    ensures forall i, k :: 0 <= i < |lines| && 0 <= k < |edits| && InScope(lines, i) && Contains(lines[i], edits[k].marker) ==>
              ScopedEach(lines, edits)[i] == PatchLine(lines[i], edits[k].marker, edits[k].tail)
    ensures forall i :: 0 <= i < |lines| && (!InScope(lines, i) || Unmarked(lines[i], edits)) ==>
              ScopedEach(lines, edits)[i] == lines[i]
    decreases |edits|
  {
    if |edits| > 0 {
      var next := ScopedPass(lines, edits[0].marker, edits[0].tail, false);
      var rest := edits[1..];
      assert ScopedEach(lines, edits) == ScopedEach(next, rest);
      ScopedFirstStep(lines, edits);
      ScopedEachWindow(next, rest);
      var out := ScopedEach(next, rest);
      forall i | 0 <= i < |lines|
        ensures forall k :: 0 <= k < |edits| && InScope(lines, i) && Contains(lines[i], edits[k].marker) ==>
                  out[i] == PatchLine(lines[i], edits[k].marker, edits[k].tail)
        ensures !InScope(lines, i) || Unmarked(lines[i], edits) ==> out[i] == lines[i]
      {
        ScopedWindowAt(lines[i], InScope(lines, i), edits, next[i], out[i]);
      }
    }
  }

  /** No two markers of `edits` meet on `line`, before or after the edit of
      the one it holds. */
  predicate LineSafe(line: string, edits: seq<Edit>) {
    forall k, j :: 0 <= k < |edits| && 0 <= j < |edits| && j != k && Contains(line, edits[k].marker) ==>
      !Contains(line, edits[j].marker) && !Contains(PatchLine(line, edits[k].marker, edits[k].tail), edits[j].marker)
  }

  /** One line of ScopedEachWindow: what the first pass wrote on it, then
      what the remaining passes wrote, gives the line's own marker's value. */
  lemma ScopedWindowAt(line: string, inScope: bool, edits: seq<Edit>, nextLine: string, outLine: string)
    requires |edits| > 0 && LineSafe(line, edits)
    requires nextLine == (if inScope && Contains(line, edits[0].marker)
                          then PatchLine(line, edits[0].marker, edits[0].tail) else line)
    requires forall k :: 1 <= k < |edits| && inScope && Contains(nextLine, edits[k].marker) ==>
               outLine == PatchLine(nextLine, edits[k].marker, edits[k].tail)
    requires !inScope || Unmarked(nextLine, edits[1..]) ==> outLine == nextLine
    ensures forall k :: 0 <= k < |edits| && inScope && Contains(line, edits[k].marker) ==>
              outLine == PatchLine(line, edits[k].marker, edits[k].tail)
    ensures !inScope || Unmarked(line, edits) ==> outLine == line
  {
    var rest := edits[1..];
    if inScope && Contains(line, edits[0].marker) {
      assert Unmarked(nextLine, rest) by {
        forall j | 0 <= j < |rest| ensures !Contains(nextLine, rest[j].marker) {
          assert rest[j] == edits[j + 1];
        }
      }
    } else if inScope && !Unmarked(line, edits) {
      assert nextLine == line;
    } else {
      assert Unmarked(nextLine, rest) || !inScope by {
        if inScope {
          forall j | 0 <= j < |rest| ensures !Contains(nextLine, rest[j].marker) {
            assert rest[j] == edits[j + 1];
          }
        }
      }
    }
  }

  /** No line in `lines[..n]` mentions PIMPLE. */
  predicate NoPimpleAbove(lines: Lines, n: int)
    requires 0 <= n <= |lines|
  {
    forall k :: 0 <= k < n ==> !Contains(lines[k], "PIMPLE")
  }

  /** Lines above the first PIMPLE line are never in scope, so no pass
      touches them; in particular a file without a PIMPLE block is left as
      it is. */
  lemma {:induction false} ScopedEachKeepsAbove(lines: Lines, edits: seq<Edit>, n: int)
    requires 0 <= n <= |lines| && NoPimpleAbove(lines, n)
    requires forall k :: 0 <= k < |edits| ==> edits[k].marker != ""
    ensures ScopedEach(lines, edits)[..n] == lines[..n]
    decreases |edits|
  {
    if |edits| > 0 {
      var next := ScopedPass(lines, edits[0].marker, edits[0].tail, false);
      forall i | 0 <= i < n
        ensures next[i] == lines[i]
      {
        ScopedPassWindow(lines, edits[0].marker, edits[0].tail, i);
        assert !InScope(lines, i);
      }
      assert NoPimpleAbove(next, n);
      ScopedEachKeepsAbove(next, edits[1..], n);
    }
  }

  /** The whole-row variant (Allrun.pre, solvePrimaryRegion): every line
      holding the marker is replaced by `newLine`, text before the marker included. */
  function ReplaceWhole(lines: Lines, marker: string, newLine: string): (r: Lines)
    ensures |r| == |lines|
    ensures forall i :: 0 <= i < |lines| ==> r[i] == (if Contains(lines[i], marker) then newLine else lines[i])
  {
    seq(|lines|, i requires 0 <= i < |lines| => if Contains(lines[i], marker) then newLine else lines[i])
  }

  /** The marker-dropping variant: the text before the marker is kept and the
      marker itself, with the rest of the line, is replaced by `repl`. */
  function RewriteLine(line: string, marker: string, repl: string): (r: string)
    ensures !Contains(line, marker) ==> r == line
    ensures Contains(line, marker) ==>
              |r| == Find(line, marker) + |repl| && r[..Find(line, marker)] == line[..Find(line, marker)] &&
              r[Find(line, marker)..] == repl
  {
    var f := Find(line, marker);
    if f < 0 then line else line[..f] + repl
  }

  /** A patch is a rewrite that writes the marker back in front of the tail. */
  lemma {:induction false} PatchIsRewrite(line: string, marker: string, tail: string)
    ensures PatchLine(line, marker, tail) == RewriteLine(line, marker, marker + tail)
  {
  }

  function RewriteAll(lines: Lines, marker: string, repl: string): (r: Lines)
    ensures |r| == |lines|
    ensures forall i :: 0 <= i < |lines| ==> r[i] == RewriteLine(lines[i], marker, repl)
  {
    seq(|lines|, i requires 0 <= i < |lines| => RewriteLine(lines[i], marker, repl))
  }

  /** The `find(marker) == 0` variant: only lines that start with the marker
      are touched and they become exactly marker + tail. */
  function PatchAtColumn0(lines: Lines, marker: string, tail: string): (r: Lines)
    ensures |r| == |lines|
    ensures forall i :: 0 <= i < |lines| ==>
              r[i] == (if StartsWith(lines[i], marker) then PatchLine(lines[i], marker, tail) else lines[i])
  {
    seq(|lines|, i requires 0 <= i < |lines| =>
      if Find(lines[i], marker) == 0 then marker + tail else lines[i])
  }

  /** Everything before the first line that mentions `marker` (the inlet
      boundary-condition writer drops that line and all that follow). */
  function TruncateAtFirst(lines: Lines, marker: string): (r: Lines)
    ensures |r| <= |lines| && r == lines[..|r|]
    ensures forall i :: 0 <= i < |r| ==> !Contains(r[i], marker)
    ensures |r| < |lines| ==> Contains(lines[|r|], marker)
    decreases |lines|
  {
    if |lines| == 0 || Contains(lines[0], marker) then []
    else [lines[0]] + TruncateAtFirst(lines[1..], marker)
  }

  /** Index of the first line mentioning `marker`. */
  function FirstLine(lines: Lines, marker: string): (r: Option<nat>)
    ensures r.Some? ==> r.value < |lines| && Contains(lines[r.value], marker) &&
                        forall k :: 0 <= k < r.value ==> !Contains(lines[k], marker)
    ensures r.None? <==> forall k :: 0 <= k < |lines| ==> !Contains(lines[k], marker)
    decreases |lines|
  {
    if |lines| == 0 then None
    else if Contains(lines[0], marker) then Some(0)
    else match FirstLine(lines[1..], marker)
      case None => None
      case Some(k) => Some(k + 1)
  }

  /** Python's clamped slice bound `min(n, |xs|)`. */
  function Clamp(n: nat, len: nat): (r: nat)
    ensures r <= len && (n <= len ==> r == n) && (len < n ==> r == len)
  {
    if n <= len then n else len
  }

  /** `data[0:i+2] + block + data[i+2:]` for the first line `i` mentioning
      `keyword`: the block goes two lines below the keyword (past the opening
      parenthesis of the list). With no such line the prefix variable is
      never bound, a NameError, modelled as `None`. */
  function SpliceAfter(lines: Lines, keyword: string, block: Lines): (r: Option<Lines>)
    ensures r.None? <==> FirstLine(lines, keyword).None?
    ensures r.Some? ==>
              var at := Clamp(FirstLine(lines, keyword).value + 2, |lines|);
              |r.value| == |lines| + |block| && r.value[..at] == lines[..at] &&
              r.value[at..at + |block|] == block && r.value[at + |block|..] == lines[at..]
  {
    match FirstLine(lines, keyword)
    case None => None
    case Some(i) =>
      var at := Clamp(i + 2, |lines|);
      Some(lines[..at] + block + lines[at..])
  }

  /** Removing the spliced block gives the template back. */
  lemma {:induction false} SpliceAfterRoundTrip(lines: Lines, keyword: string, block: Lines)
    requires SpliceAfter(lines, keyword, block).Some?
    ensures var r := SpliceAfter(lines, keyword, block).value;
            var at := Clamp(FirstLine(lines, keyword).value + 2, |lines|);
            r[..at] + r[at + |block|..] == lines
  {
    var at := Clamp(FirstLine(lines, keyword).value + 2, |lines|);
    assert lines == lines[..at] + lines[at..];
  }

  /** A line mentioning the marker with no earlier mention is the first. */
  lemma {:induction false} FirstLineAt(lines: Lines, marker: string, k: nat)
    requires k < |lines| && Contains(lines[k], marker)
    requires forall i :: 0 <= i < k ==> !Contains(lines[i], marker)
    ensures FirstLine(lines, marker) == Some(k)
  {
    assert FirstLine(lines, marker).Some?;
  }

  /** Truncation stops at the first line mentioning the marker. */
  lemma {:induction false} FirstLineTruncates(lines: Lines, marker: string, k: nat)
    requires FirstLine(lines, marker) == Some(k)
    ensures TruncateAtFirst(lines, marker) == lines[..k]
    decreases k
  {
    if k > 0 {
      var t := lines[1..];
      assert !Contains(lines[0], marker);
      assert FirstLine(t, marker) == Some(k - 1);
      FirstLineTruncates(t, marker, k - 1);
      assert TruncateAtFirst(lines, marker) == [lines[0]] + TruncateAtFirst(t, marker);
      assert lines[..k] == [lines[0]] + t[..k - 1];
    }
  }
}

=== FILE: rivulet_vecs.dfy ===
/** The rivulet width, height-to-width ratio and contact-angle vectors of
    rivuletPostProcSaveData.py, computed from the extracted edge, height
    and angle columns. */
module RivuletVecs {
  import opened Wrappers
  import opened Sums

  // ---------------------------------------------------------------- rivulet width and height ratio

  /** Python's `s[::2]`: the elements at even positions. */
  function Stride2<T>(s: seq<T>): (r: seq<T>)
    ensures |r| == (|s| + 1) / 2
    ensures forall k :: 0 <= k < |r| ==> r[k] == s[2 * k]
    decreases |s|
  {
    if |s| <= 1 then s
    else
      var t := Stride2(s[2..]);
      Stride2Cons(s, t);
      [s[0]] + t
  }

  lemma Stride2Cons<T>(s: seq<T>, t: seq<T>)
    requires |s| >= 2 && forall k :: 0 <= k < |t| ==> 2 * k < |s| - 2 && t[k] == s[2..][2 * k]
    ensures forall k :: 0 <= k < |t| + 1 ==> 2 * k < |s| && ([s[0]] + t)[k] == s[2 * k]
  {
    forall k | 1 <= k < |t| + 1 ensures 2 * k < |s| && ([s[0]] + t)[k] == s[2 * k] {
      assert ([s[0]] + t)[k] == t[k - 1] == s[2..][2 * (k - 1)];
    }
  }

  /** Python's `s[:-1]`. */
  function AllButLast<T>(s: seq<T>): (r: seq<T>)
    ensures |s| > 0 ==> r == s[..|s| - 1]
    ensures |s| == 0 ==> r == []
  {
    if |s| == 0 then [] else s[..|s| - 1]
  }

  /** Python's `s[n:]`, which is empty past the end. */
  function From<T>(s: seq<T>, n: nat): (r: seq<T>)
    ensures n <= |s| ==> r == s[n..]
    ensures n > |s| ==> r == []
  {
    if n <= |s| then s[n..] else []
  }

  /** `[x+y for (x,y) in zip(a[:-1:2], a[1::2])]`: the rivulet width as the
      sum of the two edge distances that follow each other in the sorted
      list. An odd last edge has no partner and is dropped. */
  function PairSums(a: seq<real>): (r: seq<real>)
    ensures |r| == |a| / 2
    ensures forall k :: 0 <= k < |r| ==> r[k] == a[2 * k] + a[2 * k + 1]
  {
    var ev := Stride2(AllButLast(a));
    var od := Stride2(From(a, 1));
    var n := if |ev| < |od| then |ev| else |od|;
    seq(n, k requires 0 <= k < n => ev[k] + od[k])
  }

  /** The pairing by recursion: the first two distances, then the rest. */
  function Pairs(a: seq<real>): (r: seq<real>)
    ensures |r| == |a| / 2
    decreases |a|
  {
    if |a| < 2 then [] else [a[0] + a[1]] + Pairs(a[2..])
  }

  /** Width `k` is the sum of distances `2k` and `2k+1`. */
  lemma {:induction false} PairsElems(a: seq<real>)
    ensures forall k :: 0 <= k < |Pairs(a)| ==> Pairs(a)[k] == a[2 * k] + a[2 * k + 1]
    decreases |a|
  {
    if |a| >= 2 {
      var t := Pairs(a[2..]);
      PairsElems(a[2..]);
      var r := [a[0] + a[1]] + t;
      assert r == Pairs(a);
      forall k | 1 <= k < |r|
        ensures r[k] == a[2 * k] + a[2 * k + 1]
      {
        assert r[k] == t[k - 1];
        assert a[2..][2 * (k - 1)] == a[2 * k];
      }
    }
  }

  /** The slicing and zipping compute the pairing. */
  lemma {:induction false} PairSumsArePairs(a: seq<real>)
    ensures PairSums(a) == Pairs(a)
  {
    var p := PairSums(a);
    var q := Pairs(a);
    PairsElems(a);
    assert |p| == |q|;
    forall k | 0 <= k < |p|
      ensures p[k] == q[k]
    {
    }
  }

  /** The widths account for every edge distance when their number is
      even. */
  lemma {:induction false} PairSumsTotal(a: seq<real>)
    requires |a| % 2 == 0
    ensures RealSum(PairSums(a)) == RealSum(a)
  {
    PairSumsArePairs(a);
    PairsTotal(a);
  }

  lemma {:induction false} PairsTotal(a: seq<real>)
    requires |a| % 2 == 0
    ensures RealSum(Pairs(a)) == RealSum(a)
    decreases |a|
  {
    if |a| > 0 {
      PairsTotal(a[2..]);
      PairsHead(a);
      SumHead(a);
    }
  }

  lemma {:induction false} PairsHead(a: seq<real>)
    requires |a| >= 2
    ensures RealSum(Pairs(a)) == a[0] + a[1] + RealSum(Pairs(a[2..]))
  {
    var x := a[0] + a[1];
    var p := Pairs(a[2..]);
    RealSumCons(x, p);
    assert Pairs(a) == [x] + p;
  }

  lemma {:induction false} SumHead(a: seq<real>)
    requires |a| >= 2
    ensures RealSum(a) == a[0] + a[1] + RealSum(a[2..])
  {
    var rest := a[2..];
    var t := a[1..];
    assert t == [a[1]] + rest;
    RealSumCons(a[1], rest);
    assert a == [a[0]] + t;
    RealSumCons(a[0], t);
  }

  /** The first `n` widths exist and none of them is zero. */
  predicate UsableWidths(w: seq<real>, n: nat) {
    n <= |w| && forall i :: 0 <= i < n ==> w[i] != 0.0
  }

  /** `[h0Vec[i]/aLaRVec[i] for i in range(nData)]`: a width list shorter
      than `n` raises IndexError and a zero width ZeroDivisionError. */
  function Ratios(w: seq<real>, h0: seq<real>, n: nat): (r: Option<seq<real>>)
    requires n <= |h0|
    ensures r.Some? <==> UsableWidths(w, n)
    ensures r.Some? ==> |r.value| == n && forall i :: 0 <= i < n ==> r.value[i] * w[i] == h0[i]
  {
    if n > |w| then None
    else if exists i :: 0 <= i < n && w[i] == 0.0 then None
    else Some(seq(n, i requires 0 <= i < n => h0[i] / w[i]))
  }

  function Min(a: nat, b: nat): nat {
    if a < b then a else b
  }

  /** `nData = min(len(a[::2]), len(h0Vec[0]))` and the ratio list as
      written: with an odd number of edges `len(a[::2])` counts one more
      than there are widths. */
  function EpsAsWritten(a: seq<real>, h0: seq<real>): (r: Option<seq<real>>)
    ensures r.Some? <==> UsableWidths(Pairs(a), Min((|a| + 1) / 2, |h0|))
    ensures r.Some? ==> |r.value| == Min((|a| + 1) / 2, |h0|)
    ensures r.Some? ==> forall i :: 0 <= i < |r.value| ==> r.value[i] * Pairs(a)[i] == h0[i]
  {
    Ratios(Pairs(a), h0, Min((|a| + 1) / 2, |h0|))
  }

  /** With an odd number of edges and enough heights the ratio list is
      never produced, whatever the data. */
  lemma {:induction false} OddEdgesFail(a: seq<real>, h0: seq<real>)
    requires |a| % 2 == 1 && |h0| >= (|a| + 1) / 2
    ensures EpsAsWritten(a, h0).None?
  {
  }

  /** The ratio list as evidently intended: as many ratios as there are
      both widths and heights. Only a zero width fails. */
  function EpsVec(a: seq<real>, h0: seq<real>): (r: Option<seq<real>>)
    ensures r.Some? <==> UsableWidths(Pairs(a), Min(|a| / 2, |h0|))
    ensures r.Some? ==> |r.value| == Min(|a| / 2, |h0|)
    ensures r.Some? ==> forall i :: 0 <= i < |r.value| ==> r.value[i] * Pairs(a)[i] == h0[i]
  {
    Ratios(Pairs(a), h0, Min(|a| / 2, |h0|))
  }

  /** With an even number of edges the two agree. */
  lemma {:induction false} EpsAgreeOnEven(a: seq<real>, h0: seq<real>)
    requires |a| % 2 == 0
    ensures EpsAsWritten(a, h0) == EpsVec(a, h0)
  {
  }

  // ---------------------------------------------------------------- contact angles

  /** Number of positions where the key changes from one row to the next. */
  function Changes(keys: seq<string>, i: nat): (r: nat)
    requires i <= |keys|
    decreases |keys| - i
  {
    if i + 1 >= |keys| then 0
    else (if keys[i] != keys[i + 1] then 1 else 0) + Changes(keys, i + 1)
  }

  /** The `betaVec` loop as written from row `i` on, `aux` holding the
      running sum: a sum is appended at each change of key and the
      accumulator restarts at 0, so the first value of the new group is
      never added, and the last group is never appended. */
  function BetaFrom(keys: seq<string>, vals: seq<real>, i: nat, aux: real): (r: seq<real>)
    requires |keys| == |vals| && i < |keys|
    ensures |r| == Changes(keys, i)
    decreases |keys| - i
  {
    if i + 1 >= |keys| then []
    else if keys[i] == keys[i + 1] then BetaFrom(keys, vals, i + 1, aux + vals[i + 1])
    else [aux] + BetaFrom(keys, vals, i + 1, 0.0)
  }

  /** `auxVal = float(y[0])` then the loop; an empty list raises IndexError. */
  function BetaAsWritten(keys: seq<string>, vals: seq<real>): (r: Option<seq<real>>)
    requires |keys| == |vals|
    ensures r.Some? <==> |keys| > 0
    ensures r.Some? ==> |r.value| == Changes(keys, 0)
  {
    if |keys| == 0 then None else Some(BetaFrom(keys, vals, 0, vals[0]))
  }

  /** The grouping as evidently intended: the accumulator restarts at the
      first value of the new group and the last group is appended too. */
  function GroupFrom(keys: seq<string>, vals: seq<real>, i: nat, aux: real): (r: seq<real>)
    requires |keys| == |vals| && i < |keys|
    ensures |r| == Changes(keys, i) + 1
    ensures RealSum(r) == aux + RealSum(vals[i + 1..])
    decreases |keys| - i
  {
    if i + 1 >= |keys| then
      assert vals[i + 1..] == [];
      assert RealSum([aux]) == RealSum([]) + aux;
      [aux]
    else
      var rest := if keys[i] == keys[i + 1] then GroupFrom(keys, vals, i + 1, aux + vals[i + 1])
                  else GroupFrom(keys, vals, i + 1, vals[i + 1]);
      assert vals[i + 1..] == [vals[i + 1]] + vals[i + 2..];
      RealSumConcat([vals[i + 1]], vals[i + 2..]);
      assert RealSum([vals[i + 1]]) == RealSum([]) + vals[i + 1];
      if keys[i] == keys[i + 1] then rest
      else
        RealSumConcat([aux], rest);
        assert RealSum([aux]) == RealSum([]) + aux;
        [aux] + rest
  }

  /** One sum per maximal run of equal keys, all values included. */
  function GroupSums(keys: seq<string>, vals: seq<real>): (r: seq<real>)
    requires |keys| == |vals|
    ensures |keys| > 0 ==> |r| == Changes(keys, 0) + 1
    ensures RealSum(r) == RealSum(vals)
  {
    if |keys| == 0 then []
    else
      var r := GroupFrom(keys, vals, 0, vals[0]);
      assert vals == [vals[0]] + vals[1..];
      RealSumConcat([vals[0]], vals[1..]);
      assert RealSum([vals[0]]) == RealSum([]) + vals[0];
      r
  }

  // ---------------------------------------------------------------- groups as runs of rows

  /** Where the runs of equal keys after row `i` start, then the end of
      the list. */
  function Cuts(keys: seq<string>, i: nat): (r: seq<nat>)
    requires i < |keys|
    ensures |r| == Changes(keys, i) + 1 && r[|r| - 1] == |keys|
    ensures forall k :: 0 <= k < |r| ==> i < r[k] <= |keys|
    ensures forall k :: 0 <= k < |r| - 1 ==> r[k] < |keys|
    decreases |keys| - i
  {
    if i + 1 >= |keys| then [|keys|]
    else (if keys[i] != keys[i + 1] then [i + 1] else []) + Cuts(keys, i + 1)
  }

  lemma {:induction false} CutsIncreasing(keys: seq<string>, i: nat)
    requires i < |keys|
    ensures forall p, q :: 0 <= p < q < |Cuts(keys, i)| ==> Cuts(keys, i)[p] < Cuts(keys, i)[q]
    decreases |keys| - i
  {
    if i + 1 < |keys| {
      CutsIncreasing(keys, i + 1);
      var c := Cuts(keys, i);
      var t := Cuts(keys, i + 1);
      var d := if keys[i] != keys[i + 1] then 1 else 0;
      assert c == (if d == 1 then [i + 1] else []) + t;
      forall p, q | 0 <= p < q < |c|
        ensures c[p] < c[q]
      {
        assert c[q] == t[q - d] && t[q - d] > i + 1;
        if p >= d {
          assert c[p] == t[p - d];
        } else {
          assert c[p] == i + 1;
        }
      }
    }
  }

  /** The run boundaries: row 0, each row where the key changes, and the
      end of the list. */
  function Bounds(keys: seq<string>): (r: seq<nat>)
    requires |keys| > 0
    ensures |r| == Changes(keys, 0) + 2 && r[0] == 0 && r[|r| - 1] == |keys|
    ensures forall p, q :: 0 <= p < q < |r| ==> r[p] < r[q]
  {
    CutsIncreasing(keys, 0);
    var c := Cuts(keys, 0);
    var r := [0] + c;
    forall p, q | 0 <= p < q < |r|
      ensures r[p] < r[q]
    {
      assert r[q] == c[q - 1];
      if p > 0 {
        assert r[p] == c[p - 1];
      }
    }
    r
  }

  /** The key changes between rows `j` and `j + 1`. */
  predicate ChangeAt(keys: seq<string>, j: nat)
    requires j + 1 < |keys|
  {
    keys[j] != keys[j + 1]
  }

  /** `b` cuts the rows into maximal runs of equal keys: it runs from 0
      to the end in increasing order, and a row other than the first
      starts a run exactly when its key differs from the previous one. */
  predicate IsRuns(keys: seq<string>, b: seq<nat>) {
    |b| >= 2 && b[0] == 0 && b[|b| - 1] == |keys| &&
    (forall p, q :: 0 <= p < q < |b| ==> b[p] < b[q]) &&
    (forall j :: 0 <= j < |keys| - 1 ==> (ChangeAt(keys, j) <==> j + 1 in b))
  }

  /** The cuts after row `i` are the rows after `i` where the key
      changes. */
  lemma {:induction false} CutsAreChanges(keys: seq<string>, i: nat)
    requires i < |keys|
    ensures forall j :: i <= j < |keys| - 1 ==> (ChangeAt(keys, j) <==> j + 1 in Cuts(keys, i))
    decreases |keys| - i
  {
    if i + 1 < |keys| {
      CutsAreChanges(keys, i + 1);
      var c := Cuts(keys, i);
      var t := Cuts(keys, i + 1);
      assert c == (if ChangeAt(keys, i) then [i + 1] else []) + t;
      assert i + 1 !in t;
    }
  }

  /** The boundaries are the maximal runs of equal keys. */
  lemma {:induction false} BoundsAreRuns(keys: seq<string>)
    requires |keys| > 0
    ensures IsRuns(keys, Bounds(keys))
  {
    CutsAreChanges(keys, 0);
    var b := Bounds(keys);
    var c := Cuts(keys, 0);
    assert b == [0] + c;
    forall j | 0 <= j < |keys| - 1
      ensures ChangeAt(keys, j) <==> j + 1 in b
    {
      assert j + 1 in b <==> j + 1 in c;
    }
  }

  /** A sum over a slice is its first value plus the sum of the rest. */
  lemma {:induction false} SliceSumHead(vals: seq<real>, a: nat, b: nat)
    requires a < b <= |vals|
    ensures RealSum(vals[a..b]) == vals[a] + RealSum(vals[a + 1..b])
  {
    assert vals[a..b] == [vals[a]] + vals[a + 1..b];
    RealSumCons(vals[a], vals[a + 1..b]);
  }

  /** The grouping from row `i` on, by runs: the open group's
      accumulator plus the rest of its run, then one full sum per later
      run. */
  predicate GroupsByCuts(keys: seq<string>, vals: seq<real>, i: nat, aux: real)
    requires |keys| == |vals| && i < |keys|
  {
    RunSumsByCuts(GroupFrom(keys, vals, i, aux), Cuts(keys, i), vals, i, aux)
  }

  /** Sums `g` over the cuts `c`: the first adds `aux` to the values after
      `i` up to the first cut, every later one sums the values from one
      cut up to the next. */
  predicate RunSumsByCuts(g: seq<real>, c: seq<nat>, vals: seq<real>, i: nat, aux: real)
    requires |g| == |c| > 0 && i < c[0] && forall k :: 0 <= k < |c| ==> i < c[k] <= |vals|
  {
    g[0] == aux + RealSum(vals[i + 1..c[0]]) &&
    forall k :: 1 <= k < |g| && c[k - 1] <= c[k] ==> g[k] == RealSum(vals[c[k - 1]..c[k]])
  }

  lemma {:induction false} GroupFromRuns(keys: seq<string>, vals: seq<real>, i: nat, aux: real)
    requires |keys| == |vals| && i < |keys|
    ensures GroupsByCuts(keys, vals, i, aux)
    decreases |keys| - i
  {
    if i + 1 < |keys| {
      if keys[i] == keys[i + 1] {
        GroupFromRuns(keys, vals, i + 1, aux + vals[i + 1]);
        GroupSameStep(keys, vals, i, aux);
      } else {
        GroupFromRuns(keys, vals, i + 1, vals[i + 1]);
        GroupChangeStep(keys, vals, i, aux);
      }
    } else {
      GroupLastStep(keys, vals, i, aux);
    }
  }

  /** The last row closes the open group. */
  lemma {:induction false} GroupLastStep(keys: seq<string>, vals: seq<real>, i: nat, aux: real)
    requires |keys| == |vals| && i + 1 == |keys|
    ensures GroupsByCuts(keys, vals, i, aux)
  {
    assert GroupFrom(keys, vals, i, aux) == [aux];
    assert vals[i + 1..Cuts(keys, i)[0]] == [];
  }

  /** Within a run the accumulator takes the next value. */
  lemma {:induction false} GroupSameStep(keys: seq<string>, vals: seq<real>, i: nat, aux: real)
    requires |keys| == |vals| && i + 1 < |keys| && keys[i] == keys[i + 1]
    requires GroupsByCuts(keys, vals, i + 1, aux + vals[i + 1])
    ensures GroupsByCuts(keys, vals, i, aux)
  {
    var g := GroupFrom(keys, vals, i, aux);
    var c := Cuts(keys, i);
    assert g == GroupFrom(keys, vals, i + 1, aux + vals[i + 1]);
    assert c == Cuts(keys, i + 1);
    RunSumsSameStep(g, c, vals, i, aux);
  }

  /** Moving the start one value on, into the open group, keeps the sums. */
  lemma RunSumsSameStep(g: seq<real>, c: seq<nat>, vals: seq<real>, i: nat, aux: real)
    requires |g| == |c| > 0 && i + 1 < c[0] <= |vals| && forall k :: 0 <= k < |c| ==> i + 1 < c[k] <= |vals|
    requires RunSumsByCuts(g, c, vals, i + 1, aux + vals[i + 1])
    ensures RunSumsByCuts(g, c, vals, i, aux)
  {
    SliceSumHead(vals, i + 1, c[0]);
  }

  /** At a change of key the open group closes and a new one starts. */
  lemma {:induction false} GroupChangeStep(keys: seq<string>, vals: seq<real>, i: nat, aux: real)
    requires |keys| == |vals| && i + 1 < |keys| && keys[i] != keys[i + 1]
    requires GroupsByCuts(keys, vals, i + 1, vals[i + 1])
    ensures GroupsByCuts(keys, vals, i, aux)
  {
    var g := GroupFrom(keys, vals, i + 1, vals[i + 1]);
    var t := Cuts(keys, i + 1);
    assert GroupFrom(keys, vals, i, aux) == [aux] + g;
    assert Cuts(keys, i) == [i + 1] + t;
    RunSumsChangeStep(g, t, vals, i, aux);
  }

  /** A closed group in front of the groups from a cut at `i + 1`. */
  lemma RunSumsChangeStep(g: seq<real>, t: seq<nat>, vals: seq<real>, i: nat, aux: real)
    requires |g| == |t| > 0 && i + 1 < t[0] && forall k :: 0 <= k < |t| ==> i + 1 < t[k] <= |vals|
    requires RunSumsByCuts(g, t, vals, i + 1, vals[i + 1])
    ensures RunSumsByCuts([aux] + g, [i + 1] + t, vals, i, aux)
  {
    assert vals[i + 1..i + 1] == [];
    SliceSumHead(vals, i + 1, t[0]);
    RunsShift(vals, aux, g, t, i + 1);
  }

  /** Putting a closed group in front of sums by runs shifts them by one
      run. */
  lemma {:induction false} RunsShift(vals: seq<real>, aux: real, g: seq<real>, t: seq<nat>, s: nat)
    requires |g| == |t| > 0 && s <= t[0]
    requires forall k :: 0 <= k < |t| ==> t[k] <= |vals|
    requires g[0] == RealSum(vals[s..t[0]])
    requires forall k :: 1 <= k < |g| && t[k - 1] <= t[k] ==> g[k] == RealSum(vals[t[k - 1]..t[k]])
    ensures forall k :: 1 <= k < |g| + 1 && ([s] + t)[k - 1] <= ([s] + t)[k] ==>
              ([aux] + g)[k] == RealSum(vals[([s] + t)[k - 1]..([s] + t)[k]])
  {
    var r := [aux] + g;
    var c := [s] + t;
    forall k | 1 <= k < |r| && c[k - 1] <= c[k]
      ensures r[k] == RealSum(vals[c[k - 1]..c[k]])
    {
      assert r[k] == g[k - 1] && c[k] == t[k - 1];
      if k >= 2 {
        assert c[k - 1] == t[k - 2];
      }
    }
  }

  /** The loop as written from row `i` on, by runs: the open group's
      accumulator plus the rest of its run, then each later run without
      its first value. */
  predicate BetaByCuts(keys: seq<string>, vals: seq<real>, i: nat, aux: real)
    requires |keys| == |vals| && i < |keys|
  {
    SumsByCuts(BetaFrom(keys, vals, i, aux), Cuts(keys, i), vals, i, aux)
  }

  /** Sums `b` over the cuts `c`: the first adds `aux` to the values after
      `i` up to the first cut, every later one sums the values strictly
      after one cut up to the next. */
  predicate SumsByCuts(b: seq<real>, c: seq<nat>, vals: seq<real>, i: nat, aux: real)
    requires |b| < |c| && i < c[0] && forall k :: 0 <= k < |c| ==> i < c[k] <= |vals|
  {
    (|b| > 0 ==> b[0] == aux + RealSum(vals[i + 1..c[0]])) &&
    forall k :: 1 <= k < |b| && c[k - 1] < c[k] ==> b[k] == RealSum(vals[c[k - 1] + 1..c[k]])
  }

  lemma {:induction false} BetaFromRuns(keys: seq<string>, vals: seq<real>, i: nat, aux: real)
    requires |keys| == |vals| && i < |keys|
    ensures BetaByCuts(keys, vals, i, aux)
    decreases |keys| - i
  {
    if i + 1 < |keys| {
      if keys[i] == keys[i + 1] {
        BetaFromRuns(keys, vals, i + 1, aux + vals[i + 1]);
        BetaSameStep(keys, vals, i, aux);
      } else {
        BetaFromRuns(keys, vals, i + 1, 0.0);
        BetaChangeStep(keys, vals, i, aux);
      }
    } else {
      BetaLastStep(keys, vals, i, aux);
    }
  }

  /** On the last row the loop emits nothing more. */
  lemma {:induction false} BetaLastStep(keys: seq<string>, vals: seq<real>, i: nat, aux: real)
    requires |keys| == |vals| && i + 1 == |keys|
    ensures BetaByCuts(keys, vals, i, aux)
  {
    assert BetaFrom(keys, vals, i, aux) == [];
  }

  /** Within a run the accumulator takes the next value. */
  lemma {:induction false} BetaSameStep(keys: seq<string>, vals: seq<real>, i: nat, aux: real)
    requires |keys| == |vals| && i + 1 < |keys| && keys[i] == keys[i + 1]
    requires BetaByCuts(keys, vals, i + 1, aux + vals[i + 1])
    ensures BetaByCuts(keys, vals, i, aux)
  {
    var b := BetaFrom(keys, vals, i, aux);
    var c := Cuts(keys, i);
    assert b == BetaFrom(keys, vals, i + 1, aux + vals[i + 1]);
    assert c == Cuts(keys, i + 1);
    SumsSameStep(b, c, vals, i, aux);
  }

  /** Moving the start one value on, into the open sum, keeps the sums. */
  lemma SumsSameStep(b: seq<real>, c: seq<nat>, vals: seq<real>, i: nat, aux: real)
    requires |b| < |c| && i + 1 < c[0] <= |vals| && forall k :: 0 <= k < |c| ==> i + 1 < c[k] <= |vals|
    requires SumsByCuts(b, c, vals, i + 1, aux + vals[i + 1])
    ensures SumsByCuts(b, c, vals, i, aux)
  {
    SliceSumHead(vals, i + 1, c[0]);
  }

  /** At a change of key the loop emits the open sum and restarts at 0,
      skipping the new run's first value. */
  lemma {:induction false} BetaChangeStep(keys: seq<string>, vals: seq<real>, i: nat, aux: real)
    requires |keys| == |vals| && i + 1 < |keys| && keys[i] != keys[i + 1]
    requires BetaByCuts(keys, vals, i + 1, 0.0)
    ensures BetaByCuts(keys, vals, i, aux)
  {
    var g := BetaFrom(keys, vals, i + 1, 0.0);
    var t := Cuts(keys, i + 1);
    assert BetaFrom(keys, vals, i, aux) == [aux] + g;
    assert Cuts(keys, i) == [i + 1] + t;
    SumsChangeStep(g, t, vals, i, aux);
  }

  /** A closed sum in front of the sums after a cut at `i + 1`. */
  lemma SumsChangeStep(g: seq<real>, t: seq<nat>, vals: seq<real>, i: nat, aux: real)
    requires |g| + 1 == |t| && i + 1 < t[0] && forall k :: 0 <= k < |t| ==> i + 1 < t[k] <= |vals|
    requires SumsByCuts(g, t, vals, i + 1, 0.0)
    ensures SumsByCuts([aux] + g, [i + 1] + t, vals, i, aux)
  {
    assert vals[i + 1..i + 1] == [];
    BetaShift(vals, aux, g, t, i + 1);
  }

  /** Putting a closed group in front of the as-written sums shifts them
      by one run. */
  lemma {:induction false} BetaShift(vals: seq<real>, aux: real, g: seq<real>, t: seq<nat>, s: nat)
    requires |g| + 1 == |t| && s < t[0]
    requires forall k :: 0 <= k < |t| ==> t[k] <= |vals|
    requires |g| > 0 ==> g[0] == 0.0 + RealSum(vals[s + 1..t[0]])
    requires forall k :: 1 <= k < |g| && t[k - 1] < t[k] ==> g[k] == RealSum(vals[t[k - 1] + 1..t[k]])
    ensures forall k :: 1 <= k < |g| + 1 && ([s] + t)[k - 1] < ([s] + t)[k] ==>
              ([aux] + g)[k] == RealSum(vals[([s] + t)[k - 1] + 1..([s] + t)[k]])
  {
    var r := [aux] + g;
    var c := [s] + t;
    forall k | 1 <= k < |r| && c[k - 1] < c[k]
      ensures r[k] == RealSum(vals[c[k - 1] + 1..c[k]])
    {
      assert r[k] == g[k - 1] && c[k] == t[k - 1];
      if k >= 2 {
        assert c[k - 1] == t[k - 2];
      }
    }
  }

  /** Group sum k is the sum of the k-th run of equal keys. */
  lemma {:induction false} GroupSumsByRuns(keys: seq<string>, vals: seq<real>)
    requires |keys| == |vals| && |keys| > 0
    ensures |GroupSums(keys, vals)| == |Bounds(keys)| - 1
    ensures forall k :: 0 <= k < |GroupSums(keys, vals)| ==>
              GroupSums(keys, vals)[k] == RealSum(vals[Bounds(keys)[k]..Bounds(keys)[k + 1]])
  {
    var b := Bounds(keys);
    var c := Cuts(keys, 0);
    var g := GroupSums(keys, vals);
    GroupFromRuns(keys, vals, 0, vals[0]);
    assert g == GroupFrom(keys, vals, 0, vals[0]);
    assert b == [0] + c;
    SliceSumHead(vals, 0, c[0]);
    forall k | 0 <= k < |g|
      ensures g[k] == RealSum(vals[b[k]..b[k + 1]])
    {
      if k > 0 {
        assert b[k] == c[k - 1] && b[k + 1] == c[k];
      }
    }
  }

  /** The loop as written gives the first run's sum, then every later
      run's sum less the run's first value, and nothing for the last
      run. */
  lemma {:induction false} BetaAsWrittenByRuns(keys: seq<string>, vals: seq<real>)
    requires |keys| == |vals| && |keys| > 0
    ensures |BetaAsWritten(keys, vals).value| == |Bounds(keys)| - 2
    ensures |BetaAsWritten(keys, vals).value| > 0 ==>
              BetaAsWritten(keys, vals).value[0] == GroupSums(keys, vals)[0]
    ensures forall k :: 1 <= k < |BetaAsWritten(keys, vals).value| ==>
              BetaAsWritten(keys, vals).value[k] == GroupSums(keys, vals)[k] - vals[Bounds(keys)[k]]
  {
    var b := Bounds(keys);
    var c := Cuts(keys, 0);
    var beta := BetaAsWritten(keys, vals).value;
    var g := GroupSums(keys, vals);
    BetaFromRuns(keys, vals, 0, vals[0]);
    GroupSumsByRuns(keys, vals);
    assert beta == BetaFrom(keys, vals, 0, vals[0]);
    assert b == [0] + c;
    SumsVsGroups(beta, g, b, c, vals);
  }

  /** Sums by cuts from the start, compared with the full run sums over
      the bounds `b`, which are the cuts after a leading 0. */
  lemma SumsVsGroups(beta: seq<real>, g: seq<real>, b: seq<nat>, c: seq<nat>, vals: seq<real>)
    requires b == [0] + c && |beta| < |c| && 0 < c[0] && forall k :: 0 <= k < |c| ==> 0 < c[k] <= |vals|
    requires forall k :: 0 <= k < |b| - 1 ==> b[k] < |vals|
    requires forall p, q :: 0 <= p < q < |b| ==> b[p] < b[q]
    requires SumsByCuts(beta, c, vals, 0, vals[0])
    requires |g| + 1 == |b| && forall k :: 0 <= k < |g| ==> g[k] == RealSum(vals[b[k]..b[k + 1]])
    ensures |beta| > 0 ==> beta[0] == g[0]
    ensures forall k :: 1 <= k < |beta| ==> beta[k] == g[k] - vals[b[k]]
  {
    SliceSumHead(vals, 0, c[0]);
    if |beta| > 0 {
      assert g[0] == RealSum(vals[b[0]..b[1]]) && b[1] == c[0];
    }
    forall k | 1 <= k < |beta|
      ensures beta[k] == g[k] - vals[b[k]]
    {
      assert b[k] == c[k - 1] && b[k + 1] == c[k];
      SliceSumHead(vals, b[k], b[k + 1]);
    }
  }

  /** The loop as written drops the last group. */
  lemma {:induction false} BetaDropsLastGroup(keys: seq<string>, vals: seq<real>)
    requires |keys| == |vals| && |keys| > 0
    ensures |BetaAsWritten(keys, vals).value| + 1 == |GroupSums(keys, vals)|
  {
  }

  /** Two groups of two equal values: the loop as written reports only
      the first sum. */
  lemma {:induction false} BetaLosesSecondGroup()
    ensures BetaAsWritten(["1", "1", "2", "2"], [1.0, 1.0, 1.0, 1.0]) == Some([2.0])
    ensures GroupSums(["1", "1", "2", "2"], [1.0, 1.0, 1.0, 1.0]) == [2.0, 2.0]
  {
    var keys: seq<string> := ["1", "1", "2", "2"];
    var vals := [1.0, 1.0, 1.0, 1.0];
    assert keys[0] == keys[1] && keys[1] != keys[2] && keys[2] == keys[3];
    assert BetaFrom(keys, vals, 3, 1.0) == [];
    assert BetaFrom(keys, vals, 2, 0.0) == [];
    assert BetaFrom(keys, vals, 1, 2.0) == [2.0];
    assert GroupFrom(keys, vals, 3, 2.0) == [2.0];
    assert GroupFrom(keys, vals, 2, 1.0) == [2.0];
    assert GroupFrom(keys, vals, 1, 2.0) == [2.0, 2.0];
  }
}

=== FILE: save_data.dfy ===
/** The output of the two save-data scripts: the tab-separated vector
    table of rivuletPostProcSaveData.py, the case-name parsing of both
    scripts, and the update of the shared scalar file. Number formatting
    and the spline smoothing are parameters. */
module SaveData {
  import opened Wrappers
  import opened Text
  import opened Patch
  import opened RivuletVecs

  // ---------------------------------------------------------------- output table

  const VecNames: seq<string> := ["xVec", "aLaRVec", "h0Vec", "epsVec", "betaVec", "betaVecSm"]

  /** The six columns of the table: positions, widths, heights, ratios,
      contact-angle sums and their smoothed values. The positions and
      heights come from one extraction and have one length. The smoothing
      spline is the parameter `smooth`, fed with both lists cut to the
      shorter one. A zero width fails. */
  function RivuletColumns(edges: seq<real>, xs: seq<real>, h0: seq<real>, keys: seq<string>, angles: seq<real>,
                          smooth: (seq<real>, seq<real>) -> seq<real>): (r: Option<seq<seq<real>>>)
    requires |xs| == |h0| && |keys| == |angles|
    ensures r.Some? <==> EpsVec(edges, h0).Some?
    ensures r.Some? ==> |r.value| == |VecNames|
    ensures r.Some? ==> (var n := Min(|edges| / 2, |h0|);
              |r.value[0]| == n && |r.value[1]| == n && |r.value[2]| == n && |r.value[3]| == n)
    ensures r.Some? ==> forall i :: 0 <= i < |r.value[3]| ==>
              r.value[3][i] * r.value[1][i] == r.value[2][i] && r.value[0][i] == xs[i] && r.value[2][i] == h0[i]
    ensures r.Some? ==> r.value[4] == GroupSums(keys, angles)
  {
    match EpsVec(edges, h0)
    case None => None
    case Some(eps) =>
      var n := |eps|;
      var x := xs[..n];
      var beta := GroupSums(keys, angles);
      var m := Min(n, |beta|);
      Some([x, Pairs(edges)[..n], h0[..n], eps, beta, smooth(x[..m], beta[..m])])
  }

  /** The six columns as the script computes them: `nData` counts
      `ceil(n/2)` edge pairs, so an odd number of edges fails before the
      table exists, and the contact-angle loop reads its first value
      unconditionally and drops the last group. */
  function RivuletColumnsAsWritten(edges: seq<real>, xs: seq<real>, h0: seq<real>, keys: seq<string>,
                                   angles: seq<real>, smooth: (seq<real>, seq<real>) -> seq<real>)
    : (r: Option<seq<seq<real>>>)
    requires |xs| == |h0| && |keys| == |angles|
    ensures r.Some? <==> EpsAsWritten(edges, h0).Some? && |keys| > 0
    ensures r.Some? ==> |r.value| == |VecNames|
    ensures r.Some? ==> (var n := Min((|edges| + 1) / 2, |h0|);
              |r.value[0]| == n && |r.value[1]| == n && |r.value[2]| == n && |r.value[3]| == n)
    ensures r.Some? ==> forall i :: 0 <= i < |r.value[3]| ==>
              r.value[3][i] * r.value[1][i] == r.value[2][i] && r.value[0][i] == xs[i] && r.value[2][i] == h0[i]
    ensures r.Some? ==> r.value[4] == BetaAsWritten(keys, angles).value
  {
    match EpsAsWritten(edges, h0)
    case None => None
    case Some(eps) =>
      match BetaAsWritten(keys, angles)
      case None => None
      case Some(beta) =>
        var n := |eps|;
        var x := xs[..n];
        var m := Min(n, |beta|);
        Some([x, Pairs(edges)[..n], h0[..n], eps, beta, smooth(x[..m], beta[..m])])
  }

  /** Where the script gets as far as the table, the corrected table has
      the same first four columns when the number of edges is even, and
      its contact-angle column holds one more group: the last one. */
  lemma {:induction false} ColumnsAsWrittenVsCorrected(edges: seq<real>, xs: seq<real>, h0: seq<real>,
                                                       keys: seq<string>, angles: seq<real>,
                                                       smooth: (seq<real>, seq<real>) -> seq<real>)
    requires |xs| == |h0| && |keys| == |angles|
    requires RivuletColumnsAsWritten(edges, xs, h0, keys, angles, smooth).Some?
    ensures |edges| % 2 == 0 ==> (RivuletColumns(edges, xs, h0, keys, angles, smooth).Some? &&
              RivuletColumns(edges, xs, h0, keys, angles, smooth).value[..4] ==
              RivuletColumnsAsWritten(edges, xs, h0, keys, angles, smooth).value[..4])
    ensures |edges| % 2 == 1 ==> |h0| < (|edges| + 1) / 2
    ensures |RivuletColumnsAsWritten(edges, xs, h0, keys, angles, smooth).value[4]| + 1 ==
            |GroupSums(keys, angles)|
  {
    BetaDropsLastGroup(keys, angles);
    if |edges| % 2 == 1 && |h0| >= (|edges| + 1) / 2 {
      OddEdgesFail(edges, h0);
    }
    if |edges| % 2 == 0 {
      EpsAgreeOnEven(edges, h0);
    }
  }

  /** Length of the shortest column: the number of rows `zip` builds. */
  function MinLen(cols: seq<seq<real>>): (r: nat)
    ensures forall c :: 0 <= c < |cols| ==> r <= |cols[c]|
    decreases |cols|
  {
    if |cols| == 0 then 0
    else if |cols| == 1 then |cols[0]|
    else
      var m := MinLen(cols[1..]);
      assert forall c :: 1 <= c < |cols| ==> cols[c] == cols[1..][c - 1];
      if |cols[0]| < m then |cols[0]| else m
  }

  /** `MinLen` is the length of one of the columns (and 0 without columns):
      together with its contract, the rows of the table are exactly the
      indices every column has. */
  lemma {:induction false} MinLenAttained(cols: seq<seq<real>>)
    ensures |cols| == 0 ==> MinLen(cols) == 0
    ensures |cols| > 0 ==> exists c :: 0 <= c < |cols| && MinLen(cols) == |cols[c]|
    decreases |cols|
  {
    if |cols| == 1 {
      assert MinLen(cols) == |cols[0]|;
    } else if |cols| > 1 {
      var m := MinLen(cols[1..]);
      if |cols[0]| < m {
        assert MinLen(cols) == |cols[0]|;
      } else {
        MinLenAttained(cols[1..]);
        var c1 :| 0 <= c1 < |cols| - 1 && m == |cols[1..][c1]|;
        assert cols[1..][c1] == cols[c1 + 1];
        assert MinLen(cols) == |cols[c1 + 1]|;
      }
    }
  }

  /** A written row without its newline: every cell followed by a tab. */
  function TabCells(cells: seq<string>): string
    decreases |cells|
  {
    if |cells| == 0 then "" else cells[0] + "\t" + TabCells(cells[1..])
  }

  /** `for el in row: file.write(el+'\t')` and then `'\n'`. */
  function RowLine(cells: seq<string>): string {
    TabCells(cells) + "\n"
  }

  /** Reading a row back by splitting on tabs gives the cells and an empty
      last field, as long as no cell holds a tab. */
  lemma {:induction false} RowReadBack(cells: seq<string>)
    requires forall c :: 0 <= c < |cells| ==> !Contains(cells[c], "\t")
    ensures DropLast(RowLine(cells)) == TabCells(cells)
    ensures Split(TabCells(cells), "\t") == cells + [""]
  {
    assert (TabCells(cells) + "\n")[..|TabCells(cells)|] == TabCells(cells);
    TabCellsSplit(cells);
  }

  lemma {:induction false} TabCellsSplit(cells: seq<string>)
    requires forall c :: 0 <= c < |cells| ==> !Contains(cells[c], "\t")
    ensures Split(TabCells(cells), "\t") == cells + [""]
    decreases |cells|
  {
    if |cells| == 0 {
      assert Split("", "\t") == [""];
    } else {
      var rest := cells[1..];
      assert forall c :: 0 <= c < |rest| ==> !Contains(rest[c], "\t") by {
        forall c | 0 <= c < |rest|
          ensures !Contains(rest[c], "\t")
        {
          assert rest[c] == cells[c + 1];
        }
      }
      TabCellsSplit(rest);
      var t := TabCells(rest);
      assert TabCells(cells) == cells[0] + ['\t'] + t;
      SplitAfterCell(cells[0], t, rest);
      assert cells == [cells[0]] + rest;
    }
  }

  lemma {:induction false} SplitAfterCell(c: string, t: string, rest: seq<string>)
    requires !Contains(c, "\t")
    requires Split(t, "\t") == rest + [""]
    ensures Split(c + ['\t'] + t, "\t") == [c] + rest + [""]
  {
    assert "\t" == ['\t'];
    SplitConcat(c, '\t', t);
    SplitWhole(c, "\t");
  }

  /** One table row: cell `c` of row `i` is column `c`'s value `i`. */
  function TableRow(cols: seq<seq<real>>, i: nat, fmt: real -> string): (r: seq<string>)
    requires i < MinLen(cols)
    ensures |r| == |cols| && forall c :: 0 <= c < |cols| ==> r[c] == fmt(cols[c][i])
  {
    seq(|cols|, c requires 0 <= c < |cols| => fmt(cols[c][i]))
  }

  /** The `postProcVecs_` file: the header row and one row per index below
      the shortest column, each value formatted by `fmt` (`%5.5e`). */
  function VecsTable(cols: seq<seq<real>>, fmt: real -> string): (r: Lines)
    ensures |r| == 1 + MinLen(cols)
    ensures r[0] == RowLine(VecNames)
    ensures forall i :: 0 <= i < MinLen(cols) ==> r[i + 1] == RowLine(TableRow(cols, i, fmt))
  {
    [RowLine(VecNames)] + seq(MinLen(cols), i requires 0 <= i < MinLen(cols) => RowLine(TableRow(cols, i, fmt)))
  }

  /** Every cell of the table reads back as the formatted value of its
      column, as long as the format never writes a tab. */
  lemma {:induction false} TableReadBack(cols: seq<seq<real>>, fmt: real -> string, i: nat, c: nat)
    requires forall x :: '\t' !in fmt(x)
    requires i < MinLen(cols) && c < |cols|
    ensures var fields := Split(DropLast(VecsTable(cols, fmt)[i + 1]), "\t");
            |fields| == |cols| + 1 && fields[c] == fmt(cols[c][i])
  {
    var cells := TableRow(cols, i, fmt);
    assert forall c :: 0 <= c < |cells| ==> !Contains(cells[c], "\t") by {
      forall c | 0 <= c < |cells|
        ensures !Contains(cells[c], "\t")
      {
        var x := cols[c][i];
        assert cells[c] == fmt(x);
        ContainsCharIff(fmt(x), '\t');
      }
    }
    RowReadBack(cells);
  }

  // ---------------------------------------------------------------- case name and scalar file

  const FoamExt: string := ".OpenFOAM"

  /** `s.split(pat)[0]`: the text before the first occurrence. */
  function Before(s: string, pat: string): (r: string)
    requires pat != ""
    ensures r == Split(s, pat)[0]
    ensures Find(s, pat) < 0 ==> r == s
    ensures Find(s, pat) >= 0 ==> r == s[..Find(s, pat)]
  {
    if Find(s, pat) < 0 then s else s[..Find(s, pat)]
  }

  /** `mainCase[0][2::].split('.OpenFOAM')[0]`: the glob match without its
      leading `./` and its extension. */
  function CaseName(mainCase: string): string {
    Before(From(mainCase, 2), FoamExt)
  }

  lemma {:induction false} CaseNameRoundTrip(name: string)
    requires Find(name + FoamExt, FoamExt) == |name|
    ensures CaseName("./" + name + FoamExt) == name
  {
    var m := "./" + name + FoamExt;
    assert From(m, 2) == name + FoamExt;
  }

  /** The scalar-file key `liq\tincl\tflow`. */
  function IdStr(liq: string, incl: string, flow: string): string {
    liq + "\t" + incl + "\t" + flow
  }

  datatype CaseId = CaseId(solver: string, idStr: string)

  /** `solver,volFlow,plateIncl,liqName = caseName.split('_')` of the
      rivulet script: exactly four fields or the unpacking raises; the flow
      rate is reformatted by `sci` (`'%5.4e'%float(..)`), which fails on
      text that is not a number. */
  function RivuletId(name: string, sci: string -> Option<string>): (r: Option<CaseId>)
    ensures r.Some? ==> |Split(name, "_")| == 4
    ensures r.Some? ==> (var f := Split(name, "_");
              sci(f[1]).Some? && r.value == CaseId(f[0], IdStr(f[3], f[2], sci(f[1]).value)))
    ensures |Split(name, "_")| == 4 && sci(Split(name, "_")[1]).Some? ==> r.Some?
  {
    var f := Split(name, "_");
    if |f| != 4 then None
    else match sci(f[1])
      case None => None
      case Some(v) => Some(CaseId(f[0], IdStr(f[3], f[2], v)))
  }

  /** `caseIdentification[0:4]` of the textured-plate script: the first
      four fields, more being allowed; the Reynolds field loses its first
      two characters (`Re`) before it is reformatted. */
  function TexturedId(name: string, sci: string -> Option<string>): (r: Option<CaseId>)
    ensures r.Some? ==> |Split(name, "_")| >= 4
    ensures r.Some? ==> (var f := Split(name, "_");
              sci(From(f[1], 2)).Some? && r.value == CaseId(f[0], IdStr(f[3], f[2], sci(From(f[1], 2)).value)))
    ensures |Split(name, "_")| >= 4 && sci(From(Split(name, "_")[1], 2)).Some? ==> r.Some?
  {
    var f := Split(name, "_");
    if |f| < 4 then None
    else match sci(From(f[1], 2))
      case None => None
      case Some(v) => Some(CaseId(f[0], IdStr(f[3], f[2], v)))
  }

  predicate NoUnderscore(s: string) {
    !Contains(s, "_")
  }

  lemma {:induction false} SplitSingle(s: string)
    requires NoUnderscore(s)
    ensures Split(s, "_") == [s]
  {
  }

  /** The rivulet script reads back the fields it was given. */
  lemma {:induction false} RivuletIdRoundTrip(solver: string, flow: string, incl: string, liq: string, sci: string -> Option<string>)
    requires NoUnderscore(solver) && NoUnderscore(flow) && NoUnderscore(incl) && NoUnderscore(liq)
    requires sci(flow).Some?
    ensures RivuletId(solver + "_" + flow + "_" + incl + "_" + liq, sci) ==
            Some(CaseId(solver, IdStr(liq, incl, sci(flow).value)))
  {
    FourFields(solver, flow, incl, liq);
  }

  /** A fifth field is ignored by the textured-plate script but makes the
      rivulet script's unpacking fail. */
  lemma {:induction false} ExtraFieldOnlyTextured(solver: string, re: string, incl: string, liq: string, extra: string,
                               sci: string -> Option<string>)
    requires NoUnderscore(solver) && NoUnderscore(re) && NoUnderscore(incl) && NoUnderscore(liq)
    requires sci(From(re, 2)).Some?
    ensures TexturedId(solver + "_" + re + "_" + incl + "_" + liq + "_" + extra, sci) ==
            Some(CaseId(solver, IdStr(liq, incl, sci(From(re, 2)).value)))
    ensures RivuletId(solver + "_" + re + "_" + incl + "_" + liq + "_" + extra, sci).None?
  {
    var head := solver + "_" + re + "_" + incl + "_" + liq;
    FourFields(solver, re, incl, liq);
    assert "_" == ['_'];
    SplitConcat(head, '_', extra);
    var f := Split(head + "_" + extra, "_");
    assert f == [solver, re, incl, liq] + Split(extra, "_");
    assert f[0] == solver && f[1] == re && f[2] == incl && f[3] == liq;
  }

  /** The scalar-file update both scripts share: every line holding the
      key keeps the text before it and becomes key, tab, value, newline;
      other lines are unchanged. */
  function UpdateScalars(data: Lines, idStr: string, value: string): (r: Lines)
    ensures |r| == |data|
    ensures forall i :: 0 <= i < |data| && !Contains(data[i], idStr) ==> r[i] == data[i]
    ensures forall i :: 0 <= i < |data| && Contains(data[i], idStr) ==>
              r[i] == data[i][..Find(data[i], idStr)] + idStr + ("\t" + value + "\n")
  {
    seq(|data|, i requires 0 <= i < |data| => PatchLine(data[i], idStr, "\t" + value + "\n"))
  }

  /** Writing a second value for the same case replaces the first: the
      result is as if only the second had been written. */
  lemma {:induction false} UpdateOverwrites(data: Lines, idStr: string, v1: string, v2: string)
    ensures UpdateScalars(UpdateScalars(data, idStr, v1), idStr, v2) == UpdateScalars(data, idStr, v2)
  {
    var once := UpdateScalars(data, idStr, v1);
    var twice := UpdateScalars(once, idStr, v2);
    var direct := UpdateScalars(data, idStr, v2);
    forall i | 0 <= i < |data|
      ensures twice[i] == direct[i]
    {
      if Contains(data[i], idStr) {
        var f := Find(data[i], idStr);
        FirstOccurrenceKept(data[i], idStr, "\t" + v1 + "\n", f);
        assert once[i] == data[i][..f] + idStr + ("\t" + v1 + "\n");
        assert once[i][..f] == data[i][..f];
      }
    }
  }
}

=== FILE: sums.dfy ===
/** Sums of real-valued lists, accumulated from the front as Python's
    loops and `sum` do. */
module Sums {

  function RealSum(s: seq<real>): real
    decreases |s|
  {
    if |s| == 0 then 0.0 else RealSum(s[..|s| - 1]) + s[|s| - 1]
  }

  /** The sum of a concatenation is the sum of the parts. */
  lemma {:induction false} RealSumConcat(a: seq<real>, b: seq<real>)
    ensures RealSum(a + b) == RealSum(a) + RealSum(b)
    decreases |b|
  {
    if |b| == 0 {
      assert a + b == a;
    } else {
      assert (a + b)[..|a + b| - 1] == a + b[..|b| - 1];
      RealSumConcat(a, b[..|b| - 1]);
    }
  }

  /** Adding a value in front adds it to the sum. */
  lemma {:induction false} RealSumCons(x: real, s: seq<real>)
    ensures RealSum([x] + s) == x + RealSum(s)
  {
    RealSumConcat([x], s);
    assert [x][..0] == [];
  }
}

=== FILE: text.dfy ===
/** The few Python string primitives the scripts are built from, over
    `string` (= seq<char>): `str.find`, `in`, `startswith`-by-`find(..)==0`,
    `str.split` with a literal separator, and the slices `s[:-1]`, `s[a:b]`. */
module Text {
  import opened Wrappers

  /** `pat` occurs in `s` starting at index `k`. */
  predicate OccursAt(s: string, pat: string, k: int) {
    0 <= k && k + |pat| <= |s| && s[k..k + |pat|] == pat
  }

  /** Python's `s.find(pat, k)` restricted to starting positions >= k. */
  function FindFrom(s: string, pat: string, k: nat): (r: int)
    ensures r == -1 || (k <= r && OccursAt(s, pat, r))
    ensures r == -1 ==> forall j :: k <= j ==> !OccursAt(s, pat, j)
    ensures r >= 0 ==> forall j :: k <= j < r ==> !OccursAt(s, pat, j)
    decreases |s| - k
  {
    if k + |pat| > |s| then -1
    else if s[k..k + |pat|] == pat then k
    else FindFrom(s, pat, k + 1)
  }

  /** Python's `s.find(pat)`: index of the leftmost occurrence, or -1. */
  function Find(s: string, pat: string): (r: int)
    ensures -1 <= r <= |s| - |pat| || r == -1
    ensures r >= 0 ==> OccursAt(s, pat, r)
    ensures r >= 0 ==> forall j :: 0 <= j < r ==> !OccursAt(s, pat, j)
    ensures r == -1 <==> forall j :: !OccursAt(s, pat, j)
  {
    FindFrom(s, pat, 0)
  }

  /** Python's `pat in s`, i.e. `s.find(pat) > -1`. */
  predicate Contains(s: string, pat: string) {
    Find(s, pat) >= 0
  }

  predicate StartsWith(s: string, pat: string) {
    |pat| <= |s| && s[..|pat|] == pat
  }

  /** The scripts test "marker at column 0" as `s.find(pat) == 0`. */
  lemma {:induction false} FindZeroIffStartsWith(s: string, pat: string)
    ensures Find(s, pat) == 0 <==> StartsWith(s, pat)
  {
    if StartsWith(s, pat) {
      assert OccursAt(s, pat, 0);
    }
  }

  /** An occurrence inside a prefix is an occurrence in the whole string. */
  lemma {:induction false} OccursInPrefix(s: string, pat: string, n: nat, k: int)
    requires n <= |s|
    ensures OccursAt(s[..n], pat, k) ==> OccursAt(s, pat, k)
  {
    if OccursAt(s[..n], pat, k) {
      assert s[..n][k..k + |pat|] == s[k..k + |pat|];
    }
  }

  /** For a one-character pattern, `find` succeeds exactly when the
      character is an element of the string. */
  lemma {:induction false} ContainsCharIff(s: string, c: char)
    ensures Contains(s, [c]) <==> c in s
  {
    if c in s {
      var k :| 0 <= k < |s| && s[k] == c;
      assert s[k..k + 1] == [c];
      assert OccursAt(s, [c], k);
    }
    if Contains(s, [c]) {
      var f := Find(s, [c]);
      assert s[f..f + 1] == [c];
      assert s[f] == s[f..f + 1][0];
    }
  }

  /** `sep.join(parts)` */
  function Join(parts: seq<string>, sep: string): string
  {
    if |parts| == 0 then ""
    else if |parts| == 1 then parts[0]
    else parts[0] + sep + Join(parts[1..], sep)
  }

  /** Python's `s.split(sep)` for a non-empty literal separator: the pieces
      between successive leftmost non-overlapping occurrences of `sep`. */
  function Split(s: string, sep: string): (r: seq<string>)
    requires sep != ""
    ensures |r| >= 1
    ensures Join(r, sep) == s
    ensures forall k :: 0 <= k < |r| ==> !Contains(r[k], sep)
    decreases |s|
  {
    var f := Find(s, sep);
    if f < 0 then [s]
    else
      var head := s[..f];
      var rest := Split(s[f + |sep|..], sep);
      assert !Contains(head, sep) by {
        forall j ensures !OccursAt(head, sep, j) {
          OccursInPrefix(s, sep, f, j);
        }
      }
      assert s == head + sep + s[f + |sep|..] by {
        assert s[f..f + |sep|] == sep;
        assert s == s[..f] + s[f..f + |sep|] + s[f + |sep|..];
      }
      assert ([head] + rest)[1..] == rest;
      [head] + rest
  }

  /** The last field of `s.split(sep)`, Python's `s.split(sep)[-1]`. */
  function LastField(s: string, sep: string): (r: string)
    requires sep != ""
    ensures !Contains(r, sep)
  {
    var parts := Split(s, sep);
    parts[|parts| - 1]
  }

  /** An occurrence found in `a` stays the first occurrence after appending. */
  lemma {:induction false} FindInPrefix(a: string, t: string, pat: string)
    requires Find(a, pat) >= 0
    ensures Find(a + t, pat) == Find(a, pat)
  {
    var f := Find(a, pat);
    var s := a + t;
    assert s[f..f + |pat|] == a[f..f + |pat|];
    assert OccursAt(s, pat, f);
    forall j | 0 <= j < f
      ensures !OccursAt(s, pat, j)
    {
      assert s[j..j + |pat|] == a[j..j + |pat|];
      assert !OccursAt(a, pat, j);
    }
  }

  /** A one-character separator absent from `a` is first found right after `a`. */
  lemma {:induction false} FindAfterPrefix(a: string, c: char, b: string)
    requires !Contains(a, [c])
    ensures Find(a + [c] + b, [c]) == |a|
  {
    var s := a + [c] + b;
    assert s[|a|..|a| + 1] == [c];
    assert OccursAt(s, [c], |a|);
    forall j | 0 <= j < |a|
      ensures !OccursAt(s, [c], j)
    {
      assert s[j..j + 1] == a[j..j + 1];
      assert !OccursAt(a, [c], j);
    }
  }

  /** Splitting on a one-character separator distributes over an occurrence
      of that separator. */
  lemma {:induction false} SplitConcat(a: string, c: char, b: string)
    ensures Split(a + [c] + b, [c]) == Split(a, [c]) + Split(b, [c])
    decreases |a|
  {
    var s := a + [c] + b;
    if Find(a, [c]) < 0 {
      FindAfterPrefix(a, c, b);
      assert s[|a| + 1..] == b;
    } else {
      var f := Find(a, [c]);
      FindInPrefix(a, [c] + b, [c]);
      assert a + [c] + b == a + ([c] + b);
      assert s[..f] == a[..f];
      assert s[f + 1..] == a[f + 1..] + [c] + b;
      SplitConcat(a[f + 1..], c, b);
    }
  }

  /** Where the first occurrence of `sep` in `a + sep` is the one after
      `a`, splitting `a + sep + b` yields `a` and then the pieces of `b`. */
  lemma {:induction false} SplitAt(a: string, sep: string, b: string)
    requires sep != "" && Find(a + sep, sep) == |a|
    ensures Split(a + sep + b, sep) == [a] + Split(b, sep)
  {
    var s := a + sep + b;
    FindInPrefix(a + sep, b, sep);
    assert s[..|a|] == a;
    assert s[|a| + |sep|..] == b;
  }

  /** A one-character separator absent from `a` ends the first field. */
  lemma {:induction false} SplitFirstField(a: string, c: char, b: string)
    requires !Contains(a, [c])
    ensures Split(a + [c] + b, [c]) == [a] + Split(b, [c])
  {
    FindAfterPrefix(a, c, "");
    assert a + [c] + "" == a + [c];
    SplitAt(a, [c], b);
  }

  /** Python's `s.split(sep)[-2]`; `None` where the list has one element and
      the index raises. */
  function SecondLastField(s: string, sep: string): (r: Option<string>)
    requires sep != ""
    ensures r.Some? <==> Contains(s, sep)
    ensures r.Some? ==> !Contains(r.value, sep)
  {
    var parts := Split(s, sep);
    if |parts| >= 2 then Some(parts[|parts| - 2])
    else
      assert parts == [s] by {
        assert Join(parts, sep) == parts[0];
      }
      None
  }

  /** Python's `s[:-1]` (and `s[0:-1]`): drops the final character, the
      trailing newline of a line read from a file. */
  function DropLast(s: string): (r: string)
    ensures |s| > 0 ==> r + [s[|s| - 1]] == s
    ensures |s| == 0 ==> r == s
  {
    if |s| == 0 then s else s[..|s| - 1]
  }

  /** Python's slice `s[a:b]` for non-negative bounds: both bounds are
      clamped to the length and an inverted range gives the empty string. */
  function Slice(s: string, a: nat, b: nat): (r: string)
    ensures |r| <= |s|
    ensures a <= b <= |s| ==> r == s[a..b]
    ensures b <= a || |s| <= a ==> r == ""
  {
    var lo := if a <= |s| then a else |s|;
    var hi := if b <= |s| then b else |s|;
    if lo <= hi then s[lo..hi] else ""
  }

  predicate IsDigit(c: char) {
    '0' <= c <= '9'
  }

  /** Python's `re.findall('\d+', s)[0]`: the first maximal run of digits,
      or `None` where the list would be empty and indexing it raises. */
  function FirstDigitRun(s: string): (r: Option<string>)
    ensures r.Some? ==> |r.value| > 0 && forall k :: 0 <= k < |r.value| ==> IsDigit(r.value[k])
    ensures r.None? <==> forall k :: 0 <= k < |s| ==> !IsDigit(s[k])
  {
    if |s| == 0 then None
    else if IsDigit(s[0]) then Some(DigitPrefix(s))
    else
      var t := FirstDigitRun(s[1..]);
      assert forall k :: 1 <= k < |s| ==> s[k] == s[1..][k - 1];
      t
  }

  /** The maximal run of digits at the front of `s`. */
  function DigitPrefix(s: string): (r: string)
    ensures |r| <= |s| && r == s[..|r|]
    ensures forall k :: 0 <= k < |r| ==> IsDigit(r[k])
    ensures |r| < |s| ==> !IsDigit(s[|r|])
  {
    if |s| == 0 || !IsDigit(s[0]) then ""
    else [s[0]] + DigitPrefix(s[1..])
  }

  /** Python's `int(digits)` for a string of decimal digits. */
  function DecimalValue(digits: string): (r: nat)
    requires forall k :: 0 <= k < |digits| ==> IsDigit(digits[k])
    decreases |digits|
  {
    if |digits| == 0 then 0
    else
      var init := digits[..|digits| - 1];
      assert IsDigit(digits[|digits| - 1]);
      DecimalValue(init) * 10 + ((digits[|digits| - 1] as int) - ('0' as int))
  }

  /** Python's `repr` of a non-negative int: its decimal digits, with no
      leading zero. */
  function IntRepr(n: nat): (r: string)
    ensures |r| > 0 && forall k :: 0 <= k < |r| ==> IsDigit(r[k])
    ensures DecimalValue(r) == n
    ensures |r| > 1 ==> r[0] != '0'
    decreases n
  {
    var d := [(('0' as int) + n % 10) as char];
    if n < 10 then d
    else
      var s := IntRepr(n / 10);
      assert (s + d)[..|s + d| - 1] == s;
      s + d
  }

  /** The characters Python's `str.strip()` and `int()` treat as
      whitespace. */
  predicate IsSpace(c: char) {
    c == ' ' || c == '\t' || c == '\n' || c == '\r' || c as int == 11 || c as int == 12
  }

  /** `s.lstrip()` */
  function TrimLeft(s: string): (r: string)
    ensures |r| <= |s| && r == s[|s| - |r|..]
    ensures forall k :: 0 <= k < |s| - |r| ==> IsSpace(s[k])
    ensures |r| > 0 ==> !IsSpace(r[0])
    decreases |s|
  {
    if |s| > 0 && IsSpace(s[0]) then TrimLeft(s[1..]) else s
  }

  /** `s.rstrip()` */
  function TrimRight(s: string): (r: string)
    ensures |r| <= |s| && r == s[..|r|]
    ensures forall k :: |r| <= k < |s| ==> IsSpace(s[k])
    ensures |r| > 0 ==> !IsSpace(r[|r| - 1])
    decreases |s|
  {
    if |s| > 0 && IsSpace(s[|s| - 1]) then TrimRight(s[..|s| - 1]) else s
  }

  /** `s.strip()` */
  function Trim(s: string): (r: string)
    ensures |r| == 0 || (!IsSpace(r[0]) && !IsSpace(r[|r| - 1]))
    ensures (|s| == 0 || (!IsSpace(s[0]) && !IsSpace(s[|s| - 1]))) ==> r == s
  {
    TrimRight(TrimLeft(s))
  }

  /** A pattern absent from a string is absent from each of its prefixes. */
  lemma {:induction false} NotInPrefix(s: string, pat: string, n: nat)
    requires n <= |s| && !Contains(s, pat)
    ensures !Contains(s[..n], pat)
  {
    forall j ensures !OccursAt(s[..n], pat, j) {
      OccursInPrefix(s, pat, n, j);
    }
  }

  /** A string without the separator splits into itself alone. */
  lemma {:induction false} SplitWhole(s: string, sep: string)
    requires sep != "" && !Contains(s, sep)
    ensures Split(s, sep) == [s]
  {
  }

  /** One more underscore-free field adds one more piece. */
  lemma {:induction false} SplitSnoc(x: string, c: string)
    requires !Contains(c, "_")
    ensures Split(x + "_" + c, "_") == Split(x, "_") + [c]
  {
    assert "_" == ['_'];
    SplitConcat(x, '_', c);
    SplitWhole(c, "_");
  }

  /** A name built from four underscore-free fields splits back into them. */
  lemma {:induction false} FourFields(a: string, b: string, c: string, d: string)
    requires !Contains(a, "_") && !Contains(b, "_") && !Contains(c, "_") && !Contains(d, "_")
    ensures Split(a + "_" + b + "_" + c + "_" + d, "_") == [a, b, c, d]
  {
    var ab := a + "_" + b;
    var abc := ab + "_" + c;
    SplitWhole(a, "_");
    SplitSnoc(a, b);
    assert Split(ab, "_") == [a, b];
    SplitSnoc(ab, c);
    assert Split(abc, "_") == [a, b, c];
    SplitSnoc(abc, d);
    assert [a, b, c] + [d] == [a, b, c, d];
  }
}

=== FILE: textured_post.dfy ===
/** The wetted-area ratio and the aW/aT table of the textured-plate
    postProcSaveData.py. The visualisation pipeline that integrates the
    wetted area and the number formatting are parameters. */
module TexturedPost {
  import opened Wrappers
  import opened Patch

  // ---------------------------------------------------------------- textured plate: wetted area

  /** `GetBounds()`: (xMin, xMax, yMin, yMax, zMin, zMax). */
  datatype Bounds = Bounds(xMin: real, xMax: real, yMin: real, yMax: real, zMin: real, zMax: real)

  /** The total wettable area of the rectangular, non-textured plate. */
  function TotalArea(b: Bounds): (r: real)
    ensures b.xMin <= b.xMax && b.yMin <= b.yMax ==> r >= 0.0
  {
    (b.xMax - b.xMin) * (b.yMax - b.yMin)
  }

  /** `aW/aT`; a plate of zero extent raises ZeroDivisionError. */
  function AreaRatio(aW: real, b: Bounds): (r: Option<real>)
    ensures r.None? <==> TotalArea(b) == 0.0
    ensures r.Some? ==> r.value * TotalArea(b) == aW
  {
    if TotalArea(b) == 0.0 then None else Some(aW / TotalArea(b))
  }

  /** A wetted area between nothing and the whole plate gives a ratio
      between 0 and 1. */
  lemma {:induction false} RatioWithinOne(aW: real, b: Bounds)
    requires TotalArea(b) > 0.0 && 0.0 <= aW <= TotalArea(b)
    ensures 0.0 <= AreaRatio(aW, b).value <= 1.0
  {
    var t := TotalArea(b);
    var q := AreaRatio(aW, b).value;
    assert q == aW / t;
    assert aW / t <= t / t;
    assert t / t == 1.0;
  }

  /** One animation frame: its time and the wetted area integrated there. */
  datatype Frame = Frame(time: real, aW: real)

  const AWaTHeader: string := "time\taWaT\n"

  /** Number of frames the `while cTime < eTime` loop visits: those up to
      the first at or past the end time. */
  function Visited(frames: seq<Frame>, eTime: real): (r: nat)
    ensures r <= |frames|
    ensures forall k :: 0 <= k < r ==> frames[k].time < eTime
    ensures r < |frames| ==> frames[r].time >= eTime
    decreases |frames|
  {
    if |frames| == 0 || frames[0].time >= eTime then 0
    else
      var n := Visited(frames[1..], eTime);
      assert forall k :: 1 <= k < n + 1 ==> frames[k] == frames[1..][k - 1];
      n + 1
  }

  /** `"%5.4f"%cTime + "\t" + "%5.5f\n"%(aW/aT)`. */
  function FrameRow(f: Frame, aT: real, fmt4: real -> string, fmt5: real -> string): string
    requires aT != 0.0
  {
    fmt4(f.time) + "\t" + fmt5(f.aW / aT) + "\n"
  }

  /** The aW/aT list: the header, then one row per frame while the
      animation time is below the end time. The ratio was already taken
      once before the loop, so the plate area is not zero here. */
  method AWaTTable(frames: seq<Frame>, eTime: real, aT: real, fmt4: real -> string, fmt5: real -> string)
    returns (r: Lines)
    requires aT != 0.0
    ensures |r| == 1 + Visited(frames, eTime) && r[0] == AWaTHeader
    ensures forall k :: 0 <= k < Visited(frames, eTime) ==> r[k + 1] == FrameRow(frames[k], aT, fmt4, fmt5)
  {
    r := [AWaTHeader];
    var k := 0;
    while k < |frames| && frames[k].time < eTime
      invariant 0 <= k <= Visited(frames, eTime)
      invariant |r| == k + 1 && r[0] == AWaTHeader
      invariant forall j :: 0 <= j < k ==> r[j + 1] == FrameRow(frames[j], aT, fmt4, fmt5)
    {
      r := r + [FrameRow(frames[k], aT, fmt4, fmt5)];
      k := k + 1;
    }
  }

  /** Frames strictly ordered in time. */
  predicate Increasing(frames: seq<Frame>) {
    forall j, k :: 0 <= j < k < |frames| ==> frames[j].time < frames[k].time
  }

  /** Frames strictly before the end time. */
  function CountBelow(frames: seq<Frame>, eTime: real): (r: nat)
    decreases |frames|
  {
    if |frames| == 0 then 0
    else (if frames[0].time < eTime then 1 else 0) + CountBelow(frames[1..], eTime)
  }

  /** With the frame times increasing, the table gets exactly one row per
      frame before the end time. */
  lemma {:induction false} OneRowPerFrameBelowEnd(frames: seq<Frame>, eTime: real)
    requires Increasing(frames)
    ensures Visited(frames, eTime) == CountBelow(frames, eTime)
    decreases |frames|
  {
    if |frames| > 0 {
      assert Increasing(frames[1..]) by {
        assert forall k :: 1 <= k < |frames| ==> frames[1..][k - 1] == frames[k];
      }
      OneRowPerFrameBelowEnd(frames[1..], eTime);
      if frames[0].time >= eTime {
        NoneBelow(frames[1..], eTime, frames[0].time);
      }
    }
  }

  lemma {:induction false} NoneBelow(frames: seq<Frame>, eTime: real, t: real)
    requires t >= eTime && forall k :: 0 <= k < |frames| ==> frames[k].time > t
    ensures CountBelow(frames, eTime) == 0
    decreases |frames|
  {
    if |frames| > 0 {
      NoneBelow(frames[1..], eTime, t);
    }
  }
}

=== FILE: wrappers.dfy ===
/** Failure-compatible wrappers used for the scripts' exception paths
    (an IndexError, a ValueError from unpacking, a NameError on an unbound
    variable): a run that would raise is modelled as `None` or `Failure`. */
module Wrappers {

  datatype Option<+T> = None | Some(value: T) {

    predicate IsFailure() {
      None?
    }

    function PropagateFailure<U>(): Option<U>
      requires None?
    {
      None
    }

    function Extract(): T
      requires Some?
    {
      value
    }
  }

  datatype Result<+T, +E> = Success(value: T) | Failure(error: E) {

    predicate IsFailure() {
      Failure?
    }

    function PropagateFailure<U>(): Result<U, E>
      requires Failure?
    {
      Failure(error)
    }

    function Extract(): T
      requires Success?
    {
      value
    }
  }
}
